=== FILE: README.md ===
# ThingTools satisfier engine and game logic, in Dafny

ThingTools is a Unity toolkit for RPG-like games. Its core is a
*satisfier* engine: a dictionary of **bundles**, one per watched object.
Each bundle counts how often its object was satisfied and unsatisfied,
and holds two optional callbacks that fire on each of those events.

Around that engine sit:

- the **context satisfiers** `OSatisfier` and `TSatisfier`, which create
  their satisfier lazily and let a subclass decide when a change
  satisfies a watched object;
- the **containers** `ObjectContainer` and `ThingsContainer`, with a
  cached dictionary;
- the **requirements**: reference, stack, value, price and progress;
- the **game models**: a money wallet (`Numismatic`), `Inventory`,
  `Equipment`, `Statistics` with `ShireBlock` values, `Progress`, the
  currency and level (`Step`) assets, `Character` and `Behaviour`;
- the **serializer registry**, which maps identifiers to things;
- the **lister** of ordered assets;
- two text helpers of the editor tool that read a numbered suffix off a
  name.

## How the model is organised

Each source file is one Dafny module:

- A class whose fields are updated in place is a Dafny `class` with the
  same fields. Its methods state the new state in `ensures`, with
  `modifies` clauses.
- Pure helpers are functions.
- Loops are `while`/`for` loops with invariants.
- Where a class holds a dictionary of bundle objects, a ghost *view*
  function maps it to a value. That value is a `map` from watched object
  to `BundleState`. The methods are proved against the functions
  `WatchView`, `UnwatchView` and `SatisfyStep`, and lemmas state the
  properties of those functions.
- The source's `UnityEvent` callbacks are references of an empty class
  `Event`. Ghost counters record how often each one fires.
- `null` is Dafny's `null` for references and `None` for values.
- C# exceptions are returned as an `Exception` value. Examples are
  `Dictionary.Add` on an existing key, a null dereference, and an index
  outside a list.

Inheritance becomes composition: a subclass holds its base part as a
`const` object. Virtual methods that a subclass overrides are modelled
in the subclass.

Dictionary enumeration order, float arithmetic, Unity's lifecycle and
editor GUI code are outside the model (see "Left out").

## Model

| member | source | states |
|---|---|---|
| Bundles.SatisfierBundle.constructor | Runtime/Satisfiers/Plain/Satisfier.cs:48-55 | a new bundle watches the object with both counts at 0 and the given callbacks |
| Bundles.SatisfierBundle.WithCounts | Runtime/Satisfiers/Plain/Satisfier.cs:65-72 | a bundle created with predefined counts keeps exactly those counts |
| Bundles.SatisfierBundle.Satisfy | Runtime/Satisfiers/Plain/Satisfier.cs:77-81 | the satisfied count grows by one, the satisfy callback fires if present, and nothing else changes |
| Bundles.SatisfierBundle.Unsatisfy | Runtime/Satisfiers/Plain/Satisfier.cs:86-90 | the unsatisfied count grows by one, the unsatisfy callback fires if present, and nothing else changes |
| Bundles.SatisfierBundle.ReplaceEvents | Runtime/Satisfiers/Plain/Satisfier.cs:97-101 | both callbacks are replaced; the counts and the watched object are kept |
| Bundles.CountersTrackCalls | Runtime/Satisfiers/Plain/Satisfier.cs:77-101 | over any run of Satisfy/Unsatisfy/ReplaceEvents each count grows by exactly the number of its calls, the watched object never changes, and each callback fires at most once per call |
| Bundles.CallbackFiresOncePerCall | Runtime/Satisfiers/Plain/Satisfier.cs:77-81 | with a satisfy callback installed and never replaced, it fires exactly as often as the satisfied count grows |
| Satisfiers.CreateEventBundle | Runtime/Satisfiers/Plain/Satisfier.cs:214-218 | a new bundle for the object, with counts 0 and the given callbacks |
| Satisfiers.CreateNullEventBundle | Runtime/Satisfiers/Plain/Satisfier.cs:205-209 | a new bundle for the object with the given counts and no callbacks |
| Satisfiers.IncludeBundleInWatchlist | Runtime/Satisfiers/Plain/Satisfier.cs:223-228 | the dictionary gains exactly the bundle, under its watched object; every other entry is kept |
| Satisfiers.ExcludeBundleFromWatchlist | Runtime/Satisfiers/Plain/Satisfier.cs:233-245 | the entry under the bundle's watched object is removed and nothing else |
| Satisfiers.Watch | Runtime/Satisfiers/Plain/Satisfier.cs:153-172 | the result and the new dictionary are WatchView's: null gives 0 and no change; a watched object gets the new callbacks and gives its satisfied count; a new object gets a fresh bundle and gives 0 |
| Satisfiers.Unwatch | Runtime/Satisfiers/Plain/Satisfier.cs:181-200 | true and the entry removed exactly when the object is non-null and watched; otherwise false and no change |
| Satisfiers.WatchThenUnwatch | Runtime/Satisfiers/Plain/Satisfier.cs:153-200 | Watch then Unwatch of one object removes it and nothing else; for a new object that is the dictionary as it was |
| Satisfiers.RewatchKeepsCount | Runtime/Satisfiers/Plain/Satisfier.cs:153-172 | watching twice adds at most one bundle, returns the same count both times, and installs the second callbacks |
| Satisfiers.WatchKeepsCounters | Runtime/Satisfiers/Plain/Satisfier.cs:153-172 | Watch never removes a bundle, adds at most one, and changes no count |
| Satisfiers.AddNullBundle | Runtime/Satisfiers/OSatisfier.cs:178-182 | the dictionary gains one bundle with counts (1, 0) and no callbacks for an object it lacked |
| Satisfiers.StepBundle | Runtime/Satisfiers/Plain/Satisfier.cs:259-260 | the bundle under the key is satisfied (or unsatisfied) and no other entry changes |
| Satisfiers.StepOn | Runtime/Satisfiers/Plain/Satisfier.cs:250-316 | one SatisfyStep: success iff the object is non-null and is a key or is equal to a key; then exactly the target's count moves; otherwise nothing changes |
| Satisfiers.SatisfyBundle | Runtime/Satisfiers/Plain/Satisfier.cs:250-281 | SatisfyStep with `unsat` false |
| Satisfiers.UnsatisfyBundle | Runtime/Satisfiers/Plain/Satisfier.cs:286-316 | SatisfyStep with `unsat` true |
| Satisfiers.StepChangesOneCounter | Runtime/Satisfiers/Plain/Satisfier.cs:250-316 | a step keeps the key set; it succeeds iff the object is non-null and watched or equal to a key; on success exactly one bundle's count grows by one and all others are untouched; on failure nothing changes |
| Satisfiers.StepOnWatchedObject | Runtime/Satisfiers/Plain/Satisfier.cs:257-262 | identity first: a watched object's own bundle is the one stepped, even when other keys are equal to it |
| Satisfiers.StepOnEqualObject | Runtime/Satisfiers/Plain/Satisfier.cs:264-278 | an unwatched object equal to exactly one key satisfies that key's bundle |
| Satisfiers.GetEnumerator | Runtime/Satisfiers/Plain/Satisfier.cs:329-332 | every bundle exactly once, in ascending comparer order whenever the comparer is total and transitive |
| Satisfiers.GetReverseEnumerator | Runtime/Satisfiers/Plain/Satisfier.cs:337-340 | every bundle exactly once, in descending comparer order whenever the comparer is total and transitive |
| Satisfiers.BundlesOfSortedKeys | Runtime/Satisfiers/Plain/Satisfier.cs:329-332 | bundles listed in the order of keys sorted by the comparer are in comparer order |
| Satisfiers.KeysInSomeOrder | Runtime/Satisfiers/Plain/Satisfier.cs:329-332 | the dictionary's keys listed in some order, each exactly once |
| Satisfiers.BundlesOfKeysListEachOnce | Runtime/Satisfiers/Plain/Satisfier.cs:329-332 | the bundles of all the keys, listed key by key, name every bundle of the dictionary exactly once |
| Satisfiers.IsObjectBeingWatched | Runtime/Satisfiers/Plain/Satisfier.cs:321-324 | true exactly when the object is a key of the bundle dictionary |
| Satisfiers.Compare | Runtime/Satisfiers/Plain/Satisfier.cs:350-353 | bundles are compared by their watched objects with the given comparer, so two bundles watching the same object compare as that object with itself |
| ObjectSatisfiers.ObjectSatisfier.constructor | Runtime/Satisfiers/Plain/ObjectSatisfier.cs:24-27 | an empty dictionary with the given comparer and equality |
| ObjectSatisfiers.ObjectSatisfier.Watch | Runtime/Satisfiers/Plain/ObjectSatisfier.cs:46-49 | Satisfier.Watch on its own dictionary: result and new dictionary as WatchView says |
| ObjectSatisfiers.ObjectSatisfier.Unwatch | Runtime/Satisfiers/Plain/ObjectSatisfier.cs:54-57 | result and new dictionary as UnwatchView says |
| ObjectSatisfiers.ObjectSatisfier.Satisfy | Runtime/Satisfiers/Plain/ObjectSatisfier.cs:62-65 | one satisfy SatisfyStep on its dictionary |
| ObjectSatisfiers.ObjectSatisfier.Unsatisfy | Runtime/Satisfiers/Plain/ObjectSatisfier.cs:70-73 | one unsatisfy SatisfyStep on its dictionary |
| ObjectSatisfiers.ObjectSatisfier.IsWatching | Runtime/Satisfiers/Plain/ObjectSatisfier.cs:78-81 | true exactly when the object is a key |
| ObjectSatisfiers.ObjectSatisfier.GetEnumerator | Runtime/Satisfiers/Plain/ObjectSatisfier.cs:86-89 | every bundle once, ascending in comparer order |
| ObjectSatisfiers.ObjectSatisfier.GetReverseEnumerator | Runtime/Satisfiers/Plain/ObjectSatisfier.cs:94-97 | every bundle once, descending in comparer order |
| ObjectSatisfiers.ObjectSatisfier.ClearBundles | Runtime/Satisfiers/Plain/ObjectSatisfier.cs:102-105 | the dictionary becomes empty |
| ObjectSatisfiers.ObjectSatisfier.AddBundle | Runtime/Satisfiers/Plain/ObjectSatisfier.cs:110-113 | the dictionary gains the bundle under its watched object and keeps every other entry |
| ObjectSatisfiers.ObjectSatisfier.RemoveBundle | Runtime/Satisfiers/Plain/ObjectSatisfier.cs:118-121 | the entry under the bundle's watched object is removed and nothing else |
| ObjectSatisfiers.ObjectSatisfier.SatisfyListed | Runtime/Models/Numismatic.cs:264-268 | satisfying a bundle obtained from the enumerator steps exactly that watched object's entry |
| ObjectSatisfiers.ObjectSatisfier.UnsatisfyListed | Runtime/Models/Numismatic.cs:291-295 | unsatisfying a bundle obtained from the enumerator steps exactly that watched object's entry |
| ObjectSatisfiers.ObjectSatisfier.ListedBundleIsWatched | Runtime/Satisfiers/Plain/Satisfier.cs:223-228 | a bundle in the dictionary is stored under its own watched object and under no other key |
| ThingSatisfiers.ThingSatisfier.constructor | Runtime/Satisfiers/Plain/ThingSatisfier.cs:28-31 | an empty nested dictionary with the given comparer and equality |
| ThingSatisfiers.ThingSatisfier.IsWatching | Runtime/Satisfiers/Plain/ThingSatisfier.cs:75-79 | false for a null key, otherwise whether the key is present |
| ThingSatisfiers.ThingSatisfier.IsWatchingValue | Runtime/Satisfiers/Plain/ThingSatisfier.cs:84-94 | false for a null key or value or an absent key; otherwise whether some inner key is equal to the value |
| ThingSatisfiers.ThingSatisfier.Watch | Runtime/Satisfiers/Plain/ThingSatisfier.cs:41-55 | ThingWatchView: null key or value gives 0 and no change; otherwise the inner dictionary is created if missing and Satisfier.Watch runs on it |
| ThingSatisfiers.ThingSatisfier.Unwatch | Runtime/Satisfiers/Plain/ThingSatisfier.cs:60-70 | ThingUnwatchView: only a watched pair is unwatched from its inner dictionary; the outer key stays |
| ThingSatisfiers.ThingSatisfier.AddBundle | Runtime/Satisfiers/Plain/ThingSatisfier.cs:99-116 | ThingAddBundleView: nulls are ignored; the inner dictionary is ensured; a (1,0) bundle is added only when the pair is not watched, and Dictionary.Add's duplicate-key exception is returned |
| ThingSatisfiers.ThingSatisfier.AddFresh | Runtime/Satisfiers/Plain/ThingSatisfier.cs:107-115 | the inner dictionary of the key gains one (1,0) bundle for the value and nothing else changes |
| ThingSatisfiers.ThingSatisfier.RemoveBundle | Runtime/Satisfiers/Plain/ThingSatisfier.cs:121-127 | ThingRemoveBundleView: a watched pair's value entry is removed from its inner dictionary |
| ThingSatisfiers.ThingSatisfier.Step | Runtime/Satisfiers/Plain/ThingSatisfier.cs:132-157 | ThingStep: only a watched pair is stepped, by the plain satisfier step on its inner dictionary |
| ThingSatisfiers.ThingSatisfier.Satisfy | Runtime/Satisfiers/Plain/ThingSatisfier.cs:132-142 | ThingStep with `unsat` false |
| ThingSatisfiers.ThingSatisfier.Unsatisfy | Runtime/Satisfiers/Plain/ThingSatisfier.cs:147-157 | ThingStep with `unsat` true |
| ThingSatisfiers.WatchTouchesOnlyItsKey | Runtime/Satisfiers/Plain/ThingSatisfier.cs:41-55 | a non-null watch adds the key, leaves every other key's inner dictionary alone and is Satisfier.Watch on the key's inner dictionary |
| ThingSatisfiers.WatchNullIsNoOp | Runtime/Satisfiers/Plain/ThingSatisfier.cs:43-47 | a null key or value: result 0 and no change |
| ThingSatisfiers.WatchedPairIsWatching | Runtime/Satisfiers/Plain/ThingSatisfier.cs:41-94 | after Watch(k, v), IsWatching(k, v) holds whenever the equality is reflexive on v |
| ThingSatisfiers.UnwatchKeepsOuterKey | Runtime/Satisfiers/Plain/ThingSatisfier.cs:60-70 | Unwatch never removes an outer key; when it succeeds the pair was present and exactly that value leaves the inner dictionary |
| ThingSatisfiers.AddBundleOnlyWhenUnwatched | Runtime/Satisfiers/Plain/ThingSatisfier.cs:99-116 | AddBundle keeps every key and adds the key; a watched pair is left unchanged; an unwatched, absent value gets a (1,0) bundle |
| ThingSatisfiers.StepLeavesOtherKeys | Runtime/Satisfiers/Plain/ThingSatisfier.cs:132-157 | a step keeps the outer keys and every other key's inner dictionary; it succeeds only on a watched pair and keeps that inner dictionary's keys |
| ThingSatisfiers.ThingSatisfier.SetInner | Runtime/Satisfiers/Plain/ThingSatisfier.cs:41-55 | the key's inner dictionary becomes the given one, added when the key is new, and every other key keeps its own |
| OSatisfiers.OSatisfier.constructor | Runtime/Satisfiers/OSatisfier.cs:17 | the asset starts without a satisfier and with an empty watch list |
| OSatisfiers.OSatisfier.EnsureSatisfier | Runtime/Satisfiers/OSatisfier.cs:106-114 | true exactly when no satisfier existed, and then a new empty one is created; the watch list is unchanged |
| OSatisfiers.OSatisfier.Watch | Runtime/Satisfiers/OSatisfier.cs:125-129 | ensures the satisfier, then watches as WatchView says |
| OSatisfiers.OSatisfier.WatchFeedback | Runtime/Satisfiers/OSatisfier.cs:143-146 | the default feedback is the satisfier's Watch count |
| OSatisfiers.OSatisfier.Unwatch | Runtime/Satisfiers/OSatisfier.cs:152-157 | the watch list loses the object as UnwatchView says (a just-created satisfier is empty, so nothing changes) |
| OSatisfiers.OSatisfier.IsWatching | Runtime/Satisfiers/OSatisfier.cs:167-170 | true exactly when the object is watched; the watch list is unchanged |
| OSatisfiers.OSatisfier.CheckSatisfyOnChange | Runtime/Satisfiers/OSatisfier.cs:176-188 | CheckSatisfyView: a watched object is satisfied and the result is true; an unwatched one gets a pre-counted (1,0) bundle and the result is false |
| OSatisfiers.OSatisfier.SatisfyIfWatching | Runtime/Satisfiers/OSatisfier.cs:183-186 | the object's bundle is satisfied when it is watched; otherwise nothing changes |
| OSatisfiers.OSatisfier.SatisfyWatched | Runtime/Satisfiers/OSatisfier.cs:185 | a watched object's bundle is satisfied and nothing else changes |
| OSatisfiers.OSatisfier.AddPreCounted | Runtime/Satisfiers/OSatisfier.cs:180 | an unwatched object gets a bundle with counts (1,0) and no callbacks |
| OSatisfiers.OSatisfier.CheckUnsatisfyOnChange | Runtime/Satisfiers/OSatisfier.cs:194-203 | CheckUnsatisfyView: only a watched object is unsatisfied, and the result says whether it was |
| OSatisfiers.CheckSatisfyTouchesOnlyObj | Runtime/Satisfiers/OSatisfier.cs:176-188 | the check adds the object if absent, is true iff it was watched, raises only its satisfied count (to 1 when new) and leaves every other bundle alone |
| OSatisfiers.CheckUnsatisfyTouchesOnlyObj | Runtime/Satisfiers/OSatisfier.cs:194-203 | the check keeps the key set, is true iff the object was watched, raises only its unsatisfied count and leaves every other bundle alone |
| OSatisfiers.RepeatedChecksCount | Runtime/Satisfiers/OSatisfier.cs:176-188 | n satisfy checks on an unwatched object leave its count at n, and a later Watch returns n |
| CSatisfiers.TSatisfier.constructor | Runtime/Satisfiers/CSatisfier.cs:19 | the asset starts without a satisfier and with an empty nested watch list |
| CSatisfiers.TSatisfier.EnsureSatisfier | Runtime/Satisfiers/CSatisfier.cs:106-114 | true exactly when no satisfier existed, and then a new empty one is created; the watch list is unchanged |
| CSatisfiers.TSatisfier.Watch | Runtime/Satisfiers/CSatisfier.cs:126-130 | ensures the satisfier, then ThingSatisfier.Watch as ThingWatchView says |
| CSatisfiers.TSatisfier.WatchFeedback | Runtime/Satisfiers/CSatisfier.cs:145-148 | the default feedback is the satisfier's Watch count |
| CSatisfiers.TSatisfier.Unwatch | Runtime/Satisfiers/CSatisfier.cs:156-161 | the nested list changes as ThingUnwatchView says |
| CSatisfiers.TSatisfier.IsWatching | Runtime/Satisfiers/CSatisfier.cs:171-177 | whether the key is watched; false for a just-created satisfier, which is empty |
| CSatisfiers.TSatisfier.IsWatchingValue | Runtime/Satisfiers/CSatisfier.cs:187-193 | whether the pair is watched; false for a just-created satisfier |
| CSatisfiers.TSatisfier.CheckSatisfyOnChange | Runtime/Satisfiers/CSatisfier.cs:200-213 | ThingCheckSatisfy: an unwatched pair gets a pre-counted bundle and false; a watched pair is satisfied and the result is true whatever Satisfy answered |
| CSatisfiers.TSatisfier.AddBundle | Runtime/Satisfiers/CSatisfier.cs:204 | ThingSatisfier.AddBundle on the existing satisfier |
| CSatisfiers.TSatisfier.CheckUnsatisfyOnChange | Runtime/Satisfiers/CSatisfier.cs:220-229 | ThingCheckUnsatisfy: only a watched pair is unsatisfied, and the result is Unsatisfy's |
| CSatisfiers.CheckSatisfyLeavesPairCovered | Runtime/Satisfiers/CSatisfier.cs:200-213 | after the check the key is present and no key is lost; the result is true iff the pair was watched; without an exception the pair is watched or has a bundle; the only exception is a duplicate key for a value present but not equal to itself |
| CSatisfiers.CheckUnsatisfyKeepsKeys | Runtime/Satisfiers/CSatisfier.cs:220-229 | the check keeps every outer and inner key and succeeds only on a watched pair |
| ObjectContainers.ObjectContainer.constructor | Runtime/Containers/ObjectContainer.cs:13 | an empty element list and an empty watch list |
| ObjectContainers.ObjectContainer.Initialize | Runtime/Containers/ObjectContainer.cs:21-25 | the element list becomes the given objects, and the watch list is the old one after one satisfy check per object, in list order |
| ObjectContainers.ObjectContainer.EnableSatisfier | Runtime/Containers/ObjectContainer.cs:44-53 | one satisfy check per element, in list order (CheckSatisfyAll); the elements are unchanged |
| ObjectContainers.ObjectContainer.CheckSatisfyOnChange | Runtime/Containers/ObjectContainer.cs:50 | one OSatisfier satisfy check; the elements are unchanged |
| ObjectContainers.ObjectContainer.Add | Runtime/Containers/ObjectContainer.cs:59-68 | a null object is an error and changes nothing; any other is appended and then satisfy-checked |
| ObjectContainers.ObjectContainer.Remove | Runtime/Containers/ObjectContainer.cs:75-92 | true exactly when the object is non-null and held; then its first occurrence is removed and it is unsatisfy-checked; otherwise nothing changes |
| ObjectContainers.CheckSatisfyAllCounts | Runtime/Containers/ObjectContainer.cs:44-53 | after the checks every element is watched, its satisfied count grew by the number of times it occurs in the list, no unsatisfied count changed, and objects not in the list are untouched |
| ThingsContainers.ThingsContainer.constructor | Runtime/Containers/ThingsContainer.cs:30 | the entry list starts with one empty entry (null key, null value), no cached dictionary and an empty watch list |
| ThingsContainers.ThingsContainer.Dictionary | Runtime/Containers/ThingsContainer.cs:45-61 | the cached dictionary when there is one; otherwise it is rebuilt from the entries (a null key or a duplicate key is an exception) and cached |
| ThingsContainers.ThingsContainer.Rebuild | Runtime/Containers/ThingsContainer.cs:49-57 | the dictionary Build gives for the entries, which becomes the cache |
| ThingsContainers.ThingsContainer.EraseValues | Runtime/Containers/ThingsContainer.cs:70-76 | every entry keeps its key and loses its value |
| ThingsContainers.ThingsContainer.EnableSatisfier | Runtime/Containers/ThingsContainer.cs:81-92 | the cache is dropped, and the watch list goes through one satisfy check per entry, in order, stopping at the first exception (SatisfyChain) |
| ThingsContainers.ThingsContainer.EnsureSatisfierAndClear | Runtime/Containers/ThingsContainer.cs:83-84 | the satisfier exists, the cache is dropped and the watch list is unchanged |
| ThingsContainers.ThingsContainer.CheckSatisfyEntry | Runtime/Containers/ThingsContainer.cs:88-90 | one satisfy check of an entry, skipped for a null key or value |
| ThingsContainers.ThingsContainer.Add | Runtime/Containers/ThingsContainer.cs:99-112 | a null key is an error and changes nothing; otherwise the entry is appended and, for a non-null value, satisfy-checked; the cache is not reset |
| ThingsContainers.ThingsContainer.UnsatisfyPair | Runtime/Containers/ThingsContainer.cs:133 | one unsatisfy check of the pair |
| ThingsContainers.ThingsContainer.RemoveEntryAt | Runtime/Containers/ThingsContainer.cs:134 | the entry at the index is removed and nothing else changes |
| ThingsContainers.ThingsContainer.NullEntryAt | Runtime/Containers/ThingsContainer.cs:187 | the entry at the index loses its value and nothing else changes |
| ThingsContainers.ThingsContainer.RemoveAllWithKey | Runtime/Containers/ThingsContainer.cs:157-163 | the loop removes every entry with the key (the one, as keys are unique) after one unsatisfy check of its pair |
| ThingsContainers.ThingsContainer.RemoveOnce | Runtime/Containers/ThingsContainer.cs:159-162 | one pass of that loop: unsatisfy check, removal, and no entry with the key is left |
| ThingsContainers.ThingsContainer.NullifyAllWithKey | Runtime/Containers/ThingsContainer.cs:183-189 | the loop nulls the value of the entry with the key after one unsatisfy check of its pair |
| ThingsContainers.ThingsContainer.NullOnce | Runtime/Containers/ThingsContainer.cs:185-188 | one pass of that loop: unsatisfy check, value set to null, and no entry with the key and a value is left |
| ThingsContainers.ThingsContainer.RemoveKey | Runtime/Containers/ThingsContainer.cs:149-168 | the dictionary is rebuilt (its exception, or ArgumentNull for a null key, is returned); true iff the key is in it; then its entry is removed after an unsatisfy check, otherwise nothing changes |
| ThingsContainers.ThingsContainer.RemoveValue | Runtime/Containers/ThingsContainer.cs:120-142 | as RemoveKey, but only when the stored value is equal to the given one |
| ThingsContainers.ThingsContainer.NullifyKey | Runtime/Containers/ThingsContainer.cs:175-194 | as RemoveKey, but the entry's value is set to null instead of removing it |
| ThingsContainers.ThingsContainer.NullifyValue | Runtime/Containers/ThingsContainer.cs:202-224 | as NullifyKey, but only when the stored value is equal to the given one |
| ThingsContainers.ThingsContainer.Watch | Runtime/Containers/ThingsContainer.cs:234-248 | the pair is watched, and the feedback is the comparison of the cached dictionary's value with the given one, or -1 when the key has no value there |
| ThingsContainers.ThingsContainer.Unwatch | Runtime/Satisfiers/CSatisfier.cs:156-161 | the nested watch list changes as ThingUnwatchView says |
| ThingsContainers.RepresentsDetermines | Runtime/Containers/ThingsContainer.cs:45-61 | two dictionaries that both represent the same entry list are equal |
| ThingsContainers.BuildSucceedsIff | Runtime/Containers/ThingsContainer.cs:49-57 | rebuilding succeeds exactly when every key is non-null and unique; the dictionary then maps each key to its entry's value; the only failures are a null key and a duplicate key |
| ThingsContainers.KeyIndexOfBuiltKey | Runtime/Containers/ThingsContainer.cs:157 | a key of a built dictionary sits in exactly one entry, which FindIndex finds, holding the dictionary's value |
| ThingsContainers.RemovingTheOnlyKey | Runtime/Containers/ThingsContainer.cs:160-162 | after removing the one entry with the key, FindIndex finds none, so the loop ends |
| ThingsContainers.NullingTheOnlyKey | Runtime/Containers/ThingsContainer.cs:187-188 | after nulling the one entry with the key, the second FindIndex finds none, so the loop ends |
| ThingsContainers.RemoveAtRepresents | Runtime/Containers/ThingsContainer.cs:134 | removing the entry with the key from unique entries represents the dictionary without the key |
| ThingsContainers.SetAtRepresents | Runtime/Containers/ThingsContainer.cs:187 | setting the value of the entry with the key represents the dictionary updated at the key |
| ThingsContainers.RebuildAfterRemove | Runtime/Containers/ThingsContainer.cs:149-168 | rebuilding after Remove(key) gives the old dictionary without the key |
| ThingsContainers.RebuildAfterNullify | Runtime/Containers/ThingsContainer.cs:175-194 | rebuilding after Nullify(key) gives the old dictionary with the key mapped to null |
| ThingsContainers.RebuildAfterSet | Runtime/Containers/ThingsContainer.cs:45-61 | changing the value of a key's entry rebuilds to the dictionary updated at that key, with as many entries |
| ThingsContainers.ErasedBuildsSameKeys | Runtime/Containers/ThingsContainer.cs:70-76 | after EraseValues the dictionary has the same keys, all mapped to null, and fails exactly as before |
| ThingsContainers.CheckedOnceCovers | Runtime/Containers/ThingsContainer.cs:88-90 | a satisfy check of an entry keeps every key, and watches the entry's key when key and value are non-null |
| ThingsContainers.SatisfyPassCoversEntries | Runtime/Containers/ThingsContainer.cs:81-92 | after a complete EnableSatisfier pass every key is kept and every entry with a key and a value has its key watched |
| ThingsContainers.FeedbackOfEntries | Runtime/Containers/ThingsContainer.cs:234-248 | with a fresh cache and unique keys, the feedback compares the value of the key's entry, or is -1 when no entry has the key with a value |
| ThingsContainers.StaleCacheAfterAdd | Runtime/Containers/ThingsContainer.cs:99-112 | Add does not drop a cached dictionary, so watching a pair that was just added still answers -1 |
| ThingsContainers.RepresentsAppend | Runtime/Containers/ThingsContainer.cs:99-112 | appending an entry with a new non-null key keeps the keys unique and the dictionary equal to the rebuilt one plus that entry |
| ThingsContainers.RemoveAtKeepsUnique | Runtime/Containers/ThingsContainer.cs:134 | removing an entry keeps the keys unique |
| Numismatics.CanAfford | Runtime/Models/Numismatic.cs:185-188 | the wallet affords a price when it holds at least the price less EPSILON (0.01); an exact amount always affords |
| Numismatics.CompareValues | Runtime/Models/Numismatic.cs:74 | float.CompareTo: -1, 0 or 1 as the first value is below, equal to or above the second |
| Numismatics.Comparer | Runtime/Models/Numismatic.cs:74 | the comparer puts the larger value first: it is at most 0 exactly when the first value is not smaller, and 0 exactly on equal values |
| Numismatics.Equator | Runtime/Models/Numismatic.cs:79 | two amounts are equal when they differ by less than EPSILON; equal values always are |
| Numismatics.ComparerConsistent | Runtime/Models/Numismatic.cs:74 | the comparer is a consistent total preorder, as the sorted bundle list needs |
| Numismatics.AffordsCheaper | Runtime/Models/Numismatic.cs:185-188 | affording a price means affording every cheaper one; failing a cheaper one means failing every dearer one |
| Numismatics.WalkLength | Runtime/Models/Numismatic.cs:261-276 | the loop's stopping point: every price before it is of the walk's kind (affordable, or unaffordable), and the one at it is not |
| Numismatics.WalkStepsAllAccepted | Runtime/Models/Numismatic.cs:254-305 | when the prices of the walk's kind form a prefix of the order, the walk steps exactly those prices, and reports whether there was any |
| Numismatics.DearestFirstSatisfiesAllOrNothing | Runtime/Models/Numismatic.cs:254-278 | in comparer order (dearest first) the satisfy walk satisfies every price when the dearest is affordable, and nothing otherwise |
| Numismatics.DearestFirstMissesCheaperPrice | Runtime/Models/Numismatic.cs:254-278 | a wallet of 5 watching prices 10 and 3 affords 3, yet the satisfy walk in comparer order satisfies nothing |
| Numismatics.CheapestFirstSatisfiesAffordable | Runtime/Models/Numismatic.cs:254-278 | cheapest first, the satisfy walk satisfies exactly the affordable prices, and reports whether there was one |
| Numismatics.DearestFirstUnsatisfiesUnaffordable | Runtime/Models/Numismatic.cs:280-305 | dearest first, the unsatisfy walk unsatisfies exactly the unaffordable prices, and reports whether there was one |
| Numismatics.DearestFirstSatisfyView | Runtime/Models/Numismatic.cs:254-278 | whatever the order among equal prices, the dearest-first satisfy walk leaves the watched prices all satisfied when the wallet affords every one, and unchanged otherwise |
| Numismatics.DearestFirstUnsatisfyView | Runtime/Models/Numismatic.cs:280-305 | whatever the order among equal prices, the dearest-first unsatisfy walk marks unsatisfied exactly the prices the wallet cannot afford and leaves the others as they were |
| Numismatics.WatchedOf | Runtime/Models/Numismatic.cs:264 | the watched price of each enumerated bundle, in enumeration order |
| Numismatics.OrderFollowsComparer | Runtime/Satisfiers/Plain/Satisfier.cs:329-340 | the forward enumeration lists prices dearest first, the reverse one cheapest first |
| Numismatics.EnumeratedEachOnce | Runtime/Satisfiers/Plain/Satisfier.cs:329-332 | the enumeration lists every watched price exactly once |
| Numismatics.PrefixGrows | Runtime/Models/Numismatic.cs:261 | each step of the enumeration adds one new price to those already walked |
| Numismatics.MarkOneMore | Runtime/Models/Numismatic.cs:267 | stepping one more price updates only that price's counters |
| Numismatics.StepPrefixMarks | Runtime/Models/Numismatic.cs:261-276 | stepping the first n enumerated bundles one by one steps exactly the set of their prices |
| Numismatics.WalkLengthOfPrefix | Runtime/Models/Numismatic.cs:261-276 | the stopping point is the first index not of the walk's kind |
| Numismatics.Numismatic.constructor | Runtime/Models/Numismatic.cs:89-96 | a wallet with the given value, watching nothing |
| Numismatics.Numismatic.SetValue | Runtime/Models/Numismatic.cs:153-158 | the value becomes the given one and the watch list is unchanged |
| Numismatics.Numismatic.CheckSatisfyOnChange | Runtime/Models/Numismatic.cs:254-278 | the bundles are visited once each, dearest first, satisfying each affordable price until the first unaffordable one (Walk); the result says whether any was satisfied |
| Numismatics.Numismatic.CheckSatisfyOnChangeCheapestFirst | Runtime/Models/Numismatic.cs:254-278 | the same walk over the reverse enumeration, cheapest first |
| Numismatics.Numismatic.CheckUnsatisfyOnChange | Runtime/Models/Numismatic.cs:280-305 | the bundles are visited once each, dearest first, unsatisfying each unaffordable price until the first affordable one |
| Numismatics.Numismatic.EnsureOwnSatisfier | Runtime/Models/Numismatic.cs:256 | the satisfier exists afterwards and the watch list is unchanged |
| Numismatics.Numismatic.Enumerate | Runtime/Models/Numismatic.cs:259 | the bundles listed once each, dearest first (or cheapest first when reversed), with the watch list unchanged |
| Numismatics.Numismatic.WalkBundles | Runtime/Models/Numismatic.cs:261-276 | the walk over one enumeration: the new watch list and result are those of Walk |
| Numismatics.Numismatic.WalkPrefix | Runtime/Models/Numismatic.cs:261-276 | the loop stops at WalkLength, having stepped each bundle before it once |
| Numismatics.Numismatic.WalkStep | Runtime/Models/Numismatic.cs:264-269 | one turn of the loop: a bundle of the walk's kind is stepped and the walk advances by one |
| Numismatics.Numismatic.StepNext | Runtime/Models/Numismatic.cs:267 | stepping the next bundle extends the stepped prefix by one |
| Numismatics.Numismatic.StepListed | Runtime/Models/Numismatic.cs:267 | Satisfy or Unsatisfy of one listed bundle changes that price's counters and nothing else |
| Numismatics.Numismatic.Watch | Runtime/Models/Numismatic.cs:307-311 | the price is watched, then the answer is 1 when the wallet affords it and -1 otherwise; a null price is an error |
| Numismatics.Numismatic.Unwatch | Runtime/Satisfiers/OSatisfier.cs:152-157 | the price is unwatched as UnwatchView says and the value is unchanged |
| Numismatics.Numismatic.Gain | Runtime/Models/Numismatic.cs:194-205 | the value grows by the amount, then the satisfy walk runs with the new value; the watched prices end all satisfied when the new value affords every one, and all unchanged otherwise |
| Numismatics.Numismatic.Spend | Runtime/Models/Numismatic.cs:211-222 | the value shrinks by the amount, then the unsatisfy walk runs with the new value; exactly the prices the new value cannot afford end unsatisfied |
| Inventories.NewContainer | Runtime/Containers/ObjectContainer.cs:21-25 | a new container initialised with the objects: each is satisfy-checked once, in order |
| Inventories.Inventory.constructor | Runtime/Models/Inventory.cs:109-113 | the items are the given list, each satisfy-checked once; the wallet is the given one, unchanged |
| Inventories.Inventory.Gain | Runtime/Models/Inventory.cs:47-59 | true exactly for a non-null item, which is appended and satisfy-checked; the wallet is unchanged |
| Inventories.Inventory.Lose | Runtime/Models/Inventory.cs:87-100 | true exactly when the item is non-null and held; then its first occurrence is removed and it is unsatisfy-checked; the wallet is unchanged |
| Inventories.Inventory.Sell | Runtime/Models/Inventory.cs:66-80 | true exactly when price and item are non-null and the item is held; then the item's first occurrence is removed and unsatisfy-checked in the container, the wallet gains the price and runs its satisfy walk at the new value; otherwise nothing changes |
| Inventories.Inventory.Settle | Runtime/Models/Inventory.cs:31-32 | the wallet spends the price and runs its unsatisfy walk at the new value; the item is appended and satisfy-checked in the container |
| Inventories.Inventory.Buy | Runtime/Models/Inventory.cs:19-40 | true exactly when the item is non-null, has a seller, the wallet affords the price and the seller holds it; then the item moves from seller to buyer (removed, then appended, when the seller is the buyer) with the matching container checks, and the price moves from buyer to seller with both wallet walks, the two wallets holding the same total (one shared wallet keeps its value); otherwise neither side changes |
| Inventories.Inventory.Trade | Runtime/Models/Inventory.cs:29-33 | the seller sells; when that succeeds the buyer settles; the outcome is decided by whether the seller holds the item, and the final state is the purchase Buy describes, for a separate seller, a seller sharing the wallet, or the buyer itself |
| Inventories.Inventory.TradeWithSelf | Runtime/Models/Inventory.cs:29-33 | buying from oneself: true exactly when the item is held; then its first occurrence is removed and the item appended again, the container checks run in that order, and the wallet keeps its value after gaining and spending the price; otherwise nothing changes |
| Inventories.Inventory.TradeSharingWallet | Runtime/Models/Inventory.cs:29-33 | a seller with its own container and the buyer's wallet: true exactly when the seller holds the item; then it moves between the containers, and the shared wallet keeps its value after the satisfy walk and the unsatisfy walk; otherwise nothing changes |
| Inventories.Inventory.TradeApart | Runtime/Models/Inventory.cs:29-33 | a seller with its own container and wallet: true exactly when the seller holds the item; then it moves between the containers and the price between the wallets, whose total is kept; otherwise nothing changes |
| Inventories.Inventory.SellApart | Runtime/Models/Inventory.cs:29 | the seller's Sell of the item at the price, as Sell states it, while the buyer, sharing nothing with the seller, keeps its items, wallet and satisfiers |
| Inventories.Inventory.SettleApart | Runtime/Models/Inventory.cs:31-32 | the buyer's Settle, as Settle states it, while a seller sharing nothing with the buyer keeps its items, wallet and satisfiers |
| Currencies.RateLeIsPreorder | Runtime/Shire/Concretes/Currency.cs:92 | ordering money pieces by rate is a total preorder |
| Currencies.AddMoneyView | Runtime/Shire/Concretes/Currency.cs:85-104 | a piece is added exactly when it is non-null, not already there and of a rate no piece has; the list then has one more piece, is sorted by rate and is a permutation of the old list plus the piece; otherwise it is unchanged |
| Currencies.RemoveMoneyView | Runtime/Shire/Concretes/Currency.cs:111-121 | a piece is removed exactly when it is non-null and present; the list then loses one occurrence of it |
| Currencies.InsertKeepsStrict | Runtime/Shire/Concretes/Currency.cs:91-92 | inserting a piece of a new rate into a list of strictly ascending rates keeps it strictly ascending |
| Currencies.StrictIsSorted | Runtime/Shire/Concretes/Currency.cs:92 | strictly ascending rates are sorted by rate |
| Currencies.InsertSplits | Runtime/Shire/Concretes/Currency.cs:91-92 | the sorted insertion puts the piece at one place and keeps the others in order around it |
| Currencies.AddMoneyKeepsStrict | Runtime/Shire/Concretes/Currency.cs:85-104 | AddMoney keeps the rates strictly ascending, and adding is the sorted insertion |
| Currencies.RemoveMoneyKeepsStrict | Runtime/Shire/Concretes/Currency.cs:111-121 | RemoveMoney keeps the rates strictly ascending |
| Currencies.RemoveFirstOfSplit | Runtime/Shire/Concretes/Currency.cs:115 | removing a piece from where it was inserted restores the list |
| Currencies.AddedIsSplit | Runtime/Shire/Concretes/Currency.cs:91-92 | a successful AddMoney inserts the piece at one place, after no copy of it |
| Currencies.RemoveUndoesAdd | Runtime/Shire/Concretes/Currency.cs:85-121 | on a currency with strictly ascending rates, RemoveMoney undoes a successful AddMoney |
| Currencies.Currency.constructor | Runtime/Shire/Concretes/Currency.cs:13-15 | no money pieces and a zero rate |
| Currencies.Currency.Initialize | Runtime/Shire/Concretes/Currency.cs:57-62 | the pieces are cleared and the rate set |
| Currencies.Currency.InitializeWith | Runtime/Shire/Concretes/Currency.cs:69-74 | the given pieces are appended to the old ones and the rate set |
| Currencies.Currency.AddMoney | Runtime/Shire/Concretes/Currency.cs:85-104 | the result and the new pieces are those of AddMoneyView; MoneyCount grows by one exactly on success |
| Currencies.Currency.MoneyCount | Runtime/Shire/Concretes/Currency.cs:47 | the number of money pieces in the list |
| Currencies.Currency.RemoveMoney | Runtime/Shire/Concretes/Currency.cs:111-121 | the result and the new pieces are those of RemoveMoneyView; MoneyCount shrinks by one exactly on success |
| Currencies.Currency.Unit | Runtime/Shire/Concretes/Currency.cs:19-29 | a new currency of one piece of rate 1 and fixed rate 1, whose rates are strictly ascending |
| Decimals.DigitChar | Runtime/Shire/Shire.cs:32 | the digit character of a value below 10 |
| Decimals.Digits | Runtime/Shire/Shire.cs:32 | the decimal digits of a natural number: at least one, all digits |
| Decimals.ToDecimal | Runtime/Shire/Shire.cs:32 | int.ToString: a leading '-' exactly for a negative number, no white space, ending in a digit |
| Decimals.SkipWhite | Editor/ThingTool.cs:209 | the first index from i that is not white space |
| Decimals.SkipWhiteBack | Editor/ThingTool.cs:209 | the end of the text once trailing white space is dropped |
| Decimals.TryParse | Editor/ThingTool.cs:209 | a parsed value always fits in 32 bits |
| Decimals.DigitsValueOfDigits | Editor/ThingTool.cs:209 | the digits of n read back as n |
| Decimals.DigitsValueOfSymbol | Editor/ThingTool.cs:209 | a run starting with a non-digit is not a number |
| Decimals.SkipWhiteBackPast | Editor/ThingTool.cs:209 | trimming never passes a leading character that is not white space |
| Decimals.ParseOfDecimal | Editor/ThingTool.cs:209 | int.TryParse reads int.ToString of any 32-bit number back as that number |
| Decimals.ParseRejectsLeadingSymbol | Editor/ThingTool.cs:209 | text starting with a character that is not white space, a digit or a sign does not parse |
| Equipments.SlotEntries | Runtime/Models/Equipment.cs:67-70 | one entry per listed slot, in order, each holding no item |
| Equipments.NullHeadNeverBuilds | Runtime/Containers/ThingsContainer.cs:30 | an entry list that starts with a null key never rebuilds its dictionary: the rebuild fails with ArgumentNull |
| Equipments.SlotsEquipmentNeverToggles | Runtime/Models/Equipment.cs:23-38 | an equipment built from slots keeps the default null-key entry first, so every Toggle of an item with a usage fails with ArgumentNull and changes neither entries nor statistics |
| Equipments.EquipDuplicatesListedSlot | Runtime/Models/Equipment.cs:43-48 | equipping into a slot that is already listed appends a second entry with that key, after which every rebuild, and so every later Toggle, fails with DuplicateKey |
| Equipments.ToggleWithoutUsage | Runtime/Models/Equipment.cs:23-37 | a null item, or one without a usage, answers false with no error; only the cache is dropped |
| Equipments.CorrectedSlots | Runtime/Models/Equipment.cs:63-71 | the intended slot list: one entry per slot with no item, and no null-key entry |
| Equipments.CorrectedSlotsBuild | Runtime/Models/Equipment.cs:63-71 | for distinct slots, the intended list rebuilds to the dictionary mapping every slot to no item |
| Equipments.CorrectedToggleRoundTrip | Runtime/Models/Equipment.cs:23-61 | on the intended equipment, equipping an item into its empty slot stores it there and adding its statistics; unequipping it then restores both the slot dictionary and the statistics |
| Equipments.Equipment.Make | Runtime/Models/Equipment.cs:63 | the base container and the statistics are the given ones |
| Equipments.Equipment.FromSlots | Runtime/Models/Equipment.cs:63-71 | the entries are the default null-key entry followed by one empty entry per slot; a null list adds none; a null slot makes Add throw |
| Equipments.Equipment.Toggle | Runtime/Models/Equipment.cs:23-38 | the new state, result and error are those of ToggleView: unequip the item when it is stored at its slot, equip it otherwise; the container checks are those of that Equip or Unequip, and none run for a missing item, an item without a usage or an unbuildable list |
| Equipments.Equipment.Equip | Runtime/Models/Equipment.cs:43-48 | the new state, result and error are those of EquipView: the item is appended at its slot, then its statistics are added; the container satisfy-checks the new entry once, and its error is the check's |
| Equipments.Equipment.Unequip | Runtime/Models/Equipment.cs:53-61 | the new state, result and error are those of UnequipView: only when the slot stores this item is its entry removed, unsatisfy-checked in the container, and its statistics subtracted |
| Equipments.Equipment.RemoveStored | Runtime/Models/Equipment.cs:55-56 | the slot's entry is removed from the list exactly when the list builds, the item has a usage and the slot stores this item, and then that entry is unsatisfy-checked; the error is the build error, or a null-argument error for an item without a usage |
| Stats.Bump | Runtime/Models/Statistics.cs:95 | `F += delta` on a block: exactly that field moves, by exactly delta |
| Stats.Checks | Runtime/Models/Statistics.cs:32-40 | the satisfy checks of adding the entries: at most one per entry, each of an entry with a block |
| Stats.ApplyChangesOneField | Runtime/Models/Statistics.cs:63-82 | on a stat with a block, ApplyStatChange moves exactly that field of that stat's block, answers the new field value, leaves a fresh cache, keeps the entry count, and runs one check: satisfy exactly for a positive delta |
| Stats.ApplyAbsentStat | Runtime/Models/Statistics.cs:78-81 | an absent stat answers -1 and changes neither entries nor checks |
| Stats.TruncateToInt | Runtime/Models/Statistics.cs:125 | C#'s `(int)` cast: the whole part of the value, rounded toward zero, less than 1 away from it |
| Stats.TruncateWhole | Runtime/Models/Statistics.cs:125 | a whole value passes the cast unchanged, so AppendBlock's modifier shifts are exact |
| Stats.ModStatTruncates | Runtime/Models/Statistics.cs:121-128 | on a stat with a block, ModStat moves the modifier by the truncated value and runs a satisfy check exactly for a positive value; a positive fraction below 1 leaves the block unchanged and still runs a satisfy check |
| Stats.ShiftBack | Runtime/Models/Statistics.cs:151-192 | shifting a block by another and back restores it, in either order |
| Stats.ShiftSucceeds | Runtime/Models/Statistics.cs:155-163 | on a shared stat with a block, the appended changes succeed and shift exactly that stat's block |
| Stats.ModsSucceed | Runtime/Models/Statistics.cs:159-163 | once value and temporary value have moved, the modifier changes succeed too, giving the full shift |
| Stats.ShiftIsBumps | Runtime/Models/Statistics.cs:157-162 | the shift is the two (or four) field changes made in turn |
| Stats.PairSucceeds | Runtime/Models/Statistics.cs:157-158 | two changes of the same stat in a row both succeed and compose |
| Stats.ApplyStep | Runtime/Models/Statistics.cs:63-82 | a change of a stat with a block succeeds, answering the new field value |
| Stats.StepFollowsShifted | Runtime/Models/Statistics.cs:153-169 | one turn of the foreach over the other's stats shifts that stat's block and keeps the cache right |
| Stats.ShiftedOneKeeps | Runtime/Models/Statistics.cs:153-169 | a turn keeps the stats, and which of them hold a block |
| Stats.FoldFollowsShifted | Runtime/Models/Statistics.cs:151-192 | when no shared stat has a null block, the whole foreach succeeds and shifts every shared stat |
| Stats.ShiftedClosedForm | Runtime/Models/Statistics.cs:151-192 | the result keeps every stat, shifts each shared stat by the other's block, and leaves every other stat alone |
| Stats.RemoveUndoesAppend | Runtime/Models/Statistics.cs:151-192 | RemoveBlock after AppendBlock of the same statistics (without new stats) restores the dictionary |
| Stats.AppendAddsUnknownStat | Runtime/Models/Statistics.cs:165-168 | with addNew, a stat the container lacks is appended with the other's block and satisfy-checked when it has one |
| Stats.Statistics.FromStats | Runtime/Models/Statistics.cs:46-54 | one entry per stat with a default block, each satisfy-checked, in order; a null stat makes Add throw |
| Stats.Statistics.FromEntries | Runtime/Models/Statistics.cs:32-40 | the entries are the given ones, with one satisfy check per entry with a block; a null key makes Add throw |
| Stats.Statistics.Empty | Runtime/Models/Statistics.cs:34 | no entries, no cache, no checks |
| Stats.Statistics.Add | Runtime/Containers/ThingsContainer.cs:99-112 | the state and error are those of AddView: a null key throws; otherwise an append, satisfy-checked when there is a block |
| Stats.Statistics.ApplyStatChange | Runtime/Models/Statistics.cs:63-82 | the state, answer and error are those of ApplyViewBy: the field moves by what the stat function adds, and the check follows the sign of the value passed |
| Stats.Statistics.ChangeStat | Runtime/Models/Statistics.cs:91-98 | ApplyView on the value field |
| Stats.Statistics.AffectStat | Runtime/Models/Statistics.cs:106-113 | ApplyView on the temporary value |
| Stats.Statistics.ModStat | Runtime/Models/Statistics.cs:121-128 | ApplyViewBy on the modifier, which moves by the `(int)` cast of the value, with the check chosen by the sign of the value itself |
| Stats.Statistics.ModTempStat | Runtime/Models/Statistics.cs:136-143 | ApplyView on the temporary modifier |
| Stats.Statistics.ShiftStat | Runtime/Models/Statistics.cs:157-163 | the state and error are those of ShiftView for one shared stat |
| Stats.Statistics.FoldStep | Runtime/Models/Statistics.cs:155-168 | the state and error are those of StepView for one stat of the other container |
| Stats.Statistics.Fold | Runtime/Models/Statistics.cs:153-169 | the state and error are those of FoldView over the other container's stats |
| Stats.Statistics.AppendBlock | Runtime/Models/Statistics.cs:151-170 | FoldView with sign +1 |
| Stats.Statistics.RemoveBlock | Runtime/Models/Statistics.cs:177-192 | FoldView with sign -1 and no new stats |
| ShireBlocks.CompareTo | Runtime/Shire/Blocks/ShireBlock.cs:29-32 | -1, 0 or 1 exactly as the true value is below, equal to or above the other's |
| ShireBlocks.TempValue | Runtime/Shire/Blocks/ShireBlock.cs:17 | value plus temporary value; the value itself when there is no temporary value |
| ShireBlocks.TempMod | Runtime/Shire/Blocks/ShireBlock.cs:18 | modifier plus temporary modifier; the modifier itself without a temporary one, and 2 for a default block, whose two fields start at 1 (lines 10-11) |
| ShireBlocks.TrueValue | Runtime/Shire/Blocks/ShireBlock.cs:19 | the temporary value scaled by the temporary modifier: the temporary value under a modifier of 1, and 0 when either factor is 0 |
| ShireBlocks.CompareToIsOrder | Runtime/Shire/Blocks/ShireBlock.cs:29-32 | CompareTo is antisymmetric in sign, reflexive and transitive |
| ShireBlocks.Half | Runtime/Shire/Blocks/ShireBlock.cs:36 | C#'s integer division by 2, truncating toward zero |
| ShireBlocks.ComputedMod | Runtime/Shire/Blocks/ShireBlock.cs:34-37 | only the modifier changes, to value / 2 - 5 |
| ShireBlocks.ModForMonotone | Runtime/Shire/Blocks/ShireBlock.cs:36 | the modifier grows with the value, and is symmetric about -5 |
| ShireBlocks.ComputeModIdempotent | Runtime/Shire/Blocks/ShireBlock.cs:34-37 | computing the modifier twice is computing it once |
| ShireBlocks.ShireBlock.constructor | Runtime/Shire/Blocks/ShireBlock.cs:51-57 | value 0, temporary 0, modifier 1, temporary modifier 1 |
| ShireBlocks.ShireBlock.WithFields | Runtime/Shire/Blocks/ShireBlock.cs:59-65 | the four fields take the given values |
| ShireBlocks.ShireBlock.Copy | Runtime/Shire/Blocks/ShireBlock.cs:21-27 | the four fields become the other block's |
| ShireBlocks.ShireBlock.ComputeMod | Runtime/Shire/Blocks/ShireBlock.cs:34-37 | the block becomes ComputedMod of itself |
| ShireBlocks.ShireBlock.OnBeforeSerialize | Runtime/Shire/Blocks/ShireBlock.cs:67-70 | the modifier is recomputed |
| ShireBlocks.ShireBlock.OnAfterDeserialize | Runtime/Shire/Blocks/ShireBlock.cs:72-75 | the modifier is recomputed |
| ShireBlocks.ComputeModOf | Runtime/Shire/Blocks/ShireBlock.cs:39-44 | the modifier for a value, bracketing a non-negative value between 2(mod+5) and 2(mod+5)+1 |
| ThingTools.LastIndexOfFrom | Editor/ThingTool.cs:198 | the last occurrence starting at or before k, or -1 when there is none |
| ThingTools.LastIndexOf | Editor/ThingTool.cs:198 | the start of the last occurrence, or -1, with no later occurrence |
| ThingTools.LastIndexOfIs | Editor/ThingTool.cs:198 | an occurrence with no later one is what LastIndexOf answers |
| ThingTools.EndcapOk | Editor/ThingTool.cs:202-205 | the endcap check passes only when the name ends with the endcap |
| ThingTools.ReadNumber | Editor/ThingTool.cs:208-213 | the parsed substring, always a 32-bit value, or -1 |
| ThingTools.SeparatorBeforeEndcap | Editor/ThingTool.cs:198-207 | past both checks, the separator ends before the endcap, so the substring is in range |
| ThingTools.ReadSame | Editor/ThingTool.cs:208 | the same bounds read the same number |
| ThingTools.EnumeratorValue | Editor/ThingTool.cs:196-214 | -1 without the separator or the endcap as final character; otherwise a 32-bit value or -1 |
| ThingTools.CorrectedValue | Editor/ThingTool.cs:196-214 | the same guards, reading after the whole separator |
| ThingTools.ReadRejectsSymbol | Editor/ThingTool.cs:209-213 | text starting with anything but white space, a sign or a digit reads as -1 |
| ThingTools.EnumeratorReads | Editor/ThingTool.cs:207-208 | as written, the text read starts one character after the separator's start |
| ThingTools.CorrectedReads | Editor/ThingTool.cs:207-208 | as intended, the text read starts after the whole separator and ends before the endcap |
| ThingTools.SingleCharAsIntended | Editor/ThingTool.cs:196-214 | for a one-character separator, as written and as intended agree on every name |
| ThingTools.TwoCharSeparatorNeverParses | Editor/ThingTool.cs:207-208 | as written, a two-character separator ending in a bracket never yields a value, on any name |
| ThingTools.Numbered | Editor/ThingTool.cs:380-388 | the name of a numbered copy: base, separator, number and endcap, of exactly those lengths |
| ThingTools.DecimalChars | Editor/ThingTool.cs:209 | a number's text holds only digits and '-' |
| ThingTools.NumberedSeparator | Editor/ThingTool.cs:198 | in a numbered name, the separator after the base name is the last occurrence |
| ThingTools.CorrectedRoundTrip | Editor/ThingTool.cs:196-214 | the intended parser reads back the number of every numbered name, in every suffixable format |
| ThingTools.FormatsSuffixable | Editor/ThingTool.cs:151-158 | all eight formats are suffixable |
| ThingTools.ResultsValues | Editor/ThingTool.cs:160-189 | every format tried is suffixable, and the number tried with each is EnumeratorValue of the name in that format |
| ThingTools.EnumeratorSuffix | Editor/ThingTool.cs:149-194 | the empty format and -1 when no format matches; otherwise the first format, in the order tried, whose EnumeratorValue is not -1, with that value |
| ThingTools.SpacedParenthesesExample | Editor/ThingTool.cs:196-214 | "Sword (3)" in the " (" format reads -1 as written and 3 as intended |
| ThingTools.FirstMatch | Editor/ThingTool.cs:191-193 | the first result whose value is not -1, unless that value is 0 (the default): then ("", "") with -1 |
| ThingTools.Results | Editor/ThingTool.cs:160-189 | one result per format, in the order the list is built |
| ThingTools.ResultValue | Editor/ThingTool.cs:160-177 | each result holds its format's value |
| ThingTools.SpacedFormatsFail | Editor/ThingTool.cs:165-167 | as written, the three spaced formats never yield a value |
| ThingTools.FirstMatchShort | Editor/ThingTool.cs:191-193 | when only short separators yield values, the first match has a short separator |
| ThingTools.SuffixNeverSpaced | Editor/ThingTool.cs:149-194 | as written, the suffix found never has a two-character separator |
| Lists.IndexOf | Runtime/Serializer/IThingSerializer.cs:53 | List.IndexOf: -1 exactly when absent, otherwise the first index holding the element |
| Lists.FindIndex | Runtime/Containers/ThingsContainer.cs:130 | List.FindIndex: the first index whose element satisfies the predicate, or -1 when none does |
| Lists.RemoveAt | Runtime/Containers/ThingsContainer.cs:134 | List.RemoveAt: the element at the index is gone and the others keep their order |
| Lists.RemoveFirst | Runtime/Containers/ObjectContainer.cs:82 | List.Remove: one occurrence fewer when present, the same list when absent |
| Sorting.Insert | Runtime/Lister/Lister.cs:95 | one sorted insertion: the list plus the element, as a multiset |
| Sorting.SortBy | Runtime/Lister/Lister.cs:95 | OrderBy: a permutation of the input |
| Sorting.InsertSorted | Runtime/Lister/Lister.cs:95 | inserting into a sorted list under a total preorder keeps it sorted |
| Sorting.SortBySorted | Runtime/Lister/Lister.cs:95 | OrderBy's result is sorted |
| Sorting.SortByOfSorted | Runtime/Lister/Lister.cs:95 | OrderBy leaves a sorted list as it is |
| Sorting.Filter | Runtime/Lister/Lister.cs:94 | Where: every kept element satisfies the predicate, and every element that does is kept |
| Sorting.FilterAppend | Runtime/Lister/Lister.cs:94 | Where over a concatenation is the concatenation of the two |
| Sorting.ClassOfAppend | Runtime/Lister/Lister.cs:95 | the elements equivalent to one key, over a concatenation |
| Sorting.InsertStable | Runtime/Lister/Lister.cs:95 | a sorted insertion puts the element after those with an equal key |
| Sorting.SortByStable | Runtime/Lister/Lister.cs:95 | OrderBy is stable: elements with equal keys keep their order |
| Sorting.Reverse | Runtime/Satisfiers/Plain/Satisfier.cs:339 | the reverse list: element i is the input's element from the end |
| Listers.StrLeTotal | Runtime/Lister/Lister.cs:95 | any two keys are comparable |
| Listers.StrLeTrans | Runtime/Lister/Lister.cs:95 | the key order is transitive |
| Listers.ByCriteriaIsPreorder | Runtime/Lister/Lister.cs:95 | ordering by the criteria string is a total preorder |
| Listers.Ordered | Runtime/Lister/Lister.cs:91-97 | the non-null elements, as a multiset, sorted by criteria |
| Listers.FilterSubMultiset | Runtime/Lister/Lister.cs:94 | the filter only drops elements |
| Listers.NoDuplicatesCount | Runtime/Lister/Lister.cs:68 | an element of a duplicate-free list occurs at most once |
| Listers.RepeatCount | Runtime/Lister/Lister.cs:68 | an element at two places occurs at least twice |
| Listers.NoDuplicatesOfSub | Runtime/Lister/Lister.cs:93-96 | a sub-multiset of a duplicate-free list is duplicate-free |
| Listers.OrderedMembers | Runtime/Lister/Lister.cs:91-97 | an element is in the ordered list exactly when it is a non-null element |
| Listers.ListedOfMembers | Runtime/Lister/Lister.cs:91-97 | lists with the same non-null members list the same elements |
| Listers.OrderedListed | Runtime/Lister/Lister.cs:91-97 | ordering lists the same elements and leaves no null |
| Listers.OrderedIsStable | Runtime/Lister/Lister.cs:95 | elements with equal keys keep their order of addition |
| Listers.OrderedIdempotent | Runtime/Lister/Lister.cs:91-97 | ordering twice is ordering once |
| Listers.FilterKeepsAll | Runtime/Lister/Lister.cs:94 | a list without nulls passes the filter whole |
| Listers.DefaultKeepsAdditionOrder | Runtime/Lister/Lister.cs:116 | with the default criteria, ordering only drops the nulls and keeps the order of addition |
| Listers.WithItemListed | Runtime/Lister/Lister.cs:68-71 | the Contains-guarded append lists the item as well and adds no duplicate |
| Listers.RemoveFirstMembers | Runtime/Lister/Lister.cs:83 | removing from a duplicate-free list drops exactly the item |
| Listers.RemoveFirstListed | Runtime/Lister/Lister.cs:83 | removing lists every element but the item, with no duplicate |
| Listers.OrderedNoDuplicates | Runtime/Lister/Lister.cs:91-97 | ordering a duplicate-free list keeps it duplicate-free |
| Listers.AddListableLists | Runtime/Lister/Lister.cs:66-75 | after AddListable the registry lists the old elements plus the item, each once |
| Listers.RemoveListableUnlists | Runtime/Lister/Lister.cs:81-86 | after RemoveListable the registry lists the old elements without the item, each once |
| Listers.DefaultKeepsListOfSome | Runtime/Lister/Lister.cs:116 | the default criteria leaves a null-free list as it is |
| Listers.DefaultOrderOfTwo | Runtime/Lister/Lister.cs:66-116 | adding e2 then e1 under the default criteria lists [e2, e1] |
| Listers.Registry.constructor | Runtime/Lister/Lister.cs:116-128 | the static fields start empty: no element, no criteria, no callbacks |
| Listers.Registry.Include | Runtime/Lister/Lister.cs:68-71 | the item is appended unless it is already there; nothing else changes |
| Listers.Registry.NotifyAdd | Runtime/Lister/Lister.cs:74 | OnAdd fires once when it is set; nothing else changes |
| Listers.Registry.NotifyRemove | Runtime/Lister/Lister.cs:85 | OnRemove fires once when it is set; nothing else changes |
| Listers.Registry.Remove | Runtime/Lister/Lister.cs:83 | the first occurrence of the item is removed; nothing else changes |
| Listers.Lister.constructor | Runtime/Lister/Lister.cs:47-50 | the shared criteria becomes the given one, or the default; the shared elements and callbacks are unchanged; no siblings |
| Listers.Lister.OrderListables | Runtime/Lister/Lister.cs:91-97 | the shared elements become Ordered of the old ones |
| Listers.Lister.Sync | Runtime/Lister/Lister.cs:55-60 | the shared elements are ordered and the siblings become a copy of them |
| Listers.Lister.AddListable | Runtime/Lister/Lister.cs:66-75 | the item is appended unless present, the list ordered and copied to the siblings, and OnAdd fires once when set |
| Listers.Lister.RemoveListable | Runtime/Lister/Lister.cs:81-86 | the item's first occurrence is removed, the list ordered and copied to the siblings, and OnRemove fires once when set |
| Listers.Lister.OrderedElements | Runtime/Lister/Lister.cs:103-109 | the ordered elements, without changing them; ArgumentNull while no lister has set a criteria |
| Shires.OrderIsTextual | Runtime/Shire/Shire.cs:30-33 | the order criteria compares text: order 10 is listed before order 2 |
| Shires.OrderCriteria | Runtime/Shire/Shire.cs:30-33 | the criteria maps each asset to the text of its order, from which the order is read back for every 32-bit order |
| Shires.Shire.constructor | Runtime/Things/ScriptableThing.cs:14 | a new asset is in use with order -1, and its field-initialised lister resets the shared criteria to the default one |
| Shires.Shire.ListerSerialization | Runtime/Shire/Shire.cs:14-24 | an asset in use is added to the ordered registry, one not in use is removed; a null lister throws |
| Shires.Shire.OnDestroy | Runtime/Shire/Shire.cs:25-29 | the asset is marked unused and removed, so it is no longer listed |
| Shires.Shire.Enable | Runtime/Shire/Shire.cs:34-41 | a new lister installs the order-text criteria, then the asset is listed when in use, or removed when not |
| Progresses.ProgressOf | Runtime/Models/Progress.cs:29-37 | the progress value is 1 without requirements; otherwise it is 0 until every requirement is reached and exactly 1 when all are, because the division is an integer one |
| Progresses.Quotient | Runtime/Models/Progress.cs:35 | the integer quotient is 0 below the divisor, 1 at the divisor and at least 1 above it |
| Progresses.QuotientIsFloor | Runtime/Models/Progress.cs:35 | the quotient is the floor of the division: q * b <= a < (q + 1) * b |
| Progresses.FlagsOf | Runtime/Models/Progress.cs:120-122 | one flag per requirement, set exactly when the requirement exists and is satisfied |
| Progresses.Pick | Runtime/Models/Progress.cs:128 | the requirements at the collected places, in the order of the places |
| Progresses.ScanBounded | Runtime/Models/Progress.cs:118-137 | the scan collects only places inside the list |
| Progresses.Scan | Runtime/Models/Progress.cs:118-137 | every collected place is a place of the list |
| Progresses.Range | Runtime/Models/Progress.cs:154-157 | the consecutive places from a up to b |
| Progresses.RunEnd | Runtime/Models/Progress.cs:154 | the first place at or after i whose requirement is not satisfied (or the end), with every place before it satisfied |
| Progresses.RunEndIs | Runtime/Models/Progress.cs:154 | that place is unique: any e with a satisfied run before it and an unsatisfied place at it is RunEnd |
| Progresses.ScanAfterGap | Runtime/Models/Progress.cs:124-127 | once the scan of a linear progression is two places past the reached index it stops and collects nothing more |
| Progresses.ScanRun | Runtime/Models/Progress.cs:118-137 | from the place after the reached one, the linear scan collects exactly the run of satisfied requirements and reaches its last place |
| Progresses.LinearScanCollectsRun | Runtime/Models/Progress.cs:118-137 | a linear progression collects exactly the first run of satisfied requirements (starting at place 0, or place 1 when place 0 is unsatisfied) and nothing after a gap |
| Progresses.WhereListsSatisfied | Runtime/Models/Progress.cs:118-137 | the satisfied places from i, increasing, each one listed exactly when satisfied |
| Progresses.ScanCollectsAll | Runtime/Models/Progress.cs:118-137 | without linear progression the scan appends every satisfied place and ends at the last of them |
| Progresses.NonLinearScanCollectsAll | Runtime/Models/Progress.cs:118-137 | a non-linear progression collects a place if and only if its requirement is satisfied, in increasing order, and reaches the last one collected |
| Progresses.Rising | Runtime/Models/Progress.cs:154-157 | the k-th satisfy check of a run sees the progress value with k + 1 more requirements reached |
| Progresses.SatisfyRisingChecksEach | Runtime/Models/Progress.cs:154-166 | the checks of a run are the satisfy-all of the container over those rising values, in order |
| Progresses.SliceGrows | Runtime/Models/Progress.cs:154-157 | appending the next requirement of the run extends the appended slice by one place |
| Progresses.Falling | Runtime/Models/Progress.cs:182-185 | the k-th unsatisfy check of a regression sees the progress value with k + 1 fewer requirements reached |
| Progresses.UnsatisfyFallingTouchesOnlyHit | Runtime/Models/Progress.cs:182-197 | the unsatisfy checks of a regression keep the watched values and change only those it passes through |
| Progresses.OddPlaces | Runtime/Models/Progress.cs:182-185 | the elements at the odd places of a list, in order |
| Progresses.SkipRemoveKeepsOddPlaces | Runtime/Models/Progress.cs:182-185 | the linear regression loop as written keeps the prefix before the regressed requirement and every second requirement after it |
| Progresses.RegressKeepsSecondOfThree | Runtime/Models/Progress.cs:182-185 | regressing the first of three reached requirements leaves the second one reached |
| Progresses.Progress.constructor | Runtime/Models/Progress.cs:87-93 | a progression over the given requirements with nothing reached, reached index 0 and no watched threshold |
| Progresses.Progress.CheckProgress | Runtime/Models/Progress.cs:111-143 | null requirements are filtered out; the reached list is the scan of the satisfied flags (a run for a linear progression, all of them otherwise) with its reached index; a watched current progress is satisfied |
| Progresses.Progress.CollectReached | Runtime/Models/Progress.cs:118-137 | the loop of CheckProgress collects the requirements the scan selects and sets the reached index it ends with |
| Progresses.Progress.Reset | Runtime/Models/Progress.cs:113-116 | the reached list is emptied, the reached index is 0 and the null requirements are filtered out |
| Progresses.Progress.Collect | Runtime/Models/Progress.cs:128-130 | the requirement at i is appended to the reached list and i becomes the reached index |
| Progresses.Progress.SatisfyCurrent | Runtime/Models/Progress.cs:139-142 | the current progress is satisfied if watched, and nothing else changes |
| Progresses.Progress.DoProgress | Runtime/Models/Progress.cs:148-161 | an unknown requirement, or one too far ahead in a linear progression, changes nothing; otherwise the run of satisfied requirements from it is appended, each with a satisfy check at the rising progress, and the reached index becomes the run's last place (a null requirement after the run throws before that) |
| Progresses.Progress.CurrentProgress | Runtime/Models/Progress.cs:29-37 | 1 without requirements; otherwise the integer ratio of reached to total requirements: 0 until all are reached, then 1 |
| Progresses.Progress.ProgressFrom | Runtime/Models/Progress.cs:154-159 | the loop of DoProgress appends the run from start and sets the reached index to its last place |
| Progresses.Progress.RunFrom | Runtime/Models/Progress.cs:154-157 | the loop stops at the end of the run of satisfied requirements, having appended every one of them |
| Progresses.Progress.StartsRunning | Runtime/Models/Progress.cs:154 | the loop invariant holds before the first iteration |
| Progresses.Progress.Advance | Runtime/Models/Progress.cs:156 | one iteration keeps the loop invariant with one more requirement appended |
| Progresses.Progress.MoreProgress | Runtime/Models/Progress.cs:162-167 | the requirement is appended to the reached list and the new progress value is checked for satisfaction |
| Progresses.Progress.SatisfyOnChange | Runtime/Models/Progress.cs:166 | the container's satisfy check for the value, with the progression's lists unchanged |
| Progresses.Progress.UnsatisfyOnChange | Runtime/Models/Progress.cs:197 | the container's unsatisfy check for the value, with the progression's lists unchanged |
| Progresses.Progress.Append | Runtime/Models/Progress.cs:164 | the requirement is appended to the reached list and nothing else changes |
| Progresses.Progress.SetReached | Runtime/Models/Progress.cs:159 | the reached index takes the value and nothing else changes |
| Progresses.Progress.Regress | Runtime/Models/Progress.cs:172-192 | a requirement not reached changes nothing; otherwise the reached index becomes the place before it; a linear progression removes with the skipping loop as written (see Findings), a non-linear one removes just that requirement, each removal followed by an unsatisfy check at the falling progress |
| Progresses.Progress.RemoveSkipping | Runtime/Models/Progress.cs:182-185 | the loop of the linear Regress as written: removal at i then i + 1, and so on, with one unsatisfy check per removal |
| Progresses.Progress.SkipStep | Runtime/Models/Progress.cs:184 | one iteration of that loop removes one requirement and keeps its invariant |
| Progresses.Progress.RegressTruncating | Runtime/Models/Progress.cs:172-192 | the linear Regress as intended: the regressed requirement and every one after it leave the reached list, one unsatisfy check per removal |
| Progresses.Progress.RemoveRest | Runtime/Models/Progress.cs:182-185 | the intended loop always removes at the same place until the reached list is cut back to its first start elements |
| Progresses.Progress.TruncateStep | Runtime/Models/Progress.cs:184 | one iteration of the intended loop removes the element at start and keeps its invariant |
| Progresses.Progress.LessProgress | Runtime/Models/Progress.cs:193-198 | the requirement at the index leaves the reached list and the new progress value is checked for unsatisfaction |
| Progresses.Progress.Drop | Runtime/Models/Progress.cs:196 | the element at the index leaves the reached list and nothing else changes |
| Progresses.Progress.Watch | Runtime/Models/Progress.cs:205-209 | the threshold is watched by the satisfier with the two events and the feedback is the current progress |
| Progresses.Progress.Unwatch | Runtime/Satisfiers/OSatisfier.cs:152-157 | the threshold is no longer watched by the satisfier |
| Requirements.EnableAddsOneListener | Runtime/Requirements/Requirement.cs:84-105 | enabling gives the requirement both events, creating a missing one, and adds one listener to each; the satisfied flag is untouched |
| Requirements.EnableThenDisable | Runtime/Requirements/Requirement.cs:84-117 | enabling then disabling leaves both events in place with no listener and the satisfied flag as it was |
| Requirements.DisableCreatesNothing | Runtime/Requirements/Requirement.cs:107-117 | disabling creates no event and leaves a missing event's listener count alone |
| Requirements.SatisfyThenUnsatisfy | Runtime/Requirements/Requirement.cs:135-151 | Satisfy sets the flag and Unsatisfy clears it; the pair fires each existing trigger once and changes nothing else |
| Requirements.Requirement.constructor | Runtime/Requirements/Requirement.cs:11-20 | a new requirement is unsatisfied with no event, no trigger and no listener |
| Requirements.Requirement.InitializeWith | Runtime/Requirements/Requirement.cs:60-67 | the flag and both triggers take the given values and two new events without listeners are created |
| Requirements.Requirement.Initialize | Runtime/Requirements/Requirement.cs:73-78 | the flag takes the value, the satisfied trigger and the satisfy event are cleared, and the unsatisfy side is left as it was |
| Requirements.Requirement.Enable | Runtime/Requirements/Requirement.cs:84-105 | each event is created when missing and gets one more listener |
| Requirements.Requirement.Disable | Runtime/Requirements/Requirement.cs:107-117 | each existing event loses the requirement's listener |
| Requirements.Requirement.Satisfy | Runtime/Requirements/Requirement.cs:135-139 | the flag is set and the satisfied trigger, when present, fires once |
| Requirements.Requirement.Unsatisfy | Runtime/Requirements/Requirement.cs:147-151 | the flag is cleared and the unsatisfied trigger, when present, fires once |
| Requirements.Requirement.OnSatisfied | Runtime/Requirements/Requirement.cs:44 | the satisfied trigger, created on first use and the same one afterwards |
| Requirements.Requirement.OnUnsatisfied | Runtime/Requirements/Requirement.cs:49 | the unsatisfied trigger, created on first use and the same one afterwards |
| ReferenceRequirements.EnableNeverUnsatisfies | Runtime/Requirements/Generics/ReferenceRequirement.cs:26-33 | enabling never clears the flag; with an item it is set exactly when it was set or the feedback is not 0 (a missing satisfier counts as not 0); without an item nothing changes |
| ReferenceRequirements.DefaultFeedbackOfNewItem | Runtime/Satisfiers/OSatisfier.cs:125-146 | the feedback of watching an item is 0 for an item not watched before and its satisfied count otherwise |
| ReferenceRequirements.ReferenceRequirement.Initialize | Runtime/Requirements/Generics/ReferenceRequirement.cs:16-21 | the requirement is initialised with the flag and triggers, and remembers the collection and the item |
| ReferenceRequirements.ReferenceRequirement.WatchItem | Runtime/Requirements/Generics/ReferenceRequirement.cs:30 | the item is watched through the collection when there is one, giving its feedback; without one there is no feedback and nothing is watched |
| ReferenceRequirements.ReferenceRequirement.Enable | Runtime/Requirements/Generics/ReferenceRequirement.cs:26-33 | the base enabling, then, with an item, the watch and a Satisfy when the feedback is not 0 |
| ReferenceRequirements.ReferenceRequirement.SatisfyOnWatch | Runtime/Requirements/Generics/ReferenceRequirement.cs:30-31 | the watch of the item and the Satisfy that follows a non-zero feedback |
| ReferenceRequirements.ReferenceRequirement.SatisfyOnFeedback | Runtime/Requirements/Generics/ReferenceRequirement.cs:30-31 | Satisfy exactly when the feedback is not 0 |
| ReferenceRequirements.ReferenceRequirement.Disable | Runtime/Requirements/Generics/ReferenceRequirement.cs:35-40 | the base disabling, then the item is no longer watched by the collection |
| ReferenceRequirements.ReferenceRequirement.UnwatchItem | Runtime/Requirements/Generics/ReferenceRequirement.cs:38-39 | with an item and a collection, the item is unwatched; otherwise nothing changes |
| StackRequirements.StackStepsAreMonotone | Runtime/Requirements/Generics/StackRequirement.cs:15-35 | a stack Satisfy counts one up and a stack Unsatisfy one down; the first sets the flag once the count reaches the required quantity and never clears it, the second never sets it |
| StackRequirements.StackSatisfiedTimesReaches | Runtime/Requirements/Generics/StackRequirement.cs:15-21 | n stack satisfactions add n to the count and set the flag exactly when the count reaches the required quantity; below it nothing else changes |
| StackRequirements.ThirdSatisfyCounts | Runtime/Requirements/Generics/StackRequirement.cs:15-21 | with 3 required, the first two satisfactions change only the count and the third satisfies |
| StackRequirements.EnableSettlesOnQuantity | Runtime/Requirements/Generics/StackRequirement.cs:44-59 | after enabling, the count is the watch feedback (0 without a satisfier) and the requirement is satisfied exactly when it reaches the required quantity; a missing satisfier can still fire both triggers on the way |
| StackRequirements.StackRequirement.Initialize | Runtime/Requirements/Generics/ReferenceRequirement.cs:16-21 | the reference requirement's initialisation, with the required quantity given and a count of 0 |
| StackRequirements.StackRequirement.Satisfy | Runtime/Requirements/Generics/StackRequirement.cs:15-21 | the count goes up by one and the base Satisfy runs once it reaches the required quantity |
| StackRequirements.StackRequirement.Unsatisfy | Runtime/Requirements/Generics/StackRequirement.cs:29-35 | the count goes down by one and the base Unsatisfy runs while it is below the required quantity |
| StackRequirements.StackRequirement.Enable | Runtime/Requirements/Generics/StackRequirement.cs:44-59 | the reference enabling (whose Satisfy is the stack one), then a second watch whose feedback becomes the count, then the base Satisfy or Unsatisfy by the count |
| StackRequirements.StackRequirement.WatchTwice | Runtime/Requirements/Generics/StackRequirement.cs:46-58 | the two watches of Enable and the settling between and after them |
| StackRequirements.StackRequirement.BaseEnable | Runtime/Requirements/Requirement.cs:84-105 | the Requirement enabling, leaving the watched items alone |
| StackRequirements.StackRequirement.SatisfyOnWatch | Runtime/Requirements/Generics/ReferenceRequirement.cs:30-31 | the first watch, followed by the stack Satisfy when its feedback is not 0 |
| StackRequirements.StackRequirement.SatisfyOnFeedback | Runtime/Requirements/Generics/ReferenceRequirement.cs:30-31 | the stack Satisfy exactly when the feedback is not 0 |
| StackRequirements.StackRequirement.SettleOnWatch | Runtime/Requirements/Generics/StackRequirement.cs:49-57 | the second watch sets the count to its feedback, then the flag is settled by the count |
| StackRequirements.StackRequirement.Settle | Runtime/Requirements/Generics/StackRequirement.cs:50-57 | the count takes the value and the base Satisfy runs when it reaches the required quantity, the base Unsatisfy otherwise |
| ValueRequirements.EnableSatisfiesIffValueReaches | Runtime/Requirements/Generics/ValueRequirement.cs:29-36 | over a built container, enabling satisfies exactly when the requirement was satisfied or some entry of the key holds a value at least the required one; without a container nothing changes |
| ValueRequirements.ValueRequirement.Initialize | Runtime/Requirements/Generics/ValueRequirement.cs:17-23 | the requirement is initialised with the flag and triggers, and remembers the container, the key and the value |
| ValueRequirements.ValueRequirement.Enable | Runtime/Requirements/Generics/ValueRequirement.cs:29-36 | the base enabling, then, with a key and a container, the key/value pair is watched and a feedback of 0 or more satisfies; the container's exceptions pass through |
| ValueRequirements.ValueRequirement.SatisfyOnWatch | Runtime/Requirements/Generics/ValueRequirement.cs:33-34 | the watch of the pair and the Satisfy that follows a feedback of 0 or more |
| ValueRequirements.ValueRequirement.WatchPair | Runtime/Requirements/Generics/ValueRequirement.cs:33 | the container watches the pair and answers with its feedback, its entries untouched |
| ValueRequirements.ValueRequirement.SatisfyOnFeedback | Runtime/Requirements/Generics/ValueRequirement.cs:33-34 | Satisfy exactly when the feedback is 0 or more and no exception was thrown |
| ValueRequirements.ValueRequirement.Disable | Runtime/Requirements/Generics/ValueRequirement.cs:38-45 | the base disabling, then the pair is no longer watched by the container |
| ValueRequirements.ValueRequirement.UnwatchPair | Runtime/Requirements/Generics/ValueRequirement.cs:41-44 | with a key and a container, the pair is unwatched; otherwise nothing changes |
| PriceRequirements.WalletAnswer | Runtime/Models/Numismatic.cs:307-311 | the wallet's feedback is 1 exactly when it can afford the price and -1 exactly when it cannot |
| PriceRequirements.EnableSettlesOnAffordability | Runtime/Requirements/Concretes/PriceRequirement.cs:27-36 | after enabling, the requirement is satisfied exactly when there is a wallet that affords the price, and exactly one trigger has fired; without a price nothing changes |
| PriceRequirements.PriceRequirement.Initialize | Runtime/Requirements/Concretes/PriceRequirement.cs:17-22 | the requirement is initialised with the flag and triggers, and remembers the wallet and the price |
| PriceRequirements.PriceRequirement.Enable | Runtime/Requirements/Concretes/PriceRequirement.cs:27-36 | the base enabling, then, with a price, the wallet watches it and the requirement is satisfied on a feedback of 1 and unsatisfied otherwise (also without a wallet) |
| PriceRequirements.PriceRequirement.SettleOnWatch | Runtime/Requirements/Concretes/PriceRequirement.cs:31-35 | the watch of the price and the settling on its feedback |
| PriceRequirements.PriceRequirement.WatchTarget | Runtime/Requirements/Concretes/PriceRequirement.cs:31 | the wallet watches the price and answers whether it can afford it, its value untouched |
| PriceRequirements.PriceRequirement.Settle | Runtime/Requirements/Concretes/PriceRequirement.cs:31-35 | Satisfy on a feedback of 1, Unsatisfy on anything else or none |
| PriceRequirements.PriceRequirement.Disable | Runtime/Requirements/Concretes/PriceRequirement.cs:38-43 | the base disabling, then the wallet no longer watches the price |
| PriceRequirements.PriceRequirement.UnwatchTarget | Runtime/Requirements/Concretes/PriceRequirement.cs:41-42 | the wallet unwatches the price |
| ProgressRequirements.EnableSettlesOnThreshold | Runtime/Requirements/Concretes/ProgressRequirement.cs:8-19 | after enabling, the requirement is satisfied exactly when there is a progression whose progress reaches the threshold; a non-zero progress fires the satisfied trigger twice |
| ProgressRequirements.EnableWithoutProgressFiresBoth | Runtime/Requirements/Concretes/ProgressRequirement.cs:8-19 | without a progression, enabling satisfies (the missing feedback is not 0) and then unsatisfies, firing both triggers |
| ProgressRequirements.ThresholdNeedsEveryRequirement | Runtime/Models/Progress.cs:29-37 | a threshold in (0, 1] is reached exactly when every requirement of the progression is reached |
| ProgressRequirements.WatchTwiceIsOnce | Runtime/Satisfiers/OSatisfier.cs:125-146 | watching the same threshold twice with the same events gives the same feedback and changes nothing the second time |
| ProgressRequirements.UnwatchTwiceIsOnce | Runtime/Satisfiers/OSatisfier.cs:152-157 | a second unwatch of the same threshold finds nothing and changes nothing |
| ProgressRequirements.ProgressRequirement.Initialize | Runtime/Requirements/Generics/ReferenceRequirement.cs:16-21 | the requirement is initialised with the flag and triggers, and remembers the progression and the threshold |
| ProgressRequirements.ProgressRequirement.Enable | Runtime/Requirements/Concretes/ProgressRequirement.cs:8-19 | the reference enabling, then a second watch, then Satisfy when the progress reaches the threshold and Unsatisfy otherwise |
| ProgressRequirements.ProgressRequirement.Settle | Runtime/Requirements/Concretes/ProgressRequirement.cs:10-18 | the two settlings of Enable over the same watch |
| ProgressRequirements.ProgressRequirement.ReferencePart | Runtime/Requirements/Generics/ReferenceRequirement.cs:29-32 | the reference part: the threshold is watched and Satisfy runs on a non-zero progress or a missing progression |
| ProgressRequirements.ProgressRequirement.ThresholdPart | Runtime/Requirements/Concretes/ProgressRequirement.cs:11-18 | the threshold part: the threshold is watched again and the requirement settles by comparing the progress to it |
| ProgressRequirements.ProgressRequirement.WatchItem | Runtime/Requirements/Concretes/ProgressRequirement.cs:11 | the progression watches the threshold and answers its current progress; without one there is no feedback |
| ProgressRequirements.ProgressRequirement.Disable | Runtime/Requirements/Concretes/ProgressRequirement.cs:21-25 | the base disabling, then the progression no longer watches the threshold |
| Steps.PreviousSlot | Runtime/Shire/Concretes/Step.cs:45-46 | the sibling before the level's order when that place exists, and nothing otherwise |
| Steps.NextSlot | Runtime/Shire/Concretes/Step.cs:48-49 | the sibling after the level's order when that place exists, and nothing otherwise |
| Steps.ReachedOrders | Runtime/Shire/Concretes/Step.cs:33-36 | Reached is a total preorder on levels: reflexive, total and transitive, and two levels reach each other exactly when they need the same experience |
| Steps.Step.Reached | Runtime/Shire/Concretes/Step.cs:33-36 | every level reaches itself, and a level that does not reach another starts below it in experience |
| Steps.Step.constructor | Runtime/Shire/Concretes/Step.cs:6-13 | a new level is neither first nor last, has no neighbours and order -1, and holds the given experience bounds and points |
| Steps.Step.RequiredExp | Runtime/Shire/Concretes/Step.cs:17 | the experience from this level to the next: added to this level's experience it gives the next level's, and it is non-negative exactly when the bounds are ordered |
| Steps.Step.ComputeExpForNext | Runtime/Shire/Concretes/Step.cs:73-77 | the sum of the two bounds: the required experience plus twice this level's, so it is the next level's start only for a level starting at 0 and differs from it by this level's start otherwise, overshooting for a positive start (not the required experience the comment suggests) |
| Steps.Step.FindSiblings | Runtime/Shire/Concretes/Step.cs:43-71 | the neighbours are read from the sibling list by order; a first level gets order 0 and no previous one; a last level no next one; each neighbour found is linked back to this level and keeps everything else; an order below -1 throws at the sibling index and a missing neighbour at its link |
| Characters.WalkStop | Runtime/Entities/Concretes/Character.cs:164-167 | the first level of the chain that is the last one or needs more experience than the character has; every level before it is passed |
| Characters.WalkStopMonotonic | Runtime/Entities/Concretes/Character.cs:164-167 | more starting experience never stops the walk at an earlier level |
| Characters.WalkStopEarned | Runtime/Entities/Concretes/Character.cs:164-167 | in a chain whose levels start where the previous one ends, the level the walk stops at (past the first) needs no more experience than the character has |
| Characters.Character.constructor | Runtime/Entities/Concretes/Character.cs:111-125 | a new character has the default name, no class, no experience, no level and no level-up event |
| Characters.Character.FromParts | Runtime/Entities/Concretes/Character.cs:133-159 | the character takes exactly the given name, class, experience, level and event |
| Characters.Character.Create | Runtime/Entities/Concretes/Character.cs:133-168 | the chosen name and class win over the builder's, experience and event come from the builder, and the level is the one the walk stops at; a missing builder, a missing level or a walk past the last level throws |
| Characters.Character.WalkLevels | Runtime/Entities/Concretes/Character.cs:164-167 | the level moves along the chain to where the walk stops and nothing else changes; falling off the end of the chain throws |
| Characters.Character.AdvanceLevel | Runtime/Entities/Concretes/Character.cs:94-106 | a last level stays and gives 0 points; otherwise the level moves to the next one, the level-up event fires and its points are returned; a missing level throws |
| ThingSerializers.ThingId.constructor | Runtime/Serializer/ThingID.cs:42-56 | the identifier carries the given text |
| ThingSerializers.Thing.constructor | Runtime/Things/ScriptableThing.cs:13 | a thing of the given type without an identifier |
| ThingSerializers.RegisterView | Runtime/Serializer/ThingSerializer.cs:31-54 | registering adds the thing under its identifier, or under a new one when the identifier belongs to another thing; a thing already registered under its identifier changes nothing; a new identifier that is taken throws |
| ThingSerializers.UnregisterView | Runtime/Serializer/ThingSerializer.cs:60-70 | the entry is removed exactly when the identifier is registered to this thing; otherwise nothing changes |
| ThingSerializers.RegisterFinds | Runtime/Serializer/ThingSerializer.cs:31-54 | after a registration that does not throw, the thing is found under its identifier |
| ThingSerializers.RegisterKeeps | Runtime/Serializer/ThingSerializer.cs:31-54 | registering never removes or replaces an existing entry |
| ThingSerializers.RegisterTwice | Runtime/Serializer/ThingSerializer.cs:31-54 | registering the same thing again under its identifier adds nothing |
| ThingSerializers.UnregisterUndoesRegister | Runtime/Serializer/ThingSerializer.cs:31-70 | unregistering a thing just added gives back the registry as it was |
| ThingSerializers.Persist | Runtime/Serializer/ISerializableThing.cs:8-11 | a thing without an identifier gets a new one; an existing identifier is kept |
| ThingSerializers.OnDuplicate | Runtime/Serializer/ISerializableThing.cs:13-16 | the thing always gets a new identifier |
| ThingSerializers.ThingSerializer.constructor | Runtime/Serializer/ThingSerializer.cs:11 | an empty registry, with the shared empty identifier of Guid.Empty |
| ThingSerializers.ThingSerializer.Get | Runtime/Serializer/ThingSerializer.cs:18-24 | nothing for a missing or empty identifier or an unknown text, otherwise the registered thing |
| ThingSerializers.ThingSerializer.Register | Runtime/Serializer/ThingSerializer.cs:31-54 | a null thing is not registered; otherwise the registry becomes the registration view and the thing's identifier is the one it was registered under |
| ThingSerializers.ThingSerializer.Unregister | Runtime/Serializer/ThingSerializer.cs:60-70 | the registry becomes the unregistration view; a null thing or identifier throws |
| EntitySerializers.IndexOfId | Runtime/Serializer/IThingSerializer.cs:53 | the first slot holding the identifier object |
| EntitySerializers.SlotsOfSynced | Runtime/Serializer/IThingSerializer.cs:21-57 | after a sync, every slot of GetAll's array gives back the object it was built from |
| EntitySerializers.Gather | Runtime/Serializer/IThingSerializer.cs:50-54 | each identifier's thing lands at the first slot holding that identifier; the other slots stay empty |
| EntitySerializers.EntitySerializer.Register | Runtime/Serializer/IThingSerializer.cs:13-19 | every object gets registered, and no existing entry is lost; a duplicate identifier throws |
| EntitySerializers.EntitySerializer.Sync | Runtime/Serializer/IThingSerializer.cs:21-42 | after registering, the identifier list has one entry per object: a new copy of the object's identifier, or the empty identifier for a null slot |
| EntitySerializers.EntitySerializer.IdCopies | Runtime/Serializer/IThingSerializer.cs:30-41 | the loop of Sync builds those identifiers, distinct objects for distinct non-null slots |
| EntitySerializers.EntitySerializer.GetAll | Runtime/Serializer/IThingSerializer.cs:44-57 | a missing or stale identifier list is synced first, and the array then holds the objects themselves; a current list is used as it is and the registry is untouched |
| SerializableEntries.Entry.constructor | Runtime/Serializer/SerializableEntry.cs:27-30 | an entry with no key, the default value and no identifier |
| SerializableEntries.Entry.WithKey | Runtime/Serializer/SerializableEntry.cs:19-22 | an entry holding the key and the value, sharing the key's identifier object |
| SerializableEntries.Entry.Create | Runtime/Serializer/SerializableEntry.cs:19-22 | as WithKey for a key; a null key throws |
| SerializableEntries.Entry.SyncKeyID | Runtime/Serializer/SerializableEntry.cs:45-79 | with a key, the key is registered and the entry takes its identifier, which then leads back to the key; without a key but with a valid identifier, the key is looked up and dropped when it is not a K; with neither, nothing changes; the value never changes |
| SerializableEntries.Entry.HasValidKey | Runtime/Serializer/SerializableEntry.cs:35 | true exactly when the key is not null |
| SerializableEntries.Entry.HasValidIdentifier | Runtime/Serializer/SerializableEntry.cs:40 | true exactly when the identifier is set, is not the empty identifier and the registry resolves it; the registry then returns that entry |
| Behaviours.BaseDoActivation | Runtime/Behaviours/Behaviour.cs:105-108 | the base behaviour never performs its action |
| Behaviours.Behaviour.constructor | Runtime/Behaviours/Behaviour.cs:11-16 | a behaviour for the given behaver with neither trigger nor requirement |
| Behaviours.Behaviour.Initialize | Runtime/Behaviours/Behaviour.cs:55-60 | the trigger, requirement and behaver take the given values |
| Behaviours.Behaviour.InvokeActivation | Runtime/Behaviours/Behaviour.cs:81-87 | the trigger fires once when there is one |
| Behaviours.Behaviour.Activate | Runtime/Behaviours/Behaviour.cs:92-100 | true exactly when both behaviours can activate and the action succeeds on the other's behaver, and then the trigger fires; a null other throws only when this behaviour can activate; with the base action it is always false |
| Behaviours.Behaviour.CanActivate | Runtime/Behaviours/Behaviour.cs:69-76 | true without a requirement; with one, true exactly when it is satisfied |
| Mappings.ThrownStays | Runtime/Shire/Mappings/Mapping.cs:46-49 | once the loop has thrown, its outcome does not change |
| Mappings.MapPrefixContents | Runtime/Shire/Mappings/Mapping.cs:45-50 | a loop that has not thrown has seen non-null distinct keys with a wrapper each, and maps each of them to its list and nothing else |
| Mappings.MapPrefixSucceeds | Runtime/Shire/Mappings/Mapping.cs:45-50 | distinct non-null keys with a wrapper each never make the loop throw |
| Mappings.MapOutcome | Runtime/Shire/Mappings/Mapping.cs:41-52 | Map succeeds if and only if every key is non-null, distinct and has a wrapper at its index; then every key maps to its list and the dictionary has one entry per key |
| Mappings.DomainSize | Runtime/Shire/Mappings/Mapping.cs:45-50 | a dictionary whose keys are exactly the distinct keys of the list has one entry per key |
| Mappings.WithoutLastKey | Runtime/Shire/Mappings/Mapping.cs:45-50 | removing the last key from the list and the dictionary keeps them in step |
| Mappings.Mapping.Map | Runtime/Shire/Mappings/Mapping.cs:41-52 | the dictionary built key by key, or the exception the loop throws first: a missing value list, a null wrapper, a null key or a repeated key |

## Where the code and the intent differ

The model follows the code wherever the two disagree, and the operations of
the model use the code as written. The corrected definitions under
"Findings" sit beside them, each with its intended property proved.

- `Listers.DefaultOrderOfTwo` follows Runtime/Lister/Lister.cs. With the
  default criteria, the sort keeps the order of addition, so adding `e2` and
  then `e1` lists `[e2, e1]`. The edit-mode test
  Tests/EditMode/Lister/ListerTest.cs:90-104 adds them in that order and
  expects `[e1, e2]`.
- `Numismatics.Numismatic.CheckUnsatisfyOnChange` walks the watched prices
  with the forward enumerator (dearest first), although its comment speaks
  of a reverse one. Dearest first is the order in which the unsatisfy walk
  is right, so the model keeps it.
- The Currency's money list is sorted with `List.Sort`, which is not
  stable. The model sorts with a stable insertion sort by rate. On a list
  with no two equal rates the two give the same list, and every list that
  AddMoney alone builds is one of those.

## Left out

- Listener plumbing: `AddListener`/`RemoveListener` on `UnityEvent`, `DataTrigger` and `EventTrigger` is outside the model. Events are references, and ghost counters record how many listeners a requirement holds and how often a trigger fires. What a listener then does is not modelled. For example, Progress registering `Regress`/`DoProgress` on its requirements is not modelled.
- Unity lifecycle: `OnEnable`, `OnDisable`, `OnDestroy` and the serialization callbacks are not triggers here. The model has the methods they call.
- Dictionary enumeration order: .NET does not specify it. Where the source scans a dictionary for an equal key, the model picks some matching key.
- Floating point: experience values, rates and wallet values are reals. Numismatic's `Convert`, its `Value` getter and setter, the quantity arithmetic of `Gain`/`Spend` and the rate helpers (Runtime/Models/Numismatic.cs:133-252) are left out. A wallet is the real value that arithmetic yields, and `CanAfford` keeps its epsilon.
- ShireBlocks.Block / Stats.Statistics.ModStat: the source's float fields of a block (`Value`, `Temp`, `ModTemp`) and the float deltas of `ChangeStat`, `AffectStat` and `ModTempStat` are integers in the model, so a fractional delta to those fields cannot be expressed. Only `ModStat` takes a real value, whose `(int)` cast and whose satisfy check on a positive fraction are modelled (`Stats.ModStatTruncates`). The round trips `Stats.ShiftBack` and `Stats.RemoveUndoesAppend` rely on exact arithmetic: under float32 rounding, adding a block and subtracting it again need not restore the old fields.
- Comparers and equality functions: they are fixed functions of the watched value. In the source they read the live fields of the watched objects.
- Strings: string order and `LastIndexOf` are ordinal, not culture-sensitive. `int.TryParse` and `int.ToString` use an invariant culture whose negative sign is '-'.
- Static state: the lister's element list, its callbacks and its criteria are one `Registry` object shared by all listers of a type. The serializer's static map is one `ThingSerializer` object passed to every caller.
- Identifiers: `Guid.NewGuid()` is random. The text of each new identifier is a parameter of the operation that creates it.
- `ThingID.EMPTY` (Runtime/Serializer/IThingSerializer.cs:39) is read as the shared empty identifier `ThingID.m_EMPTY` of Runtime/Serializer/ThingID.cs:22. The class declares no `EMPTY` member.
- Entity: `SerializableObjects` is a plain field of the entity. Character's override, which builds a new list on every read and ignores writes, is not modelled, and neither is `GetSerializedProperties`.
- Character: the constructor's `Statistics.AppendBlock` of the class's statistics is not modelled. The Entity base constructor is modelled only through the name it takes from the builder. Level.cs is not part of this model; a level is a Step.
- Characters.Character.WalkLevels: the level chain is a ghost parameter that ends with a last level or a null link. A cyclic chain of levels, on which the source's walk never ends, is excluded by that requirement.
- Characters.Character.Create: the builder is a value holding the parts the constructor reads. Builders are not part of this model.
- Step: `Enable`/`OnDisable` subscribe `Sync` to the lister's callbacks; that subscription is not modelled. `Sync` is `FindSiblings` followed by a `ComputeExpForNext` whose result is dropped, so `FindSiblings` stands for it.
- Steps.Step.FindSiblings: when a link throws, the contract states only the exception and the fields the throw cannot have touched. The links already written before the throw are not stated.
- Behaviour: the virtual `DoActivation` is a parameter of `Activate`. The `InteractionKey` field is not modelled.
- Mapping: a null `ListWrapper` is `None`. A wrapper's own list is never null, because its field is initialised to an empty list.
- SerializableEntries.Entry.SyncKeyID: the last branch of Runtime/Serializer/SerializableEntry.cs:58-62 cannot be reached, because the first test returns when neither a key nor a valid identifier exists. The model has no such branch.
- Shire: `Enable` also registers the asset in the serializer through Runtime/Things/ScriptableThing.cs:56; that registration is not part of the Shire model.
- ThingTools.EnumeratorValue: the requirement `Separable` (a non-empty separator, an endcap of at most one character, a one-character separator different from the endcap) is what every format of the window meets. Other arguments, under which `Substring` can throw, are not modelled.
- Inventory: `Buy`'s seller and price are parameters. In the source they are the object's inventory and its price converted at the buyer's rate.
- Inventories.Inventory.Buy / Trade: a purchase from the buyer itself and a seller that shares the buyer's wallet are modelled. Two distinct inventories that share a container (or whose wallets share only part of their state) are excluded by `Parties`, since each container of the model belongs to one inventory.
- Currencies.Currency.AddMoney: `InitializeWith` (Runtime/Shire/Concretes/Currency.cs:69-73) appends pieces with `AddRange` without a check, so the list can hold equal rates. The next AddMoney then sorts with the unstable `List.Sort`, and the order of the pieces of equal rate may differ from the model's stable order.
- Integer width: the satisfied counters of a bundle and `m_SatisfiedCount` are C# `int`s, which wrap at 2^31. The model counts with unbounded naturals, since a wrap would need over two billion satisfied elements.
- Null elements: the object lists of `ObjectContainer.Initialize` and of the object satisfiers are sequences of values with no null in them. In the source a null element makes `Dictionary.ContainsKey(null)` throw `ArgumentNullException`; that path is not modelled.
- Shared ShireBlocks: `Statistics.AppendBlock(other, addNew: true)` passes the other container's ShireBlock for a stat it lacks to `Add(stat, block)`, which stores that block by reference (Runtime/Models/Statistics.cs:165-168, Runtime/Containers/ThingsContainer.cs:106). After that, both containers hold the same block, and a later change through either one shows in the other. With `addNew: false`, AppendBlock only copies field values through ChangeStat, AffectStat, ModStat and ModTempStat (Runtime/Models/Statistics.cs:155-163) and shares nothing. The model (`Stats.AppendAddsUnknownStat`, `AddView`) copies the block as a value, so that aliasing is not captured.
- Satisfiers.StepOn / Satisfiers.SatisfyBundle / Satisfiers.UnsatisfyBundle: the model has one null, `None`. Watch, Unwatch and SatisfyBundle refuse `obj == null || obj.Equals(null)` (Runtime/Satisfiers/Plain/Satisfier.cs:156, 184, 252). For a UnityEngine.Object, that test also refuses a destroyed object. UnsatisfyBundle tests only `obj == null` (Runtime/Satisfiers/Plain/Satisfier.cs:288), so it still steps a destroyed object that is a key. Unity's destroyed-object equality to null is not modelled: a destroyed object is an ordinary non-null value here, and the satisfy and unsatisfy steps treat it the same way.
- Equipment items: an item is a value in the model. A change to an item's stats or usage after it is stored in an Equipment, which the source would see through the reference, is not modelled.
- Equipment: the builder constructor (Runtime/Models/Equipment.cs:73-81) is not modelled, because it copies from an EquipmentBuilder and builders are not part of this model.
- Progress: the `CurrentProgress` setter only stores the value, and `IsFinished`, `NeededProgress` and the three progress triggers are outside the modelled operations. Progress as a value is `ProgressOf`.
- Editor and runtime UI, builders and save files, colour math, logging, assembly loading and resource loading are outside the satisfier engine and the game logic, so none of them is modelled.

## Findings

| source | as written | input that shows it | evidently intended | confidence | as-written member | corrected member |
|---|---|---|---|---|---|---|
| Runtime/Models/Progress.cs:182-185 | the linear Regress removes at `index++` while the list shrinks, so every second requirement after the regressed one stays reached | a linear progression with [a, b, c] reached; `a` is unsatisfied; `b` stays in the reached list | every requirement from the regressed one on leaves the reached list (remove at the same index) | high, not executed | Progresses.RegressKeepsSecondOfThree | Progresses.Progress.RegressTruncating |
| Runtime/Models/Equipment.cs:63-71 | the slots constructor appends to the serialized default list, whose first entry has a null key, so every rebuild of the dictionary throws `ArgumentNullException` | `new Equipment(slots)` for any slots, then Toggle of an item with a usage: it throws and equips nothing | one entry with a null item per slot and no default entry | high, not executed | Equipments.SlotsEquipmentNeverToggles | Equipments.CorrectedSlotsBuild |
| Runtime/Models/Numismatic.cs:254-278 | the satisfy walk goes dearest first (the comparer is descending) and breaks at the first price the wallet cannot afford | a wallet of 5 watching prices 10 and 3: the walk stops at 10 and price 3 stays unsatisfied | walk cheapest first, satisfying every affordable price | medium, not executed | Numismatics.DearestFirstMissesCheaperPrice | Numismatics.CheapestFirstSatisfiesAffordable |
| Editor/ThingTool.cs:207-208 | the number is read from one character after the START of the separator, so a two-character separator leaves its second character in front of the digits | "Sword (3)" in the format (" (", ")") gives -1 | read from the first character after the whole separator: 3 | high, not executed | ThingTools.TwoCharSeparatorNeverParses | ThingTools.CorrectedRoundTrip |
| Runtime/Models/Equipment.cs:43-48 | Equip appends a new entry for the item's slot, even when that slot is already listed with a null item | a slot listed once (as the slots constructor or a serialized list gives), then Equip of an item for it: the list holds the slot twice and the next Toggle's dictionary rebuild throws `ArgumentException` for the duplicate key | set the item on the slot's existing entry, appending only for an unlisted slot | high, not executed | Equipments.EquipDuplicatesListedSlot | Equipments.CorrectedToggleRoundTrip |

=== FILE: behaviour.dfy ===
/**
 * Behaviour<A, O>: an action that an object of type A can perform towards
 * one of type O, gated by an optional Requirement and announced by an
 * optional trigger. Runtime/Behaviours/Behaviour.cs.
 *
 * The trigger is an `Event` reference whose invocations are counted. The
 * virtual DoActivation is a parameter of Activate: the base class's version
 * is BaseDoActivation, and a subclass passes its own.
 */
module Behaviours {
  import opened Wrappers
  import Bundles
  import Requirements

  /** DoActivation of the base class: never activates. */
  function BaseDoActivation<O>(other: O): (done: bool)
    ensures !done
  {
    false
  }

  class Behaviour<A, O> {
    var onActivation: Bundles.Event?               // onActivation
    var requirement: Requirements.Requirement?     // requirement
    var behaver: A                                 // behaver
    ghost var activations: nat                     // invocations of onActivation

    /** A new behaviour for `who`, with neither trigger nor requirement. */
    constructor (who: A)
      ensures onActivation == null && requirement == null && behaver == who && activations == 0
    {
      onActivation, requirement, behaver := null, null, who;
      activations := 0;
    }

    /** Initialize: the three fields take the given values. */
    method Initialize(trigger: Bundles.Event?, req: Requirements.Requirement?, who: A)
      modifies this
      ensures onActivation == trigger && requirement == req && behaver == who
      ensures activations == old(activations)
    {
      onActivation, requirement, behaver := trigger, req, who;
    }

    /** CanActivate: there is no requirement, or it is satisfied. */
    function CanActivate(): (r: bool)
      reads this, requirement
      ensures requirement == null ==> r
      ensures requirement != null ==> (r <==> requirement.isSatisfied)
    {
      requirement == null || requirement.isSatisfied
    }

    /** InvokeActivation: the trigger fires when there is one. */
    method InvokeActivation()
      modifies this
      ensures activations == old(activations) + (if onActivation != null then 1 else 0)
      ensures onActivation == old(onActivation) && requirement == old(requirement) && behaver == old(behaver)
    {
      if onActivation != null {
        activations := activations + 1;
      }
    }

    /**
     * Activate(other): both behaviours can activate and `doActivation` (the
     * DoActivation of this behaviour) succeeds on the other's behaver; then
     * the trigger fires and the result is true. The conditions are checked
     * in that order and stop at the first false one; a null `other` is
     * dereferenced only when this behaviour can activate.
     */
    method Activate(other: Behaviour?<O, A>, doActivation: O -> bool) returns (r: bool, err: Option<Exception>)
      modifies this
      ensures onActivation == old(onActivation) && requirement == old(requirement) && behaver == old(behaver)
      ensures err == Some(NullReference) <==> CanActivate() && other == null
      ensures err.None? ==> (r <==> CanActivate() && other.CanActivate() && doActivation(other.behaver))
      ensures err.Some? ==> !r
      ensures activations == old(activations) + (if r && onActivation != null then 1 else 0)
      // the base class's DoActivation never succeeds, so neither does its Activate
      ensures (forall o :: !doActivation(o)) ==> !r && activations == old(activations)
    {
      if !CanActivate() {
        return false, None;
      }
      if other == null {
        return false, Some(NullReference);
      }
      if other.CanActivate() && doActivation(other.behaver) {
        InvokeActivation();
        return true, None;
      }
      return false, None;
    }
  }
}

=== FILE: bundle.dfy ===
/**
 * The satisfier bundle: a watched object, the two callback events fired on
 * satisfaction and unsatisfaction, and the two counters that only go up.
 * Runtime/Satisfiers/Plain/Satisfier.cs, nested class SatisfierBundle.
 */
module Bundles {
  /**
   * A UnityEvent. Only its identity matters here: invoking it is recorded by
   * the ghost fire counters of the bundle that holds it.
   */
  class Event {
    constructor() {}
  }

  /** The observable state of one bundle; the two fire counters record callback invocations. */
  datatype BundleState<T> = BundleState(
    watched: T,
    doSatisfy: Event?,
    unSatisfy: Event?,
    satisfiedCount: int,
    unsatisfiedCount: int,
    satisfyFired: nat,
    unsatisfyFired: nat)

  /** The operations a bundle supports. */
  datatype BundleOp = SatisfyOp | UnsatisfyOp | ReplaceOp(d: Event?, u: Event?)

  /** Satisfy: fire the satisfy callback if there is one, count one satisfaction. */
  function Satisfied<T>(b: BundleState<T>): BundleState<T>
  {
    b.(satisfiedCount := b.satisfiedCount + 1,
       satisfyFired := if b.doSatisfy != null then b.satisfyFired + 1 else b.satisfyFired)
  }

  /** Unsatisfy: fire the unsatisfy callback if there is one, count one unsatisfaction. */
  function Unsatisfied<T>(b: BundleState<T>): BundleState<T>
  {
    b.(unsatisfiedCount := b.unsatisfiedCount + 1,
       unsatisfyFired := if b.unSatisfy != null then b.unsatisfyFired + 1 else b.unsatisfyFired)
  }

  function Replaced<T>(b: BundleState<T>, d: Event?, u: Event?): BundleState<T>
  {
    b.(doSatisfy := d, unSatisfy := u)
  }

  function Apply<T>(b: BundleState<T>, op: BundleOp): BundleState<T>
  {
    match op
    case SatisfyOp => Satisfied(b)
    case UnsatisfyOp => Unsatisfied(b)
    case ReplaceOp(d, u) => Replaced(b, d, u)
  }

  function ApplyAll<T>(b: BundleState<T>, ops: seq<BundleOp>): BundleState<T>
    decreases |ops|
  {
    if ops == [] then b else ApplyAll(Apply(b, ops[0]), ops[1..])
  }

  function CountOf(ops: seq<BundleOp>, op: BundleOp): nat
  {
    if ops == [] then 0 else (if ops[0] == op then 1 else 0) + CountOf(ops[1..], op)
  }

  /**
   * Over any run of operations the satisfied count grows by exactly the
   * number of Satisfy calls and the unsatisfied count by exactly the number
   * of Unsatisfy calls; the watched object never changes and each callback
   * fires at most once per call.
   */
  lemma {:induction false} CountersTrackCalls<T>(b: BundleState<T>, ops: seq<BundleOp>)
    ensures ApplyAll(b, ops).watched == b.watched
    ensures ApplyAll(b, ops).satisfiedCount == b.satisfiedCount + CountOf(ops, SatisfyOp)
    ensures ApplyAll(b, ops).unsatisfiedCount == b.unsatisfiedCount + CountOf(ops, UnsatisfyOp)
    ensures b.satisfyFired <= ApplyAll(b, ops).satisfyFired <= b.satisfyFired + CountOf(ops, SatisfyOp)
    ensures b.unsatisfyFired <= ApplyAll(b, ops).unsatisfyFired <= b.unsatisfyFired + CountOf(ops, UnsatisfyOp)
    decreases |ops|
  {
    if ops != [] {
      CountersTrackCalls(Apply(b, ops[0]), ops[1..]);
    }
  }

  /**
   * When no callback is ever installed or replaced, a callback that is present
   * fires on every call: the fire counter grows exactly like the count.
   */
  lemma {:induction false} CallbackFiresOncePerCall<T>(b: BundleState<T>, ops: seq<BundleOp>)
    requires b.doSatisfy != null
    requires forall i :: 0 <= i < |ops| ==> !ops[i].ReplaceOp?
    ensures ApplyAll(b, ops).satisfyFired - b.satisfyFired
         == ApplyAll(b, ops).satisfiedCount - b.satisfiedCount
    decreases |ops|
  {
    if ops != [] {
      CallbackFiresOncePerCall(Apply(b, ops[0]), ops[1..]);
    }
  }

  /** Satisfier.SatisfierBundle: the C# class mutated in place. */
  class SatisfierBundle<T> {
    const watched: T
    var doSatisfy: Event?
    var unSatisfy: Event?
    var satisfiedCount: int
    var unsatisfiedCount: int
    ghost var satisfyFired: nat
    ghost var unsatisfyFired: nat

    ghost function State(): BundleState<T>
      reads this
    {
      BundleState(watched, doSatisfy, unSatisfy, satisfiedCount, unsatisfiedCount, satisfyFired, unsatisfyFired)
    }

    /** The bundle a fresh watch creates: counts (0,0). */
    constructor (watchedObject: T, onSatisfy: Event?, unSatisfyEvent: Event?)
      ensures State() == BundleState(watchedObject, onSatisfy, unSatisfyEvent, 0, 0, 0, 0)
    {
      watched := watchedObject;
      doSatisfy := onSatisfy;
      unSatisfy := unSatisfyEvent;
      satisfiedCount := 0;
      unsatisfiedCount := 0;
      satisfyFired := 0;
      unsatisfyFired := 0;
    }

    /** The bundle with predefined counters. */
    constructor WithCounts(watchedObject: T, onSatisfy: Event?, unSatisfyEvent: Event?, satisfied: int, unsatisfied: int)
      ensures State() == BundleState(watchedObject, onSatisfy, unSatisfyEvent, satisfied, unsatisfied, 0, 0)
    {
      watched := watchedObject;
      doSatisfy := onSatisfy;
      unSatisfy := unSatisfyEvent;
      satisfiedCount := satisfied;
      unsatisfiedCount := unsatisfied;
      satisfyFired := 0;
      unsatisfyFired := 0;
    }

    method Satisfy()
      modifies this
      ensures State() == Satisfied(old(State()))
    {
      if doSatisfy != null {
        satisfyFired := satisfyFired + 1;
      }
      satisfiedCount := satisfiedCount + 1;
    }

    method Unsatisfy()
      modifies this
      ensures State() == Unsatisfied(old(State()))
    {
      if unSatisfy != null {
        unsatisfyFired := unsatisfyFired + 1;
      }
      unsatisfiedCount := unsatisfiedCount + 1;
    }

    method ReplaceEvents(onSatisfy: Event?, unSatisfyEvent: Event?)
      modifies this
      ensures State() == Replaced(old(State()), onSatisfy, unSatisfyEvent)
    {
      doSatisfy := onSatisfy;
      unSatisfy := unSatisfyEvent;
    }
  }
}

=== FILE: character.dfy ===
/**
 * Character: a game entity with experience points and a current level, one
 * of the linked Step levels. Runtime/Entities/Concretes/Character.cs, with
 * the name taken from the builder by Runtime/Entities/Entity.cs.
 *
 * `C` is the type of the character class assets. The builder is a value
 * holding the parts of a CharacterBuilder the constructor reads; the level
 * it names is a Step object. The level-up event is an `Event` reference
 * whose invocations are counted.
 */
module Characters {
  import opened Wrappers
  import opened Steps
  import Bundles

  /** What the constructor reads from its CharacterBuilder. */
  datatype Builder<C> = Builder(
    assignedName: string,
    cls: Option<C>,
    startingExp: real,
    level: Step?,
    onLevelUp: Bundles.Event?)

  /**
   * The levels reachable from `chain[0]`: every level but the last is not a
   * maximum level and has the following one as its next level; the last one
   * ends the links, being a maximum level or having no next level.
   */
  ghost predicate LevelChain(chain: seq<Step>)
    reads set s | s in chain
  {
    && |chain| > 0
    && (forall i | 0 <= i < |chain| - 1 :: !chain[i].isMax && chain[i].next == chain[i + 1])
    && (chain[|chain| - 1].isMax || chain[|chain| - 1].next == null)
  }

  /**
   * Where the constructor's level walk stops along a chain of levels: the
   * first level that is a maximum level or whose next threshold is above the
   * experience; |chain| when the walk runs past the last level.
   */
  ghost function WalkStop(chain: seq<Step>, exp: real): (k: nat)
    reads set s | s in chain
    ensures k <= |chain|
    ensures forall i | 0 <= i < k :: !chain[i].isMax && exp >= chain[i].expToNext
    ensures k < |chain| ==> chain[k].isMax || exp < chain[k].expToNext
    decreases |chain|
  {
    if chain == [] || chain[0].isMax || exp < chain[0].expToNext then 0
    else 1 + WalkStop(chain[1..], exp)
  }

  /** More experience never stops the walk at an earlier level. */
  lemma {:induction false} WalkStopMonotonic(chain: seq<Step>, lo: real, hi: real)
    requires lo <= hi
    ensures WalkStop(chain, lo) <= WalkStop(chain, hi)
    decreases |chain|
  {
    if chain != [] && !chain[0].isMax && lo >= chain[0].expToNext {
      WalkStopMonotonic(chain[1..], lo, hi);
    }
  }

  /**
   * Where the thresholds of a chain line up (each level starts where the one
   * before it ends), the walk stops at a level whose experience the
   * character has earned.
   */
  lemma WalkStopEarned(chain: seq<Step>, exp: real)
    requires forall i | 0 <= i < |chain| - 1 :: chain[i + 1].expToThis == chain[i].expToNext
    requires 0 < WalkStop(chain, exp) < |chain|
    ensures chain[WalkStop(chain, exp)].expToThis <= exp
  {
    var k := WalkStop(chain, exp);
    assert chain[k].expToThis == chain[k - 1].expToNext;
  }

  class Character<C> {
    var name: string              // m_Name
    var cls: Option<C>            // m_Class
    var exp: real                 // m_Exp
    var level: Step?              // m_Level
    var onLevelUp: Bundles.Event? // m_OnLevelUp
    ghost var levelUps: nat       // invocations of m_OnLevelUp

    /** Character(): the entity's default name and every field empty. */
    constructor ()
      ensures name == "Entity" && cls == None && exp == 0.0 && level == null && onLevelUp == null
      ensures levelUps == 0
    {
      name := "Entity";
      cls := None;
      exp := 0.0;
      level := null;
      onLevelUp := null;
      levelUps := 0;
    }

    /** The fields the builder constructor assigns before its level walk. */
    constructor FromParts(n: string, c: Option<C>, e: real, l: Step?, ev: Bundles.Event?)
      ensures name == n && cls == c && exp == e && level == l && onLevelUp == ev && levelUps == 0
    {
      name, cls, exp, level, onLevelUp := n, c, e, l, ev;
      levelUps := 0;
    }

    /**
     * Character(builder, chosenName, chosenClass): the chosen name and class
     * win over the builder's; experience and level come from the builder,
     * and the level is then walked forward while the character is not at a
     * maximum level and has the experience for the next one. A null builder
     * or a null level is a null dereference. `chain` is the run of levels
     * from the builder's level on.
     */
    static method Create(builder: Option<Builder<C>>, chosenName: Option<string>, chosenClass: Option<C>,
                         ghost chain: seq<Step>)
      returns (c: Character?<C>, err: Option<Exception>)
      requires builder.Some? && builder.value.level != null ==>
                 LevelChain(chain) && chain[0] == builder.value.level
      ensures builder.None? ==> c == null && err == Some(NullReference)
      ensures builder.Some? ==> c != null && fresh(c)
      ensures builder.Some? ==>
                && c.name == (if chosenName.Some? then chosenName.value else builder.value.assignedName)
                && c.cls == (if chosenClass.Some? then chosenClass else builder.value.cls)
                && c.exp == builder.value.startingExp && c.onLevelUp == builder.value.onLevelUp
                && c.levelUps == 0
      ensures builder.Some? && builder.value.level == null ==> err == Some(NullReference) && c.level == null
      ensures builder.Some? && builder.value.level != null ==>
                var k := WalkStop(chain, builder.value.startingExp);
                && (k < |chain| ==> err.None? && c.level == chain[k])
                && (k == |chain| ==> err == Some(NullReference) && c.level == null)
    {
      if builder.None? {
        return null, Some(NullReference);
      }
      var b := builder.value;
      var n := if chosenName.Some? then chosenName.value else b.assignedName;
      var k := if chosenClass.Some? then chosenClass else b.cls;
      c := new Character.FromParts(n, k, b.startingExp, b.level, b.onLevelUp);
      err := c.WalkLevels(chain);
    }

    /** The level walk of the builder constructor. */
    method WalkLevels(ghost chain: seq<Step>) returns (err: Option<Exception>)
      requires level != null ==> LevelChain(chain) && chain[0] == level
      modifies this
      ensures name == old(name) && cls == old(cls) && exp == old(exp) && onLevelUp == old(onLevelUp)
      ensures levelUps == old(levelUps)
      ensures old(level) == null ==> err == Some(NullReference) && level == null
      ensures old(level) != null ==>
                var k := WalkStop(chain, exp);
                && (k < |chain| ==> err.None? && level == chain[k])
                && (k == |chain| ==> err == Some(NullReference) && level == null)
    {
      if level == null {
        return Some(NullReference);
      }
      ghost var k := 0;
      while !level.isMax && exp >= level.expToNext
        invariant LevelChain(chain) && 0 <= k < |chain| && level == chain[k] && k <= WalkStop(chain, exp)
        invariant name == old(name) && cls == old(cls) && exp == old(exp) && onLevelUp == old(onLevelUp)
        invariant levelUps == old(levelUps)
        decreases |chain| - k
      {
        // the walk goes on, so this level is before the stop
        assert k != WalkStop(chain, exp);
        assert k < |chain| - 1 ==> level.next == chain[k + 1];
        level := level.next;
        if level == null {
          // only the last level of the chain has no next one
          assert k == |chain| - 1;
          return Some(NullReference);
        }
        k := k + 1;
      }
      err := None;
    }

    /**
     * AdvanceLevel: below the maximum level, the character moves to the next
     * level, the level-up event fires and the new level's points are
     * returned; at the maximum level nothing changes and 0 is returned.
     */
    method AdvanceLevel() returns (points: int, err: Option<Exception>)
      modifies this
      ensures name == old(name) && cls == old(cls) && exp == old(exp) && onLevelUp == old(onLevelUp)
      ensures old(level) == null ==> err == Some(NullReference) && level == null && levelUps == old(levelUps)
      ensures old(level) != null && old(level).isMax ==>
                err.None? && points == 0 && level == old(level) && levelUps == old(levelUps)
      ensures old(level) != null && !old(level).isMax ==>
                && level == old(level.next)
                && levelUps == old(levelUps) + (if onLevelUp != null then 1 else 0)
                && (level == null ==> err == Some(NullReference))
                && (level != null ==> err.None? && points == level.levelPoints)
    {
      if level == null {
        return 0, Some(NullReference);
      }
      if !level.isMax {
        level := level.next;
        if onLevelUp != null {
          levelUps := levelUps + 1;
        }
        if level == null {
          return 0, Some(NullReference);
        }
        return level.levelPoints, None;
      } else {
        return 0, None;
      }
    }
  }
}

=== FILE: csatisfier.dfy ===
/**
 * TSatisfier<K,V>: the keyed counterpart of OSatisfier. It holds a
 * ThingSatisfier created on first use and the keyed "check on change"
 * rules. Runtime/Satisfiers/CSatisfier.cs.
 */
module CSatisfiers {
  import opened Wrappers
  import opened Bundles
  import opened Satisfiers
  import opened ThingSatisfiers

  /**
   * CheckSatisfyOnChange on the nested view: an unwatched pair goes through
   * AddBundle (which may throw) and the answer is false; a watched pair is
   * satisfied and the answer is true whatever Satisfy reported.
   */
  ghost predicate ThingCheckSatisfy<K, V>(m: Nested<K, V>, m': Nested<K, V>, eq: (V, V) -> bool,
                                          key: Option<K>, value: Option<V>, r: bool, err: Option<Exception>)
  {
    if IsWatchingPair(m, eq, key, value) then
      r && err.None? &&
      (ThingStep(m, m', eq, key, value, true, false) || ThingStep(m, m', eq, key, value, false, false))
    else
      !r && (err, m') == ThingAddBundleView(m, eq, key, value)
  }

  /** CheckUnsatisfyOnChange on the nested view: nothing unless the pair is watched, then Unsatisfy. */
  ghost predicate ThingCheckUnsatisfy<K, V>(m: Nested<K, V>, m': Nested<K, V>, eq: (V, V) -> bool,
                                            key: Option<K>, value: Option<V>, r: bool)
  {
    if IsWatchingPair(m, eq, key, value) then ThingStep(m, m', eq, key, value, r, true)
    else !r && m' == m
  }

  /**
   * A satisfy check that does not throw leaves the pair watched or holding
   * a bundle of its own, and never drops a key.
   */
  lemma {:induction false} CheckSatisfyLeavesPairCovered<K, V>(m: Nested<K, V>, m': Nested<K, V>, eq: (V, V) -> bool,
                                                               k: K, v: V, r: bool, err: Option<Exception>)
    requires ThingCheckSatisfy(m, m', eq, Some(k), Some(v), r, err)
    ensures m.Keys <= m'.Keys && k in m'
    ensures r <==> IsWatchingPair(m, eq, Some(k), Some(v))
    ensures err.None? ==> r || v in m'[k]
    ensures err.Some? ==> err == Some(DuplicateKey) && k in m && v in m[k] && m' == m
  {
    if r {
      if ThingStep(m, m', eq, Some(k), Some(v), true, false) {
        StepLeavesOtherKeys(m, m', eq, Some(k), Some(v), true, false);
      } else {
        StepLeavesOtherKeys(m, m', eq, Some(k), Some(v), false, false);
      }
    } else {
      AddBundleOnlyWhenUnwatched(m, eq, k, v);
      if k !in m {
        assert !IsWatchingPair(m[k := map[]], eq, Some(k), Some(v));
      }
    }
  }

  /** An unsatisfy check never adds or removes a key or a bundle. */
  lemma {:induction false} CheckUnsatisfyKeepsKeys<K, V>(m: Nested<K, V>, m': Nested<K, V>, eq: (V, V) -> bool,
                                                         key: Option<K>, value: Option<V>, r: bool)
    requires ThingCheckUnsatisfy(m, m', eq, key, value, r)
    ensures m'.Keys == m.Keys
    ensures forall k | k in m :: m'[k].Keys == m[k].Keys
    ensures r ==> IsWatchingPair(m, eq, key, value)
  {
    if IsWatchingPair(m, eq, key, value) {
      StepLeavesOtherKeys(m, m', eq, key, value, r, true);
      if !r {
        StepChangesOneCounter(m[key.value], m'[key.value], eq, value, r, true);
      }
    }
  }

  class TSatisfier<K(==, !new), V(==, !new)> {
    var satisfier: ThingSatisfier?<K, V>
    const cmp: (V, V) -> int
    const eq: (V, V) -> bool
    ghost var Repr: set<object>

    ghost predicate Valid()
      reads this, Repr
    {
      this in Repr &&
      (satisfier == null ==> Repr == {this}) &&
      (satisfier != null ==>
         satisfier in Repr && Repr == {this} + satisfier.Repr && this !in satisfier.Repr &&
         satisfier.Valid() && satisfier.cmp == cmp && satisfier.eq == eq)
    }

    /** The watched pairs; empty while the satisfier has not been created. */
    ghost function Model(): Nested<K, V>
      reads this, Repr
      requires Valid()
    {
      if satisfier == null then map[] else satisfier.Model()
    }

    constructor (comparer: (V, V) -> int, equality: (V, V) -> bool)
      ensures Valid() && fresh(Repr) && satisfier == null
      ensures Model() == map[] && cmp == comparer && eq == equality
    {
      satisfier := null;
      cmp := comparer;
      eq := equality;
      Repr := {this};
    }

    /** Creates the satisfier if there is none; true iff it had to. */
    method EnsureSatisfier() returns (created: bool)
      requires Valid()
      modifies this
      ensures Valid() && satisfier != null && fresh(Repr - old(Repr))
      ensures created <==> old(satisfier) == null
      ensures !created ==> satisfier == old(satisfier) && Repr == old(Repr)
      ensures Model() == old(Model())
    {
      if satisfier == null {
        satisfier := new ThingSatisfier(cmp, eq);
        Repr := {this} + satisfier.Repr;
        return true;
      }
      return false;
    }

    method Watch(key: Option<K>, value: Option<V>, d: Event?, u: Event?) returns (count: int)
      requires Valid()
      modifies Repr
      ensures Valid() && satisfier != null && fresh(Repr - old(Repr))
      ensures (count, Model()) == ThingWatchView(old(Model()), key, value, d, u)
    {
      var _ := EnsureSatisfier();
      count := WatchFeedback(key, value, d, u);
    }

    /** The default feedback: the satisfied count ThingSatisfier.Watch returns. */
    method WatchFeedback(key: Option<K>, value: Option<V>, d: Event?, u: Event?) returns (count: int)
      requires Valid() && satisfier != null
      modifies Repr
      ensures Valid() && satisfier == old(satisfier) && fresh(Repr - old(Repr))
      ensures (count, Model()) == ThingWatchView(old(Model()), key, value, d, u)
    {
      count := satisfier.Watch(key, value, d, u);
      Repr := {this} + satisfier.Repr;
    }

    method Unwatch(key: Option<K>, value: Option<V>)
      requires Valid()
      modifies Repr
      ensures Valid() && satisfier != null && fresh(Repr - old(Repr))
      ensures Model() == ThingUnwatchView(old(Model()), eq, key, value).1
    {
      var created := EnsureSatisfier();
      if created {
        return;
      }
      var _ := satisfier.Unwatch(key, value);
      Repr := {this} + satisfier.Repr;
    }

    method IsWatching(key: Option<K>) returns (r: bool)
      requires Valid()
      modifies this
      ensures Valid() && satisfier != null && fresh(Repr - old(Repr))
      ensures Model() == old(Model())
      ensures r == ThingSatisfiers.IsWatchingKey(Model(), key)
    {
      var created := EnsureSatisfier();
      if created {
        return false;
      }
      r := satisfier.IsWatching(key);
    }

    method IsWatchingValue(key: Option<K>, value: Option<V>) returns (r: bool)
      requires Valid()
      modifies this
      ensures Valid() && satisfier != null && fresh(Repr - old(Repr))
      ensures Model() == old(Model())
      ensures r == ThingSatisfiers.IsWatchingPair(Model(), eq, key, value)
    {
      var created := EnsureSatisfier();
      if created {
        return false;
      }
      r := satisfier.IsWatchingValue(key, value);
    }

    method CheckSatisfyOnChange(key: Option<K>, value: Option<V>) returns (r: bool, err: Option<Exception>)
      requires Valid()
      modifies Repr
      ensures Valid() && satisfier != null && fresh(Repr - old(Repr))
      ensures ThingCheckSatisfy(old(Model()), Model(), eq, key, value, r, err)
    {
      var created := EnsureSatisfier();
      var watching := IsWatchingValue(key, value);
      if created || !watching {
        err := AddBundle(key, value);
        return false, err;
      }
      var _ := satisfier.Satisfy(key, value);
      return true, None;
    }

    /** Satisfier.AddBundle on the created satisfier. */
    method AddBundle(key: Option<K>, value: Option<V>) returns (err: Option<Exception>)
      requires Valid() && satisfier != null
      modifies Repr
      ensures Valid() && satisfier == old(satisfier) && fresh(Repr - old(Repr))
      ensures (err, Model()) == ThingAddBundleView(old(Model()), eq, key, value)
    {
      err := satisfier.AddBundle(key, value);
      Repr := {this} + satisfier.Repr;
    }

    method CheckUnsatisfyOnChange(key: Option<K>, value: Option<V>) returns (r: bool)
      requires Valid()
      modifies Repr
      ensures Valid() && satisfier != null && fresh(Repr - old(Repr))
      ensures ThingCheckUnsatisfy(old(Model()), Model(), eq, key, value, r)
    {
      var created := EnsureSatisfier();
      var watching := IsWatchingValue(key, value);
      if created || !watching {
        return false;
      }
      r := satisfier.Unsatisfy(key, value);
    }
  }
}

=== FILE: currency.dfy ===
/**
 * Currency: a list of money pieces kept sorted by rate, with at most one
 * piece per rate once pieces are only added through AddMoney.
 * Runtime/Shire/Concretes/Currency.cs.
 *
 * A Money asset is a value `Money(id, rate)`: the id stands for the
 * object reference, so two pieces are equal exactly when they are the same
 * asset. Rates are reals (the source's floats, compared with `==`).
 */
module Currencies {
  import opened Wrappers
  import opened Sorting
  import Lists

  datatype Money = Money(id: nat, rate: real)

  /** The sort key of `moneyPieces.Sort`: ascending rate. */
  predicate RateLe(a: Money, b: Money)
  {
    a.rate <= b.rate
  }

  lemma RateLeIsPreorder()
    ensures TotalPreorder(RateLe)
  {
  }

  /** No piece of the list has the rate of `m`. */
  predicate FreshRate(pieces: seq<Money>, m: Money)
  {
    forall p | p in pieces :: p.rate != m.rate
  }

  /** Rates strictly ascend along the list: it is sorted and no two pieces share a rate. */
  ghost predicate StrictlyAscending(pieces: seq<Money>)
  {
    forall i, j | 0 <= i < j < |pieces| :: pieces[i].rate < pieces[j].rate
  }

  /**
   * AddMoney on a list: a null piece, a piece already present or a piece
   * whose rate is taken is refused; otherwise the piece is appended and the
   * list sorted by rate.
   */
  function AddMoneyView(pieces: seq<Money>, money: Option<Money>): (r: (bool, seq<Money>))
    ensures r.0 <==> money.Some? && money.value !in pieces && FreshRate(pieces, money.value)
    ensures !r.0 ==> r.1 == pieces
    ensures r.0 ==> |r.1| == |pieces| + 1 && SortedBy(r.1, RateLe) &&
                    multiset(r.1) == multiset(pieces) + multiset{money.value}
  {
    if money.None? then (false, pieces)
    else if money.value !in pieces && FreshRate(pieces, money.value) then
      RateLeIsPreorder();
      SortBySorted(pieces + [money.value], RateLe);
      (true, SortBy(pieces + [money.value], RateLe))
    else (false, pieces)
  }

  /** RemoveMoney on a list: a null piece is refused; otherwise List.Remove. */
  function RemoveMoneyView(pieces: seq<Money>, money: Option<Money>): (r: (bool, seq<Money>))
    ensures r.0 <==> money.Some? && money.value in pieces
    ensures !r.0 ==> r.1 == pieces
    ensures r.0 ==> |r.1| == |pieces| - 1 && multiset(r.1) == multiset(pieces) - multiset{money.value}
  {
    if money.None? then (false, pieces)
    else (money.value in pieces, Lists.RemoveFirst(pieces, money.value))
  }

  /** Inserting a piece of a fresh rate into a strictly ascending list keeps it strictly ascending. */
  lemma {:induction false} InsertKeepsStrict(s: seq<Money>, m: Money)
    requires StrictlyAscending(s) && FreshRate(s, m)
    ensures StrictlyAscending(Insert(s, m, RateLe))
    decreases |s|
  {
    if s == [] || RateLe(s[|s| - 1], m) {
      assert s == [] || s[|s| - 1] in s;
    } else {
      var init, last := s[..|s| - 1], s[|s| - 1];
      assert forall p | p in init :: p in s;
      InsertKeepsStrict(init, m);
      var t := Insert(init, m, RateLe);
      forall i | 0 <= i < |t|
        ensures t[i].rate < last.rate
      {
        assert t[i] in multiset(t);
        assert t[i] in multiset(init) || t[i] == m;
        if t[i] != m {
          var k :| 0 <= k < |init| && init[k] == t[i];
          assert s[k].rate < s[|s| - 1].rate;
        }
      }
    }
  }

  /** A strictly ascending list is sorted by rate. */
  lemma StrictIsSorted(s: seq<Money>)
    requires StrictlyAscending(s)
    ensures SortedBy(s, RateLe)
  {
  }

  /** Inserting into a sorted list splits it: the piece lands between a prefix and the rest. */
  lemma {:induction false} InsertSplits(s: seq<Money>, m: Money) returns (k: nat)
    ensures k <= |s| && Insert(s, m, RateLe) == s[..k] + [m] + s[k..]
    decreases |s|
  {
    if s == [] || RateLe(s[|s| - 1], m) {
      k := |s|;
      assert s[..k] == s && s[k..] == [];
    } else {
      var init, last := s[..|s| - 1], s[|s| - 1];
      k := InsertSplits(init, m);
      assert s[..k] == init[..k];
      assert s[k..] == init[k..] + [last];
    }
  }

  /**
   * The currency invariant: starting from a strictly ascending list, a
   * successful AddMoney keeps the rates strictly ascending (sorted and
   * pairwise distinct), and the unstable sort of the source has only one
   * possible result, the piece inserted at its place.
   */
  lemma {:induction false} AddMoneyKeepsStrict(pieces: seq<Money>, money: Option<Money>)
    requires StrictlyAscending(pieces)
    ensures StrictlyAscending(AddMoneyView(pieces, money).1)
    ensures AddMoneyView(pieces, money).0 ==> AddMoneyView(pieces, money).1 == Insert(pieces, money.value, RateLe)
  {
    if AddMoneyView(pieces, money).0 {
      var m := money.value;
      StrictIsSorted(pieces);
      SortByOfSorted(pieces, RateLe);
      assert pieces + [m] == (pieces + [m])[..|pieces|] + [m];
      assert (pieces + [m])[..|pieces|] == pieces;
      assert SortBy(pieces + [m], RateLe) == Insert(SortBy(pieces, RateLe), m, RateLe);
      InsertKeepsStrict(pieces, m);
    }
  }

  /** RemoveMoney keeps the rates strictly ascending: the rest keep their order. */
  lemma {:induction false} RemoveMoneyKeepsStrict(pieces: seq<Money>, money: Option<Money>)
    requires StrictlyAscending(pieces)
    ensures StrictlyAscending(RemoveMoneyView(pieces, money).1)
  {
    if money.Some? && money.value in pieces {
      var i := Lists.IndexOf(pieces, money.value);
      var r := Lists.RemoveAt(pieces, i);
      assert RemoveMoneyView(pieces, money).1 == r;
      forall a, b | 0 <= a < b < |r|
        ensures r[a].rate < r[b].rate
      {
        var a' := if a < i then a else a + 1;
        var b' := if b < i then b else b + 1;
        assert r[a] == pieces[a'] && r[b] == pieces[b'];
      }
    }
  }

  /** List.Remove of a piece that occurs after a prefix free of it drops exactly that occurrence. */
  lemma RemoveFirstOfSplit(pieces: seq<Money>, k: nat, m: Money)
    requires k <= |pieces| && m !in pieces[..k]
    ensures RemoveMoneyView(pieces[..k] + [m] + pieces[k..], Some(m)) == (true, pieces)
  {
    var a, b := pieces[..k], pieces[k..];
    var s := a + [m] + b;
    var i := Lists.IndexOf(s, m);
    assert s[|a|] == m && s[..|a|] == a;
    assert i == |a|;
    assert Lists.RemoveAt(s, |a|) == a + b;
    assert a + b == pieces;
  }

  /** A successful AddMoney on a strictly ascending list puts the piece between a prefix and the rest. */
  lemma AddedIsSplit(pieces: seq<Money>, m: Money) returns (k: nat)
    requires StrictlyAscending(pieces) && AddMoneyView(pieces, Some(m)).0
    ensures k <= |pieces| && AddMoneyView(pieces, Some(m)).1 == pieces[..k] + [m] + pieces[k..]
    ensures m !in pieces[..k]
  {
    AddMoneyKeepsStrict(pieces, Some(m));
    k := InsertSplits(pieces, m);
    assert forall p | p in pieces[..k] :: p in pieces;
  }

  /** Removing a piece that AddMoney just added gives back the list before it. */
  lemma {:induction false} RemoveUndoesAdd(pieces: seq<Money>, m: Money)
    requires StrictlyAscending(pieces) && AddMoneyView(pieces, Some(m)).0
    ensures RemoveMoneyView(AddMoneyView(pieces, Some(m)).1, Some(m)) == (true, pieces)
  {
    var k := AddedIsSplit(pieces, m);
    RemoveFirstOfSplit(pieces, k, m);
  }

  class Currency {
    var pieces: seq<Money>
    var fixedRate: real

    /** MoneyCount: the number of money pieces. */
    function MoneyCount(): (n: nat)
      reads this
      ensures n == |pieces|
    {
      |pieces|
    }

    /** A new asset: an empty money list and rate 0. */
    constructor ()
      ensures pieces == [] && fixedRate == 0.0
    {
      pieces := [];
      fixedRate := 0.0;
    }

    /** Initialize(fixedRate): a new, empty money list. */
    method Initialize(rate: real)
      modifies this
      ensures pieces == [] && fixedRate == rate
    {
      fixedRate := rate;
      pieces := [];
    }

    /** Initialize(moneyPieces, fixedRate): the pieces are appended as given, neither sorted nor checked. */
    method InitializeWith(money: seq<Money>, rate: real)
      modifies this
      ensures pieces == old(pieces) + money && fixedRate == rate
    {
      pieces := pieces + money;
      fixedRate := rate;
    }

    /** AddMoney: appends an accepted piece, then sorts the list by rate. */
    method AddMoney(money: Option<Money>) returns (r: bool)
      modifies this
      ensures (r, pieces) == AddMoneyView(old(pieces), money)
      ensures MoneyCount() == old(MoneyCount()) + (if r then 1 else 0) && fixedRate == old(fixedRate)
    {
      if money.None? {
        return false;
      }
      if money.value !in pieces && FreshRate(pieces, money.value) {
        pieces := pieces + [money.value];
        pieces := SortBy(pieces, RateLe);
        return true;
      }
      return false;
    }

    /** RemoveMoney: List.Remove of a non-null piece. */
    method RemoveMoney(money: Option<Money>) returns (r: bool)
      modifies this
      ensures (r, pieces) == RemoveMoneyView(old(pieces), money)
      ensures MoneyCount() == old(MoneyCount()) - (if r then 1 else 0) && fixedRate == old(fixedRate)
    {
      if money.None? {
        return false;
      }
      r := money.value in pieces;
      pieces := Lists.RemoveFirst(pieces, money.value);
    }

    /** UNIT: a currency of rate 1 with one piece of rate 1. */
    static method Unit(pieceId: nat) returns (c: Currency)
      ensures fresh(c) && c.pieces == [Money(pieceId, 1.0)] && c.fixedRate == 1.0
      ensures StrictlyAscending(c.pieces)
    {
      c := new Currency();
      c.InitializeWith([Money(pieceId, 1.0)], 1.0);
    }
  }
}

=== FILE: decimal.dfy ===
/**
 * Decimal text of 32-bit integers: `int.ToString()` and `int.TryParse`
 * with the default number style (leading and trailing white space, a
 * leading sign, decimal digits, Int32 range), under an invariant culture
 * whose negative sign is '-'. The order criteria of the Shire registry and
 * the asset-name suffix parser use them.
 */
module Decimals {
  import opened Wrappers

  const INT32_MIN: int := -0x8000_0000
  const INT32_MAX: int := 0x7fff_ffff

  predicate IsDigit(c: char)
  {
    '0' <= c <= '9'
  }

  predicate AllDigits(s: string)
  {
    forall i | 0 <= i < |s| :: IsDigit(s[i])
  }

  /** The white space `int.TryParse` skips: tab, line feed, vertical tab, form feed, carriage return, space. */
  predicate IsWhite(c: char)
  {
    c == ' ' || '\t' <= c <= '\r'
  }

  function DigitChar(d: nat): (c: char)
    requires d < 10
    ensures IsDigit(c) && c as int - '0' as int == d
  {
    ('0' as int + d) as char
  }

  /** The decimal digits of a natural number, most significant first, without leading zeros. */
  function Digits(n: nat): (s: string)
    ensures 1 <= |s| && AllDigits(s)
    decreases n
  {
    if n < 10 then [DigitChar(n)] else Digits(n / 10) + [DigitChar(n % 10)]
  }

  /** int.ToString(): a minus sign for a negative number, then the digits of its magnitude. */
  function ToDecimal(n: int): (s: string)
    ensures 1 <= |s| && (s[0] == '-' <==> n < 0)
    ensures !IsWhite(s[0]) && IsDigit(s[|s| - 1])
  {
    if n < 0 then "-" + Digits(-n) else Digits(n)
  }

  /** The index of the first character at or after `i` that is not white space (String.TrimStart). */
  function SkipWhite(s: string, i: nat): (j: nat)
    requires i <= |s|
    ensures i <= j <= |s| && (j == |s| || !IsWhite(s[j]))
    decreases |s| - i
  {
    if i < |s| && IsWhite(s[i]) then SkipWhite(s, i + 1) else i
  }

  /**
   * The index just past the last character before `hi`, and not before
   * `lo`, that is not white space (String.TrimEnd of s[lo..hi]).
   */
  function SkipWhiteBack(s: string, lo: nat, hi: nat): (j: nat)
    requires lo <= hi <= |s|
    ensures lo <= j <= hi && (j == lo || !IsWhite(s[j - 1]))
    decreases hi
  {
    if hi > lo && IsWhite(s[hi - 1]) then SkipWhiteBack(s, lo, hi - 1) else hi
  }

  /** The number the digits s[lo..hi] denote, or None when one of them is not a digit. */
  function DigitsValue(s: string, lo: nat, hi: nat): Option<nat>
    requires lo <= hi <= |s|
    decreases hi
  {
    if hi == lo then Some(0)
    else if !IsDigit(s[hi - 1]) then None
    else match DigitsValue(s, lo, hi - 1)
      case None => None
      case Some(v) => Some(v * 10 + (s[hi - 1] as int - '0' as int))
  }

  /**
   * int.TryParse(s, out v): after the leading and trailing white space, an
   * optional '+' or '-' and then one or more digits; the value must fit in
   * 32 bits. None stands for `false`.
   */
  function TryParse(s: string): (r: Option<int>)
    ensures r.Some? ==> INT32_MIN <= r.value <= INT32_MAX
  {
    var lo := SkipWhite(s, 0);
    var hi := SkipWhiteBack(s, lo, |s|);
    var signed := lo < hi && (s[lo] == '-' || s[lo] == '+');
    var start := if signed then lo + 1 else lo;
    if start == hi then None
    else match DigitsValue(s, start, hi)
      case None => None
      case Some(m) =>
        var v: int := if signed && s[lo] == '-' then -(m as int) else m;
        if INT32_MIN <= v <= INT32_MAX then Some(v) else None
  }

  /** Digits placed anywhere in a string read back as their number. */
  lemma {:induction false} DigitsValueOfDigits(s: string, lo: nat, hi: nat, n: nat)
    requires lo <= hi <= |s| && s[lo..hi] == Digits(n)
    ensures DigitsValue(s, lo, hi) == Some(n)
    decreases n
  {
    if n >= 10 {
      assert s[lo..hi - 1] == s[lo..hi][..hi - 1 - lo] == Digits(n / 10);
      DigitsValueOfDigits(s, lo, hi - 1, n / 10);
      assert s[hi - 1] == s[lo..hi][hi - 1 - lo] == DigitChar(n % 10);
    } else {
      assert s[lo..hi - 1] == [];
      assert s[hi - 1] == s[lo..hi][0];
    }
  }

  /** A run of characters whose first one is not a digit has no value. */
  lemma {:induction false} DigitsValueOfSymbol(s: string, lo: nat, hi: nat)
    requires lo < hi <= |s| && !IsDigit(s[lo])
    ensures DigitsValue(s, lo, hi) == None
    decreases hi
  {
    if hi - 1 > lo {
      DigitsValueOfSymbol(s, lo, hi - 1);
    }
  }

  /** Trimming the end stops at a character that is not white space. */
  lemma {:induction false} SkipWhiteBackPast(s: string, lo: nat, hi: nat)
    requires lo < hi <= |s| && !IsWhite(s[lo])
    ensures SkipWhiteBack(s, lo, hi) > lo
    decreases hi
  {
    if IsWhite(s[hi - 1]) {
      SkipWhiteBackPast(s, lo, hi - 1);
    }
  }

  /** The text of a 32-bit number parses back to that number. */
  lemma ParseOfDecimal(n: int)
    requires INT32_MIN <= n <= INT32_MAX
    ensures TryParse(ToDecimal(n)) == Some(n)
  {
    var s := ToDecimal(n);
    assert SkipWhite(s, 0) == 0;
    assert SkipWhiteBack(s, 0, |s|) == |s|;
    if n < 0 {
      assert s[1..|s|] == Digits(-n);
      DigitsValueOfDigits(s, 1, |s|, -n);
    } else {
      assert s[0..|s|] == Digits(n);
      DigitsValueOfDigits(s, 0, |s|, n);
    }
  }

  /** A string that starts with a character that is neither white space, a sign nor a digit does not parse. */
  lemma ParseRejectsLeadingSymbol(s: string)
    requires |s| > 0 && !IsWhite(s[0]) && !IsDigit(s[0]) && s[0] != '-' && s[0] != '+'
    ensures TryParse(s) == None
  {
    assert SkipWhite(s, 0) == 0;
    SkipWhiteBackPast(s, 0, |s|);
    DigitsValueOfSymbol(s, 0, SkipWhiteBack(s, 0, |s|));
  }
}

=== FILE: entity_serializer.dfy ===
/**
 * IThingSerializer: an object (an Entity) that keeps, next to its list of
 * serializable objects, the list of their identifiers, and rebuilds the
 * objects from those identifiers through the ThingSerializer registry.
 * Runtime/Serializer/IThingSerializer.cs.
 *
 * The GUIDs the registry may have to create for object i are `guids(i)`:
 * the first for Persist, the second for OnDuplicate.
 */
module EntitySerializers {
  import opened Wrappers
  import opened ThingSerializers

  /** The thing is registered under the text of its identifier. */
  ghost predicate Registered(reg: ThingSerializer, t: Thing)
    reads reg, t
  {
    t.identifier != null && t.identifier.id in reg.entries && reg.entries[t.identifier.id] == t
  }

  /** Every non-null object is registered under its identifier. */
  ghost predicate AllRegistered(reg: ThingSerializer, objects: seq<Thing?>)
    reads reg, objects
  {
    forall i | 0 <= i < |objects| && objects[i] != null :: Registered(reg, objects[i])
  }

  /**
   * The identifiers Sync builds: one per object slot, a new copy of the
   * object's identifier for an object and the shared empty identifier for a
   * null slot; the copies are distinct objects.
   */
  ghost predicate SyncedIds(reg: ThingSerializer, objects: seq<Thing?>, ids: seq<ThingId?>)
    reads objects
  {
    && |ids| == |objects|
    && (forall i | 0 <= i < |ids| && objects[i] == null :: ids[i] == reg.empty)
    && (forall i | 0 <= i < |ids| && objects[i] != null ::
          ids[i] != null && ids[i] != reg.empty && objects[i].identifier != null &&
          ids[i].id == objects[i].identifier.id)
    && (forall a, b | 0 <= a < |ids| && 0 <= b < |ids| && a != b && objects[a] != null :: ids[a] != ids[b])
  }

  /** List.IndexOf on identifiers: the first slot holding the same identifier object. */
  function IndexOfId(ids: seq<ThingId?>, id: ThingId?): (r: nat)
    requires id in ids
    ensures r < |ids| && ids[r] == id && forall j | 0 <= j < r :: ids[j] != id
  {
    if ids[0] == id then 0 else 1 + IndexOfId(ids[1..], id)
  }

  /**
   * Slot k of GetAll's array: the registry's thing for identifier k when k
   * is the first slot holding that identifier object, null otherwise.
   */
  ghost function Slot(reg: ThingSerializer, ids: seq<ThingId?>, k: nat): Thing?
    requires k < |ids|
    reads reg
  {
    if IndexOfId(ids, ids[k]) == k then reg.Get(ids[k]) else null
  }

  /** GetAll after a Sync: every slot gives back its own object. */
  lemma SlotsOfSynced(reg: ThingSerializer, objects: seq<Thing?>, ids: seq<ThingId?>)
    requires SyncedIds(reg, objects, ids) && AllRegistered(reg, objects)
    ensures forall k | 0 <= k < |ids| :: Slot(reg, ids, k) == objects[k]
  {
    forall k | 0 <= k < |ids|
      ensures Slot(reg, ids, k) == objects[k]
    {
      if objects[k] != null {
        var f := IndexOfId(ids, ids[k]);
        assert f == k;
        assert Registered(reg, objects[k]);
      }
    }
  }

  /** The loop of GetAll: each identifier's thing goes to the first slot holding that identifier. */
  method Gather(reg: ThingSerializer, ids: seq<ThingId?>) returns (arr: array<Thing?>)
    ensures fresh(arr) && arr.Length == |ids|
    ensures forall k | 0 <= k < |ids| :: arr[k] == Slot(reg, ids, k)
  {
    arr := new Thing?[|ids|](_ => null);
    for j := 0 to |ids|
      invariant forall k | 0 <= k < |ids| ::
                  arr[k] == (if k < j && IndexOfId(ids, ids[k]) == k then reg.Get(ids[k]) else null)
    {
      var f := IndexOfId(ids, ids[j]);
      arr[f] := reg.Get(ids[j]);
    }
  }

  class EntitySerializer {
    var objects: seq<Thing?>              // SerializableObjects
    var thingIds: Option<seq<ThingId?>>   // ThingIDs

    /** Register: registers every serializable object; the first exception stops it. */
    method Register(reg: ThingSerializer, guids: nat -> (string, string)) returns (err: Option<Exception>)
      modifies reg, objects
      ensures err.None? ==> AllRegistered(reg, objects)
      ensures err.Some? ==> err == Some(DuplicateKey)
      ensures forall k | k in old(reg.entries) :: k in reg.entries && reg.entries[k] == old(reg.entries)[k]
    {
      var i := 0;
      while i < |objects|
        invariant 0 <= i <= |objects|
        invariant forall j | 0 <= j < i && objects[j] != null :: Registered(reg, objects[j])
        invariant forall k | k in old(reg.entries) :: k in reg.entries && reg.entries[k] == old(reg.entries)[k]
      {
        var _, e := reg.Register(objects[i], guids(i).0, guids(i).1);
        if e.Some? {
          return e;
        }
        i := i + 1;
      }
      err := None;
    }

    /**
     * Sync: registers the objects, then rebuilds ThingIDs with one entry per
     * object slot (see SyncedIds).
     */
    method Sync(reg: ThingSerializer, guids: nat -> (string, string)) returns (err: Option<Exception>)
      modifies this, reg, objects
      ensures objects == old(objects)
      ensures err.None? ==> thingIds.Some? && SyncedIds(reg, objects, thingIds.value) && AllRegistered(reg, objects)
      ensures err.Some? ==> err == Some(DuplicateKey) && thingIds == old(thingIds)
      ensures forall k | k in old(reg.entries) :: k in reg.entries && reg.entries[k] == old(reg.entries)[k]
    {
      err := Register(reg, guids);
      if err.Some? {
        return;
      }
      var ids := IdCopies(reg, guids);
      thingIds := Some(ids);
    }

    /**
     * The loop of Sync: a copy of each object's identifier, or the empty
     * identifier for a null slot. Register has given every object an
     * identifier, so Persist keeps it.
     */
    method IdCopies(reg: ThingSerializer, guids: nat -> (string, string)) returns (ids: seq<ThingId?>)
      requires AllRegistered(reg, objects)
      modifies objects
      ensures AllRegistered(reg, objects) && SyncedIds(reg, objects, ids)
    {
      ids := [];
      for i := 0 to |objects|
        invariant AllRegistered(reg, objects)
        invariant |ids| == i
        invariant forall j | 0 <= j < i && objects[j] == null :: ids[j] == reg.empty
        invariant forall j | 0 <= j < i && objects[j] != null ::
                    ids[j] != null && fresh(ids[j]) && objects[j].identifier != null &&
                    ids[j].id == objects[j].identifier.id
        invariant forall a, b | 0 <= a < i && 0 <= b < i && a != b && objects[a] != null :: ids[a] != ids[b]
      {
        if objects[i] != null {
          assert Registered(reg, objects[i]);
          Persist(objects[i], guids(i).0);
          var copy := new ThingId(objects[i].identifier.id);
          ids := ids + [copy];
        } else {
          ids := ids + [reg.empty];
        }
      }
    }

    /**
     * GetAll: re-syncs when ThingIDs is missing or of the wrong length, then
     * fills an array with the registry's thing for each identifier, at the
     * first slot holding that identifier object (see Slot).
     */
    method GetAll(reg: ThingSerializer, guids: nat -> (string, string))
      returns (arr: array<Thing?>, err: Option<Exception>)
      modifies this, reg, objects
      ensures objects == old(objects)
      ensures err.Some? ==> err == Some(DuplicateKey)
      ensures err.None? ==> thingIds.Some? && fresh(arr) && arr.Length == |thingIds.value|
      ensures err.None? ==> forall k | 0 <= k < arr.Length :: arr[k] == Slot(reg, thingIds.value, k)
      ensures old(thingIds).Some? && |old(thingIds).value| == |objects| ==>
                err.None? && thingIds == old(thingIds) && reg.entries == old(reg.entries)
      // right after a re-sync the array holds the objects themselves
      ensures err.None? && !(old(thingIds).Some? && |old(thingIds).value| == |objects|) ==> arr[..] == objects
    {
      if thingIds.None? || |thingIds.value| != |objects| {
        err := Sync(reg, guids);
        if err.Some? {
          return new Thing?[0], err;
        }
        SlotsOfSynced(reg, objects, thingIds.value);
      }
      arr := Gather(reg, thingIds.value);
      err := None;
    }
  }
}

=== FILE: equipment.dfy ===
/**
 * Equipment: a things container from slots to items. Toggle equips an
 * item into its current usage slot, or unequips it when it is the item
 * stored there; equipping and unequipping also append or remove the
 * item's statistics to or from the equipment's own statistics.
 * Runtime/Models/Equipment.cs.
 *
 * The ThingsContainer base part is the `base` object; the statistics
 * field is the `stats` object (null when it was never set). Items are
 * values compared with `==`; an item's statistics are given by the
 * enumeration of their dictionary, pairs of a stat and its block.
 */
module Equipments {
  import opened Wrappers
  import opened ShireBlocks
  import opened ThingsContainers
  import Stats
  import ThingSatisfiers

  /** An item: an identity, its current usage slot and its statistics (None for null). */
  datatype Item<Slot, Stat> = Item(id: nat, usage: Option<Slot>, stats: Option<seq<(Stat, Option<Block>)>>)

  /** The Equator: `(a, b) => a == b`. */
  predicate ItemEquals<Slot(==), Stat(==)>(a: Item<Slot, Stat>, b: Item<Slot, Stat>)
  {
    a == b
  }

  /** An item whose statistics, when present, enumerate distinct stats. */
  predicate WellFormedItem<Slot, Stat(==)>(it: Item<Slot, Stat>)
  {
    it.stats.Some? ==> Stats.DistinctStats(it.stats.value)
  }

  /** The equipment's state: the entry list, the cached dictionary and the statistics (None for null). */
  datatype EqState<Slot, Stat> = EqState(entries: seq<Entry<Slot, Item<Slot, Stat>>>,
                                         dict: Option<map<Slot, Option<Item<Slot, Stat>>>>,
                                         stats: Option<Stats.StatState<Stat>>)

  /** One entry with a null item per listed slot. */
  function SlotEntries<Slot, Stat>(slots: seq<Option<Slot>>): (r: seq<Entry<Slot, Item<Slot, Stat>>>)
    ensures |r| == |slots| && forall i | 0 <= i < |slots| :: r[i] == Entry(slots[i], None)
  {
    seq(|slots|, i requires 0 <= i < |slots| => Entry(slots[i], None))
  }

  /**
   * Equip: Add(usage, item), whose satisfier check may throw `checkErr`,
   * then AppendBlock of the item's statistics with the default arguments
   * (no modifiers, no new stats); a null usage throws at the Add, null
   * statistics on either side throw at the AppendBlock.
   */
  function EquipView<Slot(==), Stat(==)>(st: EqState<Slot, Stat>, it: Item<Slot, Stat>, checkErr: Option<Exception>)
    : (EqState<Slot, Stat>, bool, Option<Exception>)
  {
    if it.usage.None? then (st, false, Some(Failure))
    else
      var st1 := st.(entries := st.entries + [Entry(it.usage, Some(it))]);
      if checkErr.Some? then (st1, false, checkErr)
      else if st.stats.None? || it.stats.None? then (st1, false, Some(NullReference))
      else
        var (ss, e) := Stats.FoldView(st.stats.value, it.stats.value, 1, false, false);
        (st1.(stats := Some(ss)), e.None?, e)
  }

  /**
   * Unequip: Remove(usage, item), which rebuilds the dictionary and removes
   * the slot's entry when it stores this very item; only then RemoveBlock
   * of the item's statistics.
   */
  function UnequipView<Slot(==), Stat(==)>(st: EqState<Slot, Stat>, it: Item<Slot, Stat>)
    : (EqState<Slot, Stat>, bool, Option<Exception>)
  {
    var (d, e) := Build(st.entries);
    var st1 := st.(dict := Some(d));
    if e.Some? then (st1, false, e)
    else if it.usage.None? then (st1, false, Some(ArgumentNull))
    else if !(it.usage.value in d && d[it.usage.value] == Some(it)) then (st1, false, None)
    else
      var st2 := st1.(entries := WithoutKey(st.entries, it.usage.value));
      if st.stats.None? || it.stats.None? then (st2, false, Some(NullReference))
      else
        var (ss, e2) := Stats.FoldView(st.stats.value, it.stats.value, -1, false, false);
        (st2.(stats := Some(ss)), e2.None?, e2)
  }

  /** The item stored at its own usage slot in the dictionary. */
  predicate Equipped<Slot(==), Stat(==)>(d: map<Slot, Option<Item<Slot, Stat>>>, it: Item<Slot, Stat>)
  {
    it.usage.Some? && it.usage.value in d && d[it.usage.value] == Some(it)
  }

  /**
   * Toggle: the cache is dropped; a null item or one without a usage
   * answers false; otherwise the dictionary is rebuilt (which may throw)
   * and the item is unequipped when it is the one stored at its slot and
   * equipped otherwise.
   */
  function ToggleView<Slot(==), Stat(==)>(st: EqState<Slot, Stat>, item: Option<Item<Slot, Stat>>, checkErr: Option<Exception>)
    : (EqState<Slot, Stat>, bool, Option<Exception>)
  {
    var st0 := st.(dict := None);
    if item.None? || item.value.usage.None? then (st0, false, None)
    else
      var (d, e) := Build(st.entries);
      var st1 := st0.(dict := Some(d));
      if e.Some? then (st1, false, e)
      else if Equipped(d, item.value) then UnequipView(st1, item.value)
      else EquipView(st1, item.value, checkErr)
  }

  /**
   * What Equip does to the container's satisfier: an Add of the pair
   * (usage, item) checks it once, which is where `checkErr` comes from; a
   * null usage throws before the check.
   */
  ghost predicate EquipChecks<Slot, Stat>(it: Item<Slot, Stat>, m: ThingSatisfiers.Nested<Slot, Item<Slot, Stat>>,
                                          m': ThingSatisfiers.Nested<Slot, Item<Slot, Stat>>, checkErr: Option<Exception>)
  {
    if it.usage.None? then m' == m && checkErr.None?
    else CheckedOnce(m, m', ItemEquals, Entry(it.usage, Some(it)), checkErr)
  }

  /**
   * What Unequip does to the container's satisfier: when the rebuilt
   * dictionary stores the item at its slot, the pair is unchecked once
   * before its entry goes; otherwise nothing.
   */
  ghost predicate UnequipChecks<Slot, Stat>(st: EqState<Slot, Stat>, it: Item<Slot, Stat>,
                                                    m: ThingSatisfiers.Nested<Slot, Item<Slot, Stat>>, m': ThingSatisfiers.Nested<Slot, Item<Slot, Stat>>)
  {
    var (d, e) := Build(st.entries);
    if e.None? && Equipped(d, it) then UncheckedOnce(m, m', ItemEquals, it.usage, Some(it))
    else m' == m
  }

  /**
   * What Toggle does to the container's satisfier: Unequip's uncheck when
   * the item is stored at its slot, Equip's check when it is not, nothing
   * for a null item, a missing usage or a dictionary that does not rebuild.
   * Only an equipping check can raise `checkErr`.
   */
  ghost predicate ToggleChecks<Slot, Stat>(st: EqState<Slot, Stat>, item: Option<Item<Slot, Stat>>,
                                                   m: ThingSatisfiers.Nested<Slot, Item<Slot, Stat>>, m': ThingSatisfiers.Nested<Slot, Item<Slot, Stat>>,
                                                   checkErr: Option<Exception>)
  {
    if item.None? || item.value.usage.None? || Build(st.entries).1.Some? then m' == m && checkErr.None?
    else if Equipped(Build(st.entries).0, item.value) then UnequipChecks(st, item.value, m, m') && checkErr.None?
    else EquipChecks(item.value, m, m', checkErr)
  }

  /** A list whose first entry has a null key never rebuilds: the first Dictionary.Add throws. */
  lemma {:induction false} NullHeadNeverBuilds<K, V>(es: seq<Entry<K, V>>)
    requires |es| > 0 && es[0].key.None?
    ensures Build(es).1 == Some(ArgumentNull)
    decreases |es|
  {
    if |es| > 1 {
      var init := es[..|es| - 1];
      assert init[0] == es[0];
      NullHeadNeverBuilds(init);
    }
  }

  /**
   * The slots constructor keeps the serialized default entry, whose key is
   * null, in front of the slots: every Toggle of an item with a usage then
   * throws ArgumentNullException on the rebuild, and nothing is equipped.
   */
  lemma SlotsEquipmentNeverToggles<Slot, Stat>(slots: seq<Option<Slot>>, dict: Option<map<Slot, Option<Item<Slot, Stat>>>>,
                                               stats: Option<Stats.StatState<Stat>>, it: Item<Slot, Stat>,
                                               checkErr: Option<Exception>)
    requires it.usage.Some?
    ensures var es := [Entry(None, None)] + SlotEntries(slots);
            var (st', r, err) := ToggleView(EqState(es, dict, stats), Some(it), checkErr);
            !r && err == Some(ArgumentNull) && st'.entries == es && st'.stats == stats
  {
    NullHeadNeverBuilds([Entry(None, None)] + SlotEntries<Slot, Stat>(slots));
  }

  /**
   * Equip appends a second entry for a slot that is already listed (with a
   * null item or another one): the next rebuild, and so the next Toggle of
   * any item with a usage, throws DuplicateKey.
   */
  lemma EquipDuplicatesListedSlot<Slot, Stat>(st: EqState<Slot, Stat>, it: Item<Slot, Stat>, next: Item<Slot, Stat>,
                                              checkErr: Option<Exception>)
    requires Build(st.entries).1.None? && it.usage.Some? && it.usage.value in Build(st.entries).0
    requires next.usage.Some?
    ensures var (st1, _, _) := EquipView(st, it, checkErr);
            Build(st1.entries).1 == Some(DuplicateKey) &&
            ToggleView(st1, Some(next), checkErr).2 == Some(DuplicateKey)
  {
    var es' := st.entries + [Entry(it.usage, Some(it))];
    assert es'[..|es'| - 1] == st.entries;
  }

  /**
   * Toggle on a null item, or on one without a usage, answers false and
   * changes nothing but the cache.
   */
  lemma ToggleWithoutUsage<Slot, Stat>(st: EqState<Slot, Stat>, item: Option<Item<Slot, Stat>>, checkErr: Option<Exception>)
    requires item.None? || item.value.usage.None?
    ensures ToggleView(st, item, checkErr) == (st.(dict := None), false, None)
  {
  }

  // ---------------------------------------------------------------------
  // The slot-keeping equipment
  // ---------------------------------------------------------------------

  /** The list the slots constructor evidently means: one entry with a null item per slot, no default entry. */
  function CorrectedSlots<Slot, Stat>(slots: seq<Slot>): (r: seq<Entry<Slot, Item<Slot, Stat>>>)
    ensures |r| == |slots| && forall i | 0 <= i < |slots| :: r[i] == Entry(Some(slots[i]), None)
  {
    seq(|slots|, i requires 0 <= i < |slots| => Entry(Some(slots[i]), None))
  }

  /** Equip into the slot's own entry when the slot is listed, appending only a new slot. */
  function CorrectedEquip<Slot(==), Stat(==)>(st: EqState<Slot, Stat>, it: Item<Slot, Stat>)
    : (EqState<Slot, Stat>, bool, Option<Exception>)
    requires it.usage.Some?
  {
    var u := it.usage.value;
    var d := Build(st.entries).0;
    var es := if u in d then WithKeySet(st.entries, u, it) else st.entries + [Entry(it.usage, Some(it))];
    var st1 := st.(entries := es, dict := None);
    if st.stats.None? || it.stats.None? then (st1, false, Some(NullReference))
    else
      var (ss, e) := Stats.FoldView(st.stats.value, it.stats.value, 1, false, false);
      (st1.(stats := Some(ss)), e.None?, e)
  }

  /** Unequip by emptying the slot (its entry stays, with a null item). */
  function CorrectedUnequip<Slot(==), Stat(==)>(st: EqState<Slot, Stat>, it: Item<Slot, Stat>)
    : (EqState<Slot, Stat>, bool, Option<Exception>)
    requires it.usage.Some?
  {
    var st1 := st.(entries := WithKeyNulled(st.entries, it.usage.value), dict := None);
    if st.stats.None? || it.stats.None? then (st1, false, Some(NullReference))
    else
      var (ss, e) := Stats.FoldView(st.stats.value, it.stats.value, -1, false, false);
      (st1.(stats := Some(ss)), e.None?, e)
  }

  /** Distinct slots give a list that rebuilds, every slot empty. */
  lemma {:induction false} CorrectedSlotsBuild<Slot, Stat>(slots: seq<Slot>)
    requires forall i, j | 0 <= i < j < |slots| :: slots[i] != slots[j]
    ensures Build(CorrectedSlots<Slot, Stat>(slots)) == (map i | 0 <= i < |slots| :: slots[i] := None, None)
  {
    var es := CorrectedSlots<Slot, Stat>(slots);
    var m := map i | 0 <= i < |slots| :: slots[i] := None;
    assert UniqueKeys(es) by {
      forall i, j | 0 <= i < j < |es| ensures es[i].key != es[j].key {
        assert es[i].key == Some(slots[i]) && es[j].key == Some(slots[j]);
      }
    }
    BuildSucceedsIff(es);
    assert Represents(m, es) by {
      forall i | 0 <= i < |es| ensures es[i].key.Some? && es[i].key.value in m && m[es[i].key.value] == es[i].value {
        assert es[i].key.value == slots[i];
      }
      forall k | k in m ensures exists i | 0 <= i < |es| :: es[i].key == Some(k) {
        var i :| 0 <= i < |slots| && slots[i] == k;
        assert es[i].key == Some(k);
      }
    }
    RepresentsDetermines(Build(es).0, m, es);
  }

  /**
   * With the slot kept: equipping an item into its empty listed slot and
   * then unequipping it rebuilds the same dictionary as before, every
   * block of the statistics back as it was, and the item sits in its slot
   * in between.
   */
  lemma CorrectedToggleRoundTrip<Slot, Stat>(st: EqState<Slot, Stat>, it: Item<Slot, Stat>)
    requires Build(st.entries).1.None? && it.usage.Some? && it.usage.value in Build(st.entries).0
    requires Build(st.entries).0[it.usage.value].None?
    requires st.stats.Some? && it.stats.Some? && WellFormedItem(it)
    requires Stats.CacheAgrees(st.stats.value, Stats.StatsOf(it.stats.value))
    requires Stats.NoNullShared(Build(st.stats.value.entries).0, it.stats.value)
    ensures var (st1, r1, e1) := CorrectedEquip(st, it);
            var (st2, r2, e2) := CorrectedUnequip(st1, it);
            r1 && e1.None? && r2 && e2.None? &&
            Build(st1.entries) == (Build(st.entries).0[it.usage.value := Some(it)], None) &&
            Build(st2.entries) == Build(st.entries) &&
            Build(st2.stats.value.entries) == Build(st.stats.value.entries)
  {
    var u := it.usage.value;
    var d := Build(st.entries).0;
    RebuildAfterSet(st.entries, u, it);
    var st1 := CorrectedEquip(st, it).0;
    RebuildAfterNullify(st1.entries, u);
    assert d[u := Some(it)][u := None] == d;
    Stats.RemoveUndoesAppend(st.stats.value, it.stats.value, false);
  }

  // ---------------------------------------------------------------------
  // The container
  // ---------------------------------------------------------------------

  class Equipment<Slot(==, !new), Stat(==, !new)> {
    const base: ThingsContainer<Slot, Item<Slot, Stat>>
    const stats: Stats.Statistics?<Stat>

    /** The equipment, its base part and its satisfier's objects. */
    ghost function Repr(): set<object>
      reads base, base.sat
    {
      {this} + base.Repr()
    }

    /** The base part is valid and compares items by `==`; the statistics lie outside it. */
    ghost predicate Valid()
      reads base, base.sat, base.sat.Repr
    {
      base.Valid() && base.sat.eq == ItemEquals && this !in base.Repr() && (stats != null ==> stats !in base.Repr())
    }

    ghost function State(): EqState<Slot, Stat>
      reads base, stats
    {
      EqState(base.entries, base.dict, if stats == null then None else Some(stats.State()))
    }

    /** The base part and the statistics field as they are. */
    constructor Make(b: ThingsContainer<Slot, Item<Slot, Stat>>, s: Stats.Statistics?<Stat>)
      ensures base == b && stats == s
    {
      base := b;
      stats := s;
    }

    /**
     * Equipment(List<SlotType>): the base container (its list holding the
     * default entry with a null key and a null value); for a non-null list,
     * one Add(slot, null) per slot, which throws on a null slot. The
     * statistics are the serialized field, given here.
     */
    static method FromSlots(slots: Option<seq<Option<Slot>>>, comparer: (Item<Slot, Stat>, Item<Slot, Stat>) -> int,
                            statistics: Stats.Statistics?<Stat>)
      returns (e: Equipment<Slot, Stat>, err: Option<Exception>)
      ensures e.Valid() && fresh(e.Repr()) && e.stats == statistics && e.base.dict.None?
      ensures err.None? <==> slots.None? || forall i | 0 <= i < |slots.value| :: slots.value[i].Some?
      ensures err.Some? ==> err == Some(Failure)
      ensures err.None? ==> e.base.entries == [Entry(None, None)] + (if slots.None? then [] else SlotEntries(slots.value))
    {
      var b := new ThingsContainer(comparer, ItemEquals);
      e := new Equipment.Make(b, statistics);
      err := None;
      if slots.None? {
        return;
      }
      var list := slots.value;
      var i := 0;
      while i < |list|
        invariant 0 <= i <= |list|
        invariant e.Valid() && fresh(e.Repr()) && b.dict.None? && err.None?
        invariant forall j | 0 <= j < i :: list[j].Some?
        invariant b.entries == [Entry(None, None)] + SlotEntries(list[..i])
      {
        err := b.Add(list[i], None);
        if err.Some? {
          assert slots.value[i].None?;
          return;
        }
        assert SlotEntries<Slot, Stat>(list[..i + 1]) == SlotEntries(list[..i]) + [Entry(list[i], None)];
        i := i + 1;
      }
      assert list[..i] == list;
    }

    /**
     * Toggle(item): the cache is dropped; a null item or one without a
     * usage answers false; otherwise the item is unequipped when the
     * rebuilt dictionary stores it at its slot, and equipped otherwise.
     * `checkErr` is what the satisfier check of an equipping Add raised.
     */
    method Toggle(item: Option<Item<Slot, Stat>>) returns (r: bool, err: Option<Exception>, ghost checkErr: Option<Exception>)
      requires Valid() && (item.Some? ==> WellFormedItem(item.value))
      modifies base, base.sat.Repr, if stats == null then {} else {stats}
      ensures Valid() && fresh(base.sat.Repr - old(base.sat.Repr))
      ensures (State(), r, err) == ToggleView(old(State()), item, checkErr)
      ensures ToggleChecks(old(State()), item, old(base.Model()), base.Model(), checkErr)
    {
      base.dict := None;
      checkErr := None;
      if item.None? || item.value.usage.None? {
        return false, None, None;
      }
      var it := item.value;
      var d, e := base.Dictionary();
      if e.Some? {
        return false, e, None;
      }
      if it.usage.value in d && d[it.usage.value] == Some(it) {
        r, err := Unequip(it);
      } else {
        r, err, checkErr := Equip(it);
      }
    }

    /** Equip(item): Add(usage, item), then AppendBlock of the item's statistics. */
    method Equip(it: Item<Slot, Stat>) returns (r: bool, err: Option<Exception>, ghost checkErr: Option<Exception>)
      requires Valid() && WellFormedItem(it)
      modifies base, base.sat.Repr, if stats == null then {} else {stats}
      ensures Valid() && fresh(base.sat.Repr - old(base.sat.Repr))
      ensures (State(), r, err) == EquipView(old(State()), it, checkErr)
      ensures EquipChecks(it, old(base.Model()), base.Model(), checkErr)
    {
      checkErr := None;
      err := base.Add(it.usage, Some(it));
      if err.Some? {
        checkErr := if it.usage.None? then None else err;
        return false, err, checkErr;
      }
      if stats == null || it.stats.None? {
        return false, Some(NullReference), None;
      }
      err := stats.AppendBlock(it.stats.value, false, false);
      r := err.None?;
    }

    /** Unequip(item): Remove(usage, item); only when it removed something, RemoveBlock of the item's statistics. */
    method Unequip(it: Item<Slot, Stat>) returns (r: bool, err: Option<Exception>)
      requires Valid() && WellFormedItem(it)
      modifies base, base.sat.Repr, if stats == null then {} else {stats}
      ensures Valid() && fresh(base.sat.Repr - old(base.sat.Repr))
      ensures (State(), r, err) == UnequipView(old(State()), it)
      ensures UnequipChecks(old(State()), it, old(base.Model()), base.Model())
    {
      var found;
      found, err := RemoveStored(it);
      if err.Some? || !found {
        return false, err;
      }
      if stats == null || it.stats.None? {
        return false, Some(NullReference);
      }
      err := stats.RemoveBlock(it.stats.value, false);
      r := err.None?;
    }

    /** Remove(usage, item) on the base part: the slot's entries go when the rebuilt dictionary stores this item there. */
    method RemoveStored(it: Item<Slot, Stat>) returns (found: bool, err: Option<Exception>)
      requires Valid()
      modifies base, base.sat.Repr
      ensures Valid() && fresh(base.sat.Repr - old(base.sat.Repr))
      ensures var (d, e) := Build(old(base.entries));
              && base.dict == Some(d)
              && err == (if e.Some? then e else if it.usage.None? then Some(ArgumentNull) else None)
              && (found <==> err.None? && Equipped(d, it))
              && base.entries == (if found then WithoutKey(old(base.entries), it.usage.value) else old(base.entries))
      ensures UnequipChecks(old(State()), it, old(base.Model()), base.Model())
    {
      ghost var b := Build(base.entries);
      ghost var m := base.Model();
      found, err := base.RemoveValue(it.usage, Some(it));
      assert found <==> err.None? && Equipped(b.0, it);
      if found {
        assert b.0[it.usage.value] == Some(it);
        assert UncheckedOnce(m, base.Model(), ItemEquals, it.usage, Some(it));
      } else {
        assert base.Model() == m;
      }
    }
  }
}

=== FILE: inventory.dfy ===
/**
 * Inventory: an object container of items with a wallet. Items are
 * gained, lost, sold for a price (the wallet gains it) and bought from
 * the inventory that owns them (the buyer's wallet spends the price, the
 * seller's gains it). Runtime/Models/Inventory.cs.
 *
 * The ObjectContainer base part is the `base` object, the wallet a
 * Numismatic. The price of an item comes from the seller's wallet and the
 * buyer's rate by floating-point currency arithmetic; here it is the
 * price value that arithmetic yields, given to Buy.
 */
module Inventories {
  import opened Wrappers
  import opened OSatisfiers
  import opened ObjectContainers
  import opened Numismatics
  import Lists

  /** The container part of a new inventory: initialized with the objects, compared by equality. */
  method NewContainer<S(==, !new)>(objects: seq<S>, comparer: (S, S) -> int) returns (c: ObjectContainer<S>)
    ensures c.Valid() && fresh(c.Repr())
    ensures c.elements == objects && c.Model() == CheckSatisfyAll(map[], objects)
  {
    c := new ObjectContainer(comparer, (a: S, b: S) => a == b);
    c.Initialize(objects);
  }

  /** A container none of whose objects changed has the same elements and model. */
  twostate lemma ContainerUntouched<S(!new)>(c: ObjectContainer<S>)
    requires old(c.Valid()) && unchanged(old(c.Repr()))
    ensures c.Valid() && c.Repr() == old(c.Repr())
    ensures c.elements == old(c.elements) && c.Model() == old(c.Model())
  {
  }

  /** A wallet none of whose objects changed has the same value and model. */
  twostate lemma WalletUntouched(w: Numismatic)
    requires old(w.Valid()) && unchanged(old(w.Repr()))
    ensures w.Valid() && w.Repr() == old(w.Repr())
    ensures w.value == old(w.value) && w.Model() == old(w.Model())
  {
  }

  class Inventory<S(==, !new)> {
    const base: ObjectContainer<S>
    const wallet: Numismatic

    /** The inventory, its container part, its wallet and their satisfiers. */
    ghost function Repr(): set<object>
      reads base.sat, wallet.sat
    {
      base.Repr() + wallet.Repr()
    }

    /** Both parts are valid and share no object. */
    ghost predicate Valid()
      reads base, base.sat, base.sat.Repr, wallet, wallet.sat, wallet.sat.Repr
    {
      base.Valid() && wallet.Valid() && base.Repr() !! wallet.Repr()
    }

    /** Inventory(objects, money): the container initialized with the objects, and the wallet. */
    constructor (objects: seq<S>, money: Numismatic, comparer: (S, S) -> int)
      requires money.Valid()
      modifies money.sat.Repr
      ensures Valid() && fresh(base.Repr()) && wallet == money
      ensures base.elements == objects && base.Model() == CheckSatisfyAll(map[], objects)
      ensures wallet.value == old(money.value) && wallet.Model() == old(money.Model())
    {
      var c := NewContainer(objects, comparer);
      base := c;
      wallet := money;
    }

    /** Gain: a null item answers false; any other is added (appended and checked). */
    method Gain(obj: Option<S>) returns (r: bool)
      requires Valid()
      modifies base, base.sat.Repr
      ensures Valid() && fresh(base.sat.Repr - old(base.sat.Repr))
      ensures r <==> obj.Some?
      ensures r ==> base.elements == old(base.elements) + [obj.value] &&
                    base.Model() == CheckSatisfyView(old(base.Model()), obj.value).1
      ensures !r ==> base.elements == old(base.elements) && base.Model() == old(base.Model())
      ensures wallet.value == old(wallet.value)
    {
      if obj.None? {
        return false;
      }
      var _ := base.Add(obj);
      return true;
    }

    /** Lose: true exactly when the item was held, and then its first occurrence is removed. */
    method Lose(obj: Option<S>) returns (r: bool)
      requires Valid()
      modifies base, base.sat.Repr
      ensures Valid() && fresh(base.sat.Repr - old(base.sat.Repr))
      ensures r <==> obj.Some? && obj.value in old(base.elements)
      ensures r ==> base.elements == Lists.RemoveFirst(old(base.elements), obj.value) &&
                    base.Model() == CheckUnsatisfyView(old(base.Model()), obj.value).1
      ensures !r ==> base.elements == old(base.elements) && base.Model() == old(base.Model())
      ensures wallet.value == old(wallet.value)
    {
      if obj.None? {
        return false;
      }
      r := base.Remove(obj);
    }

    /**
     * Sell: a null price or item answers false; a held item is removed
     * (its unsatisfy check runs) and the wallet gains the price (its
     * satisfy walk runs); an item not held answers false and nothing
     * changes.
     */
    method Sell(obj: Option<S>, price: Option<real>) returns (r: bool)
      requires Valid()
      modifies base, base.sat.Repr, wallet, wallet.sat.Repr
      ensures Valid() && fresh(base.sat.Repr - old(base.sat.Repr)) && fresh(wallet.sat.Repr - old(wallet.sat.Repr))
      ensures r <==> price.Some? && obj.Some? && obj.value in old(base.elements)
      ensures r ==> base.elements == Lists.RemoveFirst(old(base.elements), obj.value) &&
                    base.Model() == CheckUnsatisfyView(old(base.Model()), obj.value).1 &&
                    wallet.value == old(wallet.value) + price.value &&
                    wallet.Model() == SatisfyWalkView(old(wallet.Model()), wallet.value)
      ensures !r ==> base.elements == old(base.elements) && wallet.value == old(wallet.value) &&
                     base.Model() == old(base.Model()) && wallet.Model() == old(wallet.Model())
    {
      if price.None? || obj.None? {
        return false;
      }
      var removed := base.Remove(obj);
      WalletUntouched(wallet);
      if removed {
        label removed:
        ghost var _ := wallet.Gain(price.value);
        ContainerUntouched@removed(base);
        return true;
      }
      return false;
    }

    /**
     * The buyer's side of a purchase that went through: the wallet spends
     * the price (its unsatisfy walk runs), then the item is added (its
     * satisfy check runs).
     */
    method Settle(obj: S, price: real)
      requires Valid()
      modifies base, base.sat.Repr, wallet, wallet.sat.Repr
      ensures Valid() && fresh(base.sat.Repr - old(base.sat.Repr)) && fresh(wallet.sat.Repr - old(wallet.sat.Repr))
      ensures base.elements == old(base.elements) + [obj] &&
              base.Model() == CheckSatisfyView(old(base.Model()), obj).1
      ensures wallet.value == old(wallet.value) - price &&
              wallet.Model() == UnsatisfyWalkView(old(wallet.Model()), wallet.value)
    {
      ghost var _ := wallet.Spend(price);
      ContainerUntouched(base);
      label spent:
      var _ := base.Add(Some(obj));
      WalletUntouched@spent(wallet);
    }

    /**
     * The inventories a purchase may involve: the buyer itself, or another
     * inventory that has its own container and either its own wallet or
     * this one.
     */
    ghost predicate Parties(seller: Inventory<S>)
      reads base.sat, wallet.sat, seller.base.sat, seller.wallet.sat
    {
      seller == this ||
      (seller.base.Repr() !! Repr() && (seller.wallet == wallet || seller.wallet.Repr() !! Repr()))
    }

    /**
     * The state after a purchase of `obj` from `seller` at `price`: the
     * seller's Remove and its wallet's Gain, then this wallet's Spend and
     * this container's Add. A self-purchase moves the item to the end of
     * the list; a shared wallet gains and spends the same price.
     */
    twostate predicate Purchased(seller: Inventory<S>, obj: S, price: real)
      reads base, base.sat, base.sat.Repr, wallet, wallet.sat, wallet.sat.Repr
      reads seller.base, seller.base.sat, seller.base.sat.Repr, seller.wallet, seller.wallet.sat, seller.wallet.sat.Repr
    {
      && old(Valid()) && old(seller.Valid()) && Valid() && seller.Valid()
      && (seller == this ==>
            && base.elements == Lists.RemoveFirst(old(base.elements), obj) + [obj]
            && base.Model() == CheckSatisfyView(CheckUnsatisfyView(old(base.Model()), obj).1, obj).1)
      && (seller != this ==>
            && base.elements == old(base.elements) + [obj]
            && base.Model() == CheckSatisfyView(old(base.Model()), obj).1
            && seller.base.elements == Lists.RemoveFirst(old(seller.base.elements), obj)
            && seller.base.Model() == CheckUnsatisfyView(old(seller.base.Model()), obj).1)
      && (seller.wallet == wallet ==>
            && wallet.value == old(wallet.value)
            && wallet.Model() == UnsatisfyWalkView(SatisfyWalkView(old(wallet.Model()), old(wallet.value) + price),
                                                   wallet.value))
      && (seller.wallet != wallet ==>
            && wallet.value == old(wallet.value) - price
            && wallet.Model() == UnsatisfyWalkView(old(wallet.Model()), wallet.value)
            && seller.wallet.value == old(seller.wallet.value) + price
            && seller.wallet.Model() == SatisfyWalkView(old(seller.wallet.Model()), seller.wallet.value)
            && wallet.value + seller.wallet.value == old(wallet.value + seller.wallet.value))
    }

    /** Neither side of a purchase changed: items, money and satisfiers. */
    twostate predicate Unchanged(seller: Inventory<S>)
      reads base, base.sat, base.sat.Repr, wallet, wallet.sat, wallet.sat.Repr
      reads seller.base, seller.base.sat, seller.base.sat.Repr, seller.wallet, seller.wallet.sat, seller.wallet.sat.Repr
    {
      && old(Valid()) && old(seller.Valid()) && Valid() && seller.Valid()
      && base.elements == old(base.elements) && base.Model() == old(base.Model())
      && wallet.value == old(wallet.value) && wallet.Model() == old(wallet.Model())
      && seller.base.elements == old(seller.base.elements) && seller.base.Model() == old(seller.base.Model())
      && seller.wallet.value == old(seller.wallet.value) && seller.wallet.Model() == old(seller.wallet.Model())
    }

    /**
     * Buy from the item's owner: a null item or owner answers false; the
     * purchase goes through exactly when this wallet affords the price and
     * the owner sells the item (it holds it); then this wallet spends the
     * price and the item is added here (see Purchased). Otherwise nothing
     * changes on either side.
     */
    method Buy(obj: Option<S>, seller: Inventory?<S>, price: real) returns (r: bool)
      requires Valid() && (seller != null ==> seller.Valid() && Parties(seller))
      modifies base, base.sat.Repr, wallet, wallet.sat.Repr
      modifies if seller == null then {} else {seller.base, seller.wallet} + seller.base.sat.Repr + seller.wallet.sat.Repr
      ensures Valid() && fresh(base.sat.Repr - old(base.sat.Repr)) && fresh(wallet.sat.Repr - old(wallet.sat.Repr))
      ensures seller != null ==> seller.Valid() &&
                                 fresh(seller.base.sat.Repr - old(seller.base.sat.Repr)) &&
                                 fresh(seller.wallet.sat.Repr - old(seller.wallet.sat.Repr))
      ensures r <==> obj.Some? && seller != null && CanAfford(old(wallet.value), price) &&
                     obj.value in old(seller.base.elements)
      ensures r ==> Purchased(seller, obj.value, price)
      ensures !r ==> base.elements == old(base.elements) && wallet.value == old(wallet.value) &&
                     base.Model() == old(base.Model()) && wallet.Model() == old(wallet.Model())
      ensures !r && seller != null ==> Unchanged(seller)
    {
      if obj.None? || seller == null {
        return false;
      }
      if !CanAfford(wallet.value, price) {
        return false;
      }
      r := Trade(obj.value, seller, price);
    }

    /** The purchase once the item and the owner are known and the price is affordable. */
    method Trade(obj: S, seller: Inventory<S>, price: real) returns (r: bool)
      requires Valid() && seller.Valid() && Parties(seller)
      modifies base, base.sat.Repr, wallet, wallet.sat.Repr
      modifies seller.base, seller.wallet, seller.base.sat.Repr, seller.wallet.sat.Repr
      ensures Valid() && fresh(base.sat.Repr - old(base.sat.Repr)) && fresh(wallet.sat.Repr - old(wallet.sat.Repr))
      ensures seller.Valid() && fresh(seller.base.sat.Repr - old(seller.base.sat.Repr)) &&
              fresh(seller.wallet.sat.Repr - old(seller.wallet.sat.Repr))
      ensures r <==> obj in old(seller.base.elements)
      ensures r ==> Purchased(seller, obj, price)
      ensures !r ==> Unchanged(seller)
    {
      if seller == this {
        r := TradeWithSelf(obj, price);
      } else if seller.wallet == wallet {
        r := TradeSharingWallet(obj, seller, price);
      } else {
        r := TradeApart(obj, seller, price);
      }
    }

    /** A purchase of an item of this inventory: it is removed, then appended again. */
    method TradeWithSelf(obj: S, price: real) returns (r: bool)
      requires Valid()
      modifies base, base.sat.Repr, wallet, wallet.sat.Repr
      ensures Valid() && fresh(base.sat.Repr - old(base.sat.Repr)) && fresh(wallet.sat.Repr - old(wallet.sat.Repr))
      ensures r <==> obj in old(base.elements)
      ensures r ==> Purchased(this, obj, price)
      ensures !r ==> Unchanged(this)
    {
      r := Sell(Some(obj), Some(price));
      if r {
        Settle(obj, price);
      }
    }

    /** A purchase from another inventory that uses this inventory's wallet. */
    method TradeSharingWallet(obj: S, seller: Inventory<S>, price: real) returns (r: bool)
      requires Valid() && seller.Valid() && seller != this && seller.wallet == wallet
      requires seller.base.Repr() !! Repr()
      modifies base, base.sat.Repr, wallet, wallet.sat.Repr, seller.base, seller.base.sat.Repr
      ensures Valid() && fresh(base.sat.Repr - old(base.sat.Repr)) && fresh(wallet.sat.Repr - old(wallet.sat.Repr))
      ensures seller.Valid() && fresh(seller.base.sat.Repr - old(seller.base.sat.Repr))
      ensures r <==> obj in old(seller.base.elements)
      ensures r ==> Purchased(seller, obj, price)
      ensures !r ==> Unchanged(seller)
    {
      r := seller.Sell(Some(obj), Some(price));
      ContainerUntouched(base);
      if r {
        label sold:
        Settle(obj, price);
        ContainerUntouched@sold(seller.base);
      }
    }

    /** A purchase from another inventory with its own wallet. */
    method TradeApart(obj: S, seller: Inventory<S>, price: real) returns (r: bool)
      requires Valid() && seller.Valid() && seller.Repr() !! Repr()
      modifies base, base.sat.Repr, wallet, wallet.sat.Repr
      modifies seller.base, seller.wallet, seller.base.sat.Repr, seller.wallet.sat.Repr
      ensures Valid() && fresh(base.sat.Repr - old(base.sat.Repr)) && fresh(wallet.sat.Repr - old(wallet.sat.Repr))
      ensures seller.Valid() && fresh(seller.base.sat.Repr - old(seller.base.sat.Repr)) &&
              fresh(seller.wallet.sat.Repr - old(seller.wallet.sat.Repr))
      ensures r <==> obj in old(seller.base.elements)
      ensures r ==> Purchased(seller, obj, price)
      ensures !r ==> Unchanged(seller)
    {
      r := SellApart(obj, seller, price);
      if r {
        SettleApart(obj, seller, price);
      }
    }

    /** The seller's Sell, with the effect on this inventory when the two share nothing. */
    method SellApart(obj: S, seller: Inventory<S>, price: real) returns (r: bool)
      requires Valid() && seller.Valid() && seller.Repr() !! Repr()
      modifies seller.base, seller.wallet, seller.base.sat.Repr, seller.wallet.sat.Repr
      ensures seller.Valid() && fresh(seller.base.sat.Repr - old(seller.base.sat.Repr)) &&
              fresh(seller.wallet.sat.Repr - old(seller.wallet.sat.Repr))
      ensures r <==> obj in old(seller.base.elements)
      ensures r ==> seller.base.elements == Lists.RemoveFirst(old(seller.base.elements), obj) &&
                    seller.base.Model() == CheckUnsatisfyView(old(seller.base.Model()), obj).1 &&
                    seller.wallet.value == old(seller.wallet.value) + price &&
                    seller.wallet.Model() == SatisfyWalkView(old(seller.wallet.Model()), seller.wallet.value)
      ensures !r ==> seller.base.elements == old(seller.base.elements) && seller.base.Model() == old(seller.base.Model()) &&
                     seller.wallet.value == old(seller.wallet.value) && seller.wallet.Model() == old(seller.wallet.Model())
      ensures Valid() && Repr() == old(Repr()) && seller.Repr() !! Repr()
      ensures base.sat.Repr == old(base.sat.Repr) && wallet.sat.Repr == old(wallet.sat.Repr)
      ensures base.elements == old(base.elements) && base.Model() == old(base.Model())
      ensures wallet.value == old(wallet.value) && wallet.Model() == old(wallet.Model())
    {
      r := seller.Sell(Some(obj), Some(price));
      ContainerUntouched(base);
      WalletUntouched(wallet);
    }

    /** Settle, with the effect on a seller that shares nothing with this inventory. */
    method SettleApart(obj: S, seller: Inventory<S>, price: real)
      requires Valid() && seller.Valid() && seller.Repr() !! Repr()
      modifies base, base.sat.Repr, wallet, wallet.sat.Repr
      ensures Valid() && fresh(base.sat.Repr - old(base.sat.Repr)) && fresh(wallet.sat.Repr - old(wallet.sat.Repr))
      ensures base.elements == old(base.elements) + [obj] &&
              base.Model() == CheckSatisfyView(old(base.Model()), obj).1
      ensures wallet.value == old(wallet.value) - price &&
              wallet.Model() == UnsatisfyWalkView(old(wallet.Model()), wallet.value)
      ensures seller.Valid() && seller.Repr() == old(seller.Repr())
      ensures seller.base.sat.Repr == old(seller.base.sat.Repr) && seller.wallet.sat.Repr == old(seller.wallet.sat.Repr)
      ensures seller.base.elements == old(seller.base.elements) && seller.base.Model() == old(seller.base.Model())
      ensures seller.wallet.value == old(seller.wallet.value) && seller.wallet.Model() == old(seller.wallet.Model())
    {
      Settle(obj, price);
      ContainerUntouched(seller.base);
      WalletUntouched(seller.wallet);
    }
  }
}

=== FILE: lister.dfy ===
/**
 * Lister<D>: a registry of the assets of one type D, kept without
 * duplicates and ordered by a criteria string. The element list, the two
 * callbacks and the criteria are static fields of the generic class: every
 * Lister<D> of the same D shares them, and each constructor replaces the
 * criteria. Runtime/Lister/Lister.cs.
 *
 * The static fields are the `Registry` object that every lister of a type
 * holds. Elements are `Option<D>`: None is a null reference. Strings are
 * ordered ordinally (character by character).
 */
module Listers {
  import opened Wrappers
  import opened Sorting
  import Lists
  import Bundles

  /** Ordinal string order: a prefix comes first, otherwise the first differing character decides. */
  predicate StrLe(a: string, b: string)
  {
    a == [] || (b != [] && (a[0] < b[0] || (a[0] == b[0] && StrLe(a[1..], b[1..]))))
  }

  lemma {:induction false} StrLeTotal(a: string, b: string)
    ensures StrLe(a, b) || StrLe(b, a)
    decreases |a|
  {
    if a != [] && b != [] && a[0] == b[0] {
      StrLeTotal(a[1..], b[1..]);
    }
  }

  lemma {:induction false} StrLeTrans(a: string, b: string, c: string)
    requires StrLe(a, b) && StrLe(b, c)
    ensures StrLe(a, c)
    decreases |a|
  {
    if a != [] && a[0] == b[0] && b[0] == c[0] {
      StrLeTrans(a[1..], b[1..], c[1..]);
    }
  }

  /** The sort key of an element; a null element, dropped before sorting, has the empty key. */
  function KeyOf<D>(criteria: D -> string, x: Option<D>): string
  {
    if x.Some? then criteria(x.value) else ""
  }

  /** OrderBy(m_OrderCriteria) compares the keys with the string order. */
  function ByCriteria<D>(criteria: D -> string): (Option<D>, Option<D>) -> bool
  {
    (x: Option<D>, y: Option<D>) => StrLe(KeyOf(criteria, x), KeyOf(criteria, y))
  }

  lemma ByCriteriaIsPreorder<D(!new)>(criteria: D -> string)
    ensures TotalPreorder(ByCriteria(criteria))
  {
    var le := ByCriteria(criteria);
    forall a: Option<D>, b: Option<D>
      ensures le(a, b) || le(b, a)
    {
      StrLeTotal(KeyOf(criteria, a), KeyOf(criteria, b));
    }
    forall a: Option<D>, b: Option<D>, c: Option<D> | le(a, b) && le(b, c)
      ensures le(a, c)
    {
      StrLeTrans(KeyOf(criteria, a), KeyOf(criteria, b), KeyOf(criteria, c));
    }
  }

  /** The `Where(x => x != null)` filter. */
  predicate NotNull<D>(x: Option<D>)
  {
    x.Some?
  }

  /** DefaultCriteria: every element has the empty key. */
  function DefaultCriteria<D>(x: D): string
  {
    ""
  }

  /** `orderCriteria ?? DefaultCriteria`. */
  function CriteriaOrDefault<D>(orderCriteria: Option<D -> string>): D -> string
  {
    if orderCriteria.Some? then orderCriteria.value else DefaultCriteria
  }

  /**
   * The ordered element list of OrderListables and OrderedElements: the
   * non-null elements, stably sorted by their criteria string.
   */
  function Ordered<D(!new)>(elements: seq<Option<D>>, criteria: D -> string): (r: seq<Option<D>>)
    ensures multiset(r) == multiset(Filter(elements, NotNull))
    ensures SortedBy(r, ByCriteria(criteria))
  {
    ByCriteriaIsPreorder(criteria);
    SortBySorted(Filter(elements, NotNull), ByCriteria(criteria));
    SortBy(Filter(elements, NotNull), ByCriteria(criteria))
  }

  /** The elements that are listed (present and not null). */
  function Listed<D>(elements: seq<Option<D>>): set<D>
  {
    set x | x in elements && x.Some? :: x.value
  }

  /** No element occurs twice. */
  ghost predicate NoDuplicates<T>(s: seq<T>)
  {
    forall i, j | 0 <= i < j < |s| :: s[i] != s[j]
  }

  /** The list AddListable syncs: the item is appended only when it is not there yet. */
  function WithItem<D(==)>(elements: seq<Option<D>>, item: Option<D>): seq<Option<D>>
  {
    if item in elements then elements else elements + [item]
  }

  lemma {:induction false} FilterSubMultiset<T>(s: seq<T>, p: T -> bool)
    ensures multiset(Filter(s, p)) <= multiset(s)
    decreases |s|
  {
    if s != [] {
      FilterSubMultiset(s[..|s| - 1], p);
      assert s == s[..|s| - 1] + [s[|s| - 1]];
    }
  }

  lemma {:induction false} NoDuplicatesCount<T>(s: seq<T>, x: T)
    requires NoDuplicates(s)
    ensures multiset(s)[x] <= 1
    decreases |s|
  {
    if s != [] {
      var init := s[..|s| - 1];
      assert NoDuplicates(init);
      NoDuplicatesCount(init, x);
      assert s == init + [s[|s| - 1]];
      if s[|s| - 1] == x {
        assert x !in init;
      }
    }
  }

  lemma RepeatCount<T>(s: seq<T>, i: nat, j: nat)
    requires i < j < |s| && s[i] == s[j]
    ensures multiset(s)[s[i]] >= 2
  {
    assert s == s[..j] + [s[j]] + s[j + 1..];
    assert s[i] in s[..j];
  }

  /** A list whose multiset is within that of a duplicate-free list is duplicate-free. */
  lemma NoDuplicatesOfSub<T>(a: seq<T>, b: seq<T>)
    requires NoDuplicates(a) && multiset(b) <= multiset(a)
    ensures NoDuplicates(b)
  {
    forall i, j | 0 <= i < j < |b|
      ensures b[i] != b[j]
    {
      if b[i] == b[j] {
        RepeatCount(b, i, j);
        NoDuplicatesCount(a, b[i]);
        assert false;
      }
    }
  }

  /** Ordered keeps exactly the non-null elements of its argument. */
  lemma OrderedMembers<D(!new)>(elements: seq<Option<D>>, criteria: D -> string)
    ensures forall x :: x in Ordered(elements, criteria) <==> x in elements && x.Some?
  {
    var r := Ordered(elements, criteria);
    var f := Filter(elements, NotNull);
    forall x
      ensures x in r <==> x in f
    {
      assert x in r <==> x in multiset(r);
      assert x in f <==> x in multiset(f);
    }
    forall x
      ensures x in f <==> x in elements && x.Some?
    {
      if x in f {
        var i :| 0 <= i < |f| && f[i] == x;
      }
      if x in elements && x.Some? {
        var i :| 0 <= i < |elements| && elements[i] == x;
      }
    }
  }

  /** Two lists with the same non-null members list the same elements. */
  lemma ListedOfMembers<D>(a: seq<Option<D>>, b: seq<Option<D>>)
    requires forall x :: x in a <==> x in b && x.Some?
    ensures Listed(a) == Listed(b)
  {
    forall y | y in Listed(a)
      ensures y in Listed(b)
    {
      assert Some(y) in a;
    }
    forall y | y in Listed(b)
      ensures y in Listed(a)
    {
      assert Some(y) in b;
    }
  }

  /** What Ordered lists is exactly the listed elements of its argument. */
  lemma OrderedListed<D(!new)>(elements: seq<Option<D>>, criteria: D -> string)
    ensures Listed(Ordered(elements, criteria)) == Listed(elements)
    ensures forall i | 0 <= i < |Ordered(elements, criteria)| :: Ordered(elements, criteria)[i].Some?
  {
    var r := Ordered(elements, criteria);
    OrderedMembers(elements, criteria);
    ListedOfMembers(r, elements);
    forall i | 0 <= i < |r|
      ensures r[i].Some?
    {
      assert r[i] in r;
    }
  }

  /** OrderBy is stable: elements with equal keys keep the order they were added in. */
  lemma OrderedIsStable<D(!new)>(elements: seq<Option<D>>, criteria: D -> string, c: Option<D>)
    ensures ClassOf(Ordered(elements, criteria), ByCriteria(criteria), c)
         == ClassOf(Filter(elements, NotNull), ByCriteria(criteria), c)
  {
    ByCriteriaIsPreorder(criteria);
    SortByStable(Filter(elements, NotNull), ByCriteria(criteria), c);
  }

  /** Ordering an ordered list changes nothing: a second Sync is the first. */
  lemma OrderedIdempotent<D(!new)>(elements: seq<Option<D>>, criteria: D -> string)
    ensures Ordered(Ordered(elements, criteria), criteria) == Ordered(elements, criteria)
  {
    var r := Ordered(elements, criteria);
    OrderedListed(elements, criteria);
    FilterKeepsAll(r);
    SortByOfSorted(r, ByCriteria(criteria));
  }

  lemma {:induction false} FilterKeepsAll<D>(s: seq<Option<D>>)
    requires forall i | 0 <= i < |s| :: s[i].Some?
    ensures Filter(s, NotNull) == s
    decreases |s|
  {
    if s != [] {
      FilterKeepsAll(s[..|s| - 1]);
      assert s == s[..|s| - 1] + [s[|s| - 1]];
    }
  }

  /** With the default criteria every key is equal, so the order is the order of addition. */
  lemma DefaultKeepsAdditionOrder<D(!new)>(elements: seq<Option<D>>)
    ensures Ordered(elements, DefaultCriteria) == Filter(elements, NotNull)
  {
    var f := Filter(elements, NotNull);
    assert SortedBy(f, ByCriteria(DefaultCriteria));
    SortByOfSorted(f, ByCriteria(DefaultCriteria));
  }

  /** Appending an absent item keeps the list duplicate-free and lists the item too. */
  lemma WithItemListed<D>(elements: seq<Option<D>>, item: Option<D>)
    requires NoDuplicates(elements)
    ensures NoDuplicates(WithItem(elements, item))
    ensures Listed(WithItem(elements, item)) == Listed(elements) + (if item.Some? then {item.value} else {})
  {
    var w := WithItem(elements, item);
    assert forall x :: x in w <==> x in elements || x == item;
    forall y
      ensures y in Listed(w) <==> y in Listed(elements) || (item.Some? && y == item.value)
    {
      assert y in Listed(w) <==> Some(y) in w;
      assert y in Listed(elements) <==> Some(y) in elements;
    }
  }

  /** Removing the one occurrence of an item from a duplicate-free list leaves every other element. */
  lemma RemoveFirstMembers<T>(elements: seq<T>, item: T)
    requires NoDuplicates(elements)
    ensures NoDuplicates(Lists.RemoveFirst(elements, item))
    ensures forall x :: x in Lists.RemoveFirst(elements, item) <==> x in elements && x != item
  {
    var w := Lists.RemoveFirst(elements, item);
    NoDuplicatesCount(elements, item);
    assert multiset(w) <= multiset(elements);
    NoDuplicatesOfSub(elements, w);
    forall x
      ensures x in w <==> x in elements && x != item
    {
      assert x in w <==> x in multiset(w);
      assert x in elements <==> x in multiset(elements);
    }
  }

  /** Removing the one occurrence of an item from a duplicate-free list unlists it and nothing else. */
  lemma RemoveFirstListed<D>(elements: seq<Option<D>>, item: Option<D>)
    requires NoDuplicates(elements)
    ensures NoDuplicates(Lists.RemoveFirst(elements, item))
    ensures Listed(Lists.RemoveFirst(elements, item)) == Listed(elements) - (if item.Some? then {item.value} else {})
  {
    var w := Lists.RemoveFirst(elements, item);
    RemoveFirstMembers(elements, item);
    var kept := Listed(elements) - (if item.Some? then {item.value} else {});
    forall y | y in Listed(w)
      ensures y in kept
    {
      assert Some(y) in w;
    }
    forall y | y in kept
      ensures y in Listed(w)
    {
      assert Some(y) in elements && Some(y) != item;
      assert Some(y) in w;
    }
  }

  /** Ordering a duplicate-free list keeps it duplicate-free. */
  lemma OrderedNoDuplicates<D(!new)>(elements: seq<Option<D>>, criteria: D -> string)
    requires NoDuplicates(elements)
    ensures NoDuplicates(Ordered(elements, criteria))
  {
    FilterSubMultiset(elements, NotNull);
    NoDuplicatesOfSub(elements, Ordered(elements, criteria));
  }

  /**
   * AddListable of a new element: it is listed afterwards together with
   * everything listed before, and no element is listed twice.
   */
  lemma AddListableLists<D(!new)>(elements: seq<Option<D>>, item: Option<D>, criteria: D -> string)
    requires NoDuplicates(elements)
    ensures Listed(Ordered(WithItem(elements, item), criteria))
         == Listed(elements) + (if item.Some? then {item.value} else {})
    ensures NoDuplicates(Ordered(WithItem(elements, item), criteria))
  {
    WithItemListed(elements, item);
    OrderedListed(WithItem(elements, item), criteria);
    OrderedNoDuplicates(WithItem(elements, item), criteria);
  }

  /**
   * RemoveListable of an element: afterwards it is no longer listed, every
   * other listed element still is, and no element is listed twice.
   */
  lemma RemoveListableUnlists<D(!new)>(elements: seq<Option<D>>, item: Option<D>, criteria: D -> string)
    requires NoDuplicates(elements)
    ensures Listed(Ordered(Lists.RemoveFirst(elements, item), criteria))
         == Listed(elements) - (if item.Some? then {item.value} else {})
    ensures NoDuplicates(Ordered(Lists.RemoveFirst(elements, item), criteria))
  {
    RemoveFirstListed(elements, item);
    OrderedListed(Lists.RemoveFirst(elements, item), criteria);
    OrderedNoDuplicates(Lists.RemoveFirst(elements, item), criteria);
  }

  /** With the default criteria a list without nulls is its own ordering. */
  lemma DefaultKeepsListOfSome<D(!new)>(s: seq<Option<D>>)
    requires forall i | 0 <= i < |s| :: s[i].Some?
    ensures Ordered(s, DefaultCriteria) == s
  {
    DefaultKeepsAdditionOrder(s);
    FilterKeepsAll(s);
  }

  /**
   * Adding e2 then e1 to an empty registry with the default criteria lists
   * them as [e2, e1]: the sort keeps the order of addition.
   */
  lemma DefaultOrderOfTwo<D(!new)>(e1: D, e2: D)
    requires e1 != e2
    ensures Ordered(WithItem(Ordered(WithItem([], Some(e2)), DefaultCriteria), Some(e1)), DefaultCriteria)
         == [Some(e2), Some(e1)]
  {
    var first: seq<Option<D>> := [Some(e2)];
    assert WithItem([], Some(e2)) == first;
    DefaultKeepsListOfSome(first);
    var second: seq<Option<D>> := [Some(e2), Some(e1)];
    assert WithItem(first, Some(e1)) == second;
    DefaultKeepsListOfSome(second);
  }

  /** The static fields of Lister<D>, one set per element type. */
  class Registry<D(==, !new)> {
    var elements: seq<Option<D>>          // m_Elements
    var criteria: Option<D -> string>     // m_OrderCriteria, null until a lister is constructed
    var onAdd: Bundles.Event?             // m_OnAdd
    var onRemove: Bundles.Event?          // m_OnRemove
    ghost var addFired: nat               // invocations of m_OnAdd
    ghost var removeFired: nat            // invocations of m_OnRemove

    /** The static initializers: no element, no criteria, no callbacks. */
    constructor ()
      ensures elements == [] && criteria.None? && onAdd == null && onRemove == null
      ensures addFired == 0 && removeFired == 0
    {
      elements := [];
      criteria := None;
      onAdd := null;
      onRemove := null;
      addFired := 0;
      removeFired := 0;
    }

    /** `if (!m_Elements.Contains(item)) m_Elements.Add(item)`. */
    method Include(item: Option<D>)
      modifies this
      ensures elements == WithItem(old(elements), item)
      ensures criteria == old(criteria) && onAdd == old(onAdd) && onRemove == old(onRemove)
      ensures addFired == old(addFired) && removeFired == old(removeFired)
    {
      if item !in elements {
        elements := elements + [item];
      }
    }

    /** `m_OnAdd?.Invoke()`. */
    method NotifyAdd()
      modifies this
      ensures elements == old(elements) && criteria == old(criteria)
      ensures onAdd == old(onAdd) && onRemove == old(onRemove) && removeFired == old(removeFired)
      ensures addFired == old(addFired) + (if onAdd != null then 1 else 0)
    {
      if onAdd != null {
        addFired := addFired + 1;
      }
    }

    /** `m_OnRemove?.Invoke()`. */
    method NotifyRemove()
      modifies this
      ensures elements == old(elements) && criteria == old(criteria)
      ensures onAdd == old(onAdd) && onRemove == old(onRemove) && addFired == old(addFired)
      ensures removeFired == old(removeFired) + (if onRemove != null then 1 else 0)
    {
      if onRemove != null {
        removeFired := removeFired + 1;
      }
    }

    /** `m_Elements.Remove(item)`. */
    method Remove(item: Option<D>)
      modifies this
      ensures elements == Lists.RemoveFirst(old(elements), item)
      ensures criteria == old(criteria) && onAdd == old(onAdd) && onRemove == old(onRemove)
      ensures addFired == old(addFired) && removeFired == old(removeFired)
    {
      elements := Lists.RemoveFirst(elements, item);
    }
  }

  class Lister<D(==, !new)> {
    var siblings: seq<Option<D>>          // m_Siblings
    const registry: Registry<D>

    /** Once a lister exists, the shared criteria is set. */
    ghost predicate Valid()
      reads registry
    {
      registry.criteria.Some?
    }

    /** Lister(orderCriteria): the shared criteria becomes the given one, or the default for null. */
    constructor (reg: Registry<D>, orderCriteria: Option<D -> string>)
      modifies reg
      ensures registry == reg && siblings == [] && Valid()
      ensures reg.criteria == Some(CriteriaOrDefault(orderCriteria))
      ensures reg.elements == old(reg.elements) && reg.onAdd == old(reg.onAdd) && reg.onRemove == old(reg.onRemove)
      ensures reg.addFired == old(reg.addFired) && reg.removeFired == old(reg.removeFired)
    {
      registry := reg;
      siblings := [];
      reg.criteria := Some(CriteriaOrDefault(orderCriteria));
    }

    /** OrderListables: the shared list becomes its non-null elements sorted by the criteria. */
    method OrderListables()
      requires Valid()
      modifies registry
      ensures Valid() && registry.criteria == old(registry.criteria)
      ensures registry.elements == Ordered(old(registry.elements), registry.criteria.value)
      ensures registry.onAdd == old(registry.onAdd) && registry.onRemove == old(registry.onRemove)
      ensures registry.addFired == old(registry.addFired) && registry.removeFired == old(registry.removeFired)
    {
      registry.elements := Ordered(registry.elements, registry.criteria.value);
    }

    /** Sync: orders the shared list, then the siblings become a copy of it. */
    method Sync()
      requires Valid()
      modifies this, registry
      ensures Valid() && registry.criteria == old(registry.criteria)
      ensures registry.elements == Ordered(old(registry.elements), registry.criteria.value)
      ensures siblings == registry.elements
      ensures registry.onAdd == old(registry.onAdd) && registry.onRemove == old(registry.onRemove)
      ensures registry.addFired == old(registry.addFired) && registry.removeFired == old(registry.removeFired)
    {
      OrderListables();
      siblings := registry.elements;
    }

    /** AddListable: appends the item if it is not there yet, syncs, then invokes OnAdd if set. */
    method AddListable(item: Option<D>)
      requires Valid()
      modifies this, registry
      ensures Valid() && registry.criteria == old(registry.criteria)
      ensures registry.elements == Ordered(WithItem(old(registry.elements), item), registry.criteria.value)
      ensures siblings == registry.elements
      ensures registry.onAdd == old(registry.onAdd) && registry.onRemove == old(registry.onRemove)
      ensures registry.addFired == old(registry.addFired) + (if registry.onAdd != null then 1 else 0)
      ensures registry.removeFired == old(registry.removeFired)
    {
      registry.Include(item);
      Sync();
      registry.NotifyAdd();
    }

    /** RemoveListable: removes the item's first occurrence, syncs, then invokes OnRemove if set. */
    method RemoveListable(item: Option<D>)
      requires Valid()
      modifies this, registry
      ensures Valid() && registry.criteria == old(registry.criteria)
      ensures registry.elements == Ordered(Lists.RemoveFirst(old(registry.elements), item), registry.criteria.value)
      ensures siblings == registry.elements
      ensures registry.onAdd == old(registry.onAdd) && registry.onRemove == old(registry.onRemove)
      ensures registry.addFired == old(registry.addFired)
      ensures registry.removeFired == old(registry.removeFired) + (if registry.onRemove != null then 1 else 0)
    {
      registry.Remove(item);
      Sync();
      registry.NotifyRemove();
    }

    /** The static OrderedElements(): the ordered list, without changing the shared one; null criteria throws. */
    static method OrderedElements(reg: Registry<D>) returns (r: seq<Option<D>>, err: Option<Exception>)
      ensures reg.criteria.None? ==> err == Some(ArgumentNull) && r == []
      ensures reg.criteria.Some? ==> err.None? && r == Ordered(reg.elements, reg.criteria.value)
    {
      if reg.criteria.None? {
        return [], Some(ArgumentNull);
      }
      r := Ordered(reg.elements, reg.criteria.value);
      err := None;
    }
  }
}

=== FILE: lists.dfy ===
/**
 * The few members of .NET's List<T> that the modelled code relies on,
 * on sequences: IndexOf, Remove (first occurrence) and RemoveAt. Element
 * equality is Dafny's `==`, standing for the element type's Equals.
 */
module Lists {

  /** List.IndexOf: the first index holding `x`, or -1. */
  function IndexOf<T(==)>(s: seq<T>, x: T): (i: int)
    ensures -1 <= i < |s|
    ensures i == -1 <==> x !in s
    ensures 0 <= i ==> s[i] == x && x !in s[..i]
  {
    if |s| == 0 then -1
    else if s[0] == x then 0
    else
      var j := IndexOf(s[1..], x);
      assert s[1..][..if j < 0 then 0 else j] == s[1..if j < 0 then 1 else j + 1];
      if j < 0 then -1 else j + 1
  }

  /** List.FindIndex: the first index whose element satisfies `p`, or -1. */
  function FindIndex<T>(s: seq<T>, p: T -> bool): (i: int)
    ensures -1 <= i < |s|
    ensures 0 <= i ==> p(s[i])
    ensures forall k | 0 <= k < (if i < 0 then |s| else i) :: !p(s[k])
  {
    if |s| == 0 then -1
    else if p(s[0]) then 0
    else
      var j := FindIndex(s[1..], p);
      if j < 0 then -1 else j + 1
  }

  /** List.RemoveAt. */
  function RemoveAt<T>(s: seq<T>, i: nat): (r: seq<T>)
    requires i < |s|
    ensures |r| == |s| - 1
    ensures forall k | 0 <= k < i :: r[k] == s[k]
    ensures forall k | i <= k < |r| :: r[k] == s[k + 1]
  {
    s[..i] + s[i + 1..]
  }

  /** List.Remove: drops the first occurrence of `x`, if there is one. */
  function RemoveFirst<T(==)>(s: seq<T>, x: T): (r: seq<T>)
    ensures x in s ==> |r| == |s| - 1
    ensures x !in s ==> r == s
    ensures multiset(r) == multiset(s) - multiset{x}
  {
    if x !in s then s
    else
      var i := IndexOf(s, x);
      assert s == s[..i] + [x] + s[i + 1..];
      RemoveAt(s, i)
  }
}

=== FILE: mapping.dfy ===
/**
 * Mapping<K, V>: an asset holding a list of keys and a parallel list of
 * value lists, and presenting them as a dictionary.
 * Runtime/Shire/Mappings/Mapping.cs.
 *
 * A null key is `None`; a null ListWrapper is `None`, and a wrapper is
 * otherwise its list of values.
 */
module Mappings {
  import opened Wrappers

  /** What the loop of Map has built after `n` keys, or the exception it threw on the way. */
  function MapPrefix<K(==), V>(keys: seq<Option<K>>, values: seq<Option<seq<V>>>, n: nat): Outcome<map<K, seq<V>>>
    requires n <= |keys|
    decreases n
  {
    if n == 0 then Done(map[])
    else match MapPrefix(keys, values, n - 1)
      case Thrown(e) => Thrown(e)
      case Done(dict) =>
        var i := n - 1;
        if i >= |values| then Thrown(ArgumentOutOfRange)   // m_Values[i]
        else if values[i].None? then Thrown(NullReference)  // m_Values[i].List
        else if keys[i].None? then Thrown(ArgumentNull)     // Dictionary.Add(null, ...)
        else if keys[i].value in dict then Thrown(DuplicateKey)
        else Done(dict[keys[i].value := values[i].value])
  }

  /** Once the loop has thrown, the outcome stays that exception. */
  lemma {:induction false} ThrownStays<K, V>(keys: seq<Option<K>>, values: seq<Option<seq<V>>>, i: nat, n: nat)
    requires i <= n <= |keys| && MapPrefix(keys, values, i).Thrown?
    ensures MapPrefix(keys, values, n) == MapPrefix(keys, values, i)
    decreases n
  {
    if n > i {
      ThrownStays(keys, values, i, n - 1);
    }
  }

  /** The keys are pairwise distinct. */
  predicate DistinctKeys<K(==)>(keys: seq<Option<K>>)
  {
    forall i, j | 0 <= i < j < |keys| :: keys[i] != keys[j]
  }

  /** Map succeeds when every key has a non-null wrapper at its index, and the keys are non-null and distinct. */
  predicate Mappable<K(==), V>(keys: seq<Option<K>>, values: seq<Option<seq<V>>>)
  {
    && |values| >= |keys|
    && (forall i | 0 <= i < |keys| :: keys[i].Some? && values[i].Some?)
    && DistinctKeys(keys)
  }

  /**
   * The first `n` keys, when they can all be added, give a dictionary that
   * maps each of them to the list at its index and holds nothing else.
   */
  lemma {:induction false} MapPrefixContents<K, V>(keys: seq<Option<K>>, values: seq<Option<seq<V>>>, n: nat)
    requires n <= |keys| && MapPrefix(keys, values, n).Done?
    ensures var dict := MapPrefix(keys, values, n).value;
            && |values| >= n
            && (forall i | 0 <= i < n :: keys[i].Some? && values[i].Some?)
            && (forall i, j | 0 <= i < j < n :: keys[i] != keys[j])
            && (forall i | 0 <= i < n :: keys[i].value in dict && dict[keys[i].value] == values[i].value)
            && (forall k | k in dict :: exists i | 0 <= i < n :: keys[i] == Some(k))
    decreases n
  {
    if n > 0 {
      MapPrefixContents(keys, values, n - 1);
      var dict := MapPrefix(keys, values, n - 1).value;
      forall i | 0 <= i < n - 1
        ensures keys[i] != keys[n - 1]
      {
        assert keys[i].value in dict;
      }
    }
  }

  /** Conversely, distinct non-null keys with a wrapper each can all be added. */
  lemma {:induction false} MapPrefixSucceeds<K, V>(keys: seq<Option<K>>, values: seq<Option<seq<V>>>, n: nat)
    requires n <= |keys| && |values| >= n
    requires forall i | 0 <= i < n :: keys[i].Some? && values[i].Some?
    requires forall i, j | 0 <= i < j < n :: keys[i] != keys[j]
    ensures MapPrefix(keys, values, n).Done?
    decreases n
  {
    if n > 0 {
      MapPrefixSucceeds(keys, values, n - 1);
      MapPrefixContents(keys, values, n - 1);
      var dict := MapPrefix(keys, values, n - 1).value;
      forall k | k in dict
        ensures k != keys[n - 1].value
      {
        var i :| 0 <= i < n - 1 && keys[i] == Some(k);
        assert keys[i] != keys[n - 1];
      }
    }
  }

  /**
   * Map succeeds exactly when the lists are mappable; then every key maps to
   * the list at its index and the dictionary has one entry per key.
   */
  lemma MapOutcome<K, V>(keys: seq<Option<K>>, values: seq<Option<seq<V>>>)
    ensures MapPrefix(keys, values, |keys|).Done? <==> Mappable(keys, values)
    ensures Mappable(keys, values) ==>
              var dict := MapPrefix(keys, values, |keys|).value;
              && (forall i | 0 <= i < |keys| :: keys[i].value in dict && dict[keys[i].value] == values[i].value)
              && (forall k | k in dict :: exists i | 0 <= i < |keys| :: keys[i] == Some(k))
              && |dict| == |keys|
  {
    if MapPrefix(keys, values, |keys|).Done? {
      MapPrefixContents(keys, values, |keys|);
    }
    if Mappable(keys, values) {
      MapPrefixSucceeds(keys, values, |keys|);
      MapPrefixContents(keys, values, |keys|);
      var dict := MapPrefix(keys, values, |keys|).value;
      DomainSize(keys, dict);
    }
  }

  /** A dictionary whose keys are exactly the distinct keys of the list has as many entries as the list. */
  lemma {:induction false} DomainSize<K, V>(keys: seq<Option<K>>, dict: map<K, V>)
    requires forall i | 0 <= i < |keys| :: keys[i].Some? && keys[i].value in dict
    requires forall k | k in dict :: exists i | 0 <= i < |keys| :: keys[i] == Some(k)
    requires forall i, j | 0 <= i < j < |keys| :: keys[i] != keys[j]
    ensures |dict| == |keys|
    decreases |keys|
  {
    if keys == [] {
      assert forall k :: k !in dict;
      assert dict == map[];
    } else {
      var rest := WithoutLastKey(keys, dict);
      DomainSize(keys[..|keys| - 1], rest);
    }
  }

  /** Removing the last key from both the list and the dictionary keeps them in step. */
  lemma WithoutLastKey<K, V>(keys: seq<Option<K>>, dict: map<K, V>) returns (rest: map<K, V>)
    requires |keys| > 0
    requires forall i | 0 <= i < |keys| :: keys[i].Some? && keys[i].value in dict
    requires forall k | k in dict :: exists i | 0 <= i < |keys| :: keys[i] == Some(k)
    requires forall i, j | 0 <= i < j < |keys| :: keys[i] != keys[j]
    ensures var init := keys[..|keys| - 1];
            && (forall i | 0 <= i < |init| :: init[i].Some? && init[i].value in rest)
            && (forall k | k in rest :: exists i | 0 <= i < |init| :: init[i] == Some(k))
            && (forall i, j | 0 <= i < j < |init| :: init[i] != init[j])
            && |dict| == |rest| + 1
  {
    var last := keys[|keys| - 1].value;
    rest := map k | k in dict && k != last :: dict[k];
    var init := keys[..|keys| - 1];
    forall k | k in rest
      ensures exists i | 0 <= i < |init| :: init[i] == Some(k)
    {
      var i :| 0 <= i < |keys| && keys[i] == Some(k);
      assert i < |init| && init[i] == Some(k);
    }
    forall i | 0 <= i < |init|
      ensures init[i].Some? && init[i].value in rest
    {
      assert init[i] == keys[i] != keys[|keys| - 1];
    }
    assert dict.Keys == rest.Keys + {last};
  }

  class Mapping<K(==), V> {
    var keys: seq<Option<K>>             // m_Keys
    var values: seq<Option<seq<V>>>      // m_Values

    /** The Map getter: a new dictionary from each key to the list at its index. */
    method Map() returns (r: Outcome<map<K, seq<V>>>)
      ensures r == MapPrefix(keys, values, |keys|)
    {
      var dict: map<K, seq<V>> := map[];
      for i := 0 to |keys|
        invariant MapPrefix(keys, values, i) == Done(dict)
      {
        if i >= |values| {
          ThrownStays(keys, values, i + 1, |keys|);
          return Thrown(ArgumentOutOfRange);
        }
        if values[i].None? {
          ThrownStays(keys, values, i + 1, |keys|);
          return Thrown(NullReference);
        }
        if keys[i].None? {
          ThrownStays(keys, values, i + 1, |keys|);
          return Thrown(ArgumentNull);
        }
        if keys[i].value in dict {
          ThrownStays(keys, values, i + 1, |keys|);
          return Thrown(DuplicateKey);
        }
        dict := dict[keys[i].value := values[i].value];
      }
      return Done(dict);
    }
  }
}

=== FILE: numismatic.dfy ===
/**
 * Numismatic: a wallet that is also a satisfier of the prices it watches.
 * When its value grows it walks the watched prices in comparer order and
 * satisfies each one it can afford; when its value shrinks it walks them
 * unsatisfying each one it cannot afford. Runtime/Models/Numismatic.cs.
 *
 * A wallet's value is a real number (the source stores it as currency
 * pieces and a float remainder). The watched prices are `Amount` snapshots:
 * an identity and the value the price had when it was watched.
 * The OSatisfier<Numismatic> base class part is the `sat` object.
 */
module Numismatics {
  import opened Wrappers
  import opened Bundles
  import opened Satisfiers
  import opened ObjectSatisfiers
  import opened OSatisfiers

  /** A watched wallet or price: which one it is and what it is worth. */
  datatype Amount = Amount(id: nat, value: real)

  /** Numismatic.EPSILON: the tolerance of every value comparison. */
  const EPSILON: real := 0.01

  function Abs(x: real): real
  {
    if x < 0.0 then -x else x
  }

  /**
   * CanAfford: a value covers a price when it is at least the price or
   * within EPSILON of it, that is, when it is at least the price minus
   * EPSILON. Every value affords itself.
   */
  predicate CanAfford(wallet: real, price: real): (r: bool)
    ensures r <==> wallet >= price - EPSILON
    ensures wallet == price ==> r
  {
    wallet >= price || Abs(wallet - price) <= EPSILON
  }

  /** float.CompareTo: the sign of `x - y`. */
  function CompareValues(x: real, y: real): (c: int)
    ensures -1 <= c <= 1
    ensures c < 0 <==> x < y
    ensures c == 0 <==> x == y
  {
    if x < y then -1 else if x > y then 1 else 0
  }

  /** Numismatic.Comparer: descending value, so the dearest comes first. */
  function Comparer(a: Amount, b: Amount): (c: int)
    ensures c <= 0 <==> a.value >= b.value
    ensures c == 0 <==> a.value == b.value
  {
    CompareValues(b.value, a.value)
  }

  /** Numismatic.Equator: equal values, or values closer than EPSILON. */
  predicate Equator(a: Amount, b: Amount): (r: bool)
    ensures r <==> Abs(a.value - b.value) < EPSILON
    ensures a.value == b.value ==> r
  {
    a.value == b.value || Abs(a.value - b.value) < EPSILON
  }

  /** OrderBy can sort by the comparer: it is total and transitive. */
  lemma ComparerConsistent()
    ensures ConsistentComparer(Comparer)
  {
    var le := NotAfter(Comparer);
    forall a, b
      ensures le(a, b) <==> a.value >= b.value
    {
    }
    forall a, b
      ensures le(a, b) || le(b, a)
    {
    }
    forall a, b, c | le(a, b) && le(b, c)
      ensures le(a, c)
    {
    }
  }

  /** Whatever a wallet affords, it affords every cheaper price too. */
  lemma AffordsCheaper(wallet: real, dear: real, cheap: real)
    requires cheap <= dear
    ensures CanAfford(wallet, dear) ==> CanAfford(wallet, cheap)
    ensures !CanAfford(wallet, cheap) ==> !CanAfford(wallet, dear)
  {
  }

  // ---------------------------------------------------------------------
  // The Check*OnChange walks on the view
  // ---------------------------------------------------------------------

  /** One bundle satisfied (or, with `unsat`, unsatisfied). */
  function Step(b: BundleState<Amount>, unsat: bool): BundleState<Amount>
  {
    if unsat then Unsatisfied(b) else Satisfied(b)
  }

  /** The view with the bundle of every object of `s` stepped once. */
  function Marked(v: map<Amount, BundleState<Amount>>, s: set<Amount>, unsat: bool): map<Amount, BundleState<Amount>>
  {
    map k | k in v :: if k in s then Step(v[k], unsat) else v[k]
  }

  /**
   * How many prices from the front of `order` the walk handles before it
   * breaks: the longest prefix whose affordability is `afford`.
   */
  function WalkLength(order: seq<Amount>, wallet: real, afford: bool): (n: nat)
    ensures n <= |order|
    ensures forall j | 0 <= j < n :: CanAfford(wallet, order[j].value) == afford
    ensures n < |order| ==> CanAfford(wallet, order[n].value) != afford
  {
    if |order| == 0 || CanAfford(wallet, order[0].value) != afford then 0
    else 1 + WalkLength(order[1..], wallet, afford)
  }

  /** The walk ends at the end of `order` or at the first price not of its kind. */
  lemma WalkStops(order: seq<Amount>, wallet: real, afford: bool, i: nat)
    requires i <= WalkLength(order, wallet, afford)
    requires i == |order| || CanAfford(wallet, order[i].value) != afford
    ensures i == WalkLength(order, wallet, afford)
  {
  }

  /** A price of the walk's kind right after a prefix of the walk extends it. */
  lemma WalkGoesOn(order: seq<Amount>, wallet: real, afford: bool, i: nat)
    requires i <= WalkLength(order, wallet, afford) && i < |order| && CanAfford(wallet, order[i].value) == afford
    ensures i + 1 <= WalkLength(order, wallet, afford)
  {
  }

  /**
   * A walk over the watched prices in `order`: the satisfy walk steps the
   * affordable prefix, the unsatisfy walk the unaffordable prefix. The
   * answer is whether it stepped any bundle.
   */
  function Walk(v: map<Amount, BundleState<Amount>>, order: seq<Amount>, wallet: real, unsat: bool)
    : (bool, map<Amount, BundleState<Amount>>)
  {
    var n := WalkLength(order, wallet, !unsat);
    (n > 0, Marked(v, Prefix(order, n), unsat))
  }

  /** The objects of the first `n` places of `order`. */
  function Prefix(order: seq<Amount>, n: nat): set<Amount>
    requires n <= |order|
  {
    set j | 0 <= j < n :: order[j]
  }

  /** `order` lists every watched object exactly once. */
  ghost predicate EachOnce(v: map<Amount, BundleState<Amount>>, order: seq<Amount>)
  {
    (forall i | 0 <= i < |order| :: order[i] in v) &&
    (forall k | k in v :: k in order) &&
    (forall i, j | 0 <= i < j < |order| :: order[i] != order[j])
  }

  /** The places of `order` hold watched objects, each at one place only. */
  ghost predicate ListedOnce(v: map<Amount, BundleState<Amount>>, order: seq<Amount>)
  {
    (forall i | 0 <= i < |order| :: order[i] in v) &&
    (forall i, j | 0 <= i < j < |order| :: order[i] != order[j])
  }

  /** Dearest first, the order of the comparer. */
  ghost predicate Descending(order: seq<Amount>)
  {
    forall i, j | 0 <= i < j < |order| :: order[i].value >= order[j].value
  }

  /** Cheapest first, the order of the reverse enumerator. */
  ghost predicate Ascending(order: seq<Amount>)
  {
    forall i, j | 0 <= i < j < |order| :: order[i].value <= order[j].value
  }

  /** The watched objects that the walk steps when it reaches them. */
  ghost function Walked(v: map<Amount, BundleState<Amount>>, wallet: real, unsat: bool): set<Amount>
  {
    set k | k in v && CanAfford(wallet, k.value) == !unsat
  }

  /**
   * When every object the walk steps comes before every object it stops at,
   * the walk steps exactly the objects it accepts, whatever the order of
   * equal prices, and answers whether there is one.
   */
  lemma {:induction false} WalkStepsAllAccepted(v: map<Amount, BundleState<Amount>>, order: seq<Amount>,
                                                 wallet: real, unsat: bool)
    requires EachOnce(v, order)
    requires forall i, j | 0 <= i < j < |order| ::
               CanAfford(wallet, order[j].value) == !unsat ==> CanAfford(wallet, order[i].value) == !unsat
    ensures Walk(v, order, wallet, unsat) ==
              (Walked(v, wallet, unsat) != {}, Marked(v, Walked(v, wallet, unsat), unsat))
  {
    var n := WalkLength(order, wallet, !unsat);
    var pre := Prefix(order, n);
    forall k | k in v
      ensures k in pre <==> k in Walked(v, wallet, unsat)
    {
      var i :| 0 <= i < |order| && order[i] == k;
      if i >= n {
        assert CanAfford(wallet, order[n].value) != !unsat;
        assert CanAfford(wallet, order[i].value) != !unsat;
        assert k !in pre;
      }
    }
    assert pre == Walked(v, wallet, unsat);
    if n > 0 {
      assert order[0] in pre;
    }
  }

  /**
   * The satisfy walk as written: dearest first, so it satisfies every
   * watched price when the wallet affords the dearest, and none at all
   * otherwise, however many cheaper prices it could afford.
   */
  lemma DearestFirstSatisfiesAllOrNothing(v: map<Amount, BundleState<Amount>>, order: seq<Amount>, wallet: real)
    requires EachOnce(v, order) && Descending(order)
    ensures |order| > 0 && CanAfford(wallet, order[0].value) ==> Walk(v, order, wallet, false) == (true, Marked(v, v.Keys, false))
    ensures !(|order| > 0 && CanAfford(wallet, order[0].value)) ==> Walk(v, order, wallet, false) == (false, v)
  {
    var n := WalkLength(order, wallet, true);
    if |order| > 0 && CanAfford(wallet, order[0].value) {
      forall j | 0 <= j < |order|
        ensures CanAfford(wallet, order[j].value)
      {
        AffordsCheaper(wallet, order[0].value, order[j].value);
      }
      assert n == |order|;
      assert Prefix(order, n) == v.Keys;
    } else {
      assert n == 0 && Prefix(order, n) == {};
      assert Marked(v, {}, false) == v;
    }
  }

  /**
   * A wallet of 5 watching prices of 10 and 3: the satisfy walk as written
   * reaches 10 first, breaks, and leaves the affordable 3 unsatisfied.
   */
  lemma DearestFirstMissesCheaperPrice()
    ensures var dear, cheap := Amount(0, 10.0), Amount(1, 3.0);
            var v := map[dear := FreshBundle(dear, null, null), cheap := FreshBundle(cheap, null, null)];
            CanAfford(5.0, cheap.value) &&
            forall order: seq<Amount> | EachOnce(v, order) && Descending(order) :: Walk(v, order, 5.0, false) == (false, v)
  {
    var dear, cheap := Amount(0, 10.0), Amount(1, 3.0);
    var v := map[dear := FreshBundle(dear, null, null), cheap := FreshBundle(cheap, null, null)];
    forall order: seq<Amount> | EachOnce(v, order) && Descending(order)
      ensures Walk(v, order, 5.0, false) == (false, v)
    {
      assert dear in v && dear in order;
      var i :| 0 <= i < |order| && order[i] == dear;
      assert order[0].value >= order[i].value;
      assert order[0] == dear;
      DearestFirstSatisfiesAllOrNothing(v, order, 5.0);
    }
  }

  /**
   * The satisfy walk cheapest first: it satisfies exactly the watched
   * prices the wallet affords, and answers whether there is one.
   */
  lemma CheapestFirstSatisfiesAffordable(v: map<Amount, BundleState<Amount>>, order: seq<Amount>, wallet: real)
    requires EachOnce(v, order) && Ascending(order)
    ensures Walk(v, order, wallet, false) ==
              (exists k | k in v :: CanAfford(wallet, k.value),
               Marked(v, set k | k in v && CanAfford(wallet, k.value), false))
  {
    forall i, j | 0 <= i < j < |order|
      ensures CanAfford(wallet, order[j].value) ==> CanAfford(wallet, order[i].value)
    {
      AffordsCheaper(wallet, order[j].value, order[i].value);
    }
    WalkStepsAllAccepted(v, order, wallet, false);
    assert Walked(v, wallet, false) == set k | k in v && CanAfford(wallet, k.value);
    if exists k | k in v :: CanAfford(wallet, k.value) {
      var k :| k in v && CanAfford(wallet, k.value);
      assert k in Walked(v, wallet, false);
    }
  }

  /**
   * The unsatisfy walk dearest first: it unsatisfies exactly the watched
   * prices the wallet cannot afford, and answers whether there is one.
   */
  lemma DearestFirstUnsatisfiesUnaffordable(v: map<Amount, BundleState<Amount>>, order: seq<Amount>, wallet: real)
    requires EachOnce(v, order) && Descending(order)
    ensures Walk(v, order, wallet, true) ==
              (exists k | k in v :: !CanAfford(wallet, k.value),
               Marked(v, set k | k in v && !CanAfford(wallet, k.value), true))
  {
    forall i, j | 0 <= i < j < |order|
      ensures !CanAfford(wallet, order[j].value) ==> !CanAfford(wallet, order[i].value)
    {
      AffordsCheaper(wallet, order[i].value, order[j].value);
    }
    WalkStepsAllAccepted(v, order, wallet, true);
    assert Walked(v, wallet, true) == set k | k in v && !CanAfford(wallet, k.value);
    if exists k | k in v :: !CanAfford(wallet, k.value) {
      var k :| k in v && !CanAfford(wallet, k.value);
      assert k in Walked(v, wallet, true);
    }
  }

  /**
   * What the satisfy walk as written leaves, whatever the order of equal
   * prices: every watched price stepped when the wallet affords them all,
   * the view unchanged otherwise.
   */
  ghost function SatisfyWalkView(v: map<Amount, BundleState<Amount>>, wallet: real): map<Amount, BundleState<Amount>>
  {
    if forall k | k in v :: CanAfford(wallet, k.value) then Marked(v, v.Keys, false) else v
  }

  /** What the unsatisfy walk leaves: every watched price the wallet cannot afford stepped once. */
  ghost function UnsatisfyWalkView(v: map<Amount, BundleState<Amount>>, wallet: real): map<Amount, BundleState<Amount>>
  {
    Marked(v, set k | k in v && !CanAfford(wallet, k.value), true)
  }

  /** Every dearest-first order of the watched prices gives the satisfy walk the same outcome. */
  lemma DearestFirstSatisfyView(v: map<Amount, BundleState<Amount>>, order: seq<Amount>, wallet: real)
    requires EachOnce(v, order) && Descending(order)
    ensures Walk(v, order, wallet, false).1 == SatisfyWalkView(v, wallet)
  {
    DearestFirstSatisfiesAllOrNothing(v, order, wallet);
    if |order| > 0 && CanAfford(wallet, order[0].value) {
      forall k | k in v
        ensures CanAfford(wallet, k.value)
      {
        var i :| 0 <= i < |order| && order[i] == k;
        AffordsCheaper(wallet, order[0].value, order[i].value);
      }
    } else if |order| == 0 {
      assert v == map[];
    } else {
      assert order[0] in v;
    }
  }

  /** Every dearest-first order of the watched prices gives the unsatisfy walk the same outcome. */
  lemma DearestFirstUnsatisfyView(v: map<Amount, BundleState<Amount>>, order: seq<Amount>, wallet: real)
    requires EachOnce(v, order) && Descending(order)
    ensures Walk(v, order, wallet, true).1 == UnsatisfyWalkView(v, wallet)
  {
    DearestFirstUnsatisfiesUnaffordable(v, order, wallet);
  }

  /** The watched objects of enumerated bundles, in enumeration order. */
  function WatchedOf(bs: seq<SatisfierBundle<Amount>>): (r: seq<Amount>)
    ensures |r| == |bs| && forall j | 0 <= j < |bs| :: r[j] == bs[j].watched
  {
    seq(|bs|, j requires 0 <= j < |bs| => bs[j].watched)
  }

  /** Bundles sorted by the comparer (or against it) list their prices dearest (or cheapest) first. */
  lemma OrderFollowsComparer(bs: seq<SatisfierBundle<Amount>>, reverse: bool)
    requires !reverse ==> forall i, j | 0 <= i < j < |bs| :: Compare(Comparer, bs[i], bs[j]) <= 0
    requires reverse ==> forall i, j | 0 <= i < j < |bs| :: Compare(Comparer, bs[j], bs[i]) <= 0
    ensures !reverse ==> Descending(WatchedOf(bs))
    ensures reverse ==> Ascending(WatchedOf(bs))
  {
  }

  /** An enumeration of a well-formed dictionary lists each watched object once. */
  lemma EnumeratedEachOnce(m: map<Amount, SatisfierBundle<Amount>>, bs: seq<SatisfierBundle<Amount>>)
    requires WellFormed(m) && ListsEachOnce(m, bs)
    ensures EachOnce(View(m), WatchedOf(bs))
  {
    var order := WatchedOf(bs);
    forall i | 0 <= i < |order|
      ensures order[i] in m
    {
      var k :| k in m && m[k] == bs[i];
    }
    forall k | k in m
      ensures k in order
    {
      var i :| 0 <= i < |bs| && bs[i] == m[k];
      assert order[i] == k;
    }
    forall i, j | 0 <= i < j < |order|
      ensures order[i] != order[j]
    {
      assert m[order[i]] == bs[i] && m[order[j]] == bs[j] by {
        var ki :| ki in m && m[ki] == bs[i];
        var kj :| kj in m && m[kj] == bs[j];
      }
    }
  }

  /** One more place of a listing adds one object that was not there yet. */
  lemma PrefixGrows(v: map<Amount, BundleState<Amount>>, order: seq<Amount>, i: nat)
    requires ListedOnce(v, order) && i < |order|
    ensures order[i] in v && order[i] !in Prefix(order, i)
    ensures Prefix(order, i + 1) == Prefix(order, i) + {order[i]}
  {
  }

  /** Adding one more object to the marked set steps that object's bundle alone. */
  lemma MarkOneMore(v: map<Amount, BundleState<Amount>>, s: set<Amount>, x: Amount, unsat: bool)
    requires x in v && x !in s
    ensures Marked(v, s + {x}, unsat) == Marked(v, s, unsat)[x := Step(Marked(v, s, unsat)[x], unsat)]
  {
  }

  /** The view after stepping the bundles of the first `n` places of `order`, one at a time. */
  function StepPrefix(v: map<Amount, BundleState<Amount>>, order: seq<Amount>, n: nat, unsat: bool): map<Amount, BundleState<Amount>>
    requires n <= |order|
  {
    if n == 0 then v
    else
      var p := StepPrefix(v, order, n - 1, unsat);
      var x := order[n - 1];
      if x in p then p[x := Step(p[x], unsat)] else p
  }

  /** Stepping the places one at a time steps each object of the prefix once, when every object is listed once. */
  lemma {:induction false} StepPrefixMarks(v: map<Amount, BundleState<Amount>>, order: seq<Amount>, n: nat, unsat: bool)
    requires ListedOnce(v, order) && n <= |order|
    ensures StepPrefix(v, order, n, unsat) == Marked(v, Prefix(order, n), unsat)
  {
    if n == 0 {
      assert Prefix(order, 0) == {};
    } else {
      var x := order[n - 1];
      var marked := Marked(v, Prefix(order, n - 1), unsat);
      StepPrefixMarks(v, order, n - 1, unsat);
      PrefixGrows(v, order, n - 1);
      assert x in marked;
      assert StepPrefix(v, order, n, unsat) == marked[x := Step(marked[x], unsat)];
      MarkOneMore(v, Prefix(order, n - 1), x, unsat);
    }
  }

  class Numismatic {
    const id: nat
    var value: real
    const sat: OSatisfier<Amount>
    /** The wallet and the objects of its satisfier. */
    ghost function Repr(): set<object>
      reads sat
    {
      {this} + sat.Repr
    }

    ghost predicate Valid()
      reads sat, sat.Repr
    {
      this !in sat.Repr && sat.Valid() && sat.cmp == Comparer && sat.eq == Equator
    }

    /** The watched prices and their bundles. */
    ghost function Model(): map<Amount, BundleState<Amount>>
      reads sat, sat.Repr
      requires sat.Valid()
    {
      sat.Model()
    }

    /** The wallet as a watched object. */
    function Self(): Amount
      reads this
    {
      Amount(id, value)
    }

    /** A wallet of the given value watching nothing. */
    constructor (ident: nat, initial: real)
      ensures Valid() && fresh(Repr())
      ensures id == ident && value == initial && Model() == map[]
    {
      id := ident;
      value := initial;
      sat := new OSatisfier(Comparer, Equator);
    }

    /**
     * CheckSatisfyOnChange as written: the enumerator in comparer order
     * (dearest first), satisfying each affordable price and breaking at the
     * first unaffordable one.
     */
    method CheckSatisfyOnChange(obj: Amount) returns (r: bool, ghost order: seq<Amount>)
      requires Valid()
      modifies sat.Repr
      ensures Valid() && fresh(sat.Repr - old(sat.Repr)) && value == old(value)
      ensures EachOnce(old(Model()), order) && Descending(order)
      ensures (r, Model()) == Walk(old(Model()), order, obj.value, false)
    {
      var bundles, o := Enumerate(false);
      order := o;
      r := WalkBundles(bundles, obj.value, false);
    }

    /**
     * The satisfy walk over the reverse enumerator (cheapest first), which
     * satisfies every affordable price.
     */
    method CheckSatisfyOnChangeCheapestFirst(obj: Amount) returns (r: bool, ghost order: seq<Amount>)
      requires Valid()
      modifies sat.Repr
      ensures Valid() && fresh(sat.Repr - old(sat.Repr)) && value == old(value)
      ensures EachOnce(old(Model()), order) && Ascending(order)
      ensures (r, Model()) == Walk(old(Model()), order, obj.value, false)
    {
      var bundles, o := Enumerate(true);
      order := o;
      r := WalkBundles(bundles, obj.value, false);
    }

    /**
     * CheckUnsatisfyOnChange: the enumerator in comparer order (dearest
     * first), unsatisfying each unaffordable price and breaking at the first
     * affordable one.
     */
    method CheckUnsatisfyOnChange(obj: Amount) returns (r: bool, ghost order: seq<Amount>)
      requires Valid()
      modifies sat.Repr
      ensures Valid() && fresh(sat.Repr - old(sat.Repr)) && value == old(value)
      ensures EachOnce(old(Model()), order) && Descending(order)
      ensures (r, Model()) == Walk(old(Model()), order, obj.value, true)
    {
      var bundles, o := Enumerate(false);
      order := o;
      r := WalkBundles(bundles, obj.value, true);
    }

    /** EnsureSatisfier on the wallet's own satisfier. */
    method EnsureOwnSatisfier()
      requires Valid()
      modifies sat
      ensures Valid() && sat.satisfier != null && fresh(sat.Repr - old(sat.Repr))
      ensures value == old(value) && Model() == old(Model())
    {
      var _ := sat.EnsureSatisfier();
    }

    /**
     * `Satisfier.GetEnumerator()` (comparer order, dearest first) or, with
     * `reverse`, `Satisfier.GetReverseEnumerator()` (cheapest first), after
     * EnsureSatisfier.
     */
    method Enumerate(reverse: bool) returns (bundles: seq<SatisfierBundle<Amount>>, ghost order: seq<Amount>)
      requires Valid()
      modifies sat
      ensures Valid() && sat.satisfier != null && fresh(sat.Repr - old(sat.Repr))
      ensures value == old(value) && Model() == old(Model())
      ensures ListsEachOnce(sat.satisfier.bundles, bundles)
      ensures order == WatchedOf(bundles) && EachOnce(Model(), order)
      ensures !reverse ==> Descending(order)
      ensures reverse ==> Ascending(order)
    {
      EnsureOwnSatisfier();
      if reverse {
        bundles := sat.satisfier.GetReverseEnumerator();
      } else {
        bundles := sat.satisfier.GetEnumerator();
      }
      ComparerConsistent();
      order := WatchedOf(bundles);
      EnumeratedEachOnce(sat.satisfier.bundles, bundles);
      OrderFollowsComparer(bundles, reverse);
    }

    /** The loop of the Check*OnChange walks over one enumeration of the bundles. */
    method WalkBundles(bundles: seq<SatisfierBundle<Amount>>, wallet: real, unsat: bool) returns (r: bool)
      requires Valid() && sat.satisfier != null && ListsEachOnce(sat.satisfier.bundles, bundles)
      requires EachOnce(Model(), WatchedOf(bundles))
      modifies bundles
      ensures Valid()
      ensures (r, Model()) == Walk(old(Model()), WatchedOf(bundles), wallet, unsat)
    {
      ghost var order := WatchedOf(bundles);
      var i;
      ghost var m0;
      i, m0 := WalkPrefix(bundles, wallet, unsat);
      r := i > 0;
      StepPrefixMarks(m0, order, i, unsat);
    }

    /**
     * The places of `bundles` walked so far: the first `i`, all of the
     * walk's kind, each stepped once from the view `m0`.
     */
    ghost predicate Walking(bundles: seq<SatisfierBundle<Amount>>, listed: map<Amount, SatisfierBundle<Amount>>,
                            m0: map<Amount, BundleState<Amount>>, wallet: real, unsat: bool, i: nat)
      reads this, sat, sat.Repr
    {
      Valid() && sat.satisfier != null && sat.satisfier.bundles == listed && ListsEachOnce(listed, bundles) &&
      i <= |bundles| && i <= WalkLength(WatchedOf(bundles), wallet, !unsat) &&
      Model() == StepPrefix(m0, WatchedOf(bundles), i, unsat)
    }

    /** `while (bundles.MoveNext())` up to the first place not of the walk's kind, stepping each place before it. */
    method WalkPrefix(bundles: seq<SatisfierBundle<Amount>>, wallet: real, unsat: bool) returns (i: nat, ghost m0: map<Amount, BundleState<Amount>>)
      requires Valid() && sat.satisfier != null && ListsEachOnce(sat.satisfier.bundles, bundles)
      modifies bundles
      ensures Valid() && m0 == old(Model())
      ensures i == WalkLength(WatchedOf(bundles), wallet, !unsat)
      ensures Model() == StepPrefix(m0, WatchedOf(bundles), i, unsat)
    {
      m0 := Model();
      ghost var listed := sat.satisfier.bundles;
      i := 0;
      while i < |bundles| && CanAfford(wallet, bundles[i].watched.value) != unsat
        invariant Walking(bundles, listed, m0, wallet, unsat, i)
        decreases |bundles| - i
      {
        WalkStep(bundles, listed, m0, wallet, unsat, i);
        i := i + 1;
      }
      WalkStops(WatchedOf(bundles), wallet, !unsat, i);
    }

    /** One turn of the walk, for a place of the walk's kind. */
    method WalkStep(bundles: seq<SatisfierBundle<Amount>>, ghost listed: map<Amount, SatisfierBundle<Amount>>,
                    ghost m0: map<Amount, BundleState<Amount>>, wallet: real, unsat: bool, i: nat)
      requires Walking(bundles, listed, m0, wallet, unsat, i)
      requires i < |bundles| && CanAfford(wallet, bundles[i].watched.value) != unsat
      modifies bundles[i]
      ensures Walking(bundles, listed, m0, wallet, unsat, i + 1)
    {
      WalkGoesOn(WatchedOf(bundles), wallet, !unsat, i);
      StepNext(bundles, i, m0, unsat);
    }

    /** One turn of the walk: the bundle at place `i` is stepped. */
    method StepNext(bundles: seq<SatisfierBundle<Amount>>, i: nat, ghost m0: map<Amount, BundleState<Amount>>, unsat: bool)
      requires Valid() && sat.satisfier != null && ListsEachOnce(sat.satisfier.bundles, bundles) && i < |bundles|
      requires Model() == StepPrefix(m0, WatchedOf(bundles), i, unsat)
      modifies bundles[i]
      ensures Valid() && Model() == StepPrefix(m0, WatchedOf(bundles), i + 1, unsat)
    {
      StepListed(bundles[i], unsat);
    }

    /** `bundles.Current.Satisfy()` or `bundles.Current.Unsatisfy()`. */
    method StepListed(b: SatisfierBundle<Amount>, unsat: bool)
      requires Valid() && sat.satisfier != null && b in sat.satisfier.bundles.Values
      modifies b
      ensures Valid() && b.watched in old(Model())
      ensures Model() == old(Model())[b.watched := Step(old(Model())[b.watched], unsat)]
    {
      if unsat {
        sat.satisfier.UnsatisfyListed(b);
      } else {
        sat.satisfier.SatisfyListed(b);
      }
    }

    /**
     * WatchFeedback through OSatisfier.Watch: the price is watched, then the
     * answer is 1 when the wallet affords it and -1 otherwise. A null price
     * watches nothing and makes CanAfford throw.
     */
    method Watch(obj: Option<Amount>, d: Event?, u: Event?) returns (fb: int, err: Option<Exception>)
      requires Valid()
      modifies sat.Repr
      ensures Valid() && fresh(sat.Repr - old(sat.Repr)) && value == old(value)
      ensures Model() == WatchView(old(Model()), obj, d, u).1
      ensures obj.None? ==> err == Some(NullReference)
      ensures obj.Some? ==> err.None? && fb == (if CanAfford(value, obj.value.value) then 1 else -1)
    {
      var _ := sat.Watch(obj, d, u);
      err := if obj.None? then Some(NullReference) else None;
      fb := if obj.None? then 0 else if CanAfford(value, obj.value.value) then 1 else -1;
    }

    /** OSatisfier.Unwatch on the wallet's own satisfier. */
    method Unwatch(obj: Option<Amount>)
      requires Valid()
      modifies sat.Repr
      ensures Valid() && fresh(sat.Repr - old(sat.Repr)) && value == old(value)
      ensures Model() == UnwatchView(old(Model()), obj).1
    {
      sat.Unwatch(obj);
    }

    /** The value setter, with the currency conversion left out. */
    method SetValue(v: real)
      requires Valid()
      modifies this
      ensures Valid() && Model() == old(Model()) && value == v
    {
      value := v;
    }

    /** Gain: the value grows by the amount, then the satisfy walk runs for the wallet. */
    method Gain(amount: real) returns (ghost order: seq<Amount>)
      requires Valid()
      modifies this, sat.Repr
      ensures Valid() && fresh(sat.Repr - old(sat.Repr))
      ensures value == old(value) + amount
      ensures EachOnce(old(Model()), order) && Descending(order)
      ensures Model() == Walk(old(Model()), order, value, false).1
      ensures Model() == SatisfyWalkView(old(Model()), value)
    {
      SetValue(value + amount);
      var _, o := CheckSatisfyOnChange(Self());
      order := o;
      DearestFirstSatisfyView(old(Model()), order, value);
    }

    /** Spend: the value shrinks by the amount, then the unsatisfy walk runs for the wallet. */
    method Spend(amount: real) returns (ghost order: seq<Amount>)
      requires Valid()
      modifies this, sat.Repr
      ensures Valid() && fresh(sat.Repr - old(sat.Repr))
      ensures value == old(value) - amount
      ensures EachOnce(old(Model()), order) && Descending(order)
      ensures Model() == Walk(old(Model()), order, value, true).1
      ensures Model() == UnsatisfyWalkView(old(Model()), value)
    {
      SetValue(value - amount);
      var _, o := CheckUnsatisfyOnChange(Self());
      order := o;
      DearestFirstUnsatisfyView(old(Model()), order, value);
    }
  }

  /** The walk length is the first index whose price the walk does not accept. */
  lemma {:induction false} WalkLengthOfPrefix(order: seq<Amount>, wallet: real, afford: bool, n: nat)
    requires n <= |order|
    requires forall j | 0 <= j < n :: CanAfford(wallet, order[j].value) == afford
    requires n < |order| ==> CanAfford(wallet, order[n].value) != afford
    ensures WalkLength(order, wallet, afford) == n
  {
    if n > 0 {
      WalkLengthOfPrefix(order[1..], wallet, afford, n - 1);
    }
  }
}

=== FILE: object_container.dfy ===
/**
 * ObjectContainer<S>: a list of elements that is also a satisfier of its
 * elements. Every element that arrives runs the satisfy check and every
 * element that leaves runs the unsatisfy check.
 * Runtime/Containers/ObjectContainer.cs.
 *
 * The OSatisfier<S> base class part is the `sat` object the container owns.
 */
module ObjectContainers {
  import opened Wrappers
  import opened Bundles
  import opened Satisfiers
  import opened OSatisfiers
  import Lists

  /** The view after the satisfy checks of `objs`, in order. */
  function CheckSatisfyAll<S>(v: map<S, BundleState<S>>, objs: seq<S>): map<S, BundleState<S>>
  {
    if |objs| == 0 then v
    else CheckSatisfyView(CheckSatisfyAll(v, objs[..|objs| - 1]), objs[|objs| - 1]).1
  }

  /**
   * After the checks of `objs`, every element has a bundle whose satisfied
   * count grew by the number of times it occurs in `objs` (from 0 for an
   * element nobody watched); no other bundle changes and no unsatisfied
   * count moves.
   */
  lemma {:induction false} CheckSatisfyAllCounts<S>(v: map<S, BundleState<S>>, objs: seq<S>)
    ensures var v' := CheckSatisfyAll(v, objs);
            v'.Keys == v.Keys + (set x | x in objs) &&
            (forall x | x in v' ::
               v'[x].satisfiedCount == (if x in v then v[x].satisfiedCount else 0) + multiset(objs)[x] &&
               v'[x].unsatisfiedCount == (if x in v then v[x].unsatisfiedCount else 0)) &&
            (forall x | x in v && x !in objs :: v'[x] == v[x])
  {
    if |objs| > 0 {
      var init, last := objs[..|objs| - 1], objs[|objs| - 1];
      assert objs == init + [last];
      CheckSatisfyAllCounts(v, init);
      CheckSatisfyTouchesOnlyObj(CheckSatisfyAll(v, init), last);
    }
  }

  class ObjectContainer<S(==, !new)> {
    var elements: seq<S>
    const sat: OSatisfier<S>
    /** The container and the objects of its satisfier. */
    ghost function Repr(): set<object>
      reads sat
    {
      {this} + sat.Repr
    }

    ghost predicate Valid()
      reads sat, sat.Repr
    {
      this !in sat.Repr && sat.Valid()
    }

    /** The watched elements and their bundles. */
    ghost function Model(): map<S, BundleState<S>>
      reads sat, sat.Repr
      requires sat.Valid()
    {
      sat.Model()
    }

    constructor (comparer: (S, S) -> int, equality: (S, S) -> bool)
      ensures Valid() && fresh(Repr())
      ensures elements == [] && Model() == map[] && sat.cmp == comparer && sat.eq == equality
    {
      elements := [];
      sat := new OSatisfier(comparer, equality);
    }

    /** Replaces the element list, then enables the satisfier. */
    method Initialize(objects: seq<S>)
      requires Valid()
      modifies this, sat.Repr
      ensures Valid() && fresh(sat.Repr - old(sat.Repr))
      ensures elements == objects
      ensures Model() == CheckSatisfyAll(old(Model()), objects)
    {
      elements := objects;
      EnableSatisfier();
    }

    /** Ensures the satisfier, then runs the satisfy check once per element, in list order. */
    method EnableSatisfier()
      requires Valid()
      modifies sat.Repr
      ensures Valid() && fresh(sat.Repr - old(sat.Repr)) && elements == old(elements)
      ensures Model() == CheckSatisfyAll(old(Model()), elements)
    {
      var _ := sat.EnsureSatisfier();
      var i := 0;
      while i < |elements|
        invariant 0 <= i <= |elements| && elements == old(elements)
        invariant Valid() && fresh(sat.Repr - old(sat.Repr))
        invariant Model() == CheckSatisfyAll(old(Model()), elements[..i])
      {
        assert elements[..i + 1][..i] == elements[..i];
        CheckSatisfyOnChange(elements[i]);
        i := i + 1;
      }
      assert elements[..i] == elements;
    }

    /** OSatisfier.CheckSatisfyOnChange on the container's own satisfier; its answer is not used. */
    method CheckSatisfyOnChange(obj: S)
      requires Valid()
      modifies sat.Repr
      ensures Valid() && fresh(sat.Repr - old(sat.Repr)) && elements == old(elements)
      ensures Model() == CheckSatisfyView(old(Model()), obj).1
    {
      var _ := sat.CheckSatisfyOnChange(obj);
    }

    /** A null element throws; otherwise it is appended and checked. */
    method Add(obj: Option<S>) returns (err: Option<Exception>)
      requires Valid()
      modifies this, sat.Repr
      ensures Valid() && fresh(sat.Repr - old(sat.Repr))
      ensures obj.None? ==> err == Some(Failure) && elements == old(elements) && Model() == old(Model())
      ensures obj.Some? ==> err.None? && elements == old(elements) + [obj.value] &&
                            Model() == CheckSatisfyView(old(Model()), obj.value).1
    {
      if obj.None? {
        return Some(Failure);
      }
      elements := elements + [obj.value];
      CheckSatisfyOnChange(obj.value);
      err := None;
    }

    /** Removes the first occurrence and runs the unsatisfy check; false for null or an absent element. */
    method Remove(obj: Option<S>) returns (r: bool)
      requires Valid()
      modifies this, sat.Repr
      ensures Valid() && fresh(sat.Repr - old(sat.Repr))
      ensures r <==> obj.Some? && obj.value in old(elements)
      ensures r ==> elements == Lists.RemoveFirst(old(elements), obj.value) &&
                    Model() == CheckUnsatisfyView(old(Model()), obj.value).1
      ensures !r ==> elements == old(elements) && Model() == old(Model())
    {
      if obj.None? {
        return false;
      }
      if obj.value in elements {
        elements := Lists.RemoveFirst(elements, obj.value);
        var _ := sat.CheckUnsatisfyOnChange(obj.value);
        return true;
      }
      return false;
    }
  }
}

=== FILE: object_satisfier.dfy ===
/**
 * ObjectSatisfier<T>: a satisfier that owns one dictionary from watched
 * object to bundle and forwards every member to the Satisfier<T> members.
 * Runtime/Satisfiers/Plain/ObjectSatisfier.cs.
 */
module ObjectSatisfiers {
  import opened Wrappers
  import opened Bundles
  import opened Satisfiers

  class ObjectSatisfier<T(==, !new)> {
    var bundles: map<T, SatisfierBundle<T>>
    const cmp: (T, T) -> int
    const eq: (T, T) -> bool
    ghost var Repr: set<object>

    ghost predicate Valid()
      reads this, Repr
    {
      Repr == {this} + bundles.Values && WellFormed(bundles)
    }

    /** The dictionary as the values of its bundles. */
    ghost function Model(): map<T, BundleState<T>>
      reads this, Repr
      requires Valid()
    {
      View(bundles)
    }

    constructor (comparer: (T, T) -> int, equality: (T, T) -> bool)
      ensures Valid() && fresh(Repr)
      ensures Model() == map[] && cmp == comparer && eq == equality
    {
      bundles := map[];
      cmp := comparer;
      eq := equality;
      Repr := {this};
    }

    method Watch(obj: Option<T>, d: Event?, u: Event?) returns (count: int)
      requires Valid()
      modifies Repr
      ensures Valid()
      ensures fresh(Repr - old(Repr))
      ensures (count, Model()) == WatchView(old(Model()), obj, d, u)
    {
      var before := bundles;
      count, bundles := Satisfiers.Watch(obj, d, u, bundles);
      Repr := {this} + bundles.Values;
      assert Repr - old(Repr) <= bundles.Values - before.Values;
    }

    method Unwatch(obj: Option<T>) returns (ok: bool)
      requires Valid()
      modifies Repr
      ensures Valid() && Repr <= old(Repr)
      ensures (ok, Model()) == UnwatchView(old(Model()), obj)
    {
      ok, bundles := Satisfiers.Unwatch(obj, bundles);
      Repr := {this} + bundles.Values;
    }

    method Satisfy(obj: Option<T>) returns (ok: bool)
      requires Valid()
      modifies Repr
      ensures Valid() && Repr == old(Repr)
      ensures SatisfyStep(old(Model()), Model(), eq, obj, ok, false)
    {
      ok := SatisfyBundle(eq, obj, bundles);
    }

    method Unsatisfy(obj: Option<T>) returns (ok: bool)
      requires Valid()
      modifies Repr
      ensures Valid() && Repr == old(Repr)
      ensures SatisfyStep(old(Model()), Model(), eq, obj, ok, true)
    {
      ok := UnsatisfyBundle(eq, obj, bundles);
    }

    /** Identity only: an object merely equal to a watched one is not watched. */
    function IsWatching(obj: T): (r: bool)
      reads this, Repr
      requires Valid()
      ensures r <==> obj in Model()
    {
      IsObjectBeingWatched(obj, bundles)
    }

    method GetEnumerator() returns (r: seq<SatisfierBundle<T>>)
      requires Valid()
      ensures ListsEachOnce(bundles, r)
      ensures ConsistentComparer(cmp) ==> forall i, j | 0 <= i < j < |r| :: Compare(cmp, r[i], r[j]) <= 0
    {
      r := Satisfiers.GetEnumerator(cmp, bundles);
    }

    method GetReverseEnumerator() returns (r: seq<SatisfierBundle<T>>)
      requires Valid()
      ensures ListsEachOnce(bundles, r)
      ensures ConsistentComparer(cmp) ==> forall i, j | 0 <= i < j < |r| :: Compare(cmp, r[j], r[i]) <= 0
    {
      r := Satisfiers.GetReverseEnumerator(cmp, bundles);
    }

    /** `bundle.Satisfy()` on a bundle of the dictionary, as an enumerator hands it out. */
    method SatisfyListed(b: SatisfierBundle<T>)
      requires Valid() && b in bundles.Values
      modifies b
      ensures Valid() && b.watched in old(Model())
      ensures Model() == old(Model())[b.watched := Satisfied(old(Model())[b.watched])]
    {
      ListedBundleIsWatched(b);
      b.Satisfy();
    }

    /** `bundle.Unsatisfy()` on a bundle of the dictionary, as an enumerator hands it out. */
    method UnsatisfyListed(b: SatisfierBundle<T>)
      requires Valid() && b in bundles.Values
      modifies b
      ensures Valid() && b.watched in old(Model())
      ensures Model() == old(Model())[b.watched := Unsatisfied(old(Model())[b.watched])]
    {
      ListedBundleIsWatched(b);
      b.Unsatisfy();
    }

    /** A listed bundle is the only one kept under its own watched object. */
    lemma ListedBundleIsWatched(b: SatisfierBundle<T>)
      requires Valid() && b in bundles.Values
      ensures b.watched in bundles && bundles[b.watched] == b
      ensures forall k | k in bundles && k != b.watched :: bundles[k] != b
    {
      var k :| k in bundles && bundles[k] == b;
    }

    method ClearBundles()
      requires Valid()
      modifies this
      ensures Valid() && Model() == map[] && Repr == {this}
    {
      bundles := map[];
      Repr := {this};
    }

    /** Dictionary.Add: the bundle's object must not be watched yet. */
    method AddBundle(bundle: SatisfierBundle<T>)
      requires Valid() && bundle.watched !in Model()
      modifies this
      ensures Valid() && Repr == old(Repr) + {bundle}
      ensures Model() == old(Model())[bundle.watched := bundle.State()]
    {
      bundles := IncludeBundleInWatchlist(bundle, bundles);
      Repr := {this} + bundles.Values;
    }

    method RemoveBundle(bundle: SatisfierBundle<T>)
      requires Valid()
      modifies this
      ensures Valid() && Repr <= old(Repr)
      ensures Model() == old(Model()) - {bundle.watched}
    {
      bundles := ExcludeBundleFromWatchlist(bundle, bundles);
      Repr := {this} + bundles.Values;
    }
  }
}

=== FILE: osatisfier.dfy ===
/**
 * OSatisfier<T>: the base of every list-like thing that can be watched.
 * It holds an ObjectSatisfier that is created on first use and never
 * replaced, and the "check on change" rules that containers run when an
 * element arrives or leaves. Runtime/Satisfiers/OSatisfier.cs.
 */
module OSatisfiers {
  import opened Wrappers
  import opened Bundles
  import opened Satisfiers
  import opened ObjectSatisfiers

  /** The bundle CheckSatisfyOnChange adds for an object nobody watches yet: counts (1,0), no callbacks. */
  function PreCounted<T>(obj: T): BundleState<T>
  {
    BundleState(obj, null, null, 1, 0, 0, 0)
  }

  /**
   * CheckSatisfyOnChange on the view: an unwatched object gets a pre-counted
   * bundle and the answer is false; a watched one is satisfied (identity
   * first, so its own bundle) and the answer is true.
   */
  function CheckSatisfyView<T>(v: map<T, BundleState<T>>, obj: T): (bool, map<T, BundleState<T>>)
  {
    if obj !in v then (false, v[obj := PreCounted(obj)])
    else (true, v[obj := Satisfied(v[obj])])
  }

  /** CheckUnsatisfyOnChange on the view: nothing for an unwatched object, else its bundle is unsatisfied. */
  function CheckUnsatisfyView<T>(v: map<T, BundleState<T>>, obj: T): (bool, map<T, BundleState<T>>)
  {
    if obj !in v then (false, v)
    else (true, v[obj := Unsatisfied(v[obj])])
  }

  /** The view after `n` satisfy checks of the same object. */
  function CheckSatisfyTimes<T>(v: map<T, BundleState<T>>, obj: T, n: nat): map<T, BundleState<T>>
  {
    if n == 0 then v else CheckSatisfyView(CheckSatisfyTimes(v, obj, n - 1), obj).1
  }

  /**
   * A satisfy check answers whether the object was watched, adds at most
   * that object, touches no other bundle, and leaves its satisfied count one
   * higher (or 1 for a new bundle).
   */
  lemma CheckSatisfyTouchesOnlyObj<T>(v: map<T, BundleState<T>>, obj: T)
    ensures var (r, v') := CheckSatisfyView(v, obj);
            v'.Keys == v.Keys + {obj} && (r <==> obj in v) &&
            (forall k | k in v && k != obj :: v'[k] == v[k]) &&
            v'[obj].satisfiedCount == (if obj in v then v[obj].satisfiedCount + 1 else 1) &&
            v'[obj].unsatisfiedCount == (if obj in v then v[obj].unsatisfiedCount else 0)
  {
  }

  /** An unsatisfy check never adds a bundle; it raises the object's unsatisfied count iff it is watched. */
  lemma CheckUnsatisfyTouchesOnlyObj<T>(v: map<T, BundleState<T>>, obj: T)
    ensures var (r, v') := CheckUnsatisfyView(v, obj);
            v'.Keys == v.Keys && (r <==> obj in v) &&
            (forall k | k in v && k != obj :: v'[k] == v[k]) &&
            (obj in v ==> v'[obj].unsatisfiedCount == v[obj].unsatisfiedCount + 1 &&
                          v'[obj].satisfiedCount == v[obj].satisfiedCount)
  {
  }

  /**
   * An object added `n` times to a container nobody watched it in: the first
   * check creates the bundle with count 1, each later one satisfies it, so
   * a later Watch reports `n`.
   */
  lemma {:induction false} RepeatedChecksCount<T>(v: map<T, BundleState<T>>, obj: T, n: nat, d: Event?, u: Event?)
    requires obj !in v && n > 0
    ensures var v' := CheckSatisfyTimes(v, obj, n);
            obj in v' && v'[obj].satisfiedCount == n && v'[obj].unsatisfiedCount == 0 &&
            WatchView(v', Some(obj), d, u).0 == n
  {
    if n > 1 {
      RepeatedChecksCount(v, obj, n - 1, d, u);
    }
  }

  class OSatisfier<T(==, !new)> {
    var satisfier: ObjectSatisfier?<T>
    const cmp: (T, T) -> int
    const eq: (T, T) -> bool
    ghost var Repr: set<object>

    ghost predicate Valid()
      reads this, Repr
    {
      this in Repr &&
      (satisfier == null ==> Repr == {this}) &&
      (satisfier != null ==>
         satisfier in Repr && Repr == {this} + satisfier.Repr && this !in satisfier.Repr &&
         satisfier.Valid() && satisfier.cmp == cmp && satisfier.eq == eq)
    }

    /** The watched objects; empty while the satisfier has not been created. */
    ghost function Model(): map<T, BundleState<T>>
      reads this, Repr
      requires Valid()
    {
      if satisfier == null then map[] else satisfier.Model()
    }

    constructor (comparer: (T, T) -> int, equality: (T, T) -> bool)
      ensures Valid() && fresh(Repr) && satisfier == null
      ensures Model() == map[] && cmp == comparer && eq == equality
    {
      satisfier := null;
      cmp := comparer;
      eq := equality;
      Repr := {this};
    }

    /** Creates the satisfier if there is none; true iff it had to. */
    method EnsureSatisfier() returns (created: bool)
      requires Valid()
      modifies this
      ensures Valid() && satisfier != null && fresh(Repr - old(Repr))
      ensures created <==> old(satisfier) == null
      ensures !created ==> satisfier == old(satisfier) && Repr == old(Repr)
      ensures Model() == old(Model())
    {
      if satisfier == null {
        satisfier := new ObjectSatisfier(cmp, eq);
        Repr := {this} + satisfier.Repr;
        return true;
      }
      return false;
    }

    /** Ensures the satisfier, then reports the watch feedback. */
    method Watch(obj: Option<T>, d: Event?, u: Event?) returns (count: int)
      requires Valid()
      modifies Repr
      ensures Valid() && satisfier != null && fresh(Repr - old(Repr))
      ensures (count, Model()) == WatchView(old(Model()), obj, d, u)
    {
      var _ := EnsureSatisfier();
      count := WatchFeedback(obj, d, u);
    }

    /** The default feedback: the satisfied count the inner Watch returns. */
    method WatchFeedback(obj: Option<T>, d: Event?, u: Event?) returns (count: int)
      requires Valid() && satisfier != null
      modifies Repr
      ensures Valid() && satisfier == old(satisfier) && fresh(Repr - old(Repr))
      ensures (count, Model()) == WatchView(old(Model()), obj, d, u)
    {
      count := satisfier.Watch(obj, d, u);
      Repr := {this} + satisfier.Repr;
    }

    /** A satisfier created by this very call has nothing to unwatch. */
    method Unwatch(obj: Option<T>)
      requires Valid()
      modifies Repr
      ensures Valid() && satisfier != null && fresh(Repr - old(Repr))
      ensures Model() == UnwatchView(old(Model()), obj).1
    {
      var created := EnsureSatisfier();
      if created {
        return;
      }
      var _ := satisfier.Unwatch(obj);
      Repr := {this} + satisfier.Repr;
    }

    /** Identity only; reading the satisfier creates it when it is missing. */
    method IsWatching(obj: T) returns (r: bool)
      requires Valid()
      modifies this
      ensures Valid() && satisfier != null && fresh(Repr - old(Repr))
      ensures Model() == old(Model())
      ensures r <==> obj in Model()
    {
      var _ := EnsureSatisfier();
      r := satisfier.IsWatching(obj);
    }

    method CheckSatisfyOnChange(obj: T) returns (r: bool)
      requires Valid()
      modifies Repr
      ensures Valid() && satisfier != null && fresh(Repr - old(Repr))
      ensures (r, Model()) == CheckSatisfyView(old(Model()), obj)
    {
      var created := EnsureSatisfier();
      var watching := IsWatching(obj);
      if created || !watching {
        AddPreCounted(obj);
        return false;
      }
      ghost var v := satisfier.Model();
      r := satisfier.Satisfy(Some(obj));
      StepOnWatchedObject(v, satisfier.Model(), eq, obj, r, false);
    }

    /** `if (IsWatching(obj)) Satisfier.Satisfy(obj)`: only a bundle watching the object itself is satisfied. */
    method SatisfyIfWatching(obj: T)
      requires Valid()
      modifies Repr
      ensures Valid() && satisfier != null && fresh(Repr - old(Repr))
      ensures Model() == if obj in old(Model()) then old(Model())[obj := Satisfied(old(Model())[obj])] else old(Model())
    {
      var watching := IsWatching(obj);
      if watching {
        SatisfyWatched(obj);
      }
    }

    /** `Satisfier.Satisfy(obj)` for an object watched by identity: its own bundle is satisfied. */
    method SatisfyWatched(obj: T)
      requires Valid() && satisfier != null && obj in Model()
      modifies Repr
      ensures Valid() && satisfier == old(satisfier) && fresh(Repr - old(Repr))
      ensures Model() == old(Model())[obj := Satisfied(old(Model())[obj])]
    {
      ghost var v := satisfier.Model();
      var r := satisfier.Satisfy(Some(obj));
      StepOnWatchedObject(v, satisfier.Model(), eq, obj, r, false);
    }

    /** Satisfier.AddBundle(Satisfier.CreateNullEventBundle(obj, 1, 0)). */
    method AddPreCounted(obj: T)
      requires Valid() && satisfier != null && obj !in Model()
      modifies Repr
      ensures Valid() && satisfier == old(satisfier) && fresh(Repr - old(Repr))
      ensures Model() == old(Model())[obj := PreCounted(obj)]
    {
      var b := CreateNullEventBundle(obj, 1, 0);
      satisfier.AddBundle(b);
      Repr := {this} + satisfier.Repr;
    }

    method CheckUnsatisfyOnChange(obj: T) returns (r: bool)
      requires Valid()
      modifies Repr
      ensures Valid() && satisfier != null && fresh(Repr - old(Repr))
      ensures (r, Model()) == CheckUnsatisfyView(old(Model()), obj)
    {
      var created := EnsureSatisfier();
      var watching := IsWatching(obj);
      if created || !watching {
        return false;
      }
      ghost var v := satisfier.Model();
      r := satisfier.Unsatisfy(Some(obj));
      StepOnWatchedObject(v, satisfier.Model(), eq, obj, r, true);
    }
  }
}

=== FILE: price_requirement.dfy ===
/**
 * PriceRequirement: a requirement that holds while a wallet can afford a
 * target price. Enabling watches the price in the wallet and settles the
 * state from the wallet's answer. Runtime/Requirements/Concretes/PriceRequirement.cs.
 *
 * The Requirement base class part is the `req` object.
 */
module PriceRequirements {
  import opened Wrappers
  import opened Bundles
  import opened Satisfiers
  import opened Numismatics
  import Requirements

  /**
   * The state Enable ends in, from the state `s` right after the base
   * Enable: without a target nothing more happens; with one, an answer of
   * exactly 1 satisfies and anything else, a missing wallet included,
   * unsatisfies.
   */
  function PriceEnabled(s: Requirements.ReqState, target: Option<Amount>, feedback: Option<int>): Requirements.ReqState
  {
    if target.None? then s
    else if feedback == Some(1) then Requirements.Satisfied(s)
    else Requirements.Unsatisfied(s)
  }

  /** What the wallet answers when it watches the target: 1 when affordable, -1 otherwise. */
  function WalletAnswer(wallet: real, price: Amount): (fb: int)
    ensures fb == 1 <==> CanAfford(wallet, price.value)
    ensures fb == -1 <==> !CanAfford(wallet, price.value)
  {
    if CanAfford(wallet, price.value) then 1 else -1
  }

  /**
   * With a target, Enable ends satisfied exactly when there is a wallet
   * that affords it, whatever the state was before; it fires exactly one of
   * the two triggers when it is set.
   */
  lemma EnableSettlesOnAffordability(s: Requirements.ReqState, price: Amount, wallet: Option<real>)
    ensures var fb := if wallet.Some? then Some(WalletAnswer(wallet.value, price)) else None;
            var s' := PriceEnabled(s, Some(price), fb);
            (s'.isSatisfied <==> wallet.Some? && wallet.value >= price.value - EPSILON) &&
            s'.satisfiedFired + s'.unsatisfiedFired ==
              s.satisfiedFired + s.unsatisfiedFired +
              (if s'.isSatisfied then (if s.onSatisfied != null then 1 else 0)
               else (if s.onUnsatisfied != null then 1 else 0))
    ensures PriceEnabled(s, None, None) == s
  {
  }

  class PriceRequirement {
    const req: Requirements.Requirement
    const wallet: Numismatic?
    const target: Option<Amount>

    /** This requirement and, when there is one, the wallet with its satisfier. */
    ghost function Repr(): set<object>
      reads if wallet == null then {} else {wallet.sat}
    {
      {this} + (if wallet == null then {} else wallet.Repr())
    }

    ghost predicate Valid()
      reads Repr(), if wallet == null then {} else {wallet.sat}
    {
      req !in Repr() && (wallet != null ==> this !in wallet.sat.Repr && wallet.Valid())
    }

    /** The prices the wallet watches; empty without a wallet. */
    ghost function Watched(): map<Amount, BundleState<Amount>>
      reads Repr(), if wallet == null then {} else {wallet.sat}
      requires Valid()
    {
      if wallet == null then map[] else wallet.Model()
    }

    /** Initialize: the base initialisation, then the wallet and the target price. */
    constructor Initialize(satisfied: bool, onSat: Event?, onUnsat: Event?, w: Numismatic?, price: Option<Amount>)
      requires w != null ==> w.Valid()
      ensures Valid() && fresh(req) && wallet == w && target == price
      ensures w != null ==> Watched() == w.Model()
      ensures fresh(req.doSatisfy) && fresh(req.unSatisfy)
      ensures req.State() == Requirements.ReqState(satisfied, req.doSatisfy, req.unSatisfy, onSat, onUnsat, 0, 0, 0, 0)
    {
      var r := new Requirements.Requirement();
      r.InitializeWith(satisfied, onSat, onUnsat);
      req := r;
      wallet := w;
      target := price;
    }

    /**
     * The base Enable, then, for a target, the wallet watches it and the
     * requirement is satisfied when the wallet answers 1 and unsatisfied
     * otherwise (also when there is no wallet).
     */
    method Enable()
      requires Valid()
      modifies req, if wallet == null then {} else wallet.sat.Repr
      ensures Valid() && fresh(Repr() - old(Repr()))
      ensures req.doSatisfy != null && req.unSatisfy != null
      ensures Requirements.EnableKeeps(old(req.State()), req.doSatisfy, req.unSatisfy)
      ensures var s := Requirements.Enabled(old(req.State()), req.doSatisfy, req.unSatisfy);
              req.State() == PriceEnabled(s, target,
                                          if wallet == null || target.None? then None
                                          else Some(WalletAnswer(old(wallet.value), target.value)))
      ensures target.None? || wallet == null ==> Watched() == old(Watched())
      ensures target.Some? && wallet != null ==>
                wallet.value == old(wallet.value) &&
                Watched() == WatchView(old(Watched()), target, req.doSatisfy, req.unSatisfy).1
    {
      ghost var v := Watched();
      req.Enable();
      assert Valid() && Watched() == v;
      ghost var s1 := req.State();
      if target.Some? {
        SettleOnWatch(req.doSatisfy, req.unSatisfy);
      }
      assert s1 == Requirements.Enabled(old(req.State()), req.doSatisfy, req.unSatisfy);
    }

    /** The part of Enable after the base one, for a target. */
    method SettleOnWatch(d: Event, u: Event)
      requires Valid() && target.Some?
      modifies req, if wallet == null then {} else wallet.sat.Repr
      ensures req.doSatisfy == old(req.doSatisfy) && req.unSatisfy == old(req.unSatisfy)
      ensures Valid() && fresh(Repr() - old(Repr()))
      ensures req.State() == PriceEnabled(old(req.State()), target,
                                          if wallet == null then None
                                          else Some(WalletAnswer(old(wallet.value), target.value)))
      ensures wallet == null ==> Watched() == old(Watched())
      ensures wallet != null ==> wallet.value == old(wallet.value) &&
                                 Watched() == WatchView(old(Watched()), target, d, u).1
    {
      var fb: Option<int> := None;
      if wallet != null {
        var answer := WatchTarget(d, u);
        fb := Some(answer);
      }
      Settle(fb);
    }

    /** `wallet.Watch(targetPrice, m_DoSatisfy, m_UnSatisfy)`. */
    method WatchTarget(d: Event, u: Event) returns (fb: int)
      requires Valid() && target.Some? && wallet != null
      modifies wallet.sat.Repr
      ensures Valid() && fresh(Repr() - old(Repr()))
      ensures wallet.value == old(wallet.value) && fb == WalletAnswer(wallet.value, target.value)
      ensures Watched() == WatchView(old(Watched()), target, d, u).1
    {
      var err;
      fb, err := wallet.Watch(target, d, u);
    }

    /** `if (answer == 1) Satisfy(); else Unsatisfy();` */
    method Settle(fb: Option<int>)
      requires Valid() && target.Some?
      modifies req
      ensures Valid() && Watched() == old(Watched())
      ensures req.State() == PriceEnabled(old(req.State()), target, fb)
    {
      if fb == Some(1) {
        req.Satisfy();
      } else {
        req.Unsatisfy();
      }
    }

    /** The base Disable, then, for a target and a wallet, the wallet unwatches it. */
    method Disable()
      requires Valid()
      modifies req, if wallet == null then {} else wallet.sat.Repr
      ensures Valid() && fresh(Repr() - old(Repr()))
      ensures req.State() == Requirements.Disabled(old(req.State()))
      ensures target.None? || wallet == null ==> Watched() == old(Watched())
      ensures target.Some? && wallet != null ==> Watched() == UnwatchView(old(Watched()), target).1
    {
      ghost var v := Watched();
      req.Disable();
      assert Valid() && Watched() == v;
      if target.Some? && wallet != null {
        UnwatchTarget();
      }
    }

    /** `wallet?.Unwatch(targetPrice)`. */
    method UnwatchTarget()
      requires Valid() && wallet != null
      modifies wallet.sat.Repr
      ensures Valid() && fresh(Repr() - old(Repr()))
      ensures Watched() == UnwatchView(old(Watched()), target).1
    {
      wallet.Unwatch(target);
    }
  }
}

=== FILE: progress.dfy ===
/**
 * Progress: a progression over a list of requirements. It keeps the list
 * of requirements reached so far and the index of the last one reached;
 * requirements that get satisfied move it forward, requirements that get
 * unsatisfied move it back. It is also a satisfier of progress thresholds:
 * every change runs the satisfy or unsatisfy check for the current
 * progress value. Runtime/Models/Progress.cs.
 *
 * The requirements are the Requirement objects themselves; Progress only
 * reads their flags. The ObjectContainer<float> base class part is the `sat`
 * object (the element list of the container is never used by Progress).
 */
module Progresses {
  import opened Wrappers
  import opened Bundles
  import opened Satisfiers
  import opened OSatisfiers
  import ObjectContainers
  import Sorting
  import Lists
  import Requirements


  // ---------------------------------------------------------------------
  // The progress value
  // ---------------------------------------------------------------------

  /**
   * CurrentProgress from the two counts: 1 without requirements, otherwise
   * the integer quotient of reached by total, so 0 until every requirement
   * is reached and 1 once exactly all of them are.
   */
  function ProgressOf(done: nat, total: nat): (p: real)
    ensures total == 0 ==> p == 1.0
    ensures 0 < total && done < total ==> p == 0.0
    ensures 0 < total && done == total ==> p == 1.0
    ensures 0 < total && total <= done ==> p >= 1.0
  {
    if total == 0 then 1.0 else Quotient(done, total) as real
  }

  /** `int / int` on counts: how many times `b` fits in `a`, counted by repeated subtraction. */
  function Quotient(a: nat, b: nat): (q: nat)
    requires b > 0
    ensures a < b ==> q == 0
    ensures b <= a ==> q >= 1
    ensures a == b ==> q == 1
    decreases a
  {
    if a < b then 0 else 1 + Quotient(a - b, b)
  }

  /** The counted quotient is the floor of `a / b`: the one `q` with `q * b <= a < (q + 1) * b`. */
  lemma {:induction false} QuotientIsFloor(a: nat, b: nat)
    requires b > 0
    ensures Quotient(a, b) * b <= a < (Quotient(a, b) + 1) * b
    decreases a
  {
    if b <= a {
      var q := Quotient(a - b, b);
      QuotientIsFloor(a - b, b);
      assert (q + 1) * b == q * b + b && (q + 2) * b == (q + 1) * b + b;
    }
  }

  /** Progress.Comparer: ascending value. */
  function Ascending(a: real, b: real): int
  {
    if a < b then -1 else if a > b then 1 else 0
  }

  /** The flag a requirement slot reads as: a null slot is never satisfied. */
  function FlagsOf(rs: seq<Requirements.Requirement?>): (flags: seq<bool>)
    reads rs
    ensures |flags| == |rs|
    ensures forall i | 0 <= i < |rs| :: flags[i] <==> rs[i] != null && rs[i].isSatisfied
  {
    seq(|rs|, i requires 0 <= i < |rs| reads rs => rs[i] != null && rs[i].isSatisfied)
  }

  predicate NonNull(r: Requirements.Requirement?)
  {
    r != null
  }

  /** The requirements at the given indices, in that order. */
  function Pick(rs: seq<Requirements.Requirement?>, idx: seq<nat>): (r: seq<Requirements.Requirement?>)
    requires forall k | 0 <= k < |idx| :: idx[k] < |rs|
    ensures |r| == |idx| && forall k | 0 <= k < |idx| :: r[k] == rs[idx[k]]
  {
    seq(|idx|, k requires 0 <= k < |idx| => rs[idx[k]])
  }

  // ---------------------------------------------------------------------
  // The CheckProgress scan
  // ---------------------------------------------------------------------

  /**
   * The scan of CheckProgress from place `i`, with the reached index and
   * the indices collected so far: a satisfied requirement is collected
   * (and becomes the reached one) unless the progression is linear and it
   * lies more than one place past the reached index, which ends the scan.
   */
  function ScanFrom(flags: seq<bool>, linear: bool, i: nat, reached: int, acc: seq<nat>): (r: (seq<nat>, int))
    requires i <= |flags|
    decreases |flags| - i
  {
    if i == |flags| then (acc, reached)
    else if flags[i] then
      if linear && i - reached > 1 then (acc, reached)
      else ScanFrom(flags, linear, i + 1, i, acc + [i])
    else ScanFrom(flags, linear, i + 1, reached, acc)
  }

  /** The scan collects only places of the list. */
  lemma {:induction false} ScanBounded(flags: seq<bool>, linear: bool, i: nat, reached: int, acc: seq<nat>)
    requires i <= |flags| && forall k | 0 <= k < |acc| :: acc[k] < i
    ensures forall k | 0 <= k < |ScanFrom(flags, linear, i, reached, acc).0| ::
              ScanFrom(flags, linear, i, reached, acc).0[k] < |flags|
    decreases |flags| - i
  {
    if i == |flags| || (flags[i] && linear && i - reached > 1) {
      assert ScanFrom(flags, linear, i, reached, acc) == (acc, reached);
    } else if flags[i] {
      ScanBounded(flags, linear, i + 1, i, acc + [i]);
      assert ScanFrom(flags, linear, i, reached, acc) == ScanFrom(flags, linear, i + 1, i, acc + [i]);
    } else {
      ScanBounded(flags, linear, i + 1, reached, acc);
      assert ScanFrom(flags, linear, i, reached, acc) == ScanFrom(flags, linear, i + 1, reached, acc);
    }
  }

  /** The whole scan, from the first place with reached index 0. */
  function Scan(flags: seq<bool>, linear: bool): (r: (seq<nat>, int))
    ensures forall k | 0 <= k < |r.0| :: r.0[k] < |flags|
  {
    var none: seq<nat> := [];
    ScanBounded(flags, linear, 0, 0, none);
    ScanFrom(flags, linear, 0, 0, none)
  }

  /** The indices from `a` up to `b`. */
  function Range(a: nat, b: nat): (r: seq<nat>)
    requires a <= b
    ensures |r| == b - a && forall k | 0 <= k < |r| :: r[k] == a + k
  {
    seq(b - a, k requires 0 <= k < b - a => a + k)
  }

  /** The first place from `i` on whose requirement is not satisfied (or the end). */
  function RunEnd(flags: seq<bool>, i: nat): (e: nat)
    requires i <= |flags|
    ensures i <= e <= |flags|
    ensures forall k | i <= k < e :: flags[k]
    ensures e < |flags| ==> !flags[e]
    decreases |flags| - i
  {
    if i == |flags| || !flags[i] then i else RunEnd(flags, i + 1)
  }

  /** Where the linear scan starts collecting: the second place when the first is unsatisfied. */
  function LinearStart(flags: seq<bool>): nat
  {
    if |flags| > 0 && !flags[0] then 1 else 0
  }

  /** Once two places past the reached index, the linear scan collects nothing more. */
  lemma {:induction false} ScanAfterGap(flags: seq<bool>, i: nat, reached: int, acc: seq<nat>)
    requires i <= |flags| && i >= reached + 2
    ensures ScanFrom(flags, true, i, reached, acc) == (acc, reached)
    decreases |flags| - i
  {
    if i < |flags| && !flags[i] {
      ScanAfterGap(flags, i + 1, reached, acc);
    }
  }

  /** Right after a collected place, the linear scan collects the run of satisfied places that follows. */
  lemma {:induction false} ScanRun(flags: seq<bool>, i: nat, acc: seq<nat>)
    requires 1 <= i <= |flags|
    ensures ScanFrom(flags, true, i, i - 1, acc) == (acc + Range(i, RunEnd(flags, i)), RunEnd(flags, i) - 1)
    decreases |flags| - i
  {
    if i == |flags| {
      assert acc + Range(i, i) == acc;
    } else if flags[i] {
      ScanRun(flags, i + 1, acc + [i]);
      assert acc + [i] + Range(i + 1, RunEnd(flags, i + 1)) == acc + Range(i, RunEnd(flags, i));
    } else {
      ScanAfterGap(flags, i + 1, i - 1, acc);
      assert acc + Range(i, i) == acc;
    }
  }

  /**
   * Under linear progression CheckProgress collects exactly the run of
   * satisfied requirements that starts at the first place (or at the
   * second, when the first is unsatisfied, since the reached index starts
   * at 0), and the reached index ends on the last one collected.
   */
  lemma LinearScanCollectsRun(flags: seq<bool>)
    ensures var s := LinearStart(flags);
            var e := RunEnd(flags, s);
            Scan(flags, true) == (Range(s, e), if e > s then e - 1 else 0)
  {
    if |flags| == 0 {
      assert Range(0, 0) == [];
    } else if flags[0] {
      ScanRun(flags, 1, [0]);
      assert [] + [0] == [0];
      assert [0] + Range(1, RunEnd(flags, 1)) == Range(0, RunEnd(flags, 0));
    } else {
      ScanRun(flags, 1, []);
      assert [] + Range(1, RunEnd(flags, 1)) == Range(1, RunEnd(flags, 1));
    }
  }

  /** The satisfied places from `i` on, in order. */
  function Where(flags: seq<bool>, i: nat): seq<nat>
    requires i <= |flags|
    decreases |flags| - i
  {
    if i == |flags| then []
    else if flags[i] then [i] + Where(flags, i + 1)
    else Where(flags, i + 1)
  }

  /** Where lists exactly the satisfied places from `i` on, ascending. */
  lemma {:induction false} WhereListsSatisfied(flags: seq<bool>, i: nat)
    requires i <= |flags|
    ensures var r := Where(flags, i);
            (forall k | 0 <= k < |r| :: i <= r[k] < |flags| && flags[r[k]]) &&
            (forall k | i <= k < |flags| :: flags[k] <==> k in r) &&
            (forall a, b | 0 <= a < b < |r| :: r[a] < r[b])
    decreases |flags| - i
  {
    if i < |flags| {
      WhereListsSatisfied(flags, i + 1);
    }
  }

  /** The last element of a list, or `d` for the empty one. */
  function LastOr(s: seq<nat>, d: int): int
  {
    if |s| == 0 then d else s[|s| - 1]
  }

  lemma {:induction false} ScanCollectsAll(flags: seq<bool>, i: nat, reached: int, acc: seq<nat>)
    requires i <= |flags|
    ensures ScanFrom(flags, false, i, reached, acc) == (acc + Where(flags, i), LastOr(Where(flags, i), reached))
    decreases |flags| - i
  {
    if i == |flags| {
      assert acc + Where(flags, i) == acc;
    } else {
      if flags[i] {
        ScanCollectsAll(flags, i + 1, i, acc + [i]);
        assert acc + [i] + Where(flags, i + 1) == acc + Where(flags, i);
        assert LastOr([i] + Where(flags, i + 1), reached) == LastOr(Where(flags, i + 1), i);
      } else {
        ScanCollectsAll(flags, i + 1, reached, acc);
      }
    }
  }

  /**
   * Without linear progression CheckProgress collects every satisfied
   * requirement, in list order, and the reached index ends on the last one.
   */
  lemma NonLinearScanCollectsAll(flags: seq<bool>)
    ensures var (idx, reached) := Scan(flags, false);
            (forall k | 0 <= k < |flags| :: flags[k] <==> k in idx) &&
            (forall a, b | 0 <= a < b < |idx| :: idx[a] < idx[b]) &&
            reached == LastOr(idx, 0)
  {
    ScanCollectsAll(flags, 0, 0, []);
    WhereListsSatisfied(flags, 0);
    assert [] + Where(flags, 0) == Where(flags, 0);
  }

  // ---------------------------------------------------------------------
  // DoProgress and Regress on the view
  // ---------------------------------------------------------------------

  /**
   * The view after the satisfy checks of `count` requirements appended one
   * by one to `done` reached ones: the k-th check sees the progress value
   * with done + k reached.
   */
  function SatisfyRising(v: map<real, BundleState<real>>, done: nat, total: nat, count: nat): map<real, BundleState<real>>
  {
    if count == 0 then v
    else CheckSatisfyView(SatisfyRising(v, done, total, count - 1), ProgressOf(done + count, total)).1
  }

  /** The progress values those checks see, in order. */
  function Rising(done: nat, total: nat, count: nat): (r: seq<real>)
    ensures |r| == count && forall k | 0 <= k < count :: r[k] == ProgressOf(done + k + 1, total)
  {
    seq(count, k requires 0 <= k < count => ProgressOf(done + k + 1, total))
  }

  /**
   * The appended requirements run exactly the container's satisfy checks of
   * the rising progress values, so CheckSatisfyAllCounts tells how each
   * watched threshold's count moves.
   */
  lemma {:induction false} SatisfyRisingChecksEach(v: map<real, BundleState<real>>, done: nat, total: nat, count: nat)
    ensures SatisfyRising(v, done, total, count) == ObjectContainers.CheckSatisfyAll(v, Rising(done, total, count))
  {
    if count > 0 {
      SatisfyRisingChecksEach(v, done, total, count - 1);
      assert Rising(done, total, count)[..count - 1] == Rising(done, total, count - 1);
    }
  }

  /** Appending the next element of a slice to a list that ends with the slice. */
  lemma SliceGrows<T>(pre: seq<T>, s: seq<T>, i: nat, j: nat)
    requires i <= j < |s|
    ensures pre + s[i..j] + [s[j]] == pre + s[i..j + 1]
    ensures |pre + s[i..j + 1]| == |pre| + (j + 1 - i)
  {
    assert s[i..j + 1] == s[i..j] + [s[j]];
  }

  /**
   * The view after the unsatisfy checks of `count` requirements removed one
   * by one from `done` reached ones: the k-th check sees the progress value
   * with done - k reached.
   */
  function UnsatisfyFalling(v: map<real, BundleState<real>>, done: nat, total: nat, count: nat): map<real, BundleState<real>>
    requires count <= done
  {
    if count == 0 then v
    else CheckUnsatisfyView(UnsatisfyFalling(v, done, total, count - 1), ProgressOf(done - count, total)).1
  }

  /** The progress values those checks see, in order. */
  function Falling(done: nat, total: nat, count: nat): (r: seq<real>)
    requires count <= done
    ensures |r| == count && forall k | 0 <= k < count :: r[k] == ProgressOf(done - k - 1, total)
  {
    seq(count, k requires 0 <= k < count => ProgressOf(done - k - 1, total))
  }

  /**
   * Removals never add a watched threshold, and leave alone every threshold
   * none of the falling progress values hits.
   */
  lemma {:induction false} UnsatisfyFallingTouchesOnlyHit(v: map<real, BundleState<real>>, done: nat, total: nat, count: nat)
    requires count <= done
    ensures var v' := UnsatisfyFalling(v, done, total, count);
            v'.Keys == v.Keys &&
            forall x | x in v && x !in Falling(done, total, count) :: v'[x] == v[x]
  {
    if count > 0 {
      UnsatisfyFallingTouchesOnlyHit(v, done, total, count - 1);
      assert Falling(done, total, count) == Falling(done, total, count - 1) + [ProgressOf(done - count, total)];
    }
  }

  /**
   * The linear Regress loop as written: it removes the element at `i`,
   * moves to the next place and repeats, so each removal skips the element
   * that slid into the place just emptied.
   */
  function SkipRemove<T>(s: seq<T>, i: nat): (r: seq<T>)
    decreases |s| - i
  {
    if i >= |s| then s else SkipRemove(Lists.RemoveAt(s, i), i + 1)
  }

  /** The elements at the odd places of a list: the second, the fourth, ... */
  function OddPlaces<T>(s: seq<T>): (r: seq<T>)
    ensures |r| == |s| / 2 && forall k | 0 <= k < |r| :: r[k] == s[2 * k + 1]
  {
    seq(|s| / 2, k requires 0 <= k < |s| / 2 => s[2 * k + 1])
  }

  /**
   * The linear Regress as written keeps the prefix before the regressed
   * requirement and, of the rest, the elements at odd places: half of the
   * requirements it meant to drop stay in the reached list.
   */
  lemma {:induction false} SkipRemoveKeepsOddPlaces<T>(pre: seq<T>, tail: seq<T>)
    ensures SkipRemove(pre + tail, |pre|) == pre + OddPlaces(tail)
    decreases |tail|
  {
    if |tail| == 0 {
      assert pre + tail == pre + OddPlaces(tail);
    } else if |tail| == 1 {
      assert Lists.RemoveAt(pre + tail, |pre|) == pre;
      assert pre == pre + OddPlaces(tail);
    } else {
      var pre' := pre + [tail[1]];
      var tail' := tail[2..];
      assert Lists.RemoveAt(pre + tail, |pre|) == pre' + tail';
      SkipRemoveKeepsOddPlaces(pre', tail');
      assert OddPlaces(tail) == [tail[1]] + OddPlaces(tail');
    }
  }

  /** Regressing the first of three reached requirements leaves the second one reached. */
  lemma RegressKeepsSecondOfThree<T>(a: T, b: T, c: T)
    ensures SkipRemove([a, b, c], 0) == [b]
  {
    SkipRemoveKeepsOddPlaces([], [a, b, c]);
    assert [] + [a, b, c] == [a, b, c];
  }

  class Progress {
    var requirements: seq<Requirements.Requirement?>
    var satisfied: seq<Requirements.Requirement?>
    var reachedIndex: int
    const linear: bool
    const sat: OSatisfier<real>

    /** The objects of the progression: itself and its satisfier's. */
    ghost function Repr(): set<object>
      reads this, sat
    {
      {this} + sat.Repr
    }

    /** The requirement objects are read, never owned. */
    ghost predicate Valid()
      reads this, sat, sat.Repr
    {
      this !in sat.Repr && sat.Valid() &&
      (forall r | r in requirements && r != null :: r !in sat.Repr)
    }

    /** The watched thresholds and their bundles. */
    ghost function Model(): map<real, BundleState<real>>
      reads sat, sat.Repr
      requires sat.Valid()
    {
      sat.Model()
    }

    /** CurrentProgress. */
    function CurrentProgress(): (p: real)
      reads this
      ensures requirements == [] ==> p == 1.0
      ensures |satisfied| < |requirements| ==> p == 0.0
      ensures 0 < |requirements| == |satisfied| ==> p == 1.0
    {
      ProgressOf(|satisfied|, |requirements|)
    }

    /** ProgressCondition: a requirement at most one place past the reached one. */
    predicate ProgressCondition(index: int)
      reads this
    {
      index - reachedIndex <= 1
    }

    /** A progression over the given requirements, nothing reached yet and no threshold watched. */
    constructor (reqs: seq<Requirements.Requirement?>, linearProgression: bool)
      ensures Valid() && fresh(Repr()) && Model() == map[]
      ensures requirements == reqs && satisfied == [] && reachedIndex == 0 && linear == linearProgression
    {
      requirements := reqs;
      satisfied := [];
      reachedIndex := 0;
      linear := linearProgression;
      sat := new OSatisfier(Ascending, (a: real, b: real) => a == b);
    }

    /**
     * CheckProgress: the reached list is emptied, the reached index reset
     * to 0 and null requirements dropped; then the scan collects the
     * reached requirements, and a watched threshold equal to the progress
     * value is satisfied.
     */
    method CheckProgress()
      requires Valid()
      modifies this, sat.Repr
      ensures Valid() && fresh(sat.Repr - old(sat.Repr))
      ensures requirements == Sorting.Filter(old(requirements), NonNull)
      ensures var (idx, reached) := Scan(FlagsOf(requirements), linear);
              satisfied == Pick(requirements, idx) && reachedIndex == reached
      ensures var p := CurrentProgress();
              Model() == if p in old(Model()) then old(Model())[p := Satisfied(old(Model())[p])] else old(Model())
    {
      Reset();
      CollectReached();
      SatisfyCurrent();
    }

    /** The for loop of CheckProgress, over a list that has just been emptied. */
    method CollectReached()
      requires Valid() && satisfied == [] && reachedIndex == 0
      modifies this
      ensures Valid() && Model() == old(Model()) && requirements == old(requirements)
      ensures var (idx, reached) := Scan(FlagsOf(requirements), linear);
              satisfied == Pick(requirements, idx) && reachedIndex == reached
    {
      ghost var flags := FlagsOf(requirements);
      ghost var acc: seq<nat> := [];
      var i := 0;
      while i < |requirements|
        invariant 0 <= i <= |requirements| && forall k | 0 <= k < |acc| :: acc[k] < i
        invariant Valid() && Model() == old(Model())
        invariant requirements == old(requirements) && FlagsOf(requirements) == flags
        invariant satisfied == Pick(requirements, acc)
        invariant ScanFrom(flags, linear, i, reachedIndex, acc) == Scan(flags, linear)
      {
        if requirements[i] != null && requirements[i].isSatisfied {
          if linear && i - reachedIndex > 1 {
            break;
          }
          Collect(i);
          acc := acc + [i];
        }
        i := i + 1;
      }
    }

    /** `satisfied.Clear(); m_ReachedIndex = 0;` and the null requirements dropped. */
    method Reset()
      requires Valid()
      modifies this
      ensures Valid() && Model() == old(Model())
      ensures requirements == Sorting.Filter(old(requirements), NonNull)
      ensures satisfied == [] && reachedIndex == 0
    {
      requirements := Sorting.Filter(requirements, NonNull);
      satisfied := [];
      reachedIndex := 0;
    }

    /** `satisfied.Add(requirements[i]); m_ReachedIndex = i;` */
    method Collect(i: nat)
      requires Valid() && i < |requirements|
      modifies this
      ensures Valid() && Model() == old(Model()) && requirements == old(requirements)
      ensures satisfied == old(satisfied) + [requirements[i]] && reachedIndex == i
    {
      satisfied := satisfied + [requirements[i]];
      reachedIndex := i;
    }

    /** `if (IsWatching(CurrentProgress)) Satisfier.Satisfy(CurrentProgress);` */
    method SatisfyCurrent()
      requires Valid()
      modifies sat.Repr
      ensures Valid() && fresh(sat.Repr - old(sat.Repr))
      ensures requirements == old(requirements) && satisfied == old(satisfied) && reachedIndex == old(reachedIndex)
      ensures var p := CurrentProgress();
              Model() == if p in old(Model()) then old(Model())[p := Satisfied(old(Model())[p])] else old(Model())
    {
      sat.SatisfyIfWatching(CurrentProgress());
    }

    /**
     * DoProgress: nothing for a requirement that is not listed, or one too
     * far ahead under linear progression. Otherwise every satisfied
     * requirement from its place on is appended, each followed by the
     * satisfy check of the new progress value, and the reached index moves
     * to the place before the first one that is not satisfied. A null
     * requirement met on the way throws, after the ones before it.
     */
    method DoProgress(requirement: Requirements.Requirement?) returns (err: Option<Exception>)
      requires Valid()
      modifies this, sat.Repr
      ensures Valid() && fresh(sat.Repr - old(sat.Repr)) && requirements == old(requirements)
      ensures var index := Lists.IndexOf(requirements, requirement);
              index == -1 || (linear && !old(ProgressCondition(index))) ==>
                err.None? && satisfied == old(satisfied) && reachedIndex == old(reachedIndex) && Model() == old(Model())
      ensures var index := Lists.IndexOf(requirements, requirement);
              index != -1 && !(linear && !old(ProgressCondition(index))) ==>
                var e := RunEnd(old(FlagsOf(requirements)), index);
                satisfied == old(satisfied) + requirements[index..e] &&
                Model() == SatisfyRising(old(Model()), |old(satisfied)|, |requirements|, e - index) &&
                if e < |requirements| && requirements[e] == null
                then err == Some(NullReference) && reachedIndex == old(reachedIndex)
                else err.None? && reachedIndex == e - 1
    {
      var index := Lists.IndexOf(requirements, requirement);
      if index == -1 || (linear && !ProgressCondition(index)) {
        return None;
      }
      ghost var s0, flags, m0;
      err, s0, flags, m0 := ProgressFrom(index);
      assert satisfied == s0 + requirements[index..RunEnd(flags, index)];
    }

    /**
     * The loop of DoProgress, from the place of the requirement that got
     * satisfied; the ghost results name the reached list, the flags and the
     * watched thresholds it started from.
     */
    method ProgressFrom(start: nat)
      returns (err: Option<Exception>, ghost s0: seq<Requirements.Requirement?>, ghost flags: seq<bool>,
               ghost m0: map<real, BundleState<real>>)
      requires Valid() && start < |requirements|
      modifies this, sat.Repr
      ensures Valid() && fresh(sat.Repr - old(sat.Repr)) && requirements == old(requirements)
      ensures s0 == old(satisfied) && flags == old(FlagsOf(requirements)) && m0 == old(Model())
      ensures var e := RunEnd(flags, start);
              Extends(s0, start, e) &&
              Model() == SatisfyRising(m0, |s0|, |requirements|, e - start) &&
              if e < |requirements| && requirements[e] == null
              then err == Some(NullReference) && reachedIndex == old(reachedIndex)
              else err.None? && reachedIndex == e - 1
    {
      var index;
      index, s0, flags, m0 := RunFrom(start);
      assert RunEnd(flags, index) == index;
      if index < |requirements| && requirements[index] == null {
        err := Some(NullReference);
      } else {
        SetReached(index - 1);
        err := None;
      }
    }

    /**
     * The while loop of DoProgress: MoreProgress on each place from `start`
     * on, up to the first requirement that is missing or not satisfied.
     */
    method RunFrom(start: nat)
      returns (index: nat, ghost s0: seq<Requirements.Requirement?>, ghost flags: seq<bool>,
               ghost m0: map<real, BundleState<real>>)
      requires Valid() && start < |requirements|
      modifies this, sat.Repr
      ensures fresh(sat.Repr - old(sat.Repr))
      ensures s0 == old(satisfied) && flags == old(FlagsOf(requirements)) && m0 == old(Model())
      ensures Running(start, index, old(requirements), old(reachedIndex), s0, flags, m0)
      ensures !(index < |requirements| && flags[index])
    {
      index := start;
      var sats := FlagsOf(requirements);
      flags := sats;
      s0 := satisfied;
      m0 := Model();
      ghost var rs0, r0 := requirements, reachedIndex;
      StartsRunning(start, s0, flags, m0);
      while index < |sats| && sats[index]
        invariant Running(start, index, rs0, r0, s0, flags, m0) && fresh(sat.Repr - old(sat.Repr))
        decreases |requirements| - index
      {
        Advance(index, start, rs0, r0, s0, flags, m0);
        index := index + 1;
      }
    }

    /** The reached list is `s0` followed by the requirements from `start` to `end`. */
    ghost predicate Extends(s0: seq<Requirements.Requirement?>, start: nat, end: nat)
      reads this
      requires start <= end <= |requirements|
    {
      satisfied == s0 + requirements[start..end]
    }

    /**
     * The state of the DoProgress loop at `index`: the places from `start`
     * up to it are appended, each with its satisfy check, and the run of
     * satisfied requirements ahead is the one that started at `start`.
     */
    ghost predicate Running(start: nat, index: nat, rs0: seq<Requirements.Requirement?>, r0: int,
                            s0: seq<Requirements.Requirement?>, flags: seq<bool>, m0: map<real, BundleState<real>>)
      reads this, sat, sat.Repr
    {
      Valid() && requirements == rs0 && reachedIndex == r0 && |flags| == |requirements| &&
      start <= index <= |requirements| && RunEnd(flags, start) == RunEnd(flags, index) &&
      Extends(s0, start, index) && Model() == SatisfyRising(m0, |s0|, |requirements|, index - start)
    }

    /** A run starts with nothing appended and nothing satisfied. */
    lemma StartsRunning(start: nat, s0: seq<Requirements.Requirement?>, flags: seq<bool>, m0: map<real, BundleState<real>>)
      requires Valid() && start <= |requirements| == |flags| && s0 == satisfied && m0 == Model()
      ensures Running(start, start, requirements, reachedIndex, s0, flags, m0)
    {
      assert s0 + requirements[start..start] == s0;
    }

    /** One turn of the DoProgress loop, on a satisfied requirement. */
    method Advance(index: nat, ghost start: nat, ghost rs0: seq<Requirements.Requirement?>, ghost r0: int,
                   ghost s0: seq<Requirements.Requirement?>, ghost flags: seq<bool>, ghost m0: map<real, BundleState<real>>)
      requires Running(start, index, rs0, r0, s0, flags, m0)
      requires index < |requirements| && flags[index]
      modifies this, sat.Repr
      ensures Running(start, index + 1, rs0, r0, s0, flags, m0) && fresh(sat.Repr - old(sat.Repr))
    {
      assert RunEnd(flags, index) == RunEnd(flags, index + 1);
      SliceGrows(s0, requirements, start, index);
      MoreProgress(index);
    }

    /** MoreProgress: the requirement is appended, then the satisfy check of the new progress value runs. */
    method MoreProgress(index: nat)
      requires Valid() && index < |requirements|
      modifies this, sat.Repr
      ensures Valid() && fresh(sat.Repr - old(sat.Repr))
      ensures requirements == old(requirements) && reachedIndex == old(reachedIndex)
      ensures satisfied == old(satisfied) + [requirements[index]]
      ensures Model() == CheckSatisfyView(old(Model()), CurrentProgress()).1
    {
      Append(requirements[index]);
      SatisfyOnChange(CurrentProgress());
    }

    /** CheckSatisfyOnChange on the progression's own satisfier. */
    method SatisfyOnChange(p: real)
      requires Valid()
      modifies sat.Repr
      ensures Valid() && fresh(sat.Repr - old(sat.Repr))
      ensures requirements == old(requirements) && satisfied == old(satisfied) && reachedIndex == old(reachedIndex)
      ensures Model() == CheckSatisfyView(old(Model()), p).1
    {
      var _ := sat.CheckSatisfyOnChange(p);
    }

    /** CheckUnsatisfyOnChange on the progression's own satisfier. */
    method UnsatisfyOnChange(p: real)
      requires Valid()
      modifies sat.Repr
      ensures Valid() && fresh(sat.Repr - old(sat.Repr))
      ensures requirements == old(requirements) && satisfied == old(satisfied) && reachedIndex == old(reachedIndex)
      ensures Model() == CheckUnsatisfyView(old(Model()), p).1
    {
      var _ := sat.CheckUnsatisfyOnChange(p);
    }

    method Append(r: Requirements.Requirement?)
      requires Valid()
      modifies this
      ensures Valid() && Model() == old(Model())
      ensures requirements == old(requirements) && reachedIndex == old(reachedIndex)
      ensures satisfied == old(satisfied) + [r]
    {
      satisfied := satisfied + [r];
    }

    method SetReached(i: int)
      requires Valid()
      modifies this
      ensures Valid() && Model() == old(Model())
      ensures requirements == old(requirements) && satisfied == old(satisfied) && reachedIndex == i
    {
      reachedIndex := i;
    }

    /**
     * Regress as written: nothing for a requirement that is not reached;
     * otherwise the reached index moves before it and, under linear
     * progression, the removal loop drops every other requirement from its
     * place on (see SkipRemoveKeepsOddPlaces); without linear progression
     * it drops that requirement alone. Every removal runs the unsatisfy
     * check of the new progress value.
     */
    method Regress(requirement: Requirements.Requirement?)
      requires Valid()
      modifies this, sat.Repr
      ensures Valid() && fresh(sat.Repr - old(sat.Repr)) && requirements == old(requirements)
      ensures var index := Lists.IndexOf(old(satisfied), requirement);
              index == -1 ==> satisfied == old(satisfied) && reachedIndex == old(reachedIndex) && Model() == old(Model())
      ensures var index := Lists.IndexOf(old(satisfied), requirement);
              index != -1 ==>
                reachedIndex == index - 1 &&
                (linear ==>
                   satisfied == SkipRemove(old(satisfied), index) && |satisfied| <= |old(satisfied)| &&
                   Model() == UnsatisfyFalling(old(Model()), |old(satisfied)|, |requirements|,
                                               |old(satisfied)| - |satisfied|)) &&
                (!linear ==>
                   satisfied == Lists.RemoveAt(old(satisfied), index) &&
                   Model() == CheckUnsatisfyView(old(Model()), CurrentProgress()).1)
    {
      var index := Lists.IndexOf(satisfied, requirement);
      if index == -1 {
        return;
      }
      SetReached(index - 1);
      if linear {
        ghost var s0, m0;
        s0, m0 := RemoveSkipping(index);
      } else {
        LessProgress(index);
      }
    }

    /** The linear removal loop of Regress, from the place of the regressed requirement. */
    method RemoveSkipping(start: nat) returns (ghost s0: seq<Requirements.Requirement?>, ghost m0: map<real, BundleState<real>>)
      requires Valid()
      modifies this, sat.Repr
      ensures Valid() && fresh(sat.Repr - old(sat.Repr)) && requirements == old(requirements) && reachedIndex == old(reachedIndex)
      ensures s0 == old(satisfied) && m0 == old(Model())
      ensures satisfied == SkipRemove(s0, start) && |satisfied| <= |s0|
      ensures Model() == UnsatisfyFalling(m0, |s0|, |requirements|, |s0| - |satisfied|)
    {
      var index: nat := start;
      s0 := satisfied;
      m0 := Model();
      ghost var rs0, r0 := requirements, reachedIndex;
      while index < |satisfied|
        invariant Removing(start, index, rs0, r0, s0, m0) && fresh(sat.Repr - old(sat.Repr))
        decreases |satisfied| - index
      {
        SkipStep(index, start, rs0, r0, s0, m0);
        index := index + 1;
      }
    }

    /**
     * The state of the linear Regress loop at `index`: what SkipRemove has
     * left to do from here is what it had to do from `start`, with one
     * unsatisfy check per removal so far.
     */
    ghost predicate Removing(start: nat, index: nat, rs0: seq<Requirements.Requirement?>, r0: int,
                             s0: seq<Requirements.Requirement?>, m0: map<real, BundleState<real>>)
      reads this, sat, sat.Repr
    {
      Valid() && requirements == rs0 && reachedIndex == r0 && |satisfied| <= |s0| &&
      SkipRemove(satisfied, index) == SkipRemove(s0, start) &&
      Model() == UnsatisfyFalling(m0, |s0|, |requirements|, |s0| - |satisfied|)
    }

    /** One turn of the linear Regress loop: LessProgress at `index`. */
    method SkipStep(index: nat, ghost start: nat, ghost rs0: seq<Requirements.Requirement?>, ghost r0: int,
                    ghost s0: seq<Requirements.Requirement?>, ghost m0: map<real, BundleState<real>>)
      requires Removing(start, index, rs0, r0, s0, m0) && index < |satisfied|
      modifies this, sat.Repr
      ensures Removing(start, index + 1, rs0, r0, s0, m0) && fresh(sat.Repr - old(sat.Repr))
      ensures |satisfied| == |old(satisfied)| - 1
    {
      assert SkipRemove(satisfied, index) == SkipRemove(Lists.RemoveAt(satisfied, index), index + 1);
      LessProgress(index);
    }

    /**
     * The linear Regress the removal loop evidently means: every reached
     * requirement from the regressed one on is dropped, one unsatisfy check
     * per removal.
     */
    method RegressTruncating(requirement: Requirements.Requirement?)
      requires Valid()
      modifies this, sat.Repr
      ensures Valid() && fresh(sat.Repr - old(sat.Repr)) && requirements == old(requirements)
      ensures var index := Lists.IndexOf(old(satisfied), requirement);
              index == -1 ==> satisfied == old(satisfied) && reachedIndex == old(reachedIndex) && Model() == old(Model())
      ensures var index := Lists.IndexOf(old(satisfied), requirement);
              index != -1 ==>
                reachedIndex == index - 1 && satisfied == old(satisfied)[..index] && requirement !in satisfied &&
                Model() == UnsatisfyFalling(old(Model()), |old(satisfied)|, |requirements|, |old(satisfied)| - index)
    {
      var index := Lists.IndexOf(satisfied, requirement);
      if index == -1 {
        return;
      }
      SetReached(index - 1);
      ghost var s0, m0;
      s0, m0 := RemoveRest(index);
    }

    /** The corrected removal loop: LessProgress at the same place until the list ends there. */
    method RemoveRest(start: nat) returns (ghost s0: seq<Requirements.Requirement?>, ghost m0: map<real, BundleState<real>>)
      requires Valid() && start <= |satisfied|
      modifies this, sat.Repr
      ensures Valid() && fresh(sat.Repr - old(sat.Repr)) && requirements == old(requirements) && reachedIndex == old(reachedIndex)
      ensures s0 == old(satisfied) && m0 == old(Model())
      ensures satisfied == s0[..start]
      ensures Model() == UnsatisfyFalling(m0, |s0|, |requirements|, |s0| - start)
    {
      s0 := satisfied;
      m0 := Model();
      ghost var rs0, r0 := requirements, reachedIndex;
      while start < |satisfied|
        invariant Truncating(start, rs0, r0, s0, m0) && fresh(sat.Repr - old(sat.Repr))
        decreases |satisfied|
      {
        TruncateStep(start, rs0, r0, s0, m0);
      }
    }

    /**
     * The state of the corrected loop: the places before `start` are kept
     * and the removed ones are the first ones after them, one unsatisfy
     * check per removal.
     */
    ghost predicate Truncating(start: nat, rs0: seq<Requirements.Requirement?>, r0: int,
                               s0: seq<Requirements.Requirement?>, m0: map<real, BundleState<real>>)
      reads this, sat, sat.Repr
    {
      Valid() && requirements == rs0 && reachedIndex == r0 &&
      start <= |satisfied| <= |s0| && satisfied == s0[..start] + s0[start + |s0| - |satisfied|..] &&
      Model() == UnsatisfyFalling(m0, |s0|, |requirements|, |s0| - |satisfied|)
    }

    /** One turn of the corrected loop: LessProgress at `start`. */
    method TruncateStep(start: nat, ghost rs0: seq<Requirements.Requirement?>, ghost r0: int,
                        ghost s0: seq<Requirements.Requirement?>, ghost m0: map<real, BundleState<real>>)
      requires Truncating(start, rs0, r0, s0, m0) && start < |satisfied|
      modifies this, sat.Repr
      ensures Truncating(start, rs0, r0, s0, m0) && fresh(sat.Repr - old(sat.Repr))
      ensures |satisfied| == |old(satisfied)| - 1
    {
      ghost var cut := start + |s0| - |satisfied|;
      assert Lists.RemoveAt(satisfied, start) == s0[..start] + s0[cut + 1..];
      LessProgress(start);
    }

    /** LessProgress: the requirement at `index` leaves the reached list, then the unsatisfy check of the new progress value runs. */
    method LessProgress(index: nat)
      requires Valid() && index < |satisfied|
      modifies this, sat.Repr
      ensures Valid() && fresh(sat.Repr - old(sat.Repr))
      ensures requirements == old(requirements) && reachedIndex == old(reachedIndex)
      ensures satisfied == Lists.RemoveAt(old(satisfied), index)
      ensures Model() == CheckUnsatisfyView(old(Model()), CurrentProgress()).1
    {
      Drop(index);
      UnsatisfyOnChange(CurrentProgress());
    }

    method Drop(index: nat)
      requires Valid() && index < |satisfied|
      modifies this
      ensures Valid() && Model() == old(Model())
      ensures requirements == old(requirements) && reachedIndex == old(reachedIndex)
      ensures satisfied == Lists.RemoveAt(old(satisfied), index)
    {
      satisfied := Lists.RemoveAt(satisfied, index);
    }

    /** WatchFeedback through OSatisfier.Watch: the threshold is watched and the answer is the progress value. */
    method Watch(threshold: real, d: Event?, u: Event?) returns (fb: real)
      requires Valid()
      modifies sat.Repr
      ensures Valid() && fresh(sat.Repr - old(sat.Repr))
      ensures requirements == old(requirements) && satisfied == old(satisfied) && reachedIndex == old(reachedIndex)
      ensures Model() == WatchView(old(Model()), Some(threshold), d, u).1
      ensures fb == CurrentProgress()
    {
      var _ := sat.Watch(Some(threshold), d, u);
      fb := CurrentProgress();
    }

    /** OSatisfier.Unwatch on the progression's own satisfier. */
    method Unwatch(threshold: real)
      requires Valid()
      modifies sat.Repr
      ensures Valid() && fresh(sat.Repr - old(sat.Repr))
      ensures requirements == old(requirements) && satisfied == old(satisfied) && reachedIndex == old(reachedIndex)
      ensures Model() == UnwatchView(old(Model()), Some(threshold)).1
    {
      sat.Unwatch(Some(threshold));
    }
  }

  /** The run end is the first place whose requirement is not satisfied. */
  lemma {:induction false} RunEndIs(flags: seq<bool>, i: nat, e: nat)
    requires i <= e <= |flags| && forall k | i <= k < e :: flags[k]
    requires e < |flags| ==> !flags[e]
    ensures RunEnd(flags, i) == e
    decreases e - i
  {
    if i < e {
      RunEndIs(flags, i + 1, e);
    }
  }
}

=== FILE: progress_requirement.dfy ===
/**
 * ProgressRequirement: a requirement that a progression reaches a
 * threshold. It is a ReferenceRequirement<Progress, float> whose item is
 * the threshold: Enable runs the reference Enable (which watches the
 * threshold and satisfies on a non-zero answer) and then watches it again
 * and settles on whether the answer reaches the threshold.
 * Runtime/Requirements/Concretes/ProgressRequirement.cs.
 *
 * The Requirement base class part is the `req` object; the threshold is a
 * `real`, so a float item is never null and both null guards on the item
 * always pass.
 */
module ProgressRequirements {
  import opened Wrappers
  import opened Bundles
  import opened Satisfiers
  import Progresses
  import Requirements

  /**
   * The state Enable ends in, from the state `s` right after the
   * Requirement Enable, when both watches answer `p` (`present` is false
   * without a progression). The reference part satisfies when the answer
   * is not 0, a missing progression included (`null != 0`); the own part
   * then satisfies when the answer reaches the threshold and unsatisfies
   * otherwise, a missing progression included (`null >= item` is false).
   */
  function ProgressEnabled(s: Requirements.ReqState, present: bool, p: real, item: real): Requirements.ReqState
  {
    ThresholdSettled(ReferenceSettled(s, present, p), present, p, item)
  }

  /** The reference part: `m_Satisfier?.Watch(...) != 0` satisfies, and `null != 0` holds. */
  function ReferenceSettled(s: Requirements.ReqState, present: bool, p: real): Requirements.ReqState
  {
    if !present || p != 0.0 then Requirements.Satisfied(s) else s
  }

  /** The own part: `m_Satisfier?.Watch(...) >= m_Item` satisfies, anything else unsatisfies. */
  function ThresholdSettled(s: Requirements.ReqState, present: bool, p: real, item: real): Requirements.ReqState
  {
    if present && p >= item then Requirements.Satisfied(s) else Requirements.Unsatisfied(s)
  }

  /**
   * Enable ends satisfied exactly when there is a progression whose value
   * reaches the threshold, whatever the reference part did first.
   */
  lemma EnableSettlesOnThreshold(s: Requirements.ReqState, present: bool, p: real, item: real)
    ensures ProgressEnabled(s, present, p, item).isSatisfied <==> present && p >= item
    ensures present && p != 0.0 && p >= item && s.onSatisfied != null ==>
              ProgressEnabled(s, present, p, item).satisfiedFired == s.satisfiedFired + 2
  {
  }

  /**
   * Without a progression Enable first satisfies and then unsatisfies:
   * each trigger fires once and the requirement ends unsatisfied.
   */
  lemma EnableWithoutProgressFiresBoth(s: Requirements.ReqState, p: real, item: real)
    ensures var s' := ProgressEnabled(s, false, p, item);
            !s'.isSatisfied &&
            s'.satisfiedFired == s.satisfiedFired + (if s.onSatisfied != null then 1 else 0) &&
            s'.unsatisfiedFired == s.unsatisfiedFired + (if s.onUnsatisfied != null then 1 else 0)
  {
  }

  /**
   * With the progress value the progression answers (the integer quotient
   * of reached by total), a threshold in (0, 1] is reached exactly when
   * every requirement is reached; a threshold above 1 never is while the
   * reached list is no longer than the requirement list.
   */
  lemma {:induction false} ThresholdNeedsEveryRequirement(done: nat, total: nat, item: real)
    requires 0.0 < item <= 1.0
    ensures Progresses.ProgressOf(done, total) >= item <==> total == 0 || total <= done
  {
  }

  /** A second watch of the same threshold with the same events changes nothing more. */
  lemma WatchTwiceIsOnce(v: map<real, BundleState<real>>, item: real, d: Event?, u: Event?)
    ensures var w := WatchView(v, Some(item), d, u).1;
            WatchView(w, Some(item), d, u).1 == w && WatchView(w, Some(item), d, u).0 == WatchView(v, Some(item), d, u).0
  {
  }

  /** A second unwatch of the same threshold finds nothing to remove. */
  lemma UnwatchTwiceIsOnce(v: map<real, BundleState<real>>, item: real)
    ensures var w := UnwatchView(v, Some(item)).1;
            UnwatchView(w, Some(item)) == (false, w)
  {
  }

  class ProgressRequirement {
    const req: Requirements.Requirement
    const progress: Progresses.Progress?
    const item: real

    /** This requirement and, when there is one, the progression with its satisfier. */
    ghost function Repr(): set<object>
      reads if progress == null then {} else {progress, progress.sat}
    {
      {this} + (if progress == null then {} else progress.Repr())
    }

    /** The progression's objects hold neither this requirement nor its base part. */
    ghost predicate Valid()
      reads Repr(), if progress == null then {} else {progress, progress.sat}
    {
      req !in Repr() && (progress != null ==> this !in progress.sat.Repr && progress.Valid())
    }

    /** The thresholds the progression watches; empty without a progression. */
    ghost function Watched(): map<real, BundleState<real>>
      reads Repr(), if progress == null then {} else {progress, progress.sat}
      requires Valid()
    {
      if progress == null then map[] else progress.Model()
    }

    /** The base initialisation, then the progression and the threshold. */
    constructor Initialize(satisfied: bool, onSat: Event?, onUnsat: Event?, p: Progresses.Progress?, threshold: real)
      requires p != null ==> p.Valid()
      ensures Valid() && fresh(req) && progress == p && item == threshold
      ensures p != null ==> Watched() == p.Model()
      ensures fresh(req.doSatisfy) && fresh(req.unSatisfy)
      ensures req.State() == Requirements.ReqState(satisfied, req.doSatisfy, req.unSatisfy, onSat, onUnsat, 0, 0, 0, 0)
    {
      var r := new Requirements.Requirement();
      r.InitializeWith(satisfied, onSat, onUnsat);
      req := r;
      progress := p;
      item := threshold;
    }

    /**
     * The Requirement Enable; the reference part (watch, then Satisfy on a
     * non-zero answer); then the second watch, Satisfy when the answer
     * reaches the threshold and Unsatisfy otherwise. The progression's
     * lists are left as they were, so both watches answer the same value.
     */
    method Enable()
      requires Valid()
      modifies req, if progress == null then {} else progress.sat.Repr
      ensures Valid() && fresh(Repr() - old(Repr()))
      ensures req.doSatisfy != null && req.unSatisfy != null
      ensures Requirements.EnableKeeps(old(req.State()), req.doSatisfy, req.unSatisfy)
      ensures req.State() ==
              ProgressEnabled(Requirements.Enabled(old(req.State()), req.doSatisfy, req.unSatisfy),
                              progress != null, if progress == null then 0.0 else progress.CurrentProgress(), item)
      ensures progress != null ==>
                progress.CurrentProgress() == old(progress.CurrentProgress()) &&
                Watched() == WatchView(old(Watched()), Some(item), req.doSatisfy, req.unSatisfy).1
    {
      ghost var v, r0 := Watched(), Repr();
      ghost var p0 := if progress == null then 0.0 else progress.CurrentProgress();
      req.Enable();
      assert Valid() && Watched() == v && Repr() == r0;
      assert progress != null ==> progress.CurrentProgress() == p0;
      ghost var s1 := req.State();
      Settle(req.doSatisfy, req.unSatisfy);
      assert s1 == Requirements.Enabled(old(req.State()), req.doSatisfy, req.unSatisfy);
    }

    /** Both parts of Enable after the Requirement one, with the events it ended with. */
    method Settle(d: Event, u: Event)
      requires Valid()
      modifies req, if progress == null then {} else progress.sat.Repr
      ensures Valid() && fresh(Repr() - old(Repr()))
      ensures req.doSatisfy == old(req.doSatisfy) && req.unSatisfy == old(req.unSatisfy)
      ensures req.State() == ProgressEnabled(old(req.State()), progress != null,
                                             if progress == null then 0.0 else progress.CurrentProgress(), item)
      ensures progress != null ==>
                progress.CurrentProgress() == old(progress.CurrentProgress()) &&
                Watched() == WatchView(old(Watched()), Some(item), d, u).1
    {
      ghost var v := Watched();
      ReferencePart(d, u);
      ThresholdPart(d, u);
      if progress != null {
        WatchTwiceIsOnce(v, item, d, u);
      }
    }

    /** The reference Enable after the Requirement one: watch, then Satisfy on a non-zero answer. */
    method ReferencePart(d: Event, u: Event)
      requires Valid()
      modifies req, if progress == null then {} else progress.sat.Repr
      ensures Valid() && fresh(Repr() - old(Repr()))
      ensures req.State() == ReferenceSettled(old(req.State()), progress != null,
                                              if progress == null then 0.0 else progress.CurrentProgress())
      ensures progress != null ==>
                progress.CurrentProgress() == old(progress.CurrentProgress()) &&
                Watched() == WatchView(old(Watched()), Some(item), d, u).1
    {
      var first := WatchItem(d, u);
      if first.None? || first.value != 0.0 {
        req.Satisfy();
      }
    }

    /** `if (m_Satisfier?.Watch(m_Item, d, u) >= m_Item) Satisfy(); else Unsatisfy();` */
    method ThresholdPart(d: Event, u: Event)
      requires Valid()
      modifies req, if progress == null then {} else progress.sat.Repr
      ensures Valid() && fresh(Repr() - old(Repr()))
      ensures req.State() == ThresholdSettled(old(req.State()), progress != null,
                                              if progress == null then 0.0 else progress.CurrentProgress(), item)
      ensures progress != null ==>
                progress.CurrentProgress() == old(progress.CurrentProgress()) &&
                Watched() == WatchView(old(Watched()), Some(item), d, u).1
    {
      var second := WatchItem(d, u);
      if second.Some? && second.value >= item {
        req.Satisfy();
      } else {
        req.Unsatisfy();
      }
    }

    /** `m_Satisfier?.Watch(m_Item, d, u)`: the progress value, nothing without a progression. */
    method WatchItem(d: Event, u: Event) returns (feedback: Option<real>)
      requires Valid()
      modifies if progress == null then {} else progress.sat.Repr
      ensures Valid() && fresh(Repr() - old(Repr()))
      ensures progress == null ==> feedback.None?
      ensures progress != null ==>
                feedback == Some(progress.CurrentProgress()) &&
                progress.CurrentProgress() == old(progress.CurrentProgress()) &&
                Watched() == WatchView(old(Watched()), Some(item), d, u).1
    {
      feedback := None;
      if progress != null {
        var fb := progress.Watch(item, d, u);
        feedback := Some(fb);
      }
    }

    /** The Requirement Disable, then the threshold is unwatched twice (reference part and own part). */
    method Disable()
      requires Valid()
      modifies req, if progress == null then {} else progress.sat.Repr
      ensures Valid() && fresh(Repr() - old(Repr()))
      ensures req.State() == Requirements.Disabled(old(req.State()))
      ensures progress != null ==> Watched() == UnwatchView(old(Watched()), Some(item)).1
    {
      ghost var v := Watched();
      req.Disable();
      assert Valid() && Watched() == v;
      if progress != null {
        progress.Unwatch(item);
        progress.Unwatch(item);
        UnwatchTwiceIsOnce(v, item);
      }
    }
  }
}

=== FILE: reference_requirement.dfy ===
/**
 * ReferenceRequirement<D,S>: a requirement on one item of a collection
 * that can be watched. Runtime/Requirements/Generics/ReferenceRequirement.cs.
 *
 * The collection is an OSatisfier<S> whose WatchFeedback is the default
 * one (the satisfied count of the item's bundle), such as an Inventory.
 * The Requirement base class part is the `req` object.
 */
module ReferenceRequirements {
  import opened Wrappers
  import opened Bundles
  import opened Satisfiers
  import opened OSatisfiers
  import Requirements

  /**
   * `m_Satisfier?.Watch(...) != 0`: a missing collection makes the lifted
   * comparison `null != 0`, which is true.
   */
  predicate FeedbackNonZero(feedback: Option<int>)
  {
    feedback != Some(0)
  }

  /**
   * The requirement state ReferenceRequirement.Enable ends in, from the
   * state `s` right after the base Enable: it satisfies only for an item
   * and a non-zero feedback, and never unsatisfies.
   */
  function ReferenceEnabled<S>(s: Requirements.ReqState, item: Option<S>, feedback: Option<int>): Requirements.ReqState
  {
    if item.Some? && FeedbackNonZero(feedback) then Requirements.Satisfied(s) else s
  }

  /**
   * Enable never clears the flag; with an item it ends satisfied exactly
   * when the feedback is not zero, so a missing collection satisfies.
   */
  lemma EnableNeverUnsatisfies<S>(s: Requirements.ReqState, item: Option<S>, feedback: Option<int>)
    ensures s.isSatisfied ==> ReferenceEnabled(s, item, feedback).isSatisfied
    ensures item.Some? ==> (ReferenceEnabled(s, item, feedback).isSatisfied <==> s.isSatisfied || feedback != Some(0))
    ensures item.None? ==> ReferenceEnabled(s, item, feedback) == s
    ensures item.Some? && feedback.None? ==> ReferenceEnabled(s, item, feedback).isSatisfied
  {
  }

  /** The feedback of the default Watch: the count of the item's bundle, 0 for a new one. */
  function DefaultFeedback<S>(v: map<S, BundleState<S>>, item: S, d: Event?, u: Event?): int
  {
    WatchView(v, Some(item), d, u).0
  }

  /**
   * `m_Satisfier?.Watch(item, d, u)` on the watched view: the default
   * feedback and the view after the watch when there is a collection,
   * nothing at all when there is none.
   */
  function WatchThrough<S>(v: map<S, BundleState<S>>, present: bool, item: S, d: Event?, u: Event?)
    : (Option<int>, map<S, BundleState<S>>)
  {
    if present then (Some(DefaultFeedback(v, item, d, u)), WatchView(v, Some(item), d, u).1) else (None, v)
  }

  /**
   * With the default feedback, an item that nobody watched yet gives 0 and
   * so does not satisfy; an item whose bundle was satisfied before does.
   */
  lemma DefaultFeedbackOfNewItem<S>(v: map<S, BundleState<S>>, item: S, d: Event?, u: Event?)
    ensures item !in v ==> DefaultFeedback(v, item, d, u) == 0
    ensures item in v ==> DefaultFeedback(v, item, d, u) == v[item].satisfiedCount
  {
  }

  class ReferenceRequirement<S(==, !new)> {
    const req: Requirements.Requirement
    const collection: OSatisfier?<S>
    const item: Option<S>
    ghost var Repr: set<object>

    /** The collection's objects, which hold neither this requirement nor its base part. */
    ghost predicate Valid()
      reads this, Repr
    {
      this in Repr && req !in Repr &&
      (collection == null ==> Repr == {this}) &&
      (collection != null ==>
         collection in Repr && Repr == {this} + collection.Repr && this !in collection.Repr &&
         collection.Valid())
    }

    /** The view of the collection's satisfier; empty without a collection. */
    ghost function Watched(): map<S, BundleState<S>>
      reads this, Repr
      requires Valid()
    {
      if collection == null then map[] else collection.Model()
    }

    /**
     * A new requirement (CreateInstance) initialised with the flag, the
     * triggers, the collection and the item: the base initialisation gives
     * it new internal events without listeners.
     */
    constructor Initialize(satisfied: bool, onSat: Event?, onUnsat: Event?, coll: OSatisfier?<S>, it: Option<S>)
      requires coll != null ==> coll.Valid()
      ensures Valid() && fresh(req) && collection == coll && item == it
      ensures coll != null ==> Watched() == coll.Model() && Repr == {this} + coll.Repr
      ensures fresh(req.doSatisfy) && fresh(req.unSatisfy)
      ensures req.State() == Requirements.ReqState(satisfied, req.doSatisfy, req.unSatisfy, onSat, onUnsat, 0, 0, 0, 0)
    {
      var r := new Requirements.Requirement();
      r.InitializeWith(satisfied, onSat, onUnsat);
      req := r;
      collection := coll;
      item := it;
      Repr := if coll == null then {} else coll.Repr;
      new;
      Repr := Repr + {this};
    }

    /** `m_Satisfier?.Watch(m_Item, d, u)`. */
    method WatchItem(d: Event, u: Event) returns (feedback: Option<int>)
      requires Valid() && item.Some?
      modifies Repr
      ensures Valid() && fresh(Repr - old(Repr))
      ensures (feedback, Watched()) == WatchThrough(old(Watched()), collection != null, item.value, d, u)
    {
      feedback := None;
      if collection != null {
        var count := collection.Watch(item, d, u);
        feedback := Some(count);
        Repr := {this} + collection.Repr;
      }
    }

    /** The base Enable, then, for an item, Satisfy unless the collection reports 0. */
    method Enable()
      requires Valid()
      modifies req, Repr
      ensures Valid() && fresh(Repr - old(Repr))
      ensures req.doSatisfy != null && req.unSatisfy != null
      ensures Requirements.EnableKeeps(old(req.State()), req.doSatisfy, req.unSatisfy)
      ensures item.None? ==>
                req.State() == Requirements.Enabled(old(req.State()), req.doSatisfy, req.unSatisfy) &&
                Watched() == old(Watched())
      ensures item.Some? ==>
                var (feedback, v) := WatchThrough(old(Watched()), collection != null, item.value,
                                                  req.doSatisfy, req.unSatisfy);
                req.State() == ReferenceEnabled(Requirements.Enabled(old(req.State()), req.doSatisfy, req.unSatisfy),
                                                item, feedback) &&
                Watched() == v
    {
      ghost var v := Watched();
      req.Enable();
      assert Valid() && Watched() == v;
      ghost var s1 := req.State();
      if item.Some? {
        SatisfyOnWatch(req.doSatisfy, req.unSatisfy);
      }
      assert s1 == Requirements.Enabled(old(req.State()), req.doSatisfy, req.unSatisfy);
    }

    /** The part of Enable after the base one, for an item. */
    method SatisfyOnWatch(d: Event, u: Event)
      requires Valid() && item.Some?
      modifies req, Repr
      ensures req.doSatisfy == old(req.doSatisfy) && req.unSatisfy == old(req.unSatisfy)
      ensures Valid() && fresh(Repr - old(Repr))
      ensures Watched() == WatchThrough(old(Watched()), collection != null, item.value, d, u).1
      ensures req.State() == ReferenceEnabled(old(req.State()), item,
                                              WatchThrough(old(Watched()), collection != null, item.value, d, u).0)
    {
      var feedback := WatchItem(d, u);
      SatisfyOnFeedback(feedback);
    }

    /** `if (feedback != 0) Satisfy();` */
    method SatisfyOnFeedback(feedback: Option<int>)
      requires Valid() && item.Some?
      modifies req
      ensures Valid() && Watched() == old(Watched())
      ensures req.State() == ReferenceEnabled(old(req.State()), item, feedback)
    {
      if FeedbackNonZero(feedback) {
        req.Satisfy();
      }
    }

    /** The base Disable, then the item's bundle is dropped from the collection. */
    method Disable()
      requires Valid()
      modifies req, Repr
      ensures Valid() && fresh(Repr - old(Repr))
      ensures req.State() == Requirements.Disabled(old(req.State()))
      ensures Watched() == (if item.Some? then UnwatchView(old(Watched()), item).1 else old(Watched()))
    {
      ghost var v := Watched();
      req.Disable();
      assert Valid() && Watched() == v;
      UnwatchItem();
    }

    /** `m_Satisfier?.Unwatch(m_Item)` for an item; a missing collection has nothing to drop. */
    method UnwatchItem()
      requires Valid()
      modifies Repr
      ensures Valid() && fresh(Repr - old(Repr))
      ensures Watched() == (if item.Some? then UnwatchView(old(Watched()), item).1 else old(Watched()))
    {
      if item.Some? && collection != null {
        collection.Unwatch(item);
        Repr := {this} + collection.Repr;
      }
    }
  }
}

/**
 * StackRequirement<D,S>: a reference requirement that needs the item a
 * number of times. Every Satisfy raises a counter and forwards only once
 * the counter reaches the required quantity; every Unsatisfy lowers it and
 * forwards only below it. Runtime/Requirements/Generics/StackRequirement.cs.
 */
module StackRequirements {
  import opened Wrappers
  import opened Bundles
  import opened Satisfiers
  import opened OSatisfiers
  import Requirements
  import opened ReferenceRequirements

  /** StackRequirement.Satisfy on values: the quantity it ends with and the requirement state. */
  function StackSatisfied(q: real, required: real, s: Requirements.ReqState): (real, Requirements.ReqState)
  {
    if q + 1.0 >= required then (q + 1.0, Requirements.Satisfied(s)) else (q + 1.0, s)
  }

  /** StackRequirement.Unsatisfy on values. */
  function StackUnsatisfied(q: real, required: real, s: Requirements.ReqState): (real, Requirements.ReqState)
  {
    if q - 1.0 < required then (q - 1.0, Requirements.Unsatisfied(s)) else (q - 1.0, s)
  }

  /** `n` Satisfy calls in a row. */
  function StackSatisfiedTimes(q: real, required: real, s: Requirements.ReqState, n: nat): (real, Requirements.ReqState)
  {
    if n == 0 then (q, s)
    else
      var (q', s') := StackSatisfiedTimes(q, required, s, n - 1);
      StackSatisfied(q', required, s')
  }

  /** Satisfy never clears the flag and Unsatisfy never sets it; each moves the quantity by exactly one. */
  lemma StackStepsAreMonotone(q: real, required: real, s: Requirements.ReqState)
    ensures StackSatisfied(q, required, s).0 == q + 1.0 && StackUnsatisfied(q, required, s).0 == q - 1.0
    ensures s.isSatisfied ==> StackSatisfied(q, required, s).1.isSatisfied
    ensures !s.isSatisfied ==> !StackUnsatisfied(q, required, s).1.isSatisfied
    ensures StackSatisfied(q, required, s).1.isSatisfied <==> s.isSatisfied || q + 1.0 >= required
  {
  }

  /**
   * After `n` Satisfy calls the quantity has grown by `n` and the flag is
   * set iff it was set already or the quantity reached the requirement;
   * before that the state is exactly as it was.
   */
  lemma {:induction false} StackSatisfiedTimesReaches(q: real, required: real, s: Requirements.ReqState, n: nat)
    ensures StackSatisfiedTimes(q, required, s, n).0 == q + n as real
    ensures StackSatisfiedTimes(q, required, s, n).1.isSatisfied <==> s.isSatisfied || (n > 0 && q + n as real >= required)
    ensures q + n as real < required ==> StackSatisfiedTimes(q, required, s, n).1 == s
  {
    if n > 0 {
      StackSatisfiedTimesReaches(q, required, s, n - 1);
    }
  }

  /** With quantity 0 and three required, two Satisfy calls change nothing and the third satisfies. */
  lemma ThirdSatisfyCounts(s: Requirements.ReqState)
    requires !s.isSatisfied
    ensures StackSatisfiedTimes(0.0, 3.0, s, 1).1 == s
    ensures StackSatisfiedTimes(0.0, 3.0, s, 2).1 == s
    ensures StackSatisfiedTimes(0.0, 3.0, s, 3).1.isSatisfied
  {
    StackSatisfiedTimesReaches(0.0, 3.0, s, 1);
    StackSatisfiedTimesReaches(0.0, 3.0, s, 2);
    StackSatisfiedTimesReaches(0.0, 3.0, s, 3);
  }

  /**
   * The state StackRequirement.Enable ends in, for an item: the quantity is
   * the watch feedback (0 without a collection) and the flag follows the
   * comparison with the required quantity.
   */
  function StackEnabledFinal(quantity: real, required: real, s: Requirements.ReqState): Requirements.ReqState
  {
    if quantity >= required then Requirements.Satisfied(s) else Requirements.Unsatisfied(s)
  }

  /**
   * StackRequirement.Enable on values, for an item, from the state `s`
   * right after the base Enable: the first watch's feedback drives one
   * Satisfy of this class, then the quantity is set to the feedback (0
   * without a collection; a second watch of the same item reports the same
   * count) and the plain Satisfy or Unsatisfy runs.
   */
  function StackEnabled(q: real, required: real, s: Requirements.ReqState, feedback: Option<int>): (real, Requirements.ReqState)
  {
    var s2 := if FeedbackNonZero(feedback) then StackSatisfied(q, required, s).1 else s;
    var q2 := if feedback.None? then 0.0 else feedback.value as real;
    (q2, StackEnabledFinal(q2, required, s2))
  }

  /**
   * After Enable the flag says exactly whether the quantity reached the
   * requirement, whatever it was before. Without a collection the quantity
   * is 0: the first step satisfies (a missing collection counts as a
   * non-zero feedback) and a positive requirement then unsatisfies again.
   */
  lemma EnableSettlesOnQuantity(q: real, required: real, s: Requirements.ReqState, feedback: Option<int>)
    ensures var (q', s') := StackEnabled(q, required, s, feedback);
            (s'.isSatisfied <==> q' >= required) &&
            (feedback.Some? ==> q' == feedback.value as real) &&
            (feedback.None? ==> q' == 0.0)
    ensures feedback.None? && required > 0.0 && !s.isSatisfied && q + 1.0 >= required ==>
              var s' := StackEnabled(q, required, s, feedback).1;
              !s'.isSatisfied &&
              s'.satisfiedFired == s.satisfiedFired + (if s.onSatisfied != null then 1 else 0) &&
              s'.unsatisfiedFired == s.unsatisfiedFired + (if s.onUnsatisfied != null then 1 else 0)
  {
  }

  class StackRequirement<S(==, !new)> {
    const base: ReferenceRequirement<S>
    var requiredQuantity: real
    var currentQuantity: real

    /** The reference part is valid and its collection does not hold this object. */
    ghost predicate Valid()
      reads this, base, base.Repr
    {
      base.Valid() && this !in base.Repr
    }

    /** The reference initialisation, with the required quantity of the asset and a zero count. */
    constructor Initialize(satisfied: bool, onSat: Event?, onUnsat: Event?, coll: OSatisfier?<S>, it: Option<S>,
                           required: real)
      requires coll != null ==> coll.Valid()
      ensures Valid() && fresh(base) && fresh(base.req) && base.collection == coll && base.item == it
      ensures coll != null ==> base.Watched() == coll.Model()
      ensures fresh(base.req.doSatisfy) && fresh(base.req.unSatisfy)
      ensures base.req.State() == Requirements.ReqState(satisfied, base.req.doSatisfy, base.req.unSatisfy,
                                                        onSat, onUnsat, 0, 0, 0, 0)
      ensures requiredQuantity == required && currentQuantity == 0.0
    {
      base := new ReferenceRequirement.Initialize(satisfied, onSat, onUnsat, coll, it);
      requiredQuantity := required;
      currentQuantity := 0.0;
    }

    method Satisfy()
      modifies this, base.req
      ensures requiredQuantity == old(requiredQuantity)
      ensures (currentQuantity, base.req.State()) == StackSatisfied(old(currentQuantity), requiredQuantity, old(base.req.State()))
    {
      currentQuantity := currentQuantity + 1.0;
      if currentQuantity >= requiredQuantity {
        base.req.Satisfy();
      }
    }

    method Unsatisfy()
      modifies this, base.req
      ensures requiredQuantity == old(requiredQuantity)
      ensures (currentQuantity, base.req.State()) == StackUnsatisfied(old(currentQuantity), requiredQuantity, old(base.req.State()))
    {
      currentQuantity := currentQuantity - 1.0;
      if currentQuantity < requiredQuantity {
        base.req.Unsatisfy();
      }
    }

    /**
     * ReferenceRequirement.Enable (whose Satisfy is this class's), then, for
     * an item, the quantity is set to a second watch's feedback and the
     * plain Requirement Satisfy or Unsatisfy runs.
     */
    method Enable()
      requires Valid()
      modifies this, base.req, base.Repr
      ensures Valid() && fresh(base.Repr - old(base.Repr)) && requiredQuantity == old(requiredQuantity)
      ensures base.req.doSatisfy != null && base.req.unSatisfy != null
      ensures Requirements.EnableKeeps(old(base.req.State()), base.req.doSatisfy, base.req.unSatisfy)
      ensures base.item.None? ==>
                base.req.State() == Requirements.Enabled(old(base.req.State()), base.req.doSatisfy, base.req.unSatisfy) &&
                currentQuantity == old(currentQuantity) && base.Watched() == old(base.Watched())
      ensures base.item.Some? ==>
                var w := WatchThrough(old(base.Watched()), base.collection != null, base.item.value,
                                      base.req.doSatisfy, base.req.unSatisfy);
                (currentQuantity, base.req.State()) ==
                StackEnabled(old(currentQuantity), requiredQuantity,
                             Requirements.Enabled(old(base.req.State()), base.req.doSatisfy, base.req.unSatisfy), w.0) &&
                base.Watched() == WatchThrough(w.1, base.collection != null, base.item.value,
                                               base.req.doSatisfy, base.req.unSatisfy).1
    {
      BaseEnable();
      if base.item.Some? {
        WatchTwice(base.req.doSatisfy, base.req.unSatisfy);
      }
    }

    /** The part of Enable after the reference one, for an item: the two watches and what each settles. */
    method WatchTwice(d: Event, u: Event)
      requires Valid() && base.item.Some?
      modifies this, base.req, base.Repr
      ensures Valid() && fresh(base.Repr - old(base.Repr)) && requiredQuantity == old(requiredQuantity)
      ensures base.req.doSatisfy == old(base.req.doSatisfy) && base.req.unSatisfy == old(base.req.unSatisfy)
      ensures var w := WatchThrough(old(base.Watched()), base.collection != null, base.item.value, d, u);
              (currentQuantity, base.req.State()) ==
              StackEnabled(old(currentQuantity), requiredQuantity, old(base.req.State()), w.0) &&
              base.Watched() == WatchThrough(w.1, base.collection != null, base.item.value, d, u).1
    {
      ghost var v, q, s := base.Watched(), currentQuantity, base.req.State();
      ghost var w := WatchThrough(v, base.collection != null, base.item.value, d, u);
      SatisfyOnWatch(d, u);
      ghost var s2 := base.req.State();
      SettleOnWatch(d, u);
      if base.collection != null {
        RewatchKeepsCount(v, base.item.value, d, u, d, u);
      }
      assert WatchThrough(w.1, base.collection != null, base.item.value, d, u).0 == w.0;
      assert s2 == (if FeedbackNonZero(w.0) then StackSatisfied(q, requiredQuantity, s).1 else s);
    }

    /** Requirement.Enable on the base part. */
    method BaseEnable()
      requires Valid()
      modifies base.req
      ensures Valid() && base.Watched() == old(base.Watched())
      ensures old(base.req.doSatisfy) == null ==> fresh(base.req.doSatisfy)
      ensures old(base.req.unSatisfy) == null ==> fresh(base.req.unSatisfy)
      ensures base.req.doSatisfy != null && base.req.unSatisfy != null
      ensures Requirements.EnableKeeps(old(base.req.State()), base.req.doSatisfy, base.req.unSatisfy)
      ensures base.req.State() == Requirements.Enabled(old(base.req.State()), base.req.doSatisfy, base.req.unSatisfy)
    {
      base.req.Enable();
    }

    /** The first watch of Enable, with this class's Satisfy on a non-zero feedback. */
    method SatisfyOnWatch(d: Event, u: Event)
      requires Valid() && base.item.Some?
      modifies this, base.req, base.Repr
      ensures Valid() && fresh(base.Repr - old(base.Repr)) && requiredQuantity == old(requiredQuantity)
      ensures base.req.doSatisfy == old(base.req.doSatisfy) && base.req.unSatisfy == old(base.req.unSatisfy)
      ensures var w := WatchThrough(old(base.Watched()), base.collection != null, base.item.value, d, u);
              base.Watched() == w.1 &&
              (currentQuantity, base.req.State()) ==
              (if FeedbackNonZero(w.0) then StackSatisfied(old(currentQuantity), requiredQuantity, old(base.req.State()))
               else (old(currentQuantity), old(base.req.State())))
    {
      var feedback := base.WatchItem(d, u);
      SatisfyOnFeedback(feedback);
    }

    /** `if (feedback != 0) Satisfy();` */
    method SatisfyOnFeedback(feedback: Option<int>)
      requires Valid()
      modifies this, base.req
      ensures Valid() && base.Watched() == old(base.Watched()) && requiredQuantity == old(requiredQuantity)
      ensures base.req.doSatisfy == old(base.req.doSatisfy) && base.req.unSatisfy == old(base.req.unSatisfy)
      ensures (currentQuantity, base.req.State()) ==
              (if FeedbackNonZero(feedback) then StackSatisfied(old(currentQuantity), requiredQuantity, old(base.req.State()))
               else (old(currentQuantity), old(base.req.State())))
    {
      if FeedbackNonZero(feedback) {
        Satisfy();
      }
    }

    /** The second watch of Enable: the quantity becomes its feedback (0 without a collection). */
    method SettleOnWatch(d: Event, u: Event)
      requires Valid() && base.item.Some?
      modifies this, base.req, base.Repr
      ensures Valid() && fresh(base.Repr - old(base.Repr)) && requiredQuantity == old(requiredQuantity)
      ensures base.req.doSatisfy == old(base.req.doSatisfy) && base.req.unSatisfy == old(base.req.unSatisfy)
      ensures var w := WatchThrough(old(base.Watched()), base.collection != null, base.item.value, d, u);
              base.Watched() == w.1 &&
              currentQuantity == (if w.0.None? then 0.0 else w.0.value as real) &&
              base.req.State() == StackEnabledFinal(currentQuantity, requiredQuantity, old(base.req.State()))
    {
      var feedback := base.WatchItem(d, u);
      Settle(if feedback.None? then 0 else feedback.value);
    }

    /** The quantity is set, then the plain Requirement Satisfy or Unsatisfy runs by the threshold. */
    method Settle(quantity: int)
      requires Valid()
      modifies this, base.req
      ensures Valid() && base.Watched() == old(base.Watched()) && requiredQuantity == old(requiredQuantity)
      ensures base.req.doSatisfy == old(base.req.doSatisfy) && base.req.unSatisfy == old(base.req.unSatisfy)
      ensures currentQuantity == quantity as real
      ensures base.req.State() == StackEnabledFinal(currentQuantity, requiredQuantity, old(base.req.State()))
    {
      currentQuantity := quantity as real;
      if currentQuantity >= requiredQuantity {
        base.req.Satisfy();
      } else {
        base.req.Unsatisfy();
      }
    }
  }
}

=== FILE: requirement.dfy ===
/**
 * Requirement: a two-state machine (satisfied or not) with two internal
 * events that a satisfier fires (m_DoSatisfy, m_UnSatisfy) and two
 * triggers it fires itself (onSatisfied, onUnsatisfied).
 * Runtime/Requirements/Requirement.cs.
 *
 * Events and triggers are `Event` references. What their listeners do is
 * outside the model; the requirement keeps ghost counts of how many times
 * its own Satisfy/Unsatisfy listen on its internal events and how many
 * times it has fired each trigger.
 */
module Requirements {
  import Bundles

  datatype ReqState = ReqState(
    isSatisfied: bool,
    doSatisfy: Bundles.Event?,          // m_DoSatisfy
    unSatisfy: Bundles.Event?,          // m_UnSatisfy
    onSatisfied: Bundles.Event?,
    onUnsatisfied: Bundles.Event?,
    satisfyListeners: nat,      // how many times Satisfy listens on m_DoSatisfy
    unsatisfyListeners: nat,    // how many times Unsatisfy listens on m_UnSatisfy
    satisfiedFired: nat,        // invocations of onSatisfied
    unsatisfiedFired: nat)      // invocations of onUnsatisfied

  /** Satisfy: the flag goes up and onSatisfied fires when there is one. */
  function Satisfied(s: ReqState): ReqState
  {
    s.(isSatisfied := true,
       satisfiedFired := if s.onSatisfied != null then s.satisfiedFired + 1 else s.satisfiedFired)
  }

  /** Unsatisfy: the flag goes down and onUnsatisfied fires when there is one. */
  function Unsatisfied(s: ReqState): ReqState
  {
    s.(isSatisfied := false,
       unsatisfiedFired := if s.onUnsatisfied != null then s.unsatisfiedFired + 1 else s.unsatisfiedFired)
  }

  /**
   * Enable with the internal events it ends with (`d`, `u`: the existing
   * ones, or new ones when they were missing): one more listener on each.
   * A new event starts without listeners.
   */
  function Enabled(s: ReqState, d: Bundles.Event, u: Bundles.Event): ReqState
  {
    s.(doSatisfy := d, unSatisfy := u,
       satisfyListeners := (if s.doSatisfy == d then s.satisfyListeners else 0) + 1,
       unsatisfyListeners := (if s.unSatisfy == u then s.unsatisfyListeners else 0) + 1)
  }

  /** Disable: the listener is removed (every copy of it) from each internal event that exists. */
  function Disabled(s: ReqState): ReqState
  {
    s.(satisfyListeners := if s.doSatisfy != null then 0 else s.satisfyListeners,
       unsatisfyListeners := if s.unSatisfy != null then 0 else s.unsatisfyListeners)
  }

  /** Events that exist at Enable are kept; missing ones are replaced by new ones. */
  predicate EnableKeeps(s: ReqState, d: Bundles.Event, u: Bundles.Event)
  {
    (s.doSatisfy != null ==> d == s.doSatisfy) && (s.unSatisfy != null ==> u == s.unSatisfy)
  }

  /**
   * Enable never de-duplicates: every call adds one listener to each
   * internal event, so `n` calls leave `n` more listeners.
   */
  lemma EnableAddsOneListener(s: ReqState, d: Bundles.Event, u: Bundles.Event)
    requires EnableKeeps(s, d, u)
    ensures var s' := Enabled(s, d, u);
            s'.doSatisfy != null && s'.unSatisfy != null &&
            s'.satisfyListeners == (if s.doSatisfy != null then s.satisfyListeners + 1 else 1) &&
            s'.unsatisfyListeners == (if s.unSatisfy != null then s.unsatisfyListeners + 1 else 1) &&
            s'.isSatisfied == s.isSatisfied && EnableKeeps(s', d, u)
  {
  }

  /** Disable after Enable leaves both events in place with no listener of the requirement. */
  lemma EnableThenDisable(s: ReqState, d: Bundles.Event, u: Bundles.Event)
    requires EnableKeeps(s, d, u)
    ensures var s' := Disabled(Enabled(s, d, u));
            s'.doSatisfy == d && s'.unSatisfy == u &&
            s'.satisfyListeners == 0 && s'.unsatisfyListeners == 0 &&
            s'.isSatisfied == s.isSatisfied
  {
  }

  /** Disable never creates an event. */
  lemma DisableCreatesNothing(s: ReqState)
    ensures Disabled(s).doSatisfy == s.doSatisfy && Disabled(s).unSatisfy == s.unSatisfy
    ensures s.doSatisfy == null ==> Disabled(s).satisfyListeners == s.satisfyListeners
  {
  }

  /**
   * Satisfy and Unsatisfy only move the flag and their own trigger count;
   * Satisfy then Unsatisfy ends unsatisfied with each trigger fired at most once more.
   */
  lemma SatisfyThenUnsatisfy(s: ReqState)
    ensures Satisfied(s).isSatisfied && !Unsatisfied(s).isSatisfied
    ensures var s' := Unsatisfied(Satisfied(s));
            !s'.isSatisfied &&
            s'.satisfiedFired == s.satisfiedFired + (if s.onSatisfied != null then 1 else 0) &&
            s'.unsatisfiedFired == s.unsatisfiedFired + (if s.onUnsatisfied != null then 1 else 0) &&
            s'.(isSatisfied := s.isSatisfied, satisfiedFired := s.satisfiedFired,
                unsatisfiedFired := s.unsatisfiedFired) == s
  {
  }

  class Requirement {
    var isSatisfied: bool
    var doSatisfy: Bundles.Event?
    var unSatisfy: Bundles.Event?
    var onSatisfied: Bundles.Event?
    var onUnsatisfied: Bundles.Event?
    ghost var satisfyListeners: nat
    ghost var unsatisfyListeners: nat
    ghost var satisfiedFired: nat
    ghost var unsatisfiedFired: nat

    ghost function State(): ReqState
      reads this
    {
      ReqState(isSatisfied, doSatisfy, unSatisfy, onSatisfied, onUnsatisfied,
               satisfyListeners, unsatisfyListeners, satisfiedFired, unsatisfiedFired)
    }

    /** A ScriptableObject instance with every field at its default. */
    constructor ()
      ensures State() == ReqState(false, null, null, null, null, 0, 0, 0, 0)
    {
      isSatisfied := false;
      doSatisfy, unSatisfy := null, null;
      onSatisfied, onUnsatisfied := null, null;
      satisfyListeners, unsatisfyListeners := 0, 0;
      satisfiedFired, unsatisfiedFired := 0, 0;
    }

    /** Initialize(bool, triggers): sets flag and triggers, and creates new internal events. */
    method InitializeWith(satisfied: bool, onSat: Bundles.Event?, onUnsat: Bundles.Event?)
      modifies this
      ensures fresh(doSatisfy) && fresh(unSatisfy)
      ensures State() == old(State()).(isSatisfied := satisfied, onSatisfied := onSat, onUnsatisfied := onUnsat,
                                       doSatisfy := doSatisfy, unSatisfy := unSatisfy,
                                       satisfyListeners := 0, unsatisfyListeners := 0)
    {
      isSatisfied := satisfied;
      onSatisfied := onSat;
      onUnsatisfied := onUnsat;
      doSatisfy := new Bundles.Event();
      unSatisfy := new Bundles.Event();
      satisfyListeners, unsatisfyListeners := 0, 0;
    }

    /** Initialize(bool): sets the flag and clears onSatisfied and m_DoSatisfy only. */
    method Initialize(satisfied: bool)
      modifies this
      ensures State() == old(State()).(isSatisfied := satisfied, onSatisfied := null, doSatisfy := null,
                                       satisfyListeners := 0)
    {
      isSatisfied := satisfied;
      onSatisfied := null;
      doSatisfy := null;
      satisfyListeners := 0;
    }

    method Enable()
      modifies this
      ensures old(doSatisfy) == null ==> fresh(doSatisfy)
      ensures old(unSatisfy) == null ==> fresh(unSatisfy)
      ensures doSatisfy != null && unSatisfy != null && EnableKeeps(old(State()), doSatisfy, unSatisfy)
      ensures State() == Enabled(old(State()), doSatisfy, unSatisfy)
    {
      if doSatisfy != null {
        satisfyListeners := satisfyListeners + 1;
      } else {
        doSatisfy := new Bundles.Event();
        satisfyListeners := 1;
      }
      if unSatisfy != null {
        unsatisfyListeners := unsatisfyListeners + 1;
      } else {
        unSatisfy := new Bundles.Event();
        unsatisfyListeners := 1;
      }
    }

    method Disable()
      modifies this
      ensures State() == Disabled(old(State()))
    {
      if doSatisfy != null {
        satisfyListeners := 0;
      }
      if unSatisfy != null {
        unsatisfyListeners := 0;
      }
    }

    method Satisfy()
      modifies this
      ensures State() == Satisfied(old(State()))
    {
      isSatisfied := true;
      if onSatisfied != null {
        satisfiedFired := satisfiedFired + 1;
      }
    }

    method Unsatisfy()
      modifies this
      ensures State() == Unsatisfied(old(State()))
    {
      isSatisfied := false;
      if onUnsatisfied != null {
        unsatisfiedFired := unsatisfiedFired + 1;
      }
    }

    /** The OnSatisfied getter: creates the trigger when it is missing; never null. */
    method OnSatisfied() returns (t: Bundles.Event)
      modifies this
      ensures old(onSatisfied) != null ==> t == old(onSatisfied)
      ensures old(onSatisfied) == null ==> fresh(t)
      ensures State() == old(State()).(onSatisfied := t)
    {
      if onSatisfied == null {
        onSatisfied := new Bundles.Event();
      }
      t := onSatisfied;
    }

    /** The OnUnsatisfied getter: creates the trigger when it is missing; never null. */
    method OnUnsatisfied() returns (t: Bundles.Event)
      modifies this
      ensures old(onUnsatisfied) != null ==> t == old(onUnsatisfied)
      ensures old(onUnsatisfied) == null ==> fresh(t)
      ensures State() == old(State()).(onUnsatisfied := t)
    {
      if onUnsatisfied == null {
        onUnsatisfied := new Bundles.Event();
      }
      t := onUnsatisfied;
    }
  }
}

=== FILE: satisfier.dfy ===
/**
 * The abstract Satisfier<T> of Runtime/Satisfiers/Plain/Satisfier.cs.
 *
 * Its only state is the comparer and the equality function it was built
 * with, and every member works on a bundle dictionary passed in by the
 * caller. Here those members are module-level methods that take the two
 * functions and the dictionary and return the dictionary as it is after the
 * call; the bundles in it are updated in place. `None` stands for a null
 * object.
 */
module Satisfiers {
  import opened Wrappers
  import opened Bundles
  import Sorting

  // ---------------------------------------------------------------------
  // Dictionaries of bundles and their abstract view
  // ---------------------------------------------------------------------

  /** Every bundle is stored under the object it watches (so no bundle is stored twice). */
  ghost predicate WellFormed<T>(m: map<T, SatisfierBundle<T>>)
  {
    forall k | k in m :: m[k].watched == k
  }

  ghost function View<T>(m: map<T, SatisfierBundle<T>>): map<T, BundleState<T>>
    reads m.Values
  {
    map k | k in m :: m[k].State()
  }

  /** The bundle a new watch creates. */
  function FreshBundle<T>(obj: T, d: Event?, u: Event?): BundleState<T>
  {
    BundleState(obj, d, u, 0, 0, 0, 0)
  }

  /** Watch on a view: the count it returns and the view afterwards. */
  function WatchView<T>(v: map<T, BundleState<T>>, obj: Option<T>, d: Event?, u: Event?)
    : (int, map<T, BundleState<T>>)
  {
    if obj.None? then (0, v)
    else if obj.value in v then (v[obj.value].satisfiedCount, v[obj.value := Replaced(v[obj.value], d, u)])
    else (0, v[obj.value := FreshBundle(obj.value, d, u)])
  }

  /** Unwatch on a view: whether a bundle was removed and the view afterwards. */
  function UnwatchView<T>(v: map<T, BundleState<T>>, obj: Option<T>): (bool, map<T, BundleState<T>>)
  {
    if obj.Some? && obj.value in v then (true, v - {obj.value}) else (false, v)
  }

  /** Some key of `keys` the equality function relates `obj` to. */
  ghost predicate HasEqualKey<T>(keys: set<T>, eq: (T, T) -> bool, obj: T)
  {
    exists k | k in keys :: eq(obj, k)
  }

  /**
   * `k` is a key SatisfyBundle/UnsatisfyBundle may act on for `obj`: the
   * object itself when it is a key (identity first), otherwise a key the
   * equality function relates it to.
   */
  ghost predicate Target<T>(keys: set<T>, eq: (T, T) -> bool, obj: T, k: T)
  {
    k in keys && (if obj in keys then k == obj else eq(obj, k))
  }

  /**
   * One SatisfyBundle (`unsat` false) or UnsatisfyBundle (`unsat` true) step
   * from `v` to `v'`: it succeeds iff the object is not null and has a
   * target, and then exactly that target's bundle is satisfied (unsatisfied);
   * otherwise nothing changes.
   */
  ghost predicate SatisfyStep<T>(v: map<T, BundleState<T>>, v': map<T, BundleState<T>>,
                                 eq: (T, T) -> bool, obj: Option<T>, ok: bool, unsat: bool)
  {
    if obj.Some? && (obj.value in v || HasEqualKey(v.Keys, eq, obj.value)) then
      ok && exists k | k in v && Target(v.Keys, eq, obj.value, k) ::
              v' == v[k := if unsat then Unsatisfied(v[k]) else Satisfied(v[k])]
    else
      !ok && v' == v
  }

  // ---------------------------------------------------------------------
  // Properties of the view operations
  // ---------------------------------------------------------------------

  /**
   * Watch then Unwatch of the same object leaves the dictionary without that
   * object: exactly as it was when the object was new to it.
   */
  lemma WatchThenUnwatch<T>(v: map<T, BundleState<T>>, obj: T, d: Event?, u: Event?)
    ensures UnwatchView(WatchView(v, Some(obj), d, u).1, Some(obj)) == (true, v - {obj})
    ensures obj !in v ==> UnwatchView(WatchView(v, Some(obj), d, u).1, Some(obj)).1 == v
  {
    var v1 := WatchView(v, Some(obj), d, u).1;
    assert v1 - {obj} == v - {obj};
    if obj !in v {
      assert v - {obj} == v;
    }
  }

  /**
   * Watching an object twice: the second watch returns the count the bundle
   * has reached (0 for a new object), installs the second pair of callbacks,
   * and adds no second bundle.
   */
  lemma RewatchKeepsCount<T>(v: map<T, BundleState<T>>, obj: T, d1: Event?, u1: Event?, d2: Event?, u2: Event?)
    ensures var (c1, v1) := WatchView(v, Some(obj), d1, u1);
            var (c2, v2) := WatchView(v1, Some(obj), d2, u2);
            c1 == c2 == (if obj in v then v[obj].satisfiedCount else 0) &&
            v2.Keys == v.Keys + {obj} &&
            v2[obj].doSatisfy == d2 && v2[obj].unSatisfy == u2 &&
            v2[obj].satisfiedCount == c2 && v2[obj].unsatisfiedCount == (if obj in v then v[obj].unsatisfiedCount else 0)
  {
  }

  /** Watch never removes a bundle and never changes any counter. */
  lemma WatchKeepsCounters<T>(v: map<T, BundleState<T>>, obj: Option<T>, d: Event?, u: Event?)
    ensures var v' := WatchView(v, obj, d, u).1;
            v.Keys <= v'.Keys && |v'.Keys - v.Keys| <= 1 &&
            forall k | k in v :: v'[k].satisfiedCount == v[k].satisfiedCount &&
                                 v'[k].unsatisfiedCount == v[k].unsatisfiedCount
  {
    var v' := WatchView(v, obj, d, u).1;
    if obj.Some? {
      assert v'.Keys - v.Keys <= {obj.value};
    } else {
      assert v'.Keys - v.Keys == {};
    }
  }

  /**
   * A step keeps the set of watched objects, changes exactly one bundle's
   * count by one when it succeeds, and touches no other bundle.
   */
  lemma {:induction false} StepChangesOneCounter<T>(v: map<T, BundleState<T>>, v': map<T, BundleState<T>>,
                                                    eq: (T, T) -> bool, obj: Option<T>, ok: bool, unsat: bool)
    requires SatisfyStep(v, v', eq, obj, ok, unsat)
    ensures v'.Keys == v.Keys
    ensures ok <==> obj.Some? && (obj.value in v || HasEqualKey(v.Keys, eq, obj.value))
    ensures ok ==> exists k | k in v ::
              v'[k].satisfiedCount == v[k].satisfiedCount + (if unsat then 0 else 1) &&
              v'[k].unsatisfiedCount == v[k].unsatisfiedCount + (if unsat then 1 else 0) &&
              forall j | j in v && j != k :: v'[j] == v[j]
    ensures !ok ==> v' == v
  {
    if ok {
      var k :| Target(v.Keys, eq, obj.value, k) &&
               v' == v[k := if unsat then Unsatisfied(v[k]) else Satisfied(v[k])];
      assert v'.Keys == v.Keys;
    }
  }

  /**
   * Identity comes first: a step on a watched object acts on that object's
   * own bundle even when other keys are equal to it.
   */
  lemma {:induction false} StepOnWatchedObject<T>(v: map<T, BundleState<T>>, v': map<T, BundleState<T>>,
                                                  eq: (T, T) -> bool, obj: T, ok: bool, unsat: bool)
    requires obj in v
    requires SatisfyStep(v, v', eq, Some(obj), ok, unsat)
    ensures ok && v' == v[obj := if unsat then Unsatisfied(v[obj]) else Satisfied(v[obj])]
  {
    var k :| k in v && Target(v.Keys, eq, obj, k) &&
             v' == v[k := if unsat then Unsatisfied(v[k]) else Satisfied(v[k])];
    assert obj in v.Keys;
  }

  /**
   * An object equal to exactly one watched key, but not itself watched, is
   * not watched by identity, yet satisfying it satisfies that key's bundle.
   */
  lemma {:induction false} StepOnEqualObject<T>(v: map<T, BundleState<T>>, v': map<T, BundleState<T>>,
                                                eq: (T, T) -> bool, obj: T, key: T, ok: bool)
    requires obj !in v && key in v && eq(obj, key)
    requires forall k | k in v && k != key :: !eq(obj, k)
    requires SatisfyStep(v, v', eq, Some(obj), ok, false)
    ensures ok && v' == v[key := Satisfied(v[key])]
  {
    assert HasEqualKey(v.Keys, eq, obj);
    var k :| k in v && Target(v.Keys, eq, obj, k) && v' == v[k := Satisfied(v[k])];
    assert obj !in v.Keys;
    assert eq(obj, k);
  }

  // ---------------------------------------------------------------------
  // The members of Satisfier<T>
  // ---------------------------------------------------------------------

  function IsObjectBeingWatched<T>(obj: T, bundles: map<T, SatisfierBundle<T>>): (r: bool)
    ensures r <==> obj in bundles.Keys
  {
    obj in bundles
  }

  /** Satisfier.Compare: bundles are compared by their watched objects. */
  function Compare<T>(cmp: (T, T) -> int, x: SatisfierBundle<T>, y: SatisfierBundle<T>): (c: int)
    // two bundles watching the same object compare as that object with itself
    ensures x.watched == y.watched ==> c == cmp(x.watched, x.watched)
  {
    cmp(x.watched, y.watched)
  }

  method CreateEventBundle<T>(obj: T, d: Event?, u: Event?) returns (b: SatisfierBundle<T>)
    ensures fresh(b) && b.State() == FreshBundle(obj, d, u)
  {
    b := new SatisfierBundle(obj, d, u);
  }

  method CreateNullEventBundle<T>(obj: T, satisfied: int, unsatisfied: int) returns (b: SatisfierBundle<T>)
    ensures fresh(b) && b.State() == BundleState(obj, null, null, satisfied, unsatisfied, 0, 0)
  {
    b := new SatisfierBundle.WithCounts(obj, null, null, satisfied, unsatisfied);
  }

  /**
   * Adds the bundle under its watched object. Dictionary.Add throws on a key
   * already present; every caller checks for absence first. The re-ordering
   * that follows in the source assigns a local copy, so the dictionary itself
   * is left as Add made it.
   */
  method IncludeBundleInWatchlist<T>(bundle: SatisfierBundle<T>, bundles: map<T, SatisfierBundle<T>>)
    returns (bundles': map<T, SatisfierBundle<T>>)
    requires WellFormed(bundles) && bundle.watched !in bundles
    ensures WellFormed(bundles')
    ensures View(bundles') == View(bundles)[bundle.watched := bundle.State()]
    ensures bundles'.Values == bundles.Values + {bundle}
  {
    bundles' := bundles[bundle.watched := bundle];
    assert View(bundles') == View(bundles)[bundle.watched := bundle.State()];
    forall b | b in bundles'.Values
      ensures b in bundles.Values + {bundle}
    {
      var k :| k in bundles' && bundles'[k] == b;
    }
    forall b | b in bundles.Values + {bundle}
      ensures b in bundles'.Values
    {
      if b != bundle {
        var k :| k in bundles && bundles[k] == b;
        assert bundles'[k] == b;
      } else {
        assert bundles'[bundle.watched] == b;
      }
    }
  }

  /** Removes whatever bundle is stored under the bundle's watched object, if any. */
  method ExcludeBundleFromWatchlist<T>(bundle: SatisfierBundle<T>, bundles: map<T, SatisfierBundle<T>>)
    returns (bundles': map<T, SatisfierBundle<T>>)
    requires WellFormed(bundles)
    ensures WellFormed(bundles')
    ensures View(bundles') == View(bundles) - {bundle.watched}
    ensures bundles'.Values <= bundles.Values
  {
    if IsObjectBeingWatched(bundle.watched, bundles) {
      bundles' := bundles - {bundle.watched};
    } else {
      bundles' := bundles;
    }
  }

  /** Satisfier.Watch. */
  method Watch<T>(obj: Option<T>, d: Event?, u: Event?, bundles: map<T, SatisfierBundle<T>>)
    returns (count: int, bundles': map<T, SatisfierBundle<T>>)
    requires WellFormed(bundles)
    modifies bundles.Values
    ensures WellFormed(bundles')
    ensures (count, View(bundles')) == WatchView(old(View(bundles)), obj, d, u)
    ensures bundles.Values <= bundles'.Values
    ensures fresh(bundles'.Values - bundles.Values)
  {
    if obj.None? {
      return 0, bundles;
    }
    var o := obj.value;
    if IsObjectBeingWatched(o, bundles) {
      bundles[o].ReplaceEvents(d, u);
      forall k | k in bundles && k != o
        ensures bundles[k].State() == old(bundles[k].State())
      {
        assert bundles[k].watched != bundles[o].watched;
      }
      assert View(bundles) == old(View(bundles))[o := Replaced(old(bundles[o].State()), d, u)];
      return bundles[o].satisfiedCount, bundles;
    }
    var b := CreateEventBundle(o, d, u);
    bundles' := IncludeBundleInWatchlist(b, bundles);
    count := 0;
  }

  /** `AddBundle(CreateNullEventBundle(obj, 1, 0))` on a watch list that lacks `obj`. */
  method AddNullBundle<T>(obj: T, bundles: map<T, SatisfierBundle<T>>) returns (bundles': map<T, SatisfierBundle<T>>)
    requires WellFormed(bundles) && obj !in bundles
    ensures WellFormed(bundles')
    ensures View(bundles') == View(bundles)[obj := BundleState(obj, null, null, 1, 0, 0, 0)]
    ensures bundles.Values <= bundles'.Values && fresh(bundles'.Values - bundles.Values)
  {
    var b := CreateNullEventBundle(obj, 1, 0);
    bundles' := IncludeBundleInWatchlist(b, bundles);
  }

  /** Satisfier.Unwatch. */
  method Unwatch<T>(obj: Option<T>, bundles: map<T, SatisfierBundle<T>>)
    returns (ok: bool, bundles': map<T, SatisfierBundle<T>>)
    requires WellFormed(bundles)
    ensures WellFormed(bundles')
    ensures (ok, View(bundles')) == UnwatchView(View(bundles), obj)
    ensures bundles'.Values <= bundles.Values
  {
    if obj.None? {
      return false, bundles;
    }
    if IsObjectBeingWatched(obj.value, bundles) {
      bundles' := ExcludeBundleFromWatchlist(bundles[obj.value], bundles);
      return true, bundles';
    }
    return false, bundles;
  }

  /** Satisfies (`unsat` false) or unsatisfies (`unsat` true) the bundle at key `k`. */
  method StepBundle<T>(k: T, bundles: map<T, SatisfierBundle<T>>, unsat: bool)
    requires WellFormed(bundles) && k in bundles
    modifies bundles[k]
    ensures View(bundles) == old(View(bundles))[k := if unsat then Unsatisfied(old(bundles[k].State()))
                                                      else Satisfied(old(bundles[k].State()))]
  {
    if unsat {
      bundles[k].Unsatisfy();
    } else {
      bundles[k].Satisfy();
    }
    forall j | j in bundles && j != k
      ensures bundles[j].State() == old(bundles[j].State())
    {
      assert bundles[j].watched != bundles[k].watched;
    }
  }

  /** Satisfier.SatisfyBundle (`unsat` false) and Satisfier.UnsatisfyBundle (`unsat` true). */
  method StepOn<T>(eq: (T, T) -> bool, obj: Option<T>, bundles: map<T, SatisfierBundle<T>>, unsat: bool)
    returns (ok: bool)
    requires WellFormed(bundles)
    modifies bundles.Values
    ensures SatisfyStep(old(View(bundles)), View(bundles), eq, obj, ok, unsat)
  {
    if obj.None? {
      return false;
    }
    var o := obj.value;
    if IsObjectBeingWatched(o, bundles) {
      StepBundle(o, bundles, unsat);
      assert Target(bundles.Keys, eq, o, o);
      return true;
    }
    if key :| key in bundles && eq(o, key) {
      StepBundle(key, bundles, unsat);
      assert Target(bundles.Keys, eq, o, key);
      return true;
    }
    return false;
  }

  method SatisfyBundle<T>(eq: (T, T) -> bool, obj: Option<T>, bundles: map<T, SatisfierBundle<T>>)
    returns (ok: bool)
    requires WellFormed(bundles)
    modifies bundles.Values
    ensures SatisfyStep(old(View(bundles)), View(bundles), eq, obj, ok, false)
  {
    ok := StepOn(eq, obj, bundles, false);
  }

  method UnsatisfyBundle<T>(eq: (T, T) -> bool, obj: Option<T>, bundles: map<T, SatisfierBundle<T>>)
    returns (ok: bool)
    requires WellFormed(bundles)
    modifies bundles.Values
    ensures SatisfyStep(old(View(bundles)), View(bundles), eq, obj, ok, true)
  {
    ok := StepOn(eq, obj, bundles, true);
  }

  // ---------------------------------------------------------------------
  // Enumeration in comparer order
  // ---------------------------------------------------------------------

  /** "Not after" in the order the comparer defines. */
  function NotAfter<T>(cmp: (T, T) -> int): (T, T) -> bool
  {
    (a: T, b: T) => cmp(a, b) <= 0
  }

  /** A comparer OrderBy can sort by: total and transitive. */
  ghost predicate ConsistentComparer<T(!new)>(cmp: (T, T) -> int)
  {
    Sorting.TotalPreorder(NotAfter(cmp))
  }

  /** `r` lists every bundle of `m` exactly once. */
  ghost predicate ListsEachOnce<T>(m: map<T, SatisfierBundle<T>>, r: seq<SatisfierBundle<T>>)
  {
    |r| == |m| &&
    (forall k | k in m :: m[k] in r) &&
    (forall i | 0 <= i < |r| :: r[i] in m.Values) &&
    (forall i, j | 0 <= i < j < |r| :: r[i] != r[j])
  }

  /** The keys of a set in some order (the order of Dictionary.Keys is not specified). */
  method KeysInSomeOrder<T>(keys: set<T>) returns (s: seq<T>)
    ensures |s| == |keys| && (forall k | k in keys :: k in s)
    ensures forall i | 0 <= i < |s| :: s[i] in keys
    ensures forall i, j | 0 <= i < j < |s| :: s[i] != s[j]
  {
    s := [];
    var rest := keys;
    while rest != {}
      invariant rest <= keys
      invariant forall k | k in keys :: k in s <==> k !in rest
      invariant forall i | 0 <= i < |s| :: s[i] in keys
      invariant forall i, j | 0 <= i < j < |s| :: s[i] != s[j]
      invariant |s| + |rest| == |keys|
      decreases rest
    {
      var k :| k in rest;
      s := s + [k];
      rest := rest - {k};
    }
  }

  lemma DistinctKeysGiveDistinctBundles<T>(m: map<T, SatisfierBundle<T>>, ks: seq<T>)
    requires WellFormed(m)
    requires forall i | 0 <= i < |ks| :: ks[i] in m
    requires forall i, j | 0 <= i < j < |ks| :: ks[i] != ks[j]
    ensures forall i, j | 0 <= i < j < |ks| :: m[ks[i]] != m[ks[j]]
  {
    forall i, j | 0 <= i < j < |ks|
      ensures m[ks[i]] != m[ks[j]]
    {
      assert m[ks[i]].watched != m[ks[j]].watched;
    }
  }

  /**
   * Satisfier.GetEnumerator: every bundle exactly once, in ascending
   * comparer order of the watched objects whenever the comparer is
   * consistent.
   */
  method GetEnumerator<T(!new)>(cmp: (T, T) -> int, bundles: map<T, SatisfierBundle<T>>)
    returns (r: seq<SatisfierBundle<T>>)
    requires WellFormed(bundles)
    ensures ListsEachOnce(bundles, r)
    ensures ConsistentComparer(cmp) ==>
              forall i, j | 0 <= i < j < |r| :: Compare(cmp, r[i], r[j]) <= 0
  {
    var keys := KeysInSomeOrder(bundles.Keys);
    var sorted := Sorting.SortBy(keys, NotAfter(cmp));
    PermutationOfDistinct(keys, sorted);
    assert forall k :: k in bundles <==> k in sorted;
    assert |sorted| == |bundles|;
    r := seq(|sorted|, i requires 0 <= i < |sorted| => bundles[sorted[i]]);
    assert forall i | 0 <= i < |sorted| :: r[i] == bundles[sorted[i]];
    BundlesOfKeysListEachOnce(bundles, sorted, r);
    if ConsistentComparer(cmp) {
      Sorting.SortBySorted(keys, NotAfter(cmp));
      BundlesOfSortedKeys(cmp, bundles, sorted, r);
    }
  }

  lemma BundlesOfKeysListEachOnce<T>(m: map<T, SatisfierBundle<T>>, ks: seq<T>, r: seq<SatisfierBundle<T>>)
    requires WellFormed(m)
    requires |ks| == |m| && forall k :: k in m <==> k in ks
    requires forall i, j | 0 <= i < j < |ks| :: ks[i] != ks[j]
    requires |r| == |ks| && forall i | 0 <= i < |ks| :: r[i] == m[ks[i]]
    ensures ListsEachOnce(m, r)
  {
    DistinctKeysGiveDistinctBundles(m, ks);
    forall k | k in m
      ensures m[k] in r
    {
      var i :| 0 <= i < |ks| && ks[i] == k;
      assert r[i] == m[k];
    }
  }

  lemma BundlesOfSortedKeys<T>(cmp: (T, T) -> int, m: map<T, SatisfierBundle<T>>, ks: seq<T>, r: seq<SatisfierBundle<T>>)
    requires WellFormed(m)
    requires Sorting.SortedBy(ks, NotAfter(cmp))
    requires |r| == |ks| && forall i | 0 <= i < |ks| :: ks[i] in m && r[i] == m[ks[i]]
    ensures forall i, j | 0 <= i < j < |r| :: Compare(cmp, r[i], r[j]) <= 0
  {
    forall i, j | 0 <= i < j < |r|
      ensures Compare(cmp, r[i], r[j]) <= 0
    {
      assert NotAfter(cmp)(ks[i], ks[j]);
    }
  }

  /** A reordering of a sequence without repetitions has none either, and the same elements. */
  lemma PermutationOfDistinct<T>(a: seq<T>, b: seq<T>)
    requires multiset(a) == multiset(b)
    requires forall i, j | 0 <= i < j < |a| :: a[i] != a[j]
    ensures |b| == |a|
    ensures forall i, j | 0 <= i < j < |b| :: b[i] != b[j]
    ensures forall x :: x in a <==> x in b
  {
    assert |b| == |multiset(b)| == |multiset(a)| == |a|;
    forall x
      ensures x in a <==> x in b
    {
      assert x in a <==> x in multiset(a);
      assert x in b <==> x in multiset(b);
    }
    forall i, j | 0 <= i < j < |b|
      ensures b[i] != b[j]
    {
      if b[i] == b[j] {
        var x := b[i];
        assert b == b[..i] + [x] + b[i + 1..j] + [x] + b[j + 1..];
        assert multiset(b)[x] >= 2;
        MultiplicityOfDistinct(a, x);
        assert false;
      }
    }
  }

  /** Satisfier.GetReverseEnumerator: the same ordering, reversed. */
  method GetReverseEnumerator<T(!new)>(cmp: (T, T) -> int, bundles: map<T, SatisfierBundle<T>>)
    returns (r: seq<SatisfierBundle<T>>)
    requires WellFormed(bundles)
    ensures ListsEachOnce(bundles, r)
    ensures ConsistentComparer(cmp) ==>
              forall i, j | 0 <= i < j < |r| :: Compare(cmp, r[j], r[i]) <= 0
  {
    var forward := GetEnumerator(cmp, bundles);
    r := Sorting.Reverse(forward);
    forall k | k in bundles
      ensures bundles[k] in r
    {
      var i :| 0 <= i < |forward| && forward[i] == bundles[k];
      assert r[|forward| - 1 - i] == forward[i];
    }
  }

  lemma MultiplicityOfDistinct<T>(s: seq<T>, x: T)
    requires forall i, j | 0 <= i < j < |s| :: s[i] != s[j]
    ensures multiset(s)[x] <= 1
  {
    if s != [] {
      assert s == [s[0]] + s[1..];
      MultiplicityOfDistinct(s[1..], x);
      if s[0] == x {
        assert x !in s[1..];
      }
    }
  }

  lemma DistinctCardinality<T>(s: seq<T>)
    requires forall i, j | 0 <= i < j < |s| :: s[i] != s[j]
    ensures |set i | 0 <= i < |s| :: s[i]| == |s|
  {
    if s != [] {
      var rest := s[1..];
      DistinctCardinality(rest);
      var a := set i | 0 <= i < |s| :: s[i];
      var b := set i | 0 <= i < |rest| :: rest[i];
      assert a == {s[0]} + b;
      assert s[0] !in b;
    }
  }
}

=== FILE: serializable_entry.dfy ===
/**
 * SerializeableEntry<K, V>: a key/value entry that remembers the identifier
 * of its key, so that a key lost on deserialization can be found again in
 * the ThingSerializer registry. Runtime/Serializer/SerializableEntry.cs,
 * with the fields of Runtime/Things/ThingEntry.cs.
 *
 * The key is a Thing of the registry; `keyKind` is the runtime type K that
 * the cast `as K` tests.
 */
module SerializableEntries {
  import opened Wrappers
  import opened ThingSerializers

  class Entry<V> {
    var key: Thing?             // m_Key
    var value: V                // m_Value
    var identifier: ThingId?    // identifier
    const keyKind: nat          // the type K

    /** SerializeableEntry(): no key, the default value `defaultValue` of V, no identifier. */
    constructor (defaultValue: V, kind: nat)
      ensures key == null && value == defaultValue && identifier == null && keyKind == kind
    {
      key, value, identifier := null, defaultValue, null;
      keyKind := kind;
    }

    /** The fields of SerializeableEntry(key, value) once the key is known not to be null. */
    constructor WithKey(k: Thing, v: V, kind: nat)
      ensures key == k && value == v && identifier == k.identifier && keyKind == kind
    {
      key, value, identifier := k, v, k.identifier;
      keyKind := kind;
    }

    /**
     * SerializeableEntry(key, value): the entry takes the key's identifier
     * object itself; a null key is a null dereference.
     */
    static method Create(k: Thing?, v: V, kind: nat) returns (e: Entry?<V>, err: Option<Exception>)
      ensures k == null ==> e == null && err == Some(NullReference)
      ensures k != null ==> err.None? && e != null && fresh(e) &&
                            e.key == k && e.value == v && e.identifier == k.identifier && e.keyKind == kind
    {
      if k == null {
        return null, Some(NullReference);
      }
      e := new Entry.WithKey(k, v, kind);
      err := None;
    }

    /** HasValidKey. */
    function HasValidKey(): (r: bool)
      reads this
      ensures r <==> key != null
    {
      key != null
    }

    /** HasValidIdentifier: a non-empty identifier that the registry resolves. */
    function HasValidIdentifier(reg: ThingSerializer): (r: bool)
      reads this, reg
      ensures r <==> identifier != null && identifier != reg.empty && identifier.id in reg.entries
      ensures r ==> reg.Get(identifier) == reg.entries[identifier.id]
    {
      identifier != null && identifier != reg.empty && reg.Get(identifier) != null
    }

    /**
     * SyncKeyID: with a key, the key is registered and the entry takes its
     * identifier; without a key but with a valid identifier, the key is
     * looked up, null when the thing found is not a K; with neither, nothing
     * happens. OnBeforeSerialize and OnAfterDeserialize are this method.
     */
    method SyncKeyID(reg: ThingSerializer, persistGuid: string, duplicateGuid: string)
      returns (err: Option<Exception>)
      modifies this, reg, key
      ensures value == old(value)
      ensures !old(HasValidKey()) && !old(HasValidIdentifier(reg)) ==>
                err.None? && key == old(key) && identifier == old(identifier) && reg.entries == old(reg.entries)
      ensures old(HasValidKey()) ==>
                var r := RegisterView(old(reg.entries), old(key),
                                      if old(key.identifier) == null then None else Some(old(key.identifier.id)),
                                      persistGuid, duplicateGuid);
                && key == old(key) && err == r.error && reg.entries == r.entries
                && (err.None? ==> identifier == key.identifier && identifier != null && identifier.id == r.id)
      // after a sync with a key, the identifier leads back to the key
      ensures old(HasValidKey()) && err.None? ==>
                identifier.id in reg.entries && reg.entries[identifier.id] == key &&
                (identifier != reg.empty ==> reg.Get(identifier) == key)
      ensures !old(HasValidKey()) && old(HasValidIdentifier(reg)) ==>
                && err.None? && identifier == old(identifier) && reg.entries == old(reg.entries)
                && var found := reg.Get(identifier);
                   key == (if found.kind == keyKind then found else null)
    {
      if !HasValidKey() && !HasValidIdentifier(reg) {
        return None;
      }
      if HasValidKey() {
        var _, e := reg.Register(key, persistGuid, duplicateGuid);
        if e.Some? {
          return e;
        }
        identifier := key.identifier;
      } else {
        // the identifier is valid here; the source's last branch cannot be reached
        var found := reg.Get(identifier);
        key := if found.kind == keyKind then found else null;
      }
      err := None;
    }
  }
}

=== FILE: shire.dfy ===
/**
 * Shire<T>: a scriptable asset that lists itself in the Lister registry of
 * its type while it is in use, ordered by the decimal text of its order
 * number. Runtime/Shire/Shire.cs, with the parts of
 * Runtime/Things/ScriptableThing.cs it builds on (the field initializer of
 * its lister and the base Enable).
 *
 * The asset's own reference is `me`; `orderOf` gives every asset's order
 * number as the criteria reads it when the lister sorts.
 */
module Shires {
  import opened Wrappers
  import opened Listers
  import Lists
  import Decimals

  /** OrderCriteria(thing): `thing.m_Order.ToString()`. */
  function OrderCriteria<T(!new)>(orderOf: T -> int): (criteria: T -> string)
    // the text reads back as the order for every Int32 order
    ensures forall x | Decimals.INT32_MIN <= orderOf(x) <= Decimals.INT32_MAX ::
              Decimals.TryParse(criteria(x)) == Some(orderOf(x))
  {
    var criteria := (x: T) => Decimals.ToDecimal(orderOf(x));
    assert forall x | Decimals.INT32_MIN <= orderOf(x) <= Decimals.INT32_MAX ::
             Decimals.TryParse(criteria(x)) == Some(orderOf(x)) by {
      forall x | Decimals.INT32_MIN <= orderOf(x) <= Decimals.INT32_MAX {
        Decimals.ParseOfDecimal(orderOf(x));
      }
    }
    criteria
  }

  /**
   * The criteria orders by text, not by number: an asset of order 10 is
   * listed before one of order 2.
   */
  lemma OrderIsTextual<T(!new)>(orderOf: T -> int, a: T, b: T)
    requires orderOf(a) == 10 && orderOf(b) == 2
    ensures ByCriteria(OrderCriteria(orderOf))(Some(a), Some(b))
    ensures !ByCriteria(OrderCriteria(orderOf))(Some(b), Some(a))
  {
    assert Decimals.ToDecimal(10) == Decimals.Digits(1) + [Decimals.DigitChar(0)];
    assert Decimals.ToDecimal(10) == "10";
    assert Decimals.ToDecimal(2) == "2";
  }

  class Shire<T(==, !new)> {
    const me: T                     // `this as T`
    const registry: Registry<T>     // the static fields of Lister<T>
    var used: bool                  // m_Used
    var order: int                  // m_Order
    var lister: Lister?<T>          // m_Lister

    /** The lister, when there is one, is a lister of this type's registry. */
    ghost predicate Valid()
      reads this, lister, registry
    {
      lister != null ==> lister.registry == registry && lister.Valid()
    }

    /**
     * A new asset: in use, order -1, and the lister of the field
     * initializer, whose construction resets the shared criteria to the
     * default one.
     */
    constructor (self: T, reg: Registry<T>)
      modifies reg
      ensures me == self && registry == reg && used && order == -1 && Valid()
      ensures lister != null && fresh(lister) && lister.siblings == []
      ensures reg.criteria == Some(DefaultCriteria)
      ensures reg.elements == old(reg.elements)
    {
      me := self;
      registry := reg;
      used := true;
      order := -1;
      lister := new Lister(reg, None);
    }

    /**
     * ListerSerialization: lists the asset when it is in use and unlists it
     * otherwise; a null lister throws.
     */
    method ListerSerialization() returns (err: Option<Exception>)
      requires Valid()
      modifies lister, registry
      ensures Valid() && lister == old(lister) && used == old(used)
      ensures registry.criteria == old(registry.criteria)
      ensures lister == null ==> err == Some(NullReference) && registry.elements == old(registry.elements)
      ensures lister != null ==> err.None?
      ensures lister != null && used ==>
                registry.elements == Ordered(WithItem(old(registry.elements), Some(me)), registry.criteria.value)
      ensures lister != null && !used ==>
                registry.elements == Ordered(Lists.RemoveFirst(old(registry.elements), Some(me)), registry.criteria.value)
    {
      if lister == null {
        return Some(NullReference);
      }
      if !used {
        lister.RemoveListable(Some(me));
      } else {
        lister.AddListable(Some(me));
      }
      err := None;
    }

    /** OnDestroy: the asset goes out of use and unlists itself; a null lister throws. */
    method OnDestroy() returns (err: Option<Exception>)
      requires Valid()
      modifies this, lister, registry
      ensures Valid() && lister == old(lister) && !used
      ensures lister == null ==> err == Some(NullReference) && registry.elements == old(registry.elements)
      ensures lister != null ==> err.None?
      ensures lister != null ==>
                registry.elements == Ordered(Lists.RemoveFirst(old(registry.elements), Some(me)), registry.criteria.value)
      ensures lister != null && NoDuplicates(old(registry.elements)) ==> me !in Listed(registry.elements)
    {
      used := false;
      if lister == null {
        return Some(NullReference);
      }
      ghost var e0 := registry.elements;
      lister.RemoveListable(Some(me));
      if NoDuplicates(e0) {
        RemoveListableUnlists(e0, Some(me), registry.criteria.value);
      }
      err := None;
    }

    /**
     * Enable: a new lister with the decimal order criteria replaces the
     * shared criteria; then the base Enable keeps that lister and runs
     * ListerSerialization. An asset in use is listed afterwards.
     */
    method Enable(orderOf: T -> int)
      requires Valid()
      modifies this, registry
      ensures Valid() && lister != null && fresh(lister) && used == old(used)
      ensures registry.criteria == Some(OrderCriteria(orderOf))
      ensures used ==> registry.elements == Ordered(WithItem(old(registry.elements), Some(me)), OrderCriteria(orderOf))
      ensures !used ==> registry.elements == Ordered(Lists.RemoveFirst(old(registry.elements), Some(me)), OrderCriteria(orderOf))
      ensures used && NoDuplicates(old(registry.elements)) ==> me in Listed(registry.elements)
    {
      ghost var e0 := registry.elements;
      lister := new Lister(registry, Some(OrderCriteria(orderOf)));
      var _ := ListerSerialization();
      if used && NoDuplicates(e0) {
        AddListableLists(e0, Some(me), OrderCriteria(orderOf));
      }
    }
  }
}

=== FILE: shire_block.dfy ===
/**
 * ShireBlock: a stat block of four numbers (value, temporary value,
 * modifier, temporary modifier) with derived totals, an order by the true
 * value and the modifier rule `mod = value / 2 - 5`.
 * Runtime/Shire/Blocks/ShireBlock.cs.
 *
 * The float fields of the source are integers here (README, "## Left out",
 * the line on ShireBlocks.Block); the cast `(int)m_Value` is then the
 * identity and the division is C#'s, which truncates toward 0.
 */
module ShireBlocks {

  /** The four fields of a block. */
  datatype Block = Block(value: int, temp: int, mod: int, modTemp: int)

  /** The parameterless constructor: value 0, temporary 0, modifier 1, temporary modifier 1. */
  const DefaultBlock := Block(0, 0, 1, 1)

  /** TempValue: the value with its temporary part. */
  function TempValue(b: Block): (v: int)
    ensures b.temp == 0 ==> v == b.value
  {
    b.value + b.temp
  }

  /** TempMod: the modifier with its temporary part. */
  function TempMod(b: Block): (m: int)
    ensures b.modTemp == 0 ==> m == b.mod
    // the temporary modifier starts at 1, so a new block's modifier is 2
    ensures b == DefaultBlock ==> m == 2
  {
    b.mod + b.modTemp
  }

  /** TrueValue: TempValue times TempMod. */
  function TrueValue(b: Block): (t: int)
    ensures TempMod(b) == 1 ==> t == TempValue(b)
    ensures TempValue(b) == 0 || TempMod(b) == 0 ==> t == 0
  {
    TempValue(b) * TempMod(b)
  }

  /** CompareTo: the sign of the comparison of the two true values. */
  function CompareTo(a: Block, b: Block): (c: int)
    ensures c == -1 || c == 0 || c == 1
    ensures c < 0 <==> TrueValue(a) < TrueValue(b)
    ensures c == 0 <==> TrueValue(a) == TrueValue(b)
    ensures c > 0 <==> TrueValue(a) > TrueValue(b)
  {
    if TrueValue(a) < TrueValue(b) then -1 else if TrueValue(a) == TrueValue(b) then 0 else 1
  }

  /** CompareTo is a total preorder: antisymmetric in sign and transitive. */
  lemma CompareToIsOrder(a: Block, b: Block, c: Block)
    ensures CompareTo(a, b) == -CompareTo(b, a)
    ensures CompareTo(a, a) == 0
    ensures CompareTo(a, b) <= 0 && CompareTo(b, c) <= 0 ==> CompareTo(a, c) <= 0
  {
  }

  /** C#'s `int / 2`: the quotient truncated toward zero. */
  function Half(v: int): (h: int)
    ensures v >= 0 ==> 0 <= v - 2 * h <= 1
    ensures v < 0 ==> -1 <= v - 2 * h <= 0
  {
    if v >= 0 then v / 2 else -((-v) / 2)
  }

  /** The static ComputeMod(value): `(int)value / 2 - 5`. */
  function ModFor(value: int): int
  {
    Half(value) - 5
  }

  /** ComputeMod on a block: the modifier is recomputed from the value and nothing else changes. */
  function ComputedMod(b: Block): (r: Block)
    ensures r.value == b.value && r.temp == b.temp && r.modTemp == b.modTemp
    ensures r.mod == ModFor(b.value)
  {
    b.(mod := ModFor(b.value))
  }

  /**
   * The modifier rule is monotone and symmetric around zero: a larger value
   * never gives a smaller modifier, and `v` and `-v` give modifiers that
   * sum to -10 (truncation, not flooring).
   */
  lemma {:induction false} ModForMonotone(a: int, b: int)
    requires a <= b
    ensures ModFor(a) <= ModFor(b)
    ensures ModFor(-a) + ModFor(a) == -10
  {
    if a >= 0 {
      assert (-(-a)) / 2 == a / 2;
    } else {
      assert -a > 0;
    }
  }

  /** Recomputing the modifier twice is recomputing it once. */
  lemma ComputeModIdempotent(b: Block)
    ensures ComputedMod(ComputedMod(b)) == ComputedMod(b)
  {
  }

  /** A ShireBlock object: its four fields change in place. */
  class ShireBlock {
    var value: int
    var temp: int
    var mod: int
    var modTemp: int

    /** The four fields as a value. */
    function State(): Block
      reads this
    {
      Block(value, temp, mod, modTemp)
    }

    /** `new ShireBlock()`. */
    constructor ()
      ensures State() == DefaultBlock
    {
      value, temp, mod, modTemp := 0, 0, 1, 1;
    }

    /** `new ShireBlock(value, temp, mod, modTemp)`; the defaults of the optional arguments are those of DefaultBlock. */
    constructor WithFields(v: int, t: int, m: int, mt: int)
      ensures State() == Block(v, t, m, mt)
    {
      value, temp, mod, modTemp := v, t, m, mt;
    }

    /** Copy: all four fields take the other block's values. */
    method Copy(block: ShireBlock)
      modifies this
      ensures State() == old(block.State())
    {
      value := block.value;
      temp := block.temp;
      mod := block.mod;
      modTemp := block.modTemp;
    }

    /** ComputeMod: `m_Mod = (int)m_Value / 2 - 5`. */
    method ComputeMod()
      modifies this
      ensures State() == ComputedMod(old(State()))
    {
      mod := Half(value) - 5;
    }

    /** OnBeforeSerialize: recomputes the modifier. */
    method OnBeforeSerialize()
      modifies this
      ensures State() == ComputedMod(old(State()))
    {
      ComputeMod();
    }

    /** OnAfterDeserialize: recomputes the modifier. */
    method OnAfterDeserialize()
      modifies this
      ensures State() == ComputedMod(old(State()))
    {
      ComputeMod();
    }
  }

  /** The static ComputeMod(value): a temporary block with that value computes its modifier. */
  method ComputeModOf(value: int) returns (mod: int)
    ensures mod == ModFor(value)
    ensures value >= 0 ==> 2 * (mod + 5) <= value <= 2 * (mod + 5) + 1
  {
    var block := new ShireBlock.WithFields(value, 0, 1, 1);
    block.ComputeMod();
    mod := block.mod;
  }
}

=== FILE: sorting.dfy ===
/**
 * Stable sorting by a "less or equal" relation, as LINQ's OrderBy does it,
 * and sequence filtering. Used for the satisfier enumerators, the lister and
 * the currency's money list.
 */
module Sorting {
  /** `le` orders every pair of values and is transitive. */
  ghost predicate TotalPreorder<T(!new)>(le: (T, T) -> bool)
  {
    (forall a, b :: le(a, b) || le(b, a)) &&
    (forall a, b, c :: le(a, b) && le(b, c) ==> le(a, c))
  }

  ghost predicate SortedBy<T>(s: seq<T>, le: (T, T) -> bool)
  {
    forall i, j :: 0 <= i < j < |s| ==> le(s[i], s[j])
  }

  /** Inserts `x` after every element of `s` that is not above it. */
  function Insert<T>(s: seq<T>, x: T, le: (T, T) -> bool): (r: seq<T>)
    ensures multiset(r) == multiset(s) + multiset{x}
    ensures |r| == |s| + 1
  {
    if s == [] || le(s[|s| - 1], x) then s + [x]
    else
      var t := Insert(s[..|s| - 1], x, le);
      assert s == s[..|s| - 1] + [s[|s| - 1]];
      t + [s[|s| - 1]]
  }

  /** Insertion sort: a stable sort when `le` is a total preorder. */
  function SortBy<T>(s: seq<T>, le: (T, T) -> bool): (r: seq<T>)
    ensures multiset(r) == multiset(s)
    ensures |r| == |s|
  {
    if s == [] then []
    else
      assert s == s[..|s| - 1] + [s[|s| - 1]];
      Insert(SortBy(s[..|s| - 1], le), s[|s| - 1], le)
  }

  lemma {:induction false} InsertSorted<T(!new)>(s: seq<T>, x: T, le: (T, T) -> bool)
    requires TotalPreorder(le) && SortedBy(s, le)
    ensures SortedBy(Insert(s, x, le), le)
    decreases |s|
  {
    if s == [] || le(s[|s| - 1], x) {
    } else {
      var init, last := s[..|s| - 1], s[|s| - 1];
      var t := Insert(init, x, le);
      InsertSorted(init, x, le);
      assert le(x, last);
      forall i | 0 <= i < |t|
        ensures le(t[i], last)
      {
        assert t[i] in multiset(t);
        assert t[i] in multiset(init) || t[i] == x;
        if t[i] != x {
          var k :| 0 <= k < |init| && init[k] == t[i];
          assert le(s[k], s[|s| - 1]);
        }
      }
    }
  }

  lemma {:induction false} SortBySorted<T(!new)>(s: seq<T>, le: (T, T) -> bool)
    requires TotalPreorder(le)
    ensures SortedBy(SortBy(s, le), le)
    decreases |s|
  {
    if s != [] {
      SortBySorted(s[..|s| - 1], le);
      InsertSorted(SortBy(s[..|s| - 1], le), s[|s| - 1], le);
    }
  }

  /** Sorting a list that is already sorted leaves it as it is. */
  lemma {:induction false} SortByOfSorted<T>(s: seq<T>, le: (T, T) -> bool)
    requires SortedBy(s, le)
    ensures SortBy(s, le) == s
    decreases |s|
  {
    if s != [] {
      var init := s[..|s| - 1];
      assert SortedBy(init, le);
      SortByOfSorted(init, le);
      assert init == [] || le(s[|s| - 2], s[|s| - 1]);
      assert init + [s[|s| - 1]] == s;
    }
  }

  /** The elements of `s` that satisfy `p`, in their order in `s`. */
  function Filter<T>(s: seq<T>, p: T -> bool): (r: seq<T>)
    ensures |r| <= |s|
    ensures forall i :: 0 <= i < |r| ==> r[i] in s && p(r[i])
    ensures forall i :: 0 <= i < |s| && p(s[i]) ==> s[i] in r
  {
    if s == [] then []
    else
      assert s == s[..|s| - 1] + [s[|s| - 1]];
      Filter(s[..|s| - 1], p) + (if p(s[|s| - 1]) then [s[|s| - 1]] else [])
  }

  lemma {:induction false} FilterAppend<T>(a: seq<T>, b: seq<T>, p: T -> bool)
    ensures Filter(a + b, p) == Filter(a, p) + Filter(b, p)
    decreases |b|
  {
    if b == [] {
      assert a + b == a;
    } else {
      var b' := b[..|b| - 1];
      assert (a + b)[..|a + b| - 1] == a + b';
      FilterAppend(a, b', p);
    }
  }

  /** Elements equivalent to `c` under `le`. */
  ghost predicate Equivalent<T>(le: (T, T) -> bool, c: T, y: T)
  {
    le(y, c) && le(c, y)
  }

  /** The elements of `s` equivalent to `c`, in their order in `s`. */
  ghost function ClassOf<T>(s: seq<T>, le: (T, T) -> bool, c: T): seq<T>
  {
    if s == [] then []
    else ClassOf(s[..|s| - 1], le, c) + (if Equivalent(le, c, s[|s| - 1]) then [s[|s| - 1]] else [])
  }

  lemma {:induction false} ClassOfAppend<T>(a: seq<T>, b: seq<T>, le: (T, T) -> bool, c: T)
    ensures ClassOf(a + b, le, c) == ClassOf(a, le, c) + ClassOf(b, le, c)
    decreases |b|
  {
    if b == [] {
      assert a + b == a;
    } else {
      var b' := b[..|b| - 1];
      assert (a + b)[..|a + b| - 1] == a + b';
      ClassOfAppend(a, b', le, c);
    }
  }

  lemma {:induction false} InsertStable<T(!new)>(s: seq<T>, x: T, le: (T, T) -> bool, c: T)
    requires TotalPreorder(le)
    ensures ClassOf(Insert(s, x, le), le, c)
         == ClassOf(s, le, c) + (if Equivalent(le, c, x) then [x] else [])
    decreases |s|
  {
    if s == [] || le(s[|s| - 1], x) {
      ClassOfAppend(s, [x], le, c);
    } else {
      var init, last := s[..|s| - 1], s[|s| - 1];
      InsertStable(init, x, le, c);
      ClassOfAppend(Insert(init, x, le), [last], le, c);
      if Equivalent(le, c, x) {
        assert !Equivalent(le, c, last);
      }
    }
  }

  /** OrderBy is stable: the elements of one equivalence class keep their relative order. */
  lemma {:induction false} SortByStable<T(!new)>(s: seq<T>, le: (T, T) -> bool, c: T)
    requires TotalPreorder(le)
    ensures ClassOf(SortBy(s, le), le, c) == ClassOf(s, le, c)
    decreases |s|
  {
    if s != [] {
      var init, last := s[..|s| - 1], s[|s| - 1];
      SortByStable(init, le, c);
      InsertStable(SortBy(init, le), last, le, c);
    }
  }

  function Reverse<T>(s: seq<T>): (r: seq<T>)
    ensures |r| == |s|
    ensures forall i :: 0 <= i < |s| ==> r[i] == s[|s| - 1 - i]
  {
    if s == [] then [] else Reverse(s[1..]) + [s[0]]
  }
}

=== FILE: statistics.dfy ===
/**
 * Statistics: a things container from stat names to ShireBlocks whose
 * operations change one field of one block and then run the satisfy or
 * unsatisfy check of the changed pair. Runtime/Models/Statistics.cs.
 *
 * Blocks are kept as values (ShireBlocks.Block): `Dictionary[s].Value += v`
 * changes the block object that both the entry and the cached dictionary
 * hold, so here it updates the entry of `s` and the cached map together.
 * The satisfier checks are recorded in order in the ghost list `checks`
 * (the stat and the block as it is after the change); what the keyed
 * satisfier does with them is the ThingsContainers model's business.
 */
module Stats {
  import opened Wrappers
  import opened ShireBlocks
  import opened ThingsContainers

  /** The block field a stat operation changes. */
  datatype Field = ValueField | TempField | ModField | ModTempField

  /** A check the container ran: CheckSatisfyOnChange or CheckUnsatisfyOnChange of a stat and its block. */
  datatype Check<S> = SatisfyCheck(stat: S, block: Block) | UnsatisfyCheck(stat: S, block: Block)

  /** The container's state: its entries, its cached dictionary (None for null) and the checks run so far. */
  datatype StatState<S> = StatState(entries: seq<Entry<S, Block>>, dict: Option<map<S, Option<Block>>>,
                                    checks: seq<Check<S>>)

  function FieldOf(b: Block, f: Field): int
  {
    match f
    case ValueField => b.value
    case TempField => b.temp
    case ModField => b.mod
    case ModTempField => b.modTemp
  }

  /** `Dictionary[s].F += v` on the block: exactly the one field moves, by exactly the delta. */
  function Bump(b: Block, f: Field, delta: int): (r: Block)
    ensures FieldOf(r, f) == FieldOf(b, f) + delta
    ensures forall g: Field | g != f :: FieldOf(r, g) == FieldOf(b, g)
  {
    match f
    case ValueField => b.(value := b.value + delta)
    case TempField => b.(temp := b.temp + delta)
    case ModField => b.(mod := b.mod + delta)
    case ModTempField => b.(modTemp := b.modTemp + delta)
  }

  /** The check ApplyStatChange runs: satisfy for a positive delta, unsatisfy otherwise. */
  function CheckFor<S>(s: S, b: Block, delta: int): Check<S>
  {
    if delta > 0 then SatisfyCheck(s, b) else UnsatisfyCheck(s, b)
  }

  /** The satisfy checks of adding the entries in order: one per entry with a block. */
  function Checks<S>(es: seq<Entry<S, Block>>): (r: seq<Check<S>>)
    requires forall i | 0 <= i < |es| :: es[i].key.Some?
    ensures |r| <= |es|
    ensures forall c | c in r :: c.SatisfyCheck? && exists i | 0 <= i < |es| :: es[i] == Entry(Some(c.stat), Some(c.block))
  {
    if |es| == 0 then []
    else
      var last := es[|es| - 1];
      Checks(es[..|es| - 1]) + (if last.value.Some? then [SatisfyCheck(last.key.value, last.value.value)] else [])
  }

  // ---------------------------------------------------------------------
  // ApplyStatChange
  // ---------------------------------------------------------------------

  /**
   * C#'s `(int)` cast of a float: the fraction is dropped, rounding toward
   * zero (the overflow of a value beyond 32 bits is not modelled).
   */
  function TruncateToInt(v: real): (r: int)
    ensures 0.0 <= v ==> r as real <= v < r as real + 1.0
    ensures v < 0.0 ==> r as real - 1.0 < v <= r as real
  {
    if v >= 0.0 then v.Floor else -((-v).Floor)
  }

  /** A whole number passes the cast unchanged. */
  lemma TruncateWhole(n: int)
    ensures TruncateToInt(n as real) == n
  {
  }

  /**
   * ApplyStatChange(stat, value, F += step) on the state: the cache is
   * dropped and rebuilt (a rebuild failure escapes, and so does the
   * ArgumentNullException of ContainsKey(null)); an absent stat answers -1;
   * a stat whose block is null throws on the field access; otherwise the
   * field moves by `step`, what the stat function adds, and the check for
   * the sign of the value passed (`positive` is `value > 0`) runs on the
   * changed block; the answer is the new field value.
   */
  function ApplyViewBy<S(==)>(st: StatState<S>, stat: Option<S>, f: Field, step: int, positive: bool)
    : (StatState<S>, int, Option<Exception>)
  {
    var (d, e) := Build(st.entries);
    var st1 := st.(dict := Some(d));
    if e.Some? then (st1, 0, e)
    else if stat.None? then (st1, 0, Some(ArgumentNull))
    else if stat.value !in d then (st1, -1, None)
    else if d[stat.value].None? then (st1, 0, Some(NullReference))
    else
      var s := stat.value;
      var b := Bump(d[s].value, f, step);
      var check := if positive then SatisfyCheck(s, b) else UnsatisfyCheck(s, b);
      (StatState(WithKeySet(st.entries, s, b), Some(d[s := Some(b)]), st.checks + [check]),
       FieldOf(b, f), None)
  }

  /** ApplyStatChange for a stat function that adds the value itself. */
  function ApplyView<S(==)>(st: StatState<S>, stat: Option<S>, f: Field, delta: int): (StatState<S>, int, Option<Exception>)
  {
    ApplyViewBy(st, stat, f, delta, delta > 0)
  }

  /**
   * On a stat the rebuilt dictionary holds with a block, the change
   * succeeds, moves exactly the one field of exactly that stat's block,
   * answers the field's new value, leaves a fresh cache and runs one check
   * whose kind follows the sign of the delta.
   */
  lemma ApplyChangesOneField<S>(st: StatState<S>, s: S, f: Field, delta: int)
    requires Build(st.entries).1.None? && s in Build(st.entries).0 && Build(st.entries).0[s].Some?
    ensures var d := Build(st.entries).0;
            var b := Bump(d[s].value, f, delta);
            var (st', res, err) := ApplyView(st, Some(s), f, delta);
            err.None? && res == FieldOf(d[s].value, f) + delta &&
            Build(st'.entries) == (d[s := Some(b)], None) && st'.dict == Some(Build(st'.entries).0) &&
            |st'.entries| == |st.entries| &&
            st'.checks == st.checks + [CheckFor(s, b, delta)] &&
            (delta > 0 <==> st'.checks[|st.checks|].SatisfyCheck?)
  {
    var d := Build(st.entries).0;
    RebuildAfterSet(st.entries, s, Bump(d[s].value, f, delta));
  }

  /**
   * ModStat's `Mod += (int)v`: the modifier moves by the truncated value,
   * while the check follows the sign of the value itself; so a positive
   * fraction below 1 leaves the block as it was and still runs a satisfy
   * check.
   */
  lemma ModStatTruncates<S>(st: StatState<S>, s: S, v: real)
    requires Build(st.entries).1.None? && s in Build(st.entries).0 && Build(st.entries).0[s].Some?
    ensures var d := Build(st.entries).0;
            var b := d[s].value;
            var n := TruncateToInt(v);
            var (st', res, err) := ApplyViewBy(st, Some(s), ModField, n, v > 0.0);
            err.None? && res == b.mod + n &&
            Build(st'.entries) == (d[s := Some(b.(mod := b.mod + n))], None) &&
            |st'.checks| == |st.checks| + 1 &&
            (v > 0.0 <==> st'.checks[|st.checks|].SatisfyCheck?) &&
            (0.0 < v < 1.0 ==> Build(st'.entries).0 == d && st'.checks[|st.checks|] == SatisfyCheck(s, b))
  {
    var d := Build(st.entries).0;
    var b := d[s].value;
    var n := TruncateToInt(v);
    RebuildAfterSet(st.entries, s, Bump(b, ModField, n));
    if 0.0 < v < 1.0 {
      assert n == 0;
      assert Bump(b, ModField, n) == b;
      assert d[s := Some(b)] == d;
    }
  }

  /** An absent stat answers -1 and changes neither the entries nor the checks. */
  lemma ApplyAbsentStat<S>(st: StatState<S>, s: S, f: Field, delta: int)
    requires Build(st.entries).1.None? && s !in Build(st.entries).0
    ensures var (st', res, err) := ApplyView(st, Some(s), f, delta);
            res == -1 && err.None? && st'.entries == st.entries && st'.checks == st.checks
  {
  }

  // ---------------------------------------------------------------------
  // AppendBlock and RemoveBlock
  // ---------------------------------------------------------------------

  /** Keys pairwise distinct: the enumeration of another container's Dictionary. */
  predicate DistinctStats<S(==)>(other: seq<(S, Option<Block>)>)
  {
    forall i, j | 0 <= i < j < |other| :: other[i].0 != other[j].0
  }

  /** The stats of the other container. */
  function StatsOf<S>(other: seq<(S, Option<Block>)>): set<S>
  {
    set i | 0 <= i < |other| :: other[i].0
  }

  /**
   * The changes AppendBlock (sign 1) or RemoveBlock (sign -1) makes for a
   * stat present on both sides: value and temporary value, then, with the
   * modifiers, modifier and temporary modifier. The first failure ends it.
   */
  function ShiftView<S(==)>(st: StatState<S>, s: S, b: Block, sign: int, withMods: bool): (StatState<S>, Option<Exception>)
  {
    var (st2, e2) := PairView(st, s, ValueField, sign * b.value, TempField, sign * b.temp);
    if e2.Some? || !withMods then (st2, e2)
    else PairView(st2, s, ModField, sign * b.mod, ModTempField, sign * b.modTemp)
  }

  /** Two changes of the same stat in a row; the first failure ends it. */
  function PairView<S(==)>(st: StatState<S>, s: S, f1: Field, d1: int, f2: Field, d2: int): (StatState<S>, Option<Exception>)
  {
    var (st1, _, e1) := ApplyView(st, Some(s), f1, d1);
    if e1.Some? then (st1, e1)
    else var (st2, _, e2) := ApplyView(st1, Some(s), f2, d2); (st2, e2)
  }

  /** Add of the base container on the state: a null key throws; a value is checked after the append. */
  function AddView<S>(st: StatState<S>, key: Option<S>, value: Option<Block>): (StatState<S>, Option<Exception>)
  {
    if key.None? then (st, Some(Failure))
    else (st.(entries := st.entries + [Entry(key, value)],
              checks := if value.Some? then st.checks + [SatisfyCheck(key.value, value.value)] else st.checks), None)
  }

  /**
   * One stat of the other container: ContainsKey on the (possibly cached)
   * dictionary; a shared stat is shifted (a null block on the other side
   * throws on its field access); an unknown one is added when `addNew`.
   */
  function StepView<S(==)>(st: StatState<S>, p: (S, Option<Block>), sign: int, withMods: bool, addNew: bool)
    : (StatState<S>, Option<Exception>)
  {
    var (d, e) := DictionaryView(st.dict, st.entries);
    var st0 := st.(dict := Some(d));
    if e.Some? then (st0, e)
    else if p.0 in d then
      if p.1.None? then (st0, Some(NullReference)) else ShiftView(st0, p.0, p.1.value, sign, withMods)
    else if addNew then AddView(st0, Some(p.0), p.1)
    else (st0, None)
  }

  /** The foreach over the other container's stats; the first exception ends it. */
  function FoldView<S(==)>(st: StatState<S>, other: seq<(S, Option<Block>)>, sign: int, withMods: bool, addNew: bool)
    : (StatState<S>, Option<Exception>)
    decreases |other|
  {
    if |other| == 0 then (st, None)
    else
      var (st1, e) := StepView(st, other[0], sign, withMods, addNew);
      if e.Some? then (st1, e) else FoldView(st1, other[1..], sign, withMods, addNew)
  }

  /** A block shifted by another: each of the four (or two) fields moves by `sign` times the other's. */
  function Shift(b: Block, x: Block, sign: int, withMods: bool): Block
  {
    Block(b.value + sign * x.value, b.temp + sign * x.temp,
          if withMods then b.mod + sign * x.mod else b.mod,
          if withMods then b.modTemp + sign * x.modTemp else b.modTemp)
  }

  /** Shifting back by the same block restores the block, with or without the modifiers. */
  lemma ShiftBack(b: Block, x: Block, withMods: bool)
    ensures Shift(Shift(b, x, 1, withMods), x, -1, withMods) == b
    ensures Shift(Shift(b, x, -1, withMods), x, 1, withMods) == b
  {
  }

  /** One stat of the fold, on the dictionary alone, when nothing is added. */
  function ShiftedOne<S(==)>(d: map<S, Option<Block>>, p: (S, Option<Block>), sign: int, withMods: bool)
    : map<S, Option<Block>>
  {
    if p.0 in d && d[p.0].Some? && p.1.Some? then d[p.0 := Some(Shift(d[p.0].value, p.1.value, sign, withMods))] else d
  }

  /** The dictionary a fold that adds nothing leaves, computed on the dictionary alone. */
  function Shifted<S(==)>(d: map<S, Option<Block>>, other: seq<(S, Option<Block>)>, sign: int, withMods: bool)
    : map<S, Option<Block>>
    decreases |other|
  {
    if |other| == 0 then d else Shifted(ShiftedOne(d, other[0], sign, withMods), other[1..], sign, withMods)
  }

  /** No stat the fold shifts has a null block on either side, so the fold throws no NullReferenceException. */
  ghost predicate NoNullShared<S>(d: map<S, Option<Block>>, other: seq<(S, Option<Block>)>)
  {
    forall i | 0 <= i < |other| && other[i].0 in d :: d[other[i].0].Some? && other[i].1.Some?
  }

  /**
   * The state a fold may start from: the entries rebuild without error and
   * the cached dictionary, if any, agrees with the rebuild on which of the
   * stats `ks` it holds.
   */
  ghost predicate CacheAgrees<S>(st: StatState<S>, ks: set<S>)
  {
    Build(st.entries).1.None? &&
    (st.dict.Some? ==> forall k | k in ks :: (k in st.dict.value <==> k in Build(st.entries).0))
  }

  /** The four (or two) changes of a stat with blocks on both sides succeed and leave a fresh cache. */
  lemma {:induction false} ShiftSucceeds<S>(st: StatState<S>, s: S, x: Block, sign: int, withMods: bool)
    requires Build(st.entries).1.None? && s in Build(st.entries).0 && Build(st.entries).0[s].Some?
    ensures var d := Build(st.entries).0;
            var (st', e) := ShiftView(st, s, x, sign, withMods);
            e.None? && Build(st'.entries) == (d[s := Some(Shift(d[s].value, x, sign, withMods))], None) &&
            st'.dict == Some(Build(st'.entries).0)
  {
    var st2 := PairSucceeds(st, s, ValueField, sign * x.value, TempField, sign * x.temp);
    ShiftIsBumps(Build(st.entries).0[s].value, x, sign);
    if withMods {
      ModsSucceed(st, st2, s, x, sign);
    }
  }

  /** The modifier half of a shift, after the value half. */
  lemma {:induction false} ModsSucceed<S>(st: StatState<S>, st2: StatState<S>, s: S, x: Block, sign: int)
    requires Build(st.entries).1.None? && s in Build(st.entries).0 && Build(st.entries).0[s].Some?
    requires var d := Build(st.entries).0;
             PairView(st, s, ValueField, sign * x.value, TempField, sign * x.temp) == (st2, None) &&
             Build(st2.entries) == (d[s := Some(Bump(Bump(d[s].value, ValueField, sign * x.value), TempField, sign * x.temp))], None)
    ensures var d := Build(st.entries).0;
            var (st', e) := ShiftView(st, s, x, sign, true);
            e.None? && Build(st'.entries) == (d[s := Some(Shift(d[s].value, x, sign, true))], None) &&
            st'.dict == Some(Build(st'.entries).0)
  {
    var d := Build(st.entries).0;
    var b2 := Bump(Bump(d[s].value, ValueField, sign * x.value), TempField, sign * x.temp);
    var d2 := Build(st2.entries).0;
    assert d2 == d[s := Some(b2)] && d2[s] == Some(b2);
    var st4 := PairSucceeds(st2, s, ModField, sign * x.mod, ModTempField, sign * x.modTemp);
    assert ShiftView(st, s, x, sign, true) == (st4, None);
    var b4 := Bump(Bump(b2, ModField, sign * x.mod), ModTempField, sign * x.modTemp);
    ShiftIsBumps(d[s].value, x, sign);
    assert Build(st4.entries).0 == d2[s := Some(b4)] == d[s := Some(b4)];
  }

  /** A shift is the two (or four) field changes the fold makes, one after the other. */
  lemma ShiftIsBumps(b: Block, x: Block, sign: int)
    ensures var b2 := Bump(Bump(b, ValueField, sign * x.value), TempField, sign * x.temp);
            b2 == Shift(b, x, sign, false) &&
            Bump(Bump(b2, ModField, sign * x.mod), ModTempField, sign * x.modTemp) == Shift(b, x, sign, true)
  {
  }

  /** Two successful changes of one stat, named: the state they leave and its rebuild. */
  lemma {:induction false} PairSucceeds<S>(st: StatState<S>, s: S, f1: Field, d1: int, f2: Field, d2: int)
    returns (st': StatState<S>)
    requires Build(st.entries).1.None? && s in Build(st.entries).0 && Build(st.entries).0[s].Some?
    ensures var d := Build(st.entries).0;
            PairView(st, s, f1, d1, f2, d2) == (st', None) &&
            Build(st'.entries) == (d[s := Some(Bump(Bump(d[s].value, f1, d1), f2, d2))], None) &&
            st'.dict == Some(Build(st'.entries).0)
  {
    var d := Build(st.entries).0;
    var st1 := ApplyStep(st, s, f1, d1);
    var b1 := Bump(d[s].value, f1, d1);
    var d' := Build(st1.entries).0;
    assert d' == d[s := Some(b1)];
    assert d'[s] == Some(b1);
    st' := ApplyStep(st1, s, f2, d2);
    assert Build(st'.entries).0 == d'[s := Some(Bump(b1, f2, d2))];
    assert d'[s := Some(Bump(b1, f2, d2))] == d[s := Some(Bump(b1, f2, d2))];
  }

  /** One successful change, named: the state it leaves and the rebuild of that state. */
  lemma ApplyStep<S>(st: StatState<S>, s: S, f: Field, delta: int) returns (st': StatState<S>)
    requires Build(st.entries).1.None? && s in Build(st.entries).0 && Build(st.entries).0[s].Some?
    ensures var d := Build(st.entries).0;
            ApplyView(st, Some(s), f, delta) == (st', FieldOf(d[s].value, f) + delta, None) &&
            Build(st'.entries) == (d[s := Some(Bump(d[s].value, f, delta))], None) &&
            st'.dict == Some(Build(st'.entries).0)
  {
    ApplyChangesOneField(st, s, f, delta);
    st' := ApplyView(st, Some(s), f, delta).0;
  }

  /** One step of a fold that adds nothing keeps the start conditions and follows ShiftedOne. */
  lemma {:induction false} StepFollowsShifted<S>(st: StatState<S>, p: (S, Option<Block>), sign: int, withMods: bool,
                                                  ks: set<S>)
    requires CacheAgrees(st, ks) && p.0 in ks
    requires p.0 in Build(st.entries).0 ==> Build(st.entries).0[p.0].Some? && p.1.Some?
    ensures var (st1, e) := StepView(st, p, sign, withMods, false);
            e.None? && CacheAgrees(st1, ks) &&
            Build(st1.entries) == (ShiftedOne(Build(st.entries).0, p, sign, withMods), None)
  {
    if p.0 in Build(st.entries).0 {
      var dc := DictionaryView(st.dict, st.entries).0;
      ShiftSucceeds(st.(dict := Some(dc)), p.0, p.1.value, sign, withMods);
    }
  }

  /** One shift keeps the stats and which of them hold a block. */
  lemma ShiftedOneKeeps<S>(d: map<S, Option<Block>>, p: (S, Option<Block>), sign: int, withMods: bool)
    ensures var d1 := ShiftedOne(d, p, sign, withMods);
            d1.Keys == d.Keys && forall k | k in d :: d1[k].Some? == d[k].Some?
  {
  }

  /**
   * A fold that adds nothing, from a state whose entries rebuild and whose
   * cache agrees on the other's stats, with no null block on a shared stat,
   * runs without exception; the dictionary it leaves is Shifted of the one
   * it started from, and its cache still agrees.
   */
  lemma {:induction false} FoldFollowsShifted<S>(st: StatState<S>, other: seq<(S, Option<Block>)>, sign: int,
                                                  withMods: bool, ks: set<S>)
    requires StatsOf(other) <= ks && CacheAgrees(st, ks) && NoNullShared(Build(st.entries).0, other)
    ensures var (st', e) := FoldView(st, other, sign, withMods, false);
            e.None? && CacheAgrees(st', ks) &&
            Build(st'.entries) == (Shifted(Build(st.entries).0, other, sign, withMods), None)
    decreases |other|
  {
    if |other| > 0 {
      var d := Build(st.entries).0;
      assert other[0].0 in StatsOf(other);
      StepFollowsShifted(st, other[0], sign, withMods, ks);
      var st1 := StepView(st, other[0], sign, withMods, false).0;
      ShiftedOneKeeps(d, other[0], sign, withMods);
      forall i | 0 <= i < |other[1..]| ensures other[1..][i].0 in ks && other[1..][i] == other[i + 1] {
        assert other[i + 1].0 in StatsOf(other);
      }
      FoldFollowsShifted(st1, other[1..], sign, withMods, ks);
    }
  }

  /**
   * The fold on dictionaries in closed form: with distinct stats and no
   * null block on a shared one, every shared stat is shifted exactly once
   * by its block on the other side, and every other stat keeps its block.
   */
  lemma {:induction false} ShiftedClosedForm<S>(d: map<S, Option<Block>>, other: seq<(S, Option<Block>)>,
                                                 sign: int, withMods: bool)
    requires DistinctStats(other) && NoNullShared(d, other)
    ensures var r := Shifted(d, other, sign, withMods);
            r.Keys == d.Keys &&
            (forall i | 0 <= i < |other| && other[i].0 in d ::
               r[other[i].0] == Some(Shift(d[other[i].0].value, other[i].1.value, sign, withMods))) &&
            (forall k | k in d && k !in StatsOf(other) :: r[k] == d[k])
    decreases |other|
  {
    if |other| > 0 {
      var d1 := ShiftedOne(d, other[0], sign, withMods);
      ShiftedOneKeeps(d, other[0], sign, withMods);
      var rest := other[1..];
      forall i | 0 <= i < |rest| ensures rest[i] == other[i + 1] && rest[i].0 != other[0].0 { }
      ShiftedClosedForm(d1, rest, sign, withMods);
      var r := Shifted(d, other, sign, withMods);
      assert r == Shifted(d1, rest, sign, withMods);
      forall i | 0 <= i < |other| && other[i].0 in d
        ensures r[other[i].0] == Some(Shift(d[other[i].0].value, other[i].1.value, sign, withMods))
      {
        if i > 0 {
          assert rest[i - 1] == other[i];
        } else {
          assert other[0].0 !in StatsOf(rest);
        }
      }
      forall k | k in d && k !in StatsOf(other) ensures r[k] == d[k] {
        assert other[0].0 in StatsOf(other);
        forall i | 0 <= i < |rest| ensures rest[i].0 != k {
          assert other[i + 1].0 in StatsOf(other);
        }
      }
    }
  }

  /**
   * RemoveBlock undoes AppendBlock: on a container whose entries rebuild
   * and whose cache agrees on the other's stats, with no null block on a
   * shared stat, appending the other container without adding new stats
   * and then removing it, with the same `withMods`, runs without exception
   * and leaves the rebuilt dictionary (every stat and every block) as it was.
   */
  lemma RemoveUndoesAppend<S>(st: StatState<S>, other: seq<(S, Option<Block>)>, withMods: bool)
    requires DistinctStats(other) && CacheAgrees(st, StatsOf(other)) && NoNullShared(Build(st.entries).0, other)
    ensures var (st1, e1) := FoldView(st, other, 1, withMods, false);
            var (st2, e2) := FoldView(st1, other, -1, withMods, false);
            e1.None? && e2.None? && Build(st2.entries) == Build(st.entries)
  {
    var d := Build(st.entries).0;
    var ks := StatsOf(other);
    FoldFollowsShifted(st, other, 1, withMods, ks);
    var st1 := FoldView(st, other, 1, withMods, false).0;
    ShiftedClosedForm(d, other, 1, withMods);
    var d1 := Shifted(d, other, 1, withMods);
    FoldFollowsShifted(st1, other, -1, withMods, ks);
    ShiftedClosedForm(d1, other, -1, withMods);
    var d2 := Shifted(d1, other, -1, withMods);
    forall k | k in d ensures d2[k] == d[k] {
      if k in ks {
        var i :| 0 <= i < |other| && other[i].0 == k;
        ShiftBack(d[k].value, other[i].1.value, withMods);
      }
    }
    assert d2 == d;
  }

  /**
   * AppendBlock with `addNew` on a stat the container does not hold: the
   * other's entry is appended as it is (a null block included), only a
   * block is checked, and the next rebuild holds it.
   */
  lemma AppendAddsUnknownStat<S>(st: StatState<S>, s: S, ob: Option<Block>, withMods: bool)
    requires CacheAgrees(st, {s}) && s !in Build(st.entries).0
    ensures var (st', e) := StepView(st, (s, ob), 1, withMods, true);
            e.None? && st'.entries == st.entries + [Entry(Some(s), ob)] &&
            Build(st'.entries) == (Build(st.entries).0[s := ob], None) &&
            st'.checks == st.checks + (if ob.Some? then [SatisfyCheck(s, ob.value)] else [])
  {
    var es := st.entries;
    var d := Build(es).0;
    BuildSucceedsIff(es);
    RepresentsAppend(d, es, Entry(Some(s), ob));
    var es' := es + [Entry(Some(s), ob)];
    BuildSucceedsIff(es');
    RepresentsDetermines(Build(es').0, d[s := ob], es');
  }

  // ---------------------------------------------------------------------
  // The container
  // ---------------------------------------------------------------------

  class Statistics<S(==)> {
    var entries: seq<Entry<S, Block>>
    var dict: Option<map<S, Option<Block>>>
    ghost var checks: seq<Check<S>>

    ghost function State(): StatState<S>
      reads this
    {
      StatState(entries, dict, checks)
    }

    /**
     * Statistics(List<StatName>): an empty list, then one entry with a new
     * default block per listed stat, each checked as it is added; a null
     * stat throws and the constructor does not complete.
     */
    static method FromStats(stats: seq<Option<S>>) returns (r: Statistics<S>, err: Option<Exception>)
      ensures err.None? <==> forall i | 0 <= i < |stats| :: stats[i].Some?
      ensures err.None? ==>
                |r.entries| == |stats| &&
                (forall i | 0 <= i < |stats| :: r.entries[i] == Entry(stats[i], Some(DefaultBlock))) &&
                r.dict.None? && |r.checks| == |stats| &&
                (forall i | 0 <= i < |stats| :: r.checks[i] == SatisfyCheck(stats[i].value, DefaultBlock))
      ensures err.Some? ==> err == Some(Failure)
    {
      r := new Statistics.Empty();
      var i := 0;
      while i < |stats|
        invariant 0 <= i <= |stats|
        invariant forall j | 0 <= j < i :: stats[j].Some?
        invariant |r.entries| == i && forall j | 0 <= j < i :: r.entries[j] == Entry(stats[j], Some(DefaultBlock))
        invariant r.dict.None? && |r.checks| == i
        invariant forall j | 0 <= j < i :: r.checks[j] == SatisfyCheck(stats[j].value, DefaultBlock)
      {
        err := r.Add(stats[i], Some(DefaultBlock));
        if err.Some? {
          return;
        }
        i := i + 1;
      }
      err := None;
    }

    /**
     * Statistics(List<ThingEntry>): an empty list, then every given pair
     * added in order, each block checked as it is added; a null stat throws
     * at its Add and the constructor does not complete.
     */
    static method FromEntries(objects: seq<Entry<S, Block>>) returns (r: Statistics<S>, err: Option<Exception>)
      ensures err.None? <==> forall i | 0 <= i < |objects| :: objects[i].key.Some?
      ensures err.None? ==> r.entries == objects && r.dict.None? &&
                            r.checks == Checks(objects)
      ensures err.Some? ==> err == Some(Failure)
    {
      r := new Statistics.Empty();
      var i := 0;
      while i < |objects|
        invariant 0 <= i <= |objects|
        invariant forall j | 0 <= j < i :: objects[j].key.Some?
        invariant r.entries == objects[..i] && r.dict.None? && r.checks == Checks(objects[..i])
      {
        err := r.Add(objects[i].key, objects[i].value);
        if err.Some? {
          return;
        }
        assert objects[..i + 1] == objects[..i] + [objects[i]];
        i := i + 1;
      }
      assert objects[..i] == objects;
      err := None;
    }

    /** `this.m_Entries = new()`: no entries, no cache, no checks yet. */
    constructor Empty()
      ensures entries == [] && dict.None? && checks == []
    {
      entries := [];
      dict := None;
      checks := [];
    }

    /** The base container's Add: a null key throws; otherwise the entry is appended and a value checked. */
    method Add(key: Option<S>, value: Option<Block>) returns (err: Option<Exception>)
      modifies this
      ensures (State(), err) == AddView(old(State()), key, value)
    {
      if key.None? {
        return Some(Failure);
      }
      entries := entries + [Entry(key, value)];
      if value.Some? {
        checks := checks + [SatisfyCheck(key.value, value.value)];
      }
      err := None;
    }

    /**
     * ApplyStatChange with the field the stat function writes and the step
     * it adds; `positive` is whether the value passed was above 0.
     */
    method ApplyStatChange(stat: Option<S>, step: int, positive: bool, f: Field) returns (res: int, err: Option<Exception>)
      modifies this
      ensures (State(), res, err) == ApplyViewBy(old(State()), stat, f, step, positive)
    {
      var b := Build(entries);
      var d, e := b.0, b.1;
      dict := Some(d);
      if e.Some? {
        return 0, e;
      }
      if stat.None? {
        return 0, Some(ArgumentNull);
      }
      var s := stat.value;
      if s !in d {
        return -1, None;
      }
      if d[s].None? {
        return 0, Some(NullReference);
      }
      var block := Bump(d[s].value, f, step);
      entries := WithKeySet(entries, s, block);
      dict := Some(d[s := Some(block)]);
      if positive {
        checks := checks + [SatisfyCheck(s, block)];
      } else {
        checks := checks + [UnsatisfyCheck(s, block)];
      }
      res := FieldOf(block, f);
      err := None;
    }

    /** ChangeStat: Value += delta, answering the new value. */
    method ChangeStat(stat: Option<S>, delta: int) returns (res: int, err: Option<Exception>)
      modifies this
      ensures (State(), res, err) == ApplyView(old(State()), stat, ValueField, delta)
    {
      res, err := ApplyStatChange(stat, delta, delta > 0, ValueField);
    }

    /** AffectStat: Temp += delta, answering the new temporary value. */
    method AffectStat(stat: Option<S>, delta: int) returns (res: int, err: Option<Exception>)
      modifies this
      ensures (State(), res, err) == ApplyView(old(State()), stat, TempField, delta)
    {
      res, err := ApplyStatChange(stat, delta, delta > 0, TempField);
    }

    /**
     * ModStat: the modifier is the one integer field of a block, so the
     * value passed is cast with `(int)` before it is added, while the check
     * still follows the sign of the value itself (see ModStatTruncates).
     */
    method ModStat(stat: Option<S>, value: real) returns (res: int, err: Option<Exception>)
      modifies this
      ensures (State(), res, err) == ApplyViewBy(old(State()), stat, ModField, TruncateToInt(value), value > 0.0)
    {
      res, err := ApplyStatChange(stat, TruncateToInt(value), value > 0.0, ModField);
    }

    /** ModTempStat: ModTemp += delta, answering the new temporary modifier. */
    method ModTempStat(stat: Option<S>, delta: int) returns (res: int, err: Option<Exception>)
      modifies this
      ensures (State(), res, err) == ApplyView(old(State()), stat, ModTempField, delta)
    {
      res, err := ApplyStatChange(stat, delta, delta > 0, ModTempField);
    }

    /** The changes of AppendBlock or RemoveBlock for one shared stat. */
    method ShiftStat(s: S, b: Block, sign: int, withMods: bool) returns (err: Option<Exception>)
      modifies this
      ensures (State(), err) == ShiftView(old(State()), s, b, sign, withMods)
    {
      var _, e1 := ChangeStat(Some(s), sign * b.value);
      if e1.Some? {
        return e1;
      }
      var _, e2 := AffectStat(Some(s), sign * b.temp);
      if e2.Some? || !withMods {
        return e2;
      }
      TruncateWhole(sign * b.mod);
      var _, e3 := ModStat(Some(s), (sign * b.mod) as real);
      if e3.Some? {
        return e3;
      }
      var _, e4 := ModTempStat(Some(s), sign * b.modTemp);
      return e4;
    }

    /** One stat of the other container in AppendBlock (sign 1) or RemoveBlock (sign -1, never adding). */
    method FoldStep(p: (S, Option<Block>), sign: int, withMods: bool, addNew: bool) returns (err: Option<Exception>)
      modifies this
      ensures (State(), err) == StepView(old(State()), p, sign, withMods, addNew)
    {
      var view := DictionaryView(dict, entries);
      var d, e := view.0, view.1;
      dict := Some(d);
      if e.Some? {
        return e;
      }
      if p.0 in d {
        if p.1.None? {
          return Some(NullReference);
        }
        err := ShiftStat(p.0, p.1.value, sign, withMods);
      } else if addNew {
        err := Add(Some(p.0), p.1);
      } else {
        err := None;
      }
    }

    /** The foreach of AppendBlock and RemoveBlock over the other container's stats. */
    method Fold(other: seq<(S, Option<Block>)>, sign: int, withMods: bool, addNew: bool) returns (err: Option<Exception>)
      modifies this
      ensures (State(), err) == FoldView(old(State()), other, sign, withMods, addNew)
    {
      var i := 0;
      while i < |other|
        invariant 0 <= i <= |other|
        invariant FoldView(old(State()), other, sign, withMods, addNew) == FoldView(State(), other[i..], sign, withMods, addNew)
      {
        assert other[i..][0] == other[i] && other[i..][1..] == other[i + 1..];
        err := FoldStep(other[i], sign, withMods, addNew);
        if err.Some? {
          return;
        }
        i := i + 1;
      }
      err := None;
    }

    /**
     * AppendBlock(other, withMods, addNew): for each stat of the other
     * container's dictionary, in its enumeration order, a shared stat gains
     * the other's value and temporary value (and modifiers with `withMods`);
     * an unknown stat is added with the other's block when `addNew`.
     */
    method AppendBlock(other: seq<(S, Option<Block>)>, withMods: bool, addNew: bool) returns (err: Option<Exception>)
      requires DistinctStats(other)
      modifies this
      ensures (State(), err) == FoldView(old(State()), other, 1, withMods, addNew)
    {
      err := Fold(other, 1, withMods, addNew);
    }

    /** RemoveBlock(other, withMods): for each shared stat the other's fields are subtracted; no stat is added. */
    method RemoveBlock(other: seq<(S, Option<Block>)>, withMods: bool) returns (err: Option<Exception>)
      requires DistinctStats(other)
      modifies this
      ensures (State(), err) == FoldView(old(State()), other, -1, withMods, false)
    {
      err := Fold(other, -1, withMods, false);
    }
  }
}

=== FILE: step.dfy ===
/**
 * Step<T>: one level of a progression of levels (a Shire asset). Each level
 * knows the experience at which it starts and the one at which the next
 * level starts, and links itself to its neighbours in the sorted sibling
 * list of its Lister. Runtime/Shire/Concretes/Step.cs.
 *
 * Experience values are the source's floats, modelled as reals. The sibling
 * list is given as a parameter (Lister.Siblings); a null slot is a `null`
 * element.
 */
module Steps {
  import opened Wrappers

  /** The sibling at Order - 1 when 0 < Order < Siblings.Count, else null. */
  function PreviousSlot(siblings: seq<Step?>, order: int): (p: Step?)
    ensures p != null ==> 0 < order < |siblings| && p == siblings[order - 1]
    ensures 0 < order < |siblings| ==> p == siblings[order - 1]
  {
    if |siblings| > order > 0 then siblings[order - 1] else null
  }

  /** The sibling at Order + 1 when Order + 1 is an index of the list, else null. */
  function NextSlot(siblings: seq<Step?>, order: int): (n: Step?)
    ensures n != null ==> 0 <= order + 1 < |siblings| && n == siblings[order + 1]
    ensures 0 <= order + 1 < |siblings| ==> n == siblings[order + 1]
  {
    if 0 <= order + 1 < |siblings| then siblings[order + 1] else null
  }

  /** Everything of a level but its two links is as it was. */
  twostate predicate KeepsLevel(s: Step)
    reads s
  {
    && s.isMin == old(s.isMin) && s.isMax == old(s.isMax) && s.order == old(s.order)
    && s.expToThis == old(s.expToThis) && s.expToNext == old(s.expToNext)
    && s.levelPoints == old(s.levelPoints)
  }

  /** Reached compares levels by their starting experience: a total preorder. */
  lemma ReachedOrders(a: Step, b: Step, c: Step)
    ensures a.Reached(a)
    ensures a.Reached(b) || b.Reached(a)
    ensures a.Reached(b) && b.Reached(c) ==> a.Reached(c)
    ensures a.Reached(b) && b.Reached(a) <==> a.expToThis == b.expToThis
  {
  }

  class Step {
    var isMin: bool          // m_IsMinLevel
    var isMax: bool          // m_IsMaxLevel
    var expToThis: real      // m_ExpToThisLevel
    var expToNext: real      // m_ExpToNextLevel
    var levelPoints: int     // m_LevelPoints
    var next: Step?          // m_NextLevel
    var previous: Step?      // m_PreviousLevel
    var order: int           // m_Order of the Shire base

    /** A new asset: no flags, no links, order -1. */
    constructor (expThis: real, expNext: real, points: int)
      ensures !isMin && !isMax && next == null && previous == null && order == -1
      ensures expToThis == expThis && expToNext == expNext && levelPoints == points
    {
      isMin, isMax := false, false;
      expToThis, expToNext, levelPoints := expThis, expNext, points;
      next, previous := null, null;
      order := -1;
    }

    /** RequiredExp: the experience between the start of this level and the start of the next. */
    function RequiredExp(): (r: real)
      reads this
      ensures expToThis + r == expToNext
      ensures r >= 0.0 <==> expToThis <= expToNext
    {
      expToNext - expToThis
    }

    /** Reached(level): this level starts at or above the experience at which `level` starts. */
    function Reached(level: Step): (r: bool)
      reads this, level
      ensures level == this ==> r
      ensures !r ==> expToThis < level.expToThis
    {
      expToThis >= level.expToThis
    }

    /**
     * ComputeExpForNext: the sum of the two thresholds; nothing is written.
     * It is the start of the next level only for a level that starts at 0,
     * and overshoots it by exactly this level's own start otherwise.
     */
    function ComputeExpForNext(): (r: real)
      reads this
      ensures r == RequiredExp() + 2.0 * expToThis
      ensures r == expToNext <==> expToThis == 0.0
      ensures r > expToNext <==> expToThis > 0.0
    {
      expToNext + expToThis
    }

    /**
     * FindSiblings: the links come from the slots around Order; a minimum
     * level (or order 0) becomes the first one, with no previous link;
     * otherwise the previous level links forward to this one. A maximum
     * level has no next link; otherwise the next level links back to this
     * one. Order + 1 below 0 is an index error; a null neighbour that must
     * link back is a null dereference.
     */
    method FindSiblings(siblings: seq<Step?>) returns (err: Option<Exception>)
      modifies this, PreviousSlot(siblings, order), NextSlot(siblings, order)
      // the slots, and which links the method writes
      ensures var p := PreviousSlot(siblings, old(order));
              var first := old(isMin) || old(order) == 0;
              var linkPrevious := !first && 0 < old(order) < |siblings|;
              // a previous slot holding this level itself has already overwritten the next link
              var n := if linkPrevious && p == this then this else NextSlot(siblings, old(order));
              var linkNext := !old(isMax) && old(order) + 1 < |siblings|;
              && (err == Some(ArgumentOutOfRange) <==> old(order) < -1)
              && (err == Some(NullReference) <==>
                    old(order) >= -1 && ((linkPrevious && p == null) || (linkNext && n == null)))
              && (err.None? <==> old(order) >= -1 && !(linkPrevious && p == null) && !(linkNext && n == null))
              && isMax == old(isMax) && levelPoints == old(levelPoints)
              && expToThis == old(expToThis) && expToNext == old(expToNext)
              && (err == Some(ArgumentOutOfRange) ==>
                    previous == null && next == old(next) && order == old(order) && isMin == old(isMin))
              && (err.None? ==>
                    && isMin == first && order == (if first then 0 else old(order))
                    && next == (if old(isMax) then null else n)
                    && previous == (if linkNext && n == this then this else if first then null else p)
                    && (linkPrevious && p != this ==> p.next == this)
                    && (linkNext && n != this ==> n.previous == this))
      // a neighbour keeps everything but the link back to this level
      ensures var p, n := PreviousSlot(siblings, old(order)), NextSlot(siblings, old(order));
              && (p != null && p != this ==> KeepsLevel(p))
              && (n != null && n != this ==> KeepsLevel(n))
    {
      var isPreviousValid := |siblings| > order > 0;
      previous := if isPreviousValid then siblings[order - 1] else null;
      var isNextValid := |siblings| > order + 1;
      if isNextValid && order + 1 < 0 {
        return Some(ArgumentOutOfRange);
      }
      next := if isNextValid then siblings[order + 1] else null;
      if isMin || order == 0 {
        order := 0;
        isMin := true;
        previous := null;
      } else if isPreviousValid {
        if previous == null {
          return Some(NullReference);
        }
        previous.next := this;
      }
      if isMax {
        next := null;
        isMax := true;
      } else if isNextValid {
        if next == null {
          return Some(NullReference);
        }
        next.previous := this;
      }
      err := None;
    }
  }
}

=== FILE: thing_satisfier.dfy ===
/**
 * ThingSatisfier<K,V>: a two-level dictionary, key -> (value -> bundle),
 * whose inner dictionaries are handled by the Satisfier<V> members.
 * Runtime/Satisfiers/Plain/ThingSatisfier.cs.
 */
module ThingSatisfiers {
  import opened Wrappers
  import opened Bundles
  import opened Satisfiers

  type Nested<K, V> = map<K, map<V, BundleState<V>>>

  // ---------------------------------------------------------------------
  // The two-level dictionary as values
  // ---------------------------------------------------------------------

  predicate IsWatchingKey<K, V>(m: Nested<K, V>, key: Option<K>)
  {
    key.Some? && key.value in m
  }

  /** The key is watched and some value watched under it is equal to `value` (watched value first). */
  ghost predicate IsWatchingPair<K, V>(m: Nested<K, V>, eq: (V, V) -> bool, key: Option<K>, value: Option<V>)
  {
    value.Some? && IsWatchingKey(m, key) && exists b | b in m[key.value] :: eq(b, value.value)
  }

  function ThingWatchView<K, V>(m: Nested<K, V>, key: Option<K>, value: Option<V>, d: Event?, u: Event?)
    : (int, Nested<K, V>)
  {
    if key.None? || value.None? then (0, m)
    else
      var inner := if key.value in m then m[key.value] else map[];
      var (count, inner') := WatchView(inner, value, d, u);
      (count, m[key.value := inner'])
  }

  ghost function ThingUnwatchView<K, V>(m: Nested<K, V>, eq: (V, V) -> bool, key: Option<K>, value: Option<V>)
    : (bool, Nested<K, V>)
  {
    if IsWatchingPair(m, eq, key, value) then
      var (ok, inner') := UnwatchView(m[key.value], value);
      (ok, m[key.value := inner'])
    else (false, m)
  }

  /**
   * AddBundle on values: nulls are ignored; the key gets an inner dictionary;
   * a bundle with counts (1,0) and no callbacks is added under the value
   * unless an equal value is already watched. Adding a value that is
   * already an inner key but not equal to itself throws (Dictionary.Add).
   */
  ghost function ThingAddBundleView<K, V>(m: Nested<K, V>, eq: (V, V) -> bool, key: Option<K>, value: Option<V>)
    : (Option<Exception>, Nested<K, V>)
  {
    if key.None? || value.None? then (None, m)
    else
      var m1 := if key.value in m then m else m[key.value := map[]];
      if IsWatchingPair(m1, eq, key, value) then (None, m1)
      else if value.value in m1[key.value] then (Some(DuplicateKey), m1)
      else (None, m1[key.value := m1[key.value][value.value := BundleState(value.value, null, null, 1, 0, 0, 0)]])
  }

  ghost function ThingRemoveBundleView<K, V>(m: Nested<K, V>, eq: (V, V) -> bool, key: Option<K>, value: Option<V>)
    : Nested<K, V>
  {
    if IsWatchingPair(m, eq, key, value) then m[key.value := m[key.value] - {value.value}] else m
  }

  /**
   * Satisfy (`unsat` false) or Unsatisfy (`unsat` true) of a pair: nothing
   * happens unless the pair is watched; then the single-dictionary step runs
   * on that key's inner dictionary and every other key is left alone.
   */
  ghost predicate ThingStep<K, V>(m: Nested<K, V>, m': Nested<K, V>, eq: (V, V) -> bool,
                                  key: Option<K>, value: Option<V>, ok: bool, unsat: bool)
  {
    if IsWatchingPair(m, eq, key, value) then
      m'.Keys == m.Keys &&
      (forall k | k in m && k != key.value :: m'[k] == m[k]) &&
      SatisfyStep(m[key.value], m'[key.value], eq, value, ok, unsat)
    else
      !ok && m' == m
  }

  // ---------------------------------------------------------------------
  // Properties
  // ---------------------------------------------------------------------

  /**
   * Watch of a non-null pair: the key is present afterwards, only that key's
   * inner dictionary changes, and it changes exactly as a single-dictionary
   * Watch would change it.
   */
  lemma WatchTouchesOnlyItsKey<K, V>(m: Nested<K, V>, k: K, v: V, d: Event?, u: Event?)
    ensures var (count, m') := ThingWatchView(m, Some(k), Some(v), d, u);
            m'.Keys == m.Keys + {k} &&
            (forall j | j in m && j != k :: m'[j] == m[j]) &&
            (count, m'[k]) == WatchView(if k in m then m[k] else map[], Some(v), d, u)
  {
  }

  /** Watch with a null key or value changes nothing and returns 0. */
  lemma WatchNullIsNoOp<K, V>(m: Nested<K, V>, key: Option<K>, value: Option<V>, d: Event?, u: Event?)
    requires key.None? || value.None?
    ensures ThingWatchView(m, key, value, d, u) == (0, m)
  {
  }

  /** After a watch, the pair is watched whenever the equality function is reflexive on the value. */
  lemma {:induction false} WatchedPairIsWatching<K, V>(m: Nested<K, V>, eq: (V, V) -> bool, k: K, v: V, d: Event?, u: Event?)
    requires eq(v, v)
    ensures IsWatchingPair(ThingWatchView(m, Some(k), Some(v), d, u).1, eq, Some(k), Some(v))
  {
    var m' := ThingWatchView(m, Some(k), Some(v), d, u).1;
    assert v in m'[k];
  }

  /** Unwatch never removes an outer key, even when it empties the inner dictionary. */
  lemma UnwatchKeepsOuterKey<K, V>(m: Nested<K, V>, eq: (V, V) -> bool, key: Option<K>, value: Option<V>)
    ensures ThingUnwatchView(m, eq, key, value).1.Keys == m.Keys
    ensures ThingUnwatchView(m, eq, key, value).0 ==> key.value in m && value.value in m[key.value]
    ensures ThingUnwatchView(m, eq, key, value).0 ==>
              ThingUnwatchView(m, eq, key, value).1[key.value] == m[key.value] - {value.value}
  {
  }

  /**
   * AddBundle of a pair not watched yet and not already an inner key adds one
   * pre-counted bundle (1,0) and nothing else; a watched pair is left as it is.
   */
  lemma {:induction false} AddBundleOnlyWhenUnwatched<K, V>(m: Nested<K, V>, eq: (V, V) -> bool, k: K, v: V)
    ensures var (err, m') := ThingAddBundleView(m, eq, Some(k), Some(v));
            k in m' && m.Keys <= m'.Keys &&
            (IsWatchingPair(m, eq, Some(k), Some(v)) ==> err.None? && m' == m) &&
            (!IsWatchingPair(m, eq, Some(k), Some(v)) && (k !in m || v !in m[k]) ==>
               err.None? && m'[k] == (if k in m then m[k] else map[])[v := BundleState(v, null, null, 1, 0, 0, 0)])
  {
    if k !in m {
      var m1 := m[k := map[]];
      assert !IsWatchingPair(m1, eq, Some(k), Some(v));
    }
  }

  /** Satisfying a pair never touches another key, nor any bundle when the pair is not watched. */
  lemma {:induction false} StepLeavesOtherKeys<K, V>(m: Nested<K, V>, m': Nested<K, V>, eq: (V, V) -> bool,
                                                     key: Option<K>, value: Option<V>, ok: bool, unsat: bool)
    requires ThingStep(m, m', eq, key, value, ok, unsat)
    ensures m'.Keys == m.Keys
    ensures forall k | k in m && Some(k) != key :: m'[k] == m[k]
    ensures ok ==> IsWatchingPair(m, eq, key, value)
    ensures ok ==> m'[key.value].Keys == m[key.value].Keys
  {
    if IsWatchingPair(m, eq, key, value) {
      StepChangesOneCounter(m[key.value], m'[key.value], eq, value, ok, unsat);
    }
  }

  // ---------------------------------------------------------------------
  // Ownership of bundles by outer keys
  // ---------------------------------------------------------------------

  /** No bundle object is shared between two outer keys. */
  ghost predicate DisjointInner<K, V>(b: map<K, map<V, SatisfierBundle<V>>>)
  {
    forall k1, k2 | k1 in b && k2 in b && k1 != k2 :: b[k1].Values !! b[k2].Values
  }

  ghost function Owned<K, V>(b: map<K, map<V, SatisfierBundle<V>>>): set<object>
  {
    set k, x | k in b && x in b[k].Values :: x as object
  }

  /** Every inner dictionary is well formed (its bundles are stored under their objects). */
  ghost predicate InnerWellFormed<K, V>(b: map<K, map<V, SatisfierBundle<V>>>)
  {
    forall k | k in b :: WellFormed(b[k])
  }

  lemma RemoveKeepsDisjoint<K, V>(b: map<K, map<V, SatisfierBundle<V>>>, k: K, inner': map<V, SatisfierBundle<V>>)
    requires DisjointInner(b) && k in b && inner'.Values <= b[k].Values
    ensures DisjointInner(b[k := inner'])
    ensures Owned(b[k := inner']) <= Owned(b)
  {
    ReplaceKeepsDisjoint(b, k, inner');
  }

  lemma ReplaceKeepsDisjoint<K, V>(b: map<K, map<V, SatisfierBundle<V>>>, k: K, inner': map<V, SatisfierBundle<V>>)
    requires DisjointInner(b)
    requires forall x | x in inner'.Values :: (k in b && x in b[k].Values) || x !in Owned(b)
    ensures DisjointInner(b[k := inner'])
    ensures Owned(b[k := inner']) <= Owned(b) + inner'.Values
  {
    var b' := b[k := inner'];
    forall k1, k2 | k1 in b' && k2 in b' && k1 != k2
      ensures b'[k1].Values !! b'[k2].Values
    {
      if k1 == k {
        forall x | x in inner'.Values
          ensures x !in b[k2].Values
        {
          assert x in b[k2].Values ==> x in Owned(b);
        }
      } else if k2 == k {
        forall x | x in inner'.Values
          ensures x !in b[k1].Values
        {
          assert x in b[k1].Values ==> x in Owned(b);
        }
      }
    }
  }

  // ---------------------------------------------------------------------
  // The class
  // ---------------------------------------------------------------------

  class ThingSatisfier<K(==, !new), V(==, !new)> {
    var bundles: map<K, map<V, SatisfierBundle<V>>>
    const cmp: (V, V) -> int
    const eq: (V, V) -> bool
    ghost var Repr: set<object>

    ghost predicate Valid()
      reads this, Repr
    {
      Repr == {this} + Owned(bundles) && InnerWellFormed(bundles) && DisjointInner(bundles)
    }

    ghost function Model(): Nested<K, V>
      reads this, Repr
      requires Valid()
    {
      map k | k in bundles :: View(bundles[k])
    }

    constructor (comparer: (V, V) -> int, equality: (V, V) -> bool)
      ensures Valid() && fresh(Repr)
      ensures Model() == map[] && cmp == comparer && eq == equality
    {
      bundles := map[];
      cmp := comparer;
      eq := equality;
      Repr := {this};
    }

    function IsWatching(key: Option<K>): (r: bool)
      reads this, Repr
      requires Valid()
      ensures r == IsWatchingKey(Model(), key)
    {
      key.Some? && key.value in bundles
    }

    /** IsWatching(key, value): the equality function is applied as eq(watched value, value). */
    method IsWatchingValue(key: Option<K>, value: Option<V>) returns (r: bool)
      requires Valid()
      ensures r == IsWatchingPair(Model(), eq, key, value)
    {
      if value.None? || key.None? {
        return false;
      }
      if IsWatching(key) {
        var inner := bundles[key.value];
        if b :| b in inner && eq(b, value.value) {
          assert b in Model()[key.value];
          return true;
        }
        return false;
      }
      return false;
    }

    /** Every outer key other than `k` holds the bundle states `m` records for it. */
    ghost predicate OthersAsIn(m: Nested<K, V>, k: K)
      reads this, Repr
    {
      Valid() && bundles.Keys - {k} == m.Keys - {k} &&
      forall j | j in bundles && j != k :: j in m && View(bundles[j]) == m[j]
    }

    /**
     * Installs `inner'` as the inner dictionary of `k` (adding `k` when it is
     * new); every bundle of `inner'` is one of `k`'s own or one nobody owns.
     */
    method SetInner(k: K, inner': map<V, SatisfierBundle<V>>, ghost m: Nested<K, V>)
      requires OthersAsIn(m, k) && WellFormed(inner')
      requires forall x | x in inner'.Values :: (k in bundles && x in bundles[k].Values) || x !in Owned(bundles)
      modifies this
      ensures Valid() && Repr <= old(Repr) + inner'.Values
      ensures Model() == m[k := View(inner')]
    {
      ghost var before := bundles;
      assert before.Keys - {k} == m.Keys - {k};
      ReplaceKeepsDisjoint(bundles, k, inner');
      bundles := bundles[k := inner'];
      Repr := {this} + Owned(bundles);
      forall j | j in bundles && j != k
        ensures j in m && View(bundles[j]) == m[j]
      {
        assert bundles[j] == before[j];
      }
      assert bundles.Keys == (before.Keys - {k}) + {k};
      assert bundles.Keys == m[k := View(inner')].Keys;
      assert Model() == m[k := View(inner')];
    }

    method Watch(key: Option<K>, value: Option<V>, d: Event?, u: Event?) returns (count: int)
      requires Valid()
      modifies Repr
      ensures Valid() && fresh(Repr - old(Repr))
      ensures (count, Model()) == ThingWatchView(old(Model()), key, value, d, u)
    {
      if key.None? || value.None? {
        return 0;
      }
      var k := key.value;
      var inner := if k in bundles then bundles[k] else map[];
      ghost var m := Model();
      assert View(inner) == if k in m then m[k] else map[];
      var inner';
      count, inner' := Satisfiers.Watch(value, d, u, inner);
      forall j | j in bundles && j != k
        ensures View(bundles[j]) == m[j]
      {
        assert k in bundles ==> bundles[j].Values !! bundles[k].Values;
      }
      SetInner(k, inner', m);
    }

    method Unwatch(key: Option<K>, value: Option<V>) returns (ok: bool)
      requires Valid()
      modifies Repr
      ensures Valid() && Repr <= old(Repr)
      ensures (ok, Model()) == ThingUnwatchView(old(Model()), eq, key, value)
    {
      var watching := IsWatchingValue(key, value);
      if !watching {
        return false;
      }
      var k := key.value;
      var inner';
      ok, inner' := Satisfiers.Unwatch(value, bundles[k]);
      SetInner(k, inner', Model());
    }

    /** Adds the pre-counted bundle (1,0); the source's Dictionary.Add throws on an identical inner key. */
    method AddBundle(key: Option<K>, value: Option<V>) returns (err: Option<Exception>)
      requires Valid()
      modifies this
      ensures Valid() && fresh(Repr - old(Repr))
      ensures (err, Model()) == ThingAddBundleView(old(Model()), eq, key, value)
    {
      if key.None? || value.None? {
        return None;
      }
      var k, v := key.value, value.value;
      ghost var m := Model();
      if k in bundles {
        var watching := IsWatchingValue(key, value);
        if watching {
          return None;
        }
        if v in bundles[k] {
          return Some(DuplicateKey);
        }
      } else {
        ghost var b := BundleState(v, null, null, 1, 0, 0, 0);
        assert !IsWatchingPair(m[k := map[]], eq, key, value);
        assert m[k := map[]][k := map[][v := b]] == m[k := map[][v := b]];
      }
      AddFresh(k, v);
      err := None;
    }

    /** Adds a pre-counted bundle (1,0) with no callbacks under a value that is not an inner key of `k`. */
    method AddFresh(k: K, v: V)
      requires Valid() && (k in bundles ==> v !in bundles[k])
      modifies this
      ensures Valid() && fresh(Repr - old(Repr))
      ensures Model() == old(Model())[k := (if k in old(Model()) then old(Model())[k] else map[])
                                              [v := BundleState(v, null, null, 1, 0, 0, 0)]]
    {
      var inner := if k in bundles then bundles[k] else map[];
      ghost var m := Model();
      assert View(inner) == if k in m then m[k] else map[];
      var inner' := AddNullBundle(v, inner);
      ghost var after := (if k in m then m[k] else map[])[v := BundleState(v, null, null, 1, 0, 0, 0)];
      forall x | x in inner'.Values
        ensures (k in bundles && x in bundles[k].Values) || x !in Owned(bundles)
      {
      }
      SetInner(k, inner', m);
      assert Model() == m[k := after];
    }

    method RemoveBundle(key: Option<K>, value: Option<V>)
      requires Valid()
      modifies this
      ensures Valid() && Repr <= old(Repr)
      ensures Model() == ThingRemoveBundleView(old(Model()), eq, key, value)
    {
      var watching := IsWatchingValue(key, value);
      if watching {
        var k, v := key.value, value.value;
        var inner' := bundles[k] - {v};
        assert View(inner') == Model()[k] - {v};
        forall x | x in inner'.Values
          ensures x in Repr
        {
          assert x in bundles[k].Values;
        }
        SetInner(k, inner', Model());
      }
    }

    method Step(key: Option<K>, value: Option<V>, unsat: bool) returns (ok: bool)
      requires Valid()
      modifies Repr
      ensures Valid() && Repr == old(Repr)
      ensures ThingStep(old(Model()), Model(), eq, key, value, ok, unsat)
    {
      var watching := IsWatchingValue(key, value);
      if !watching {
        return false;
      }
      var k := key.value;
      ok := StepOn(eq, value, bundles[k], unsat);
      forall j | j in bundles && j != k
        ensures View(bundles[j]) == old(Model())[j]
      {
        assert bundles[j].Values !! bundles[k].Values;
      }
    }

    method Satisfy(key: Option<K>, value: Option<V>) returns (ok: bool)
      requires Valid()
      modifies Repr
      ensures Valid() && Repr == old(Repr)
      ensures ThingStep(old(Model()), Model(), eq, key, value, ok, false)
    {
      ok := Step(key, value, false);
    }

    method Unsatisfy(key: Option<K>, value: Option<V>) returns (ok: bool)
      requires Valid()
      modifies Repr
      ensures Valid() && Repr == old(Repr)
      ensures ThingStep(old(Model()), Model(), eq, key, value, ok, true)
    {
      ok := Step(key, value, true);
    }
  }
}

=== FILE: thing_serializer.dfy ===
/**
 * ThingSerializer: the registry of serializable things, a dictionary from
 * identifier text to thing. Runtime/Serializer/ThingSerializer.cs, with the
 * identifier objects of Runtime/Serializer/ThingID.cs and the default
 * methods of Runtime/Serializer/ISerializableThing.cs.
 *
 * The dictionary is a static field in the source; here it is the `entries`
 * field of the one ThingSerializer object every caller is given. ThingID
 * objects are compared by reference, as the source does (the class does not
 * override equality); two of them may carry the same text. A new GUID is
 * random: its text is a parameter of the operations that create one.
 */
module ThingSerializers {
  import opened Wrappers

  /** The text of Guid.Empty, the identifier of ThingID.m_EMPTY. */
  const EMPTY_GUID: string := "00000000-0000-0000-0000-000000000000"

  /** A ThingID: its text (`Id`) never changes after construction. */
  class ThingId {
    const id: string

    constructor (text: string)
      ensures id == text
    {
      id := text;
    }
  }

  /**
   * An ISerializableThing: its Identifier property, and the runtime type
   * `kind` that `as K` casts test.
   */
  class Thing {
    var identifier: ThingId?
    const kind: nat

    constructor (k: nat)
      ensures identifier == null && kind == k
    {
      identifier := null;
      kind := k;
    }
  }

  /** The outcome of Register on the dictionary's value. */
  datatype Registration<T> = Registration(
    added: bool,                 // the result of Register
    error: Option<Exception>,    // the exception of Dictionary.Add, if any
    entries: map<string, T>,     // the dictionary afterwards
    id: string)                  // the text of the thing's identifier afterwards

  /**
   * Register on the dictionary: `id` is the text of the thing's identifier
   * (None when it has none, in which case Persist creates one from
   * `persistGuid`). A thing already mapped under its identifier is not
   * added; under an identifier held by another thing it takes a new one from
   * `duplicateGuid` and is added. Dictionary.Add throws when the identifier
   * it adds is already a key.
   */
  function RegisterView<T(==)>(entries: map<string, T>, thing: T, id: Option<string>,
                               persistGuid: string, duplicateGuid: string): (r: Registration<T>)
    ensures r.id == (if id.Some? then id.value else persistGuid) || r.id == duplicateGuid
    ensures r.error.Some? ==> r.error == Some(DuplicateKey) && r.entries == entries && !r.added
    ensures r.error.None? && !r.added ==> r.entries == entries && r.id in entries && entries[r.id] == thing
    ensures r.added ==> r.error.None? && r.id !in entries && r.entries == entries[r.id := thing]
  {
    var id0 := if id.Some? then id.value else persistGuid;
    if id0 in entries && entries[id0] == thing then
      Registration(false, None, entries, id0)
    else
      var id1 := if id0 in entries then duplicateGuid else id0;
      if id1 in entries then Registration(false, Some(DuplicateKey), entries, id1)
      else Registration(true, None, entries[id1 := thing], id1)
  }

  /** Unregister on the dictionary: the entry goes only when it maps the thing's identifier to that thing. */
  function UnregisterView<T(==)>(entries: map<string, T>, thing: T, id: string): (r: map<string, T>)
    ensures id in entries && entries[id] == thing ==> id !in r && entries == r[id := thing]
    ensures !(id in entries && entries[id] == thing) ==> r == entries
  {
    if id in entries && entries[id] == thing then entries - {id} else entries
  }

  /** After a Register that does not throw, the thing's identifier maps to the thing. */
  lemma RegisterFinds<T>(entries: map<string, T>, thing: T, id: Option<string>, g1: string, g2: string)
    requires RegisterView(entries, thing, id, g1, g2).error.None?
    ensures var r := RegisterView(entries, thing, id, g1, g2);
            r.id in r.entries && r.entries[r.id] == thing
  {
  }

  /** Register never drops or rebinds an existing entry. */
  lemma RegisterKeeps<T>(entries: map<string, T>, thing: T, id: Option<string>, g1: string, g2: string)
    ensures var r := RegisterView(entries, thing, id, g1, g2);
            forall k | k in entries :: k in r.entries && r.entries[k] == entries[k]
  {
  }

  /** Registering again under the identifier just obtained changes nothing and returns false. */
  lemma RegisterTwice<T>(entries: map<string, T>, thing: T, id: Option<string>, g1: string, g2: string,
                         g3: string, g4: string)
    requires RegisterView(entries, thing, id, g1, g2).error.None?
    ensures var r := RegisterView(entries, thing, id, g1, g2);
            RegisterView(r.entries, thing, Some(r.id), g3, g4) == Registration(false, None, r.entries, r.id)
  {
  }

  /** Unregister undoes a Register that added the thing. */
  lemma UnregisterUndoesRegister<T>(entries: map<string, T>, thing: T, id: Option<string>, g1: string, g2: string)
    requires RegisterView(entries, thing, id, g1, g2).added
    ensures var r := RegisterView(entries, thing, id, g1, g2);
            UnregisterView(r.entries, thing, r.id) == entries
  {
    var r := RegisterView(entries, thing, id, g1, g2);
    assert r.entries - {r.id} == entries;
  }

  /** Persist: a thing without an identifier gets a new one. */
  method Persist(thing: Thing, guid: string)
    modifies thing
    ensures old(thing.identifier) != null ==> thing.identifier == old(thing.identifier)
    ensures old(thing.identifier) == null ==>
              thing.identifier != null && fresh(thing.identifier) && thing.identifier.id == guid
  {
    if thing.identifier == null {
      thing.identifier := new ThingId(guid);
    }
  }

  /** OnDuplicate: the thing always gets a new identifier. */
  method OnDuplicate(thing: Thing, guid: string)
    modifies thing
    ensures thing.identifier != null && fresh(thing.identifier) && thing.identifier.id == guid
  {
    thing.identifier := new ThingId(guid);
  }

  class ThingSerializer {
    var entries: map<string, Thing>   // m_Map
    const empty: ThingId              // ThingID.m_EMPTY

    /** The registry as the program starts: no entries. */
    constructor ()
      ensures entries == map[] && fresh(empty) && empty.id == EMPTY_GUID
    {
      entries := map[];
      empty := new ThingId(EMPTY_GUID);
    }

    /**
     * Get: null for a null identifier, for the empty identifier object and
     * for an identifier whose text is not a key; otherwise the thing mapped
     * under its text.
     */
    function Get(id: ThingId?): (r: Thing?)
      reads this
      ensures r == null <==> id == null || id == empty || id.id !in entries
      ensures r != null ==> r == entries[id.id]
    {
      if id == null || id == empty || id.id !in entries then null else entries[id.id]
    }

    /** Register: RegisterView on the dictionary and on the thing's identifier; a null thing is refused. */
    method Register(thing: Thing?, persistGuid: string, duplicateGuid: string)
      returns (added: bool, err: Option<Exception>)
      modifies this, thing
      ensures thing == null ==> !added && err.None? && entries == old(entries)
      ensures thing != null ==>
                var r := RegisterView(old(entries), thing,
                                      if old(thing.identifier) == null then None else Some(old(thing.identifier.id)),
                                      persistGuid, duplicateGuid);
                && added == r.added && err == r.error && entries == r.entries
                && thing.identifier != null && thing.identifier.id == r.id
      ensures thing != null && old(thing.identifier) != null && old(thing.identifier.id) in old(entries) &&
              old(entries)[old(thing.identifier.id)] == thing ==>
                thing.identifier == old(thing.identifier)
    {
      if thing == null {
        return false, None;
      }
      Persist(thing, persistGuid);
      var id := thing.identifier;
      var keyPresent := id.id in entries;
      var keyEquals := keyPresent && entries[id.id] == thing;
      if !keyEquals {
        if keyPresent {
          OnDuplicate(thing, duplicateGuid);
          id := thing.identifier;
        }
        if id.id in entries {
          return false, Some(DuplicateKey);
        }
        entries := entries[id.id := thing];
        return true, None;
      }
      return false, None;
    }

    /**
     * Unregister: UnregisterView under the thing's identifier; a null thing
     * or a thing without an identifier is a null dereference.
     */
    method Unregister(thing: Thing?) returns (err: Option<Exception>)
      modifies this
      ensures thing == null || thing.identifier == null ==> err == Some(NullReference) && entries == old(entries)
      ensures thing != null && thing.identifier != null ==>
                err.None? && entries == UnregisterView(old(entries), thing, thing.identifier.id)
    {
      if thing == null || thing.identifier == null {
        return Some(NullReference);
      }
      var id := thing.identifier;
      var keyPresent := id.id in entries;
      var keyEquals := keyPresent && entries[id.id] == thing;
      if keyPresent && keyEquals {
        entries := entries - {id.id};
      }
      err := None;
    }
  }
}

=== FILE: thing_tool.dfy ===
/**
 * The asset-name suffix parser of the asset-creation window
 * (Editor/ThingTool.cs): it recognises an enumerating suffix such as
 * "_3", " 3", "(3)" or "[3]" at the end of an asset name, so that copies
 * go on counting from it.
 *
 * A format is a separator and an endcap ("" for none). The string search
 * `LastIndexOf` is ordinal here; the names are plain text.
 */
module ThingTools {
  import opened Wrappers
  import Decimals

  datatype Format = Format(separator: string, endcap: string)

  /** The formats in the order the window tries them. */
  const Formats: seq<Format> := [
    Format(" ", ""), Format("_", ""), Format("(", ")"), Format(" (", ")"),
    Format("[", "]"), Format(" [", "]"), Format("{", "}"), Format(" {", "}")
  ]

  /** `t` occurs in `s` at position `j`. */
  predicate OccursAt(s: string, t: string, j: int)
  {
    0 <= j && j + |t| <= |s| && s[j..j + |t|] == t
  }

  /** The last occurrence of `t` in `s` that starts at or before `k`, or -1. */
  function LastIndexOfFrom(s: string, t: string, k: int): (r: int)
    requires k <= |s| - |t|
    ensures r == -1 || 0 <= r <= k
    ensures r >= 0 ==> OccursAt(s, t, r)
    ensures forall j | r < j <= k :: !OccursAt(s, t, j)
    decreases k + 1
  {
    if k < 0 then -1 else if s[k..k + |t|] == t then k else LastIndexOfFrom(s, t, k - 1)
  }

  /** String.LastIndexOf(t): the start of the last occurrence of `t` in `s`, or -1. */
  function LastIndexOf(s: string, t: string): (r: int)
    ensures r == -1 || 0 <= r <= |s| - |t|
    ensures r >= 0 ==> OccursAt(s, t, r)
    ensures forall j | r < j :: !OccursAt(s, t, j)
  {
    if |t| > |s| then -1 else LastIndexOfFrom(s, t, |s| - |t|)
  }

  /** An occurrence with no later one is the last occurrence. */
  lemma LastIndexOfIs(s: string, t: string, p: int)
    requires OccursAt(s, t, p)
    requires forall j | p < j <= |s| - |t| :: !OccursAt(s, t, j)
    ensures LastIndexOf(s, t) == p
  {
  }

  /**
   * The arguments the parser is called with: a non-empty separator, an
   * endcap of at most one character, and a one-character separator that
   * differs from the endcap. Under these the text it reads is in range.
   */
  predicate Separable(separator: string, endcap: string)
  {
    |separator| >= 1 && |endcap| <= 1 &&
    (|separator| == 1 && |endcap| == 1 ==> separator[0] != endcap[0])
  }

  /**
   * No endcap is expected, or the last occurrence of the endcap is the
   * final character.
   */
  predicate EndcapOk(name: string, endcap: string): (b: bool)
    ensures b && endcap != "" && |endcap| <= |name| ==> OccursAt(name, endcap, |name| - |endcap|)
    ensures b && |endcap| == 1 && name != [] ==> name[|name| - 1] == endcap[0]
  {
    var shouldHaveEndcap := endcap != "";
    var hasCorrectEndCap := LastIndexOf(name, endcap) == |name| - 1;
    !(shouldHaveEndcap && !hasCorrectEndCap)
  }

  /** int.TryParse of name.Substring(start, length): the number, or -1 for "no number". */
  function ReadNumber(name: string, start: int, length: int): (r: int)
    requires 0 <= start && 0 <= length && start + length <= |name|
    ensures r == -1 || Decimals.INT32_MIN <= r <= Decimals.INT32_MAX
  {
    var parsed := Decimals.TryParse(name[start..start + length]);
    if parsed.Some? then parsed.value else -1
  }

  /** Past both checks, the separator ends before the endcap, so the text read is in range. */
  lemma SeparatorBeforeEndcap(name: string, separator: string, endcap: string)
    requires Separable(separator, endcap)
    requires LastIndexOf(name, separator) != -1 && EndcapOk(name, endcap)
    ensures LastIndexOf(name, separator) + 1 <= |name| - |endcap|
  {
    var i := LastIndexOf(name, separator);
    if |separator| == 1 && |endcap| == 1 {
      assert name[i] == name[i..i + 1][0] == separator[0];
    }
  }

  /** The same bounds read the same number. */
  lemma ReadSame(name: string, start: int, length: int, start': int, length': int)
    requires 0 <= start && 0 <= length && start + length <= |name| && start == start' && length == length'
    ensures ReadNumber(name, start, length) == ReadNumber(name, start', length')
  {
  }

  /**
   * GetEnumeratorValue as written: -1 without the separator, or without the
   * endcap as final character; otherwise the text from the character after
   * the START of the last separator up to the endcap, parsed as an Int32,
   * or -1.
   */
  function EnumeratorValue(name: string, separator: string, endcap: string): (r: int)
    requires Separable(separator, endcap)
    ensures r == -1 || Decimals.INT32_MIN <= r <= Decimals.INT32_MAX
    ensures LastIndexOf(name, separator) == -1 ==> r == -1
    ensures !EndcapOk(name, endcap) ==> r == -1
  {
    var isSeparated := LastIndexOf(name, separator);
    if isSeparated == -1 then -1
    else
      if !EndcapOk(name, endcap) then -1
      else
        SeparatorBeforeEndcap(name, separator, endcap);
        var endValue := |name| - isSeparated - (if endcap != "" then 2 else 1);
        ReadNumber(name, isSeparated + 1, endValue)
  }

  /**
   * The evidently intended GetEnumeratorValue: the text starts after the
   * whole separator, not after its first character.
   */
  function CorrectedValue(name: string, separator: string, endcap: string): (r: int)
    requires Separable(separator, endcap)
    ensures r == -1 || Decimals.INT32_MIN <= r <= Decimals.INT32_MAX
    ensures LastIndexOf(name, separator) == -1 ==> r == -1
    ensures !EndcapOk(name, endcap) ==> r == -1
  {
    var isSeparated := LastIndexOf(name, separator);
    if isSeparated == -1 then -1
    else if !EndcapOk(name, endcap) then -1
    else
      var start := isSeparated + |separator|;
      if start > |name| - |endcap| then -1
      else ReadNumber(name, start, |name| - |endcap| - start)
  }

  /** Text that starts with a character other than white space, a sign or a digit reads as no number. */
  lemma ReadRejectsSymbol(name: string, start: int, length: int)
    requires 0 <= start && 0 <= length && start + length <= |name|
    requires length > 0 ==> !Decimals.IsWhite(name[start]) && !Decimals.IsDigit(name[start]) &&
                            name[start] != '-' && name[start] != '+'
    ensures ReadNumber(name, start, length) == -1
  {
    if length > 0 {
      Decimals.ParseRejectsLeadingSymbol(name[start..start + length]);
    }
  }

  /** Past both checks, the code as written reads the text after the separator's first character. */
  lemma EnumeratorReads(name: string, separator: string, endcap: string)
    requires Separable(separator, endcap)
    requires LastIndexOf(name, separator) != -1 && EndcapOk(name, endcap)
    ensures LastIndexOf(name, separator) + 1 <= |name| - |endcap|
    ensures EnumeratorValue(name, separator, endcap) ==
            ReadNumber(name, LastIndexOf(name, separator) + 1,
                       |name| - LastIndexOf(name, separator) - (if endcap != "" then 2 else 1))
  {
    SeparatorBeforeEndcap(name, separator, endcap);
  }

  /** Past both checks, the intended parser reads the text after the whole separator, when there is any. */
  lemma CorrectedReads(name: string, separator: string, endcap: string)
    requires Separable(separator, endcap)
    requires LastIndexOf(name, separator) != -1 && EndcapOk(name, endcap)
    requires LastIndexOf(name, separator) + |separator| <= |name| - |endcap|
    ensures CorrectedValue(name, separator, endcap) ==
            ReadNumber(name, LastIndexOf(name, separator) + |separator|,
                       |name| - |endcap| - (LastIndexOf(name, separator) + |separator|))
  {
  }

  /** For a one-character separator the code as written reads the intended text. */
  lemma SingleCharAsIntended(name: string, separator: string, endcap: string)
    requires Separable(separator, endcap) && |separator| == 1
    ensures EnumeratorValue(name, separator, endcap) == CorrectedValue(name, separator, endcap)
  {
    var i := LastIndexOf(name, separator);
    if i != -1 && EndcapOk(name, endcap) {
      EnumeratorReads(name, separator, endcap);
      CorrectedReads(name, separator, endcap);
      ReadSame(name, i + 1, |name| - i - (if endcap != "" then 2 else 1),
               i + |separator|, |name| - |endcap| - (i + |separator|));
    }
  }

  /**
   * As written, a two-character separator whose second character is a
   * bracket (" (", " [", " {") never yields a value: the text read starts
   * with that bracket, which Int32 parsing rejects.
   */
  lemma TwoCharSeparatorNeverParses(name: string, separator: string, endcap: string)
    requires Separable(separator, endcap) && |separator| == 2
    requires !Decimals.IsWhite(separator[1]) && !Decimals.IsDigit(separator[1])
    requires separator[1] != '-' && separator[1] != '+'
    ensures EnumeratorValue(name, separator, endcap) == -1
  {
    var i := LastIndexOf(name, separator);
    if i != -1 && EndcapOk(name, endcap) {
      SeparatorBeforeEndcap(name, separator, endcap);
      assert name[i..i + 2] == separator;
      assert name[i + 1] == separator[1];
      ReadRejectsSymbol(name, i + 1, |name| - i - (if endcap != "" then 2 else 1));
    }
  }

  /** The name the window gives a numbered copy: base name, separator, number, endcap. */
  function Numbered(base: string, f: Format, n: int): (name: string)
    ensures |name| == |base| + |f.separator| + |Decimals.ToDecimal(n)| + |f.endcap|
  {
    base + f.separator + Decimals.ToDecimal(n) + f.endcap
  }

  /**
   * A format that a numbered name can be read back from: its separator
   * does not start with a digit, a minus sign, the endcap, or a character
   * that recurs later in the separator.
   */
  predicate Suffixable(f: Format)
  {
    Separable(f.separator, f.endcap) && !Decimals.IsDigit(f.separator[0]) && f.separator[0] != '-' &&
    (f.endcap != "" ==> f.separator[0] != f.endcap[0]) &&
    forall i | 1 <= i < |f.separator| :: f.separator[i] != f.separator[0]
  }

  /** Every character of a number's text is a digit or the minus sign. */
  lemma DecimalChars(n: int)
    ensures forall i | 0 <= i < |Decimals.ToDecimal(n)| ::
      Decimals.IsDigit(Decimals.ToDecimal(n)[i]) || Decimals.ToDecimal(n)[i] == '-'
  {
    if n < 0 {
      var d := Decimals.Digits(-n);
      assert Decimals.ToDecimal(n) == "-" + d;
      forall i | 1 <= i < |Decimals.ToDecimal(n)|
        ensures Decimals.IsDigit(Decimals.ToDecimal(n)[i])
      {
        assert Decimals.ToDecimal(n)[i] == d[i - 1];
      }
    }
  }

  /** In a numbered name the separator placed after the base name is its last occurrence. */
  lemma NumberedSeparator(base: string, f: Format, n: int)
    requires Suffixable(f)
    ensures LastIndexOf(Numbered(base, f, n), f.separator) == |base|
  {
    var name := Numbered(base, f, n);
    var d := Decimals.ToDecimal(n);
    var sep := f.separator;
    assert name[|base|..|base| + |sep|] == sep;
    DecimalChars(n);
    forall j | |base| < j <= |name| - |sep|
      ensures !OccursAt(name, sep, j)
    {
      if j < |base| + |sep| {
        assert name[j] == sep[j - |base|];
      } else if j < |base| + |sep| + |d| {
        assert name[j] == d[j - |base| - |sep|];
      } else {
        assert name[j] == f.endcap[0];
      }
      assert name[j..j + |sep|][0] == name[j];
    }
    LastIndexOfIs(name, sep, |base|);
  }

  /** The intended parser reads back the number of every numbered name, in every suffixable format. */
  lemma CorrectedRoundTrip(base: string, f: Format, n: int)
    requires Suffixable(f) && Decimals.INT32_MIN <= n <= Decimals.INT32_MAX
    ensures CorrectedValue(Numbered(base, f, n), f.separator, f.endcap) == n
  {
    var name := Numbered(base, f, n);
    var d := Decimals.ToDecimal(n);
    NumberedSeparator(base, f, n);
    if f.endcap != "" {
      assert name[|name| - 1..] == f.endcap;
      LastIndexOfIs(name, f.endcap, |name| - 1);
    }
    assert name[|base| + |f.separator|..|name| - |f.endcap|] == d;
    Decimals.ParseOfDecimal(n);
  }

  /** The formats the window tries are all suffixable. */
  lemma FormatsSuffixable()
    ensures forall i | 0 <= i < |Formats| :: Suffixable(Formats[i])
  {
  }

  /** Concretely: "Sword (3)" read in the " (" format gives -1 as written, 3 as intended. */
  lemma SpacedParenthesesExample()
    ensures EnumeratorValue("Sword (3)", " (", ")") == -1
    ensures CorrectedValue("Sword (3)", " (", ")") == 3
  {
    TwoCharSeparatorNeverParses("Sword (3)", " (", ")");
    assert Numbered("Sword", Format(" (", ")"), 3) == "Sword (3)";
    CorrectedRoundTrip("Sword", Format(" (", ")"), 3);
  }

  /**
   * FirstOrDefault over the (format, value) results for a value other than
   * -1; the default pair has value 0, and a first value of 0 — found or
   * default — answers ("", "") with -1.
   */
  function FirstMatch(results: seq<(Format, int)>): (r: (Format, int))
    ensures r.1 == -1 || r.1 != 0
    ensures r.1 == -1 ==> r.0 == Format("", "")
    ensures r.1 != -1 ==> exists i | 0 <= i < |results| :: results[i] == r &&
                            forall j | 0 <= j < i :: results[j].1 == -1
    ensures r.1 == -1 ==> forall i | 0 <= i < |results| ::
                            results[i].1 == -1 || results[i].1 == 0 ||
                            exists j | 0 <= j < i :: results[j].1 != -1
  {
    if results == [] then (Format("", ""), -1)
    else if results[0].1 != -1 then
      (if results[0].1 == 0 then (Format("", ""), -1) else results[0])
    else
      var r := FirstMatch(results[1..]);
      if r.1 != -1 then
        var i :| 0 <= i < |results[1..]| && results[1..][i] == r && forall j | 0 <= j < i :: results[1..][j].1 == -1;
        assert results[i + 1] == r;
        r
      else
        assert forall i | 1 <= i < |results| :: results[i] == results[1..][i - 1];
        r
  }

  /** The value of every format for a name, in the order they are tried. */
  function Results(name: string): (rs: seq<(Format, int)>)
    ensures |rs| == |Formats|
    ensures forall i | 0 <= i < |Formats| :: rs[i].0 == Formats[i]
  {
    FormatsSuffixable();
    seq(|Formats|, i requires 0 <= i < |Formats| =>
      (Formats[i], EnumeratorValue(name, Formats[i].separator, Formats[i].endcap)))
  }

  /** Each result holds the value of its format. */
  lemma ResultValue(name: string, i: int)
    requires 0 <= i < |Formats|
    ensures Separable(Formats[i].separator, Formats[i].endcap)
    ensures Results(name)[i].1 == EnumeratorValue(name, Formats[i].separator, Formats[i].endcap)
  {
    FormatsSuffixable();
  }

  /** GetEnumeratorSuffix: the first format whose value is not -1, with that value. */
  function EnumeratorSuffix(name: string): (r: (Format, int))
    ensures r.1 == -1 ==> r.0 == Format("", "")
    ensures r.1 != -1 ==>
              r.1 != 0 &&
              exists i | 0 <= i < |Formats| ::
                && r.0 == Formats[i]
                && Separable(r.0.separator, r.0.endcap)
                && r.1 == EnumeratorValue(name, r.0.separator, r.0.endcap)
                && forall j | 0 <= j < i :: Results(name)[j].1 == -1
  {
    ResultsValues(name);
    FirstMatch(Results(name))
  }

  /** Every result holds the value of its format. */
  lemma ResultsValues(name: string)
    ensures forall i | 0 <= i < |Formats| ::
              Separable(Formats[i].separator, Formats[i].endcap) &&
              Results(name)[i].1 == EnumeratorValue(name, Formats[i].separator, Formats[i].endcap)
  {
    forall i | 0 <= i < |Formats| {
      ResultValue(name, i);
    }
  }

  /** As written, the three spaced formats yield no value for any name. */
  lemma SpacedFormatsFail(name: string)
    ensures Results(name)[3].1 == -1 && Results(name)[5].1 == -1 && Results(name)[7].1 == -1
  {
    ResultValue(name, 3);
    TwoCharSeparatorNeverParses(name, " (", ")");
    ResultValue(name, 5);
    TwoCharSeparatorNeverParses(name, " [", "]");
    ResultValue(name, 7);
    TwoCharSeparatorNeverParses(name, " {", "}");
  }

  /** When every format that yields a value has a short separator, so does the first match. */
  lemma FirstMatchShort(results: seq<(Format, int)>)
    requires forall k | 0 <= k < |results| && results[k].1 != -1 :: |results[k].0.separator| <= 1
    ensures |FirstMatch(results).0.separator| <= 1
  {
  }

  /** As written, the suffix found is never one of the two-character formats. */
  lemma SuffixNeverSpaced(name: string)
    ensures |EnumeratorSuffix(name).0.separator| <= 1
  {
    var rs := Results(name);
    SpacedFormatsFail(name);
    forall k | 0 <= k < |rs| && rs[k].1 != -1
      ensures |rs[k].0.separator| <= 1
    {
      assert k != 3 && k != 5 && k != 7;
      assert rs[k].0 == Formats[k];
    }
    FirstMatchShort(rs);
  }
}

=== FILE: things_container.dfy ===
/**
 * ThingsContainer<K,V>: a list of (key, value) entries that is also a
 * keyed satisfier of its pairs. A dictionary view of the entries is built
 * on demand and cached until an operation clears it.
 * Runtime/Containers/ThingsContainer.cs.
 *
 * The TSatisfier<K,V> base class part is the `sat` object the container
 * owns. `dict` is the cached m_Dictionary (None for null). Only Remove,
 * Nullify and EnableSatisfier clear the cache; Add and EraseValues leave
 * it as it was, exactly as the source does.
 */
module ThingsContainers {
  import opened Wrappers
  import opened Bundles
  import opened ThingSatisfiers
  import opened CSatisfiers
  import Lists

  /** A ThingEntry: a key and a value, either of which may be null. */
  datatype Entry<K, V> = Entry(key: Option<K>, value: Option<V>)

  // ---------------------------------------------------------------------
  // The Dictionary getter
  // ---------------------------------------------------------------------

  /**
   * The rebuild of the Dictionary getter: Dictionary.Add of every entry in
   * list order. A null key or a repeated key throws, leaving the
   * dictionary built so far (the getter stores it before the loop).
   */
  function Build<K(==), V>(es: seq<Entry<K, V>>): (map<K, Option<V>>, Option<Exception>)
  {
    if |es| == 0 then (map[], None)
    else
      var (d, err) := Build(es[..|es| - 1]);
      var e := es[|es| - 1];
      if err.Some? then (d, err)
      else if e.key.None? then (d, Some(ArgumentNull))
      else if e.key.value in d then (d, Some(DuplicateKey))
      else (d[e.key.value := e.value], None)
  }

  /** No entry has a null key and no two entries share one. */
  predicate UniqueKeys<K(==), V>(es: seq<Entry<K, V>>)
  {
    (forall i | 0 <= i < |es| :: es[i].key.Some?) &&
    (forall i, j | 0 <= i < j < |es| :: es[i].key != es[j].key)
  }

  /** `d` holds exactly the entries' keys, each with its entry's value. */
  ghost predicate Represents<K, V>(d: map<K, Option<V>>, es: seq<Entry<K, V>>)
  {
    (forall i | 0 <= i < |es| :: es[i].key.Some? && es[i].key.value in d && d[es[i].key.value] == es[i].value) &&
    (forall k | k in d :: exists i | 0 <= i < |es| :: es[i].key == Some(k))
  }

  /** At most one dictionary represents a list. */
  lemma RepresentsDetermines<K, V>(d1: map<K, Option<V>>, d2: map<K, Option<V>>, es: seq<Entry<K, V>>)
    requires Represents(d1, es) && Represents(d2, es)
    ensures d1 == d2
  {
    forall k | k in d1 ensures k in d2 && d1[k] == d2[k] {
      var i :| 0 <= i < |es| && es[i].key == Some(k);
    }
    forall k | k in d2 ensures k in d1 {
      var i :| 0 <= i < |es| && es[i].key == Some(k);
    }
  }

  /**
   * The rebuild succeeds exactly when the keys are non-null and distinct;
   * it then holds every entry's key with that entry's value and nothing
   * else. A failure is one of the two exceptions Dictionary.Add throws.
   */
  lemma {:induction false} BuildSucceedsIff<K, V>(es: seq<Entry<K, V>>)
    ensures Build(es).1.None? <==> UniqueKeys(es)
    ensures Build(es).1.None? ==> Represents(Build(es).0, es)
    ensures Build(es).1 == None || Build(es).1 == Some(ArgumentNull) || Build(es).1 == Some(DuplicateKey)
  {
    if |es| > 0 {
      var init, e := es[..|es| - 1], es[|es| - 1];
      assert es == init + [e];
      BuildSucceedsIff(init);
      var (d, err) := Build(init);
      if err.Some? {
        UniqueKeysOfPrefix(init, e);
      } else if e.key.None? {
        assert (init + [e])[|init|].key.None?;
      } else if e.key.value in d {
        var i :| 0 <= i < |init| && init[i].key == e.key;
        assert (init + [e])[i].key == (init + [e])[|init|].key;
      } else {
        RepresentsAppend(d, init, e);
      }
    }
  }

  /** A list whose prefix has a null or repeated key has one too. */
  lemma UniqueKeysOfPrefix<K, V>(init: seq<Entry<K, V>>, e: Entry<K, V>)
    ensures UniqueKeys(init + [e]) ==> UniqueKeys(init)
  {
    if UniqueKeys(init + [e]) {
      forall i | 0 <= i < |init| ensures init[i] == (init + [e])[i] {
      }
    }
  }

  /** Appending an entry with a new non-null key keeps the keys unique and the dictionary representing. */
  lemma RepresentsAppend<K, V>(d: map<K, Option<V>>, init: seq<Entry<K, V>>, e: Entry<K, V>)
    requires UniqueKeys(init) && Represents(d, init) && e.key.Some? && e.key.value !in d
    ensures UniqueKeys(init + [e]) && Represents(d[e.key.value := e.value], init + [e])
  {
    var es := init + [e];
    forall i | 0 <= i < |init| ensures es[i] == init[i] && es[i].key != e.key {
    }
    forall k | k in d[e.key.value := e.value] ensures exists i | 0 <= i < |es| :: es[i].key == Some(k) {
      if k == e.key.value {
        assert es[|init|].key == Some(k);
      } else {
        var i :| 0 <= i < |init| && init[i].key == Some(k);
        assert es[i].key == Some(k);
      }
    }
  }

  /** What a read of the Dictionary property yields: the cache, or a rebuild (which may throw). */
  function DictionaryView<K(==), V>(cache: Option<map<K, Option<V>>>, es: seq<Entry<K, V>>)
    : (map<K, Option<V>>, Option<Exception>)
  {
    if cache.Some? then (cache.value, None) else Build(es)
  }

  /** The index the first FindIndex of Remove and Nullify looks up: the first entry with the key. */
  function KeyIndex<K(==), V>(es: seq<Entry<K, V>>, k: K): int
  {
    Lists.FindIndex(es, (e: Entry<K, V>) => e.key == Some(k))
  }

  /** The later FindIndex of Nullify: the first entry with the key and a non-null value. */
  function KeyValueIndex<K(==), V>(es: seq<Entry<K, V>>, k: K): int
  {
    Lists.FindIndex(es, (e: Entry<K, V>) => e.key == Some(k) && e.value.Some?)
  }

  /**
   * With unique keys, a key the rebuilt dictionary holds sits at exactly
   * one entry, and that entry's value is the one the dictionary holds.
   */
  lemma KeyIndexOfBuiltKey<K, V>(es: seq<Entry<K, V>>, k: K)
    requires Build(es).1.None? && k in Build(es).0
    ensures UniqueKeys(es)
    ensures 0 <= KeyIndex(es, k) < |es| && es[KeyIndex(es, k)] == Entry(Some(k), Build(es).0[k])
    ensures forall j | 0 <= j < |es| && j != KeyIndex(es, k) :: es[j].key != Some(k)
  {
    BuildSucceedsIff(es);
    var i :| 0 <= i < |es| && es[i].key == Some(k);
    var p := (e: Entry<K, V>) => e.key == Some(k);
    assert p(es[i]);
  }

  /** Remove's effect on the list: the first entry with the key is dropped. */
  function WithoutKey<K(==), V>(es: seq<Entry<K, V>>, k: K): seq<Entry<K, V>>
  {
    var i := KeyIndex(es, k);
    if i < 0 then es else Lists.RemoveAt(es, i)
  }

  /** Nullify's effect on the list: the first entry with the key keeps its key and loses its value. */
  function WithKeyNulled<K(==), V>(es: seq<Entry<K, V>>, k: K): seq<Entry<K, V>>
  {
    var i := KeyIndex(es, k);
    if i < 0 then es else es[i := Entry(Some(k), None)]
  }

  /** With unique keys, removing the entry of a key leaves no entry with it. */
  lemma RemovingTheOnlyKey<K, V>(es: seq<Entry<K, V>>, i: nat, k: K)
    requires UniqueKeys(es) && i < |es| && es[i].key == Some(k)
    ensures KeyIndex(Lists.RemoveAt(es, i), k) == -1
  {
    var r := Lists.RemoveAt(es, i);
    forall j | 0 <= j < |r| ensures r[j].key != Some(k) {
      if j < i {
        assert r[j] == es[j];
      } else {
        assert r[j] == es[j + 1];
      }
    }
  }

  /** With unique keys, nulling the entry of a key leaves no entry with it and a value. */
  lemma NullingTheOnlyKey<K, V>(es: seq<Entry<K, V>>, i: nat, k: K)
    requires UniqueKeys(es) && i < |es| && es[i].key == Some(k)
    ensures KeyValueIndex(es[i := Entry(Some(k), None)], k) == -1
  {
  }

  /** Dropping an entry keeps the keys unique. */
  lemma RemoveAtKeepsUnique<K, V>(es: seq<Entry<K, V>>, i0: nat)
    requires UniqueKeys(es) && i0 < |es|
    ensures UniqueKeys(Lists.RemoveAt(es, i0))
  {
    var r := Lists.RemoveAt(es, i0);
    forall i | 0 <= i < |r| ensures r[i] == es[if i < i0 then i else i + 1] {
    }
  }

  /** Dropping the entry of a key from a represented list represents the dictionary without the key. */
  lemma RemoveAtRepresents<K, V>(es: seq<Entry<K, V>>, d: map<K, Option<V>>, i0: nat, k: K)
    requires UniqueKeys(es) && Represents(d, es) && i0 < |es| && es[i0].key == Some(k)
    ensures Represents(d - {k}, Lists.RemoveAt(es, i0))
  {
    var r := Lists.RemoveAt(es, i0);
    forall i | 0 <= i < |r| ensures r[i] == es[if i < i0 then i else i + 1] {
    }
    forall k' | k' in d - {k} ensures exists i | 0 <= i < |r| :: r[i].key == Some(k') {
      var i :| 0 <= i < |es| && es[i].key == Some(k');
      assert r[if i < i0 then i else i - 1] == es[i];
    }
  }

  /**
   * Replacing the value of the entry of a key in a represented list (by
   * null, or by another value) represents the dictionary with the key
   * mapped to the new value.
   */
  lemma SetAtRepresents<K, V>(es: seq<Entry<K, V>>, d: map<K, Option<V>>, i0: nat, k: K, v: Option<V>)
    requires UniqueKeys(es) && Represents(d, es) && i0 < |es| && es[i0].key == Some(k)
    ensures UniqueKeys(es[i0 := Entry(Some(k), v)]) && Represents(d[k := v], es[i0 := Entry(Some(k), v)])
  {
    var r := es[i0 := Entry(Some(k), v)];
    forall i | 0 <= i < |r|
      ensures r[i].key.Some? && r[i].key.value in d[k := v] && d[k := v][r[i].key.value] == r[i].value
    {
      if i != i0 {
        assert r[i] == es[i] && es[i].key != Some(k);
      }
    }
    forall k' | k' in d[k := v] ensures exists i | 0 <= i < |r| :: r[i].key == Some(k') {
      var i :| 0 <= i < |es| && es[i].key == Some(k');
      assert r[i].key == Some(k');
    }
  }

  /**
   * After Remove of a key the next rebuild succeeds again and yields the
   * dictionary from before without that key.
   */
  lemma {:induction false} RebuildAfterRemove<K, V>(es: seq<Entry<K, V>>, k: K)
    requires Build(es).1.None?
    ensures Build(WithoutKey(es, k)) == (Build(es).0 - {k}, None)
  {
    BuildSucceedsIff(es);
    var i0 := KeyIndex(es, k);
    var d := Build(es).0;
    if i0 < 0 {
      assert k !in d;
      assert d - {k} == d;
    } else {
      var r := Lists.RemoveAt(es, i0);
      RemoveAtKeepsUnique(es, i0);
      RemoveAtRepresents(es, d, i0, k);
      BuildSucceedsIff(r);
      RepresentsDetermines(Build(r).0, d - {k}, r);
    }
  }

  /**
   * After Nullify of a key the next rebuild succeeds again and yields the
   * dictionary from before with that key mapped to null.
   */
  lemma {:induction false} RebuildAfterNullify<K, V>(es: seq<Entry<K, V>>, k: K)
    requires Build(es).1.None?
    ensures var d := Build(es).0;
            Build(WithKeyNulled(es, k)) == (if k in d then d[k := None] else d, None)
  {
    BuildSucceedsIff(es);
    var i0 := KeyIndex(es, k);
    var d := Build(es).0;
    if i0 < 0 {
      assert k !in d;
    } else {
      var r := es[i0 := Entry(Some(k), None)];
      SetAtRepresents(es, d, i0, k, None);
      BuildSucceedsIff(r);
      RepresentsDetermines(Build(r).0, d[k := None], r);
    }
  }

  /** The entry of `k` (the first one) with a new value; the list as it was when there is none. */
  function WithKeySet<K(==), V>(es: seq<Entry<K, V>>, k: K, v: V): seq<Entry<K, V>>
  {
    var i := KeyIndex(es, k);
    if i < 0 then es else es[i := Entry(Some(k), Some(v))]
  }

  /** Setting the value of a key the rebuilt dictionary holds: the next rebuild holds the new value. */
  lemma {:induction false} RebuildAfterSet<K, V>(es: seq<Entry<K, V>>, k: K, v: V)
    requires Build(es).1.None? && k in Build(es).0
    ensures Build(WithKeySet(es, k, v)) == (Build(es).0[k := Some(v)], None)
    ensures |WithKeySet(es, k, v)| == |es|
  {
    KeyIndexOfBuiltKey(es, k);
    var i0 := KeyIndex(es, k);
    var d := Build(es).0;
    var r := es[i0 := Entry(Some(k), Some(v))];
    BuildSucceedsIff(es);
    SetAtRepresents(es, d, i0, k, Some(v));
    BuildSucceedsIff(r);
    RepresentsDetermines(Build(r).0, d[k := Some(v)], r);
  }

  /** The equator applied to a stored value and a given one; a null on either side compares by reference. */
  predicate EqualsStored<V>(eq: (V, V) -> bool, stored: Option<V>, value: Option<V>)
  {
    if stored.Some? && value.Some? then eq(stored.value, value.value)
    else stored.None? && value.None?
  }

  /** EraseValues: every entry keeps its key and loses its value. */
  function Erased<K(==), V>(es: seq<Entry<K, V>>): (r: seq<Entry<K, V>>)
    ensures |r| == |es|
  {
    seq(|es|, i requires 0 <= i < |es| => Entry(es[i].key, None))
  }

  /**
   * Erasing keeps what a rebuild decides: it succeeds or throws exactly as
   * before, over the same keys, now all mapped to null.
   */
  lemma {:induction false} ErasedBuildsSameKeys<K, V>(es: seq<Entry<K, V>>)
    ensures Build(Erased(es)).1 == Build(es).1
    ensures Build(Erased(es)).0 == map k | k in Build(es).0 :: None
  {
    if |es| > 0 {
      var init := es[..|es| - 1];
      assert Erased(es)[..|es| - 1] == Erased(init);
      ErasedBuildsSameKeys(init);
    }
  }

  // ---------------------------------------------------------------------
  // The satisfy pass of EnableSatisfier
  // ---------------------------------------------------------------------

  /** One CheckSatisfyOnChange of an entry, whatever Satisfy reported. */
  ghost predicate CheckedOnce<K, V>(m: Nested<K, V>, m': Nested<K, V>, eq: (V, V) -> bool,
                                    e: Entry<K, V>, err: Option<Exception>)
  {
    ThingCheckSatisfy(m, m', eq, e.key, e.value, true, err) ||
    ThingCheckSatisfy(m, m', eq, e.key, e.value, false, err)
  }

  /** One CheckUnsatisfyOnChange of a pair, whatever Unsatisfy reported. */
  ghost predicate UncheckedOnce<K, V>(m: Nested<K, V>, m': Nested<K, V>, eq: (V, V) -> bool,
                                      key: Option<K>, value: Option<V>)
  {
    ThingCheckUnsatisfy(m, m', eq, key, value, true) || ThingCheckUnsatisfy(m, m', eq, key, value, false)
  }

  /**
   * The views a satisfy pass over `es` goes through: one check per entry in
   * list order; an exception ends the pass at the entry that raised it.
   */
  ghost predicate SatisfyChain<K, V>(trace: seq<Nested<K, V>>, eq: (V, V) -> bool,
                                     es: seq<Entry<K, V>>, err: Option<Exception>)
  {
    1 <= |trace| <= |es| + 1 &&
    (forall j | 0 <= j < |trace| - 1 ::
       CheckedOnce(trace[j], trace[j + 1], eq, es[j], if j == |trace| - 2 then err else None)) &&
    (err.None? ==> |trace| == |es| + 1) &&
    (err.Some? ==> |trace| >= 2)
  }

  /** The first `i` entries have been checked, in order, without an exception. */
  ghost predicate PassPrefix<K, V>(trace: seq<Nested<K, V>>, eq: (V, V) -> bool, es: seq<Entry<K, V>>, i: nat)
  {
    i <= |es| && |trace| == i + 1 &&
    forall j | 0 <= j < i :: CheckedOnce(trace[j], trace[j + 1], eq, es[j], None)
  }

  lemma ExtendPass<K, V>(trace: seq<Nested<K, V>>, eq: (V, V) -> bool, es: seq<Entry<K, V>>, i: nat, m': Nested<K, V>)
    requires PassPrefix(trace, eq, es, i) && i < |es|
    requires CheckedOnce(trace[i], m', eq, es[i], None)
    ensures PassPrefix(trace + [m'], eq, es, i + 1)
  {
  }

  /** A pass that checked every entry without an exception. */
  lemma CompletedChain<K, V>(trace: seq<Nested<K, V>>, eq: (V, V) -> bool, es: seq<Entry<K, V>>)
    requires PassPrefix(trace, eq, es, |es|)
    ensures SatisfyChain(trace, eq, es, None)
  {
  }

  /** A pass that ended with the exception of the entry at `i`. */
  lemma AbortedChain<K, V>(trace: seq<Nested<K, V>>, eq: (V, V) -> bool, es: seq<Entry<K, V>>, i: nat,
                           m': Nested<K, V>, err: Option<Exception>)
    requires PassPrefix(trace, eq, es, i) && i < |es| && err.Some?
    requires CheckedOnce(trace[i], m', eq, es[i], err)
    ensures SatisfyChain(trace + [m'], eq, es, err)
  {
  }

  /** A check never drops a key, and a pair with a key and a value ends up covered. */
  lemma CheckedOnceCovers<K, V>(m: Nested<K, V>, m': Nested<K, V>, eq: (V, V) -> bool,
                                e: Entry<K, V>, err: Option<Exception>)
    requires CheckedOnce(m, m', eq, e, err)
    ensures m.Keys <= m'.Keys
    ensures e.key.Some? && e.value.Some? ==> e.key.value in m'
  {
    if e.key.Some? && e.value.Some? {
      if ThingCheckSatisfy(m, m', eq, e.key, e.value, true, err) {
        CheckSatisfyLeavesPairCovered(m, m', eq, e.key.value, e.value.value, true, err);
      } else {
        CheckSatisfyLeavesPairCovered(m, m', eq, e.key.value, e.value.value, false, err);
      }
    }
  }

  /**
   * A satisfy pass that completes leaves every key that was watched, and
   * every key of an entry with a non-null value, in the satisfier.
   */
  lemma {:induction false} SatisfyPassCoversEntries<K, V>(trace: seq<Nested<K, V>>, eq: (V, V) -> bool,
                                                          es: seq<Entry<K, V>>)
    requires SatisfyChain(trace, eq, es, None)
    ensures trace[0].Keys <= trace[|trace| - 1].Keys
    ensures forall i | 0 <= i < |es| && es[i].key.Some? && es[i].value.Some? :: es[i].key.value in trace[|trace| - 1]
  {
    if |es| > 0 {
      var n := |es|;
      assert SatisfyChain(trace[..n], eq, es[..n - 1], None) by {
        forall j | 0 <= j < n - 1
          ensures CheckedOnce(trace[..n][j], trace[..n][j + 1], eq, es[..n - 1][j], None)
        {
          assert CheckedOnce(trace[j], trace[j + 1], eq, es[j], None);
        }
      }
      SatisfyPassCoversEntries(trace[..n], eq, es[..n - 1]);
      CheckedOnceCovers(trace[n - 1], trace[n], eq, es[n - 1], None);
      forall i | 0 <= i < n && es[i].key.Some? && es[i].value.Some? ensures es[i].key.value in trace[n] {
        if i < n - 1 {
          assert es[..n - 1][i] == es[i];
        }
      }
    }
  }

  // ---------------------------------------------------------------------
  // WatchFeedback
  // ---------------------------------------------------------------------

  /**
   * The answer of WatchFeedback once the dictionary has been read: a
   * comparison of the stored value with the given one when the key holds a
   * non-null value, -1 otherwise. A failed read, a null key
   * (ContainsKey(null)) and a null given value (the comparers dereference
   * it) throw.
   */
  function Feedback<K(==), V>(d: map<K, Option<V>>, readErr: Option<Exception>, cmp: (V, V) -> int,
                          key: Option<K>, value: Option<V>): (int, Option<Exception>)
  {
    if readErr.Some? then (0, readErr)
    else if key.None? then (0, Some(ArgumentNull))
    else if key.value in d && d[key.value].Some? then
      if value.None? then (0, Some(NullReference))
      else (cmp(d[key.value].value, value.value), None)
    else (-1, None)
  }

  /**
   * Over a fresh rebuild of entries with unique keys, the feedback for a
   * key compares its entry's value when it has one, and is -1 for a key
   * no entry has or whose value is null.
   */
  lemma FeedbackOfEntries<K, V>(es: seq<Entry<K, V>>, cmp: (V, V) -> int, k: K, v: V)
    requires UniqueKeys(es)
    ensures var (fb, err) := Feedback(Build(es).0, Build(es).1, cmp, Some(k), Some(v));
            err.None? &&
            (forall i | 0 <= i < |es| && es[i].key == Some(k) && es[i].value.Some? ::
               fb == cmp(es[i].value.value, v)) &&
            ((forall i | 0 <= i < |es| :: es[i].key != Some(k) || es[i].value.None?) ==> fb == -1)
  {
    BuildSucceedsIff(es);
    if k in Build(es).0 {
      var i :| 0 <= i < |es| && es[i].key == Some(k);
      assert Build(es).0[k] == es[i].value;
    }
  }

  /**
   * The cache is not cleared by Add: once a dictionary without `k` is
   * cached, adding an entry for `k` leaves WatchFeedback answering -1.
   */
  lemma StaleCacheAfterAdd<K, V>(cached: map<K, Option<V>>, es: seq<Entry<K, V>>, cmp: (V, V) -> int, k: K, v: V)
    requires k !in cached
    ensures var es' := es + [Entry(Some(k), Some(v))];
            es'[|es|] == Entry(Some(k), Some(v)) &&
            Feedback(DictionaryView(Some(cached), es').0, DictionaryView(Some(cached), es').1, cmp, Some(k), Some(v)) == (-1, None)
  {
  }

  class ThingsContainer<K(==, !new), V(==, !new)> {
    var entries: seq<Entry<K, V>>
    var dict: Option<map<K, Option<V>>>
    const sat: TSatisfier<K, V>
    /** The container and the objects of its satisfier. */
    ghost function Repr(): set<object>
      reads sat
    {
      {this} + sat.Repr
    }

    ghost predicate Valid()
      reads sat, sat.Repr
    {
      this !in sat.Repr && sat.Valid()
    }

    /** The watched pairs and their bundles. */
    ghost function Model(): Nested<K, V>
      reads sat, sat.Repr
      requires sat.Valid()
    {
      sat.Model()
    }

    /** A new container: the serialized default list holds one entry with a null key and a null value. */
    constructor (comparer: (V, V) -> int, equality: (V, V) -> bool)
      ensures Valid() && fresh(Repr())
      ensures entries == [Entry(None, None)] && dict == None && Model() == map[]
      ensures sat.cmp == comparer && sat.eq == equality
    {
      entries := [Entry(None, None)];
      dict := None;
      sat := new TSatisfier(comparer, equality);
    }

    /** The Dictionary getter: the cache when there is one, else a rebuild that is cached even when it throws. */
    method Dictionary() returns (d: map<K, Option<V>>, err: Option<Exception>)
      requires Valid()
      modifies this
      ensures Valid() && entries == old(entries) && Model() == old(Model())
      ensures (d, err) == DictionaryView(old(dict), entries) && dict == Some(d)
    {
      if dict.Some? {
        return dict.value, None;
      }
      var b := Build(entries);
      d, err := b.0, b.1;
      dict := Some(d);
    }

    /** `Dictionary = null` followed by a read of Dictionary. */
    method Rebuild() returns (d: map<K, Option<V>>, err: Option<Exception>)
      requires Valid()
      modifies this
      ensures Valid() && entries == old(entries) && Model() == old(Model())
      ensures (d, err) == Build(entries) && dict == Some(d)
    {
      dict := None;
      d, err := Dictionary();
    }

    /** Sets every entry's value to null; the cached dictionary is left as it was. */
    method EraseValues()
      requires Valid()
      modifies this
      ensures Valid() && dict == old(dict) && Model() == old(Model())
      ensures entries == Erased(old(entries))
    {
      var i := 0;
      while i < |entries|
        invariant 0 <= i <= |entries| == |old(entries)|
        invariant forall j | 0 <= j < i :: entries[j] == Entry(old(entries)[j].key, None)
        invariant forall j | i <= j < |entries| :: entries[j] == old(entries)[j]
        invariant Valid() && dict == old(dict) && Model() == old(Model())
      {
        entries := entries[i := Entry(entries[i].key, None)];
        i := i + 1;
      }
    }

    /**
     * Ensures the satisfier, clears the cache and runs the satisfy check of
     * every entry in list order; the first exception ends the pass. The
     * ghost `trace` holds the views the pass goes through.
     */
    method EnableSatisfier() returns (err: Option<Exception>, ghost trace: seq<Nested<K, V>>)
      requires Valid()
      modifies this, sat.Repr
      ensures Valid() && fresh(sat.Repr - old(sat.Repr)) && entries == old(entries) && dict == None
      ensures |trace| >= 1 && trace[0] == old(Model()) && trace[|trace| - 1] == Model()
      ensures SatisfyChain(trace, sat.eq, entries, err)
    {
      EnsureSatisfierAndClear();
      trace := [Model()];
      var i := 0;
      while i < |entries|
        invariant 0 <= i <= |entries| && entries == old(entries) && dict == None
        invariant Valid() && fresh(sat.Repr - old(sat.Repr))
        invariant PassPrefix(trace, sat.eq, entries, i) && trace[0] == old(Model()) && trace[i] == Model()
      {
        ghost var m := Model();
        var e := CheckSatisfyEntry(entries[i]);
        if e.Some? {
          AbortedChain(trace, sat.eq, entries, i, Model(), e);
          trace := trace + [Model()];
          return e, trace;
        }
        ExtendPass(trace, sat.eq, entries, i, Model());
        trace := trace + [Model()];
        i := i + 1;
      }
      CompletedChain(trace, sat.eq, entries);
      err := None;
    }

    /** base.EnableSatisfier() (which ensures the satisfier) followed by `Dictionary = null`. */
    method EnsureSatisfierAndClear()
      requires Valid()
      modifies this, sat.Repr
      ensures Valid() && fresh(sat.Repr - old(sat.Repr)) && entries == old(entries) && dict == None
      ensures Model() == old(Model())
    {
      var _ := sat.EnsureSatisfier();
      dict := None;
    }

    /** TSatisfier.CheckSatisfyOnChange of one entry; its answer is not used. */
    method CheckSatisfyEntry(e: Entry<K, V>) returns (err: Option<Exception>)
      requires Valid()
      modifies this, sat.Repr
      ensures Valid() && fresh(sat.Repr - old(sat.Repr)) && entries == old(entries) && dict == old(dict)
      ensures CheckedOnce(old(Model()), Model(), sat.eq, e, err)
    {
      var _, x := sat.CheckSatisfyOnChange(e.key, e.value);
      err := x;
    }

    /**
     * A null key throws and changes nothing. Otherwise the entry is
     * appended (the cache is not cleared) and, when the value is non-null,
     * its pair is checked, which may throw after the append.
     */
    method Add(key: Option<K>, value: Option<V>) returns (err: Option<Exception>)
      requires Valid()
      modifies this, sat.Repr
      ensures Valid() && fresh(sat.Repr - old(sat.Repr)) && dict == old(dict)
      ensures key.None? ==> err == Some(Failure) && entries == old(entries) && Model() == old(Model())
      ensures key.Some? ==> entries == old(entries) + [Entry(key, value)]
      ensures key.Some? && value.None? ==> err.None? && Model() == old(Model())
      ensures key.Some? && value.Some? ==> CheckedOnce(old(Model()), Model(), sat.eq, Entry(key, value), err)
    {
      if key.None? {
        return Some(Failure);
      }
      entries := entries + [Entry(key, value)];
      if value.Some? {
        err := CheckSatisfyEntry(Entry(key, value));
      } else {
        err := None;
      }
    }

    /** TSatisfier.CheckUnsatisfyOnChange of one pair; its answer is not used. */
    method UnsatisfyPair(key: Option<K>, value: Option<V>)
      requires Valid()
      modifies sat.Repr
      ensures Valid() && fresh(sat.Repr - old(sat.Repr)) && entries == old(entries) && dict == old(dict)
      ensures UncheckedOnce(old(Model()), Model(), sat.eq, key, value)
    {
      var _ := sat.CheckUnsatisfyOnChange(key, value);
    }

    /** Entries.RemoveAt(index). */
    method RemoveEntryAt(index: nat)
      requires Valid() && index < |entries|
      modifies this
      ensures Valid() && dict == old(dict) && Model() == old(Model())
      ensures entries == Lists.RemoveAt(old(entries), index)
    {
      entries := Lists.RemoveAt(entries, index);
    }

    /** `Entries[index].m_Value = default`. */
    method NullEntryAt(index: nat)
      requires Valid() && index < |entries|
      modifies this
      ensures Valid() && dict == old(dict) && Model() == old(Model())
      ensures entries == old(entries)[index := Entry(old(entries)[index].key, None)]
    {
      entries := entries[index := Entry(entries[index].key, None)];
    }

    /**
     * The removal loop of Remove: unsatisfy and remove the first entry with
     * the key, then look again; with unique keys it runs once.
     */
    method RemoveAllWithKey(k: K)
      requires Valid() && UniqueKeys(entries) && KeyIndex(entries, k) >= 0
      modifies this, sat.Repr
      ensures Valid() && fresh(sat.Repr - old(sat.Repr)) && dict == old(dict)
      ensures entries == WithoutKey(old(entries), k)
      ensures UncheckedOnce(old(Model()), Model(), sat.eq, Some(k), old(entries)[KeyIndex(old(entries), k)].value)
    {
      var index := KeyIndex(entries, k);
      ghost var i0, v0, m0 := index, entries[index].value, Model();
      ghost var m1 := m0;
      while index != -1
        invariant -1 <= index < |entries|
        invariant Valid() && fresh(sat.Repr - old(sat.Repr)) && dict == old(dict) && Model() == m1
        invariant index != -1 ==> index == i0 && entries == old(entries) && m1 == m0
        invariant index == -1 ==> entries == Lists.RemoveAt(old(entries), i0) && UncheckedOnce(m0, m1, sat.eq, Some(k), v0)
        decreases index + 1
      {
        m1, index := RemoveOnce(index, k);
      }
    }

    /** One turn of the removal loop: the entry at `index` is unsatisfied and removed, and no entry with the key is left. */
    method RemoveOnce(index: nat, k: K) returns (ghost m1: Nested<K, V>, next: int)
      requires Valid() && UniqueKeys(entries) && index < |entries| && entries[index].key == Some(k)
      modifies this, sat.Repr
      ensures Valid() && fresh(sat.Repr - old(sat.Repr)) && dict == old(dict) && Model() == m1
      ensures next == -1 && entries == Lists.RemoveAt(old(entries), index)
      ensures UncheckedOnce(old(Model()), m1, sat.eq, Some(k), old(entries)[index].value)
    {
      UnsatisfyPair(entries[index].key, entries[index].value);
      m1 := Model();
      RemovingTheOnlyKey(entries, index, k);
      RemoveEntryAt(index);
      next := KeyIndex(entries, k);
    }

    /**
     * The nulling loop of Nullify: unsatisfy and null the first entry with
     * the key, then look for an entry with the key and a non-null value;
     * with unique keys it runs once.
     */
    method NullifyAllWithKey(k: K)
      requires Valid() && UniqueKeys(entries) && KeyIndex(entries, k) >= 0
      modifies this, sat.Repr
      ensures Valid() && fresh(sat.Repr - old(sat.Repr)) && dict == old(dict)
      ensures entries == WithKeyNulled(old(entries), k)
      ensures UncheckedOnce(old(Model()), Model(), sat.eq, Some(k), old(entries)[KeyIndex(old(entries), k)].value)
    {
      var index := KeyIndex(entries, k);
      ghost var i0, v0, m0 := index, entries[index].value, Model();
      ghost var m1 := m0;
      while index != -1
        invariant -1 <= index < |entries|
        invariant Valid() && fresh(sat.Repr - old(sat.Repr)) && dict == old(dict) && Model() == m1
        invariant index != -1 ==> index == i0 && entries == old(entries) && m1 == m0
        invariant index == -1 ==> entries == old(entries)[i0 := Entry(Some(k), None)] && UncheckedOnce(m0, m1, sat.eq, Some(k), v0)
        decreases index + 1
      {
        m1, index := NullOnce(index, k);
      }
    }

    /** One turn of the nulling loop: the entry at `index` is unsatisfied and nulled, and no entry with the key and a value is left. */
    method NullOnce(index: nat, k: K) returns (ghost m1: Nested<K, V>, next: int)
      requires Valid() && UniqueKeys(entries) && index < |entries| && entries[index].key == Some(k)
      modifies this, sat.Repr
      ensures Valid() && fresh(sat.Repr - old(sat.Repr)) && dict == old(dict) && Model() == m1
      ensures next == -1 && entries == old(entries)[index := Entry(Some(k), None)]
      ensures UncheckedOnce(old(Model()), m1, sat.eq, Some(k), old(entries)[index].value)
    {
      UnsatisfyPair(entries[index].key, entries[index].value);
      m1 := Model();
      NullingTheOnlyKey(entries, index, k);
      NullEntryAt(index);
      next := KeyValueIndex(entries, k);
    }

    /**
     * Remove(key): clears the cache and rebuilds it (which may throw); a
     * null key throws; a key the dictionary holds has its entry unsatisfied
     * and removed. The cache keeps the dictionary from before the removal.
     */
    method RemoveKey(key: Option<K>) returns (found: bool, err: Option<Exception>)
      requires Valid()
      modifies this, sat.Repr
      ensures Valid() && fresh(sat.Repr - old(sat.Repr))
      ensures var (d, e) := Build(old(entries));
              dict == Some(d) &&
              err == (if e.Some? then e else if key.None? then Some(ArgumentNull) else None) &&
              (found <==> err.None? && key.Some? && key.value in d) &&
              (!found ==> entries == old(entries) && Model() == old(Model())) &&
              (found ==> entries == WithoutKey(old(entries), key.value) &&
                         UncheckedOnce(old(Model()), Model(), sat.eq, key, d[key.value]))
    {
      var d, e := Rebuild();
      if e.Some? {
        return false, e;
      }
      if key.None? {
        return false, Some(ArgumentNull);
      }
      if key.value !in d {
        return false, None;
      }
      KeyIndexOfBuiltKey(entries, key.value);
      RemoveAllWithKey(key.value);
      return true, None;
    }

    /** Remove(key, value): as Remove(key), but only when the equator accepts the stored value. */
    method RemoveValue(key: Option<K>, value: Option<V>) returns (found: bool, err: Option<Exception>)
      requires Valid()
      modifies this, sat.Repr
      ensures Valid() && fresh(sat.Repr - old(sat.Repr))
      ensures var (d, e) := Build(old(entries));
              dict == Some(d) &&
              err == (if e.Some? then e else if key.None? then Some(ArgumentNull) else None) &&
              (found <==> err.None? && key.Some? && key.value in d && EqualsStored(sat.eq, d[key.value], value)) &&
              (!found ==> entries == old(entries) && Model() == old(Model())) &&
              (found ==> entries == WithoutKey(old(entries), key.value) &&
                         UncheckedOnce(old(Model()), Model(), sat.eq, key, d[key.value]))
    {
      var d, e := Rebuild();
      if e.Some? {
        return false, e;
      }
      if key.None? {
        return false, Some(ArgumentNull);
      }
      if key.value !in d || !EqualsStored(sat.eq, d[key.value], value) {
        return false, None;
      }
      KeyIndexOfBuiltKey(entries, key.value);
      RemoveAllWithKey(key.value);
      return true, None;
    }

    /** Nullify(key): as Remove(key), but the entry stays with a null value. */
    method NullifyKey(key: Option<K>) returns (found: bool, err: Option<Exception>)
      requires Valid()
      modifies this, sat.Repr
      ensures Valid() && fresh(sat.Repr - old(sat.Repr))
      ensures var (d, e) := Build(old(entries));
              dict == Some(d) &&
              err == (if e.Some? then e else if key.None? then Some(ArgumentNull) else None) &&
              (found <==> err.None? && key.Some? && key.value in d) &&
              (!found ==> entries == old(entries) && Model() == old(Model())) &&
              (found ==> entries == WithKeyNulled(old(entries), key.value) &&
                         UncheckedOnce(old(Model()), Model(), sat.eq, key, d[key.value]))
    {
      var d, e := Rebuild();
      if e.Some? {
        return false, e;
      }
      if key.None? {
        return false, Some(ArgumentNull);
      }
      if key.value !in d {
        return false, None;
      }
      KeyIndexOfBuiltKey(entries, key.value);
      NullifyAllWithKey(key.value);
      return true, None;
    }

    /** Nullify(key, value): as Nullify(key), but only when the equator accepts the stored value. */
    method NullifyValue(key: Option<K>, value: Option<V>) returns (found: bool, err: Option<Exception>)
      requires Valid()
      modifies this, sat.Repr
      ensures Valid() && fresh(sat.Repr - old(sat.Repr))
      ensures var (d, e) := Build(old(entries));
              dict == Some(d) &&
              err == (if e.Some? then e else if key.None? then Some(ArgumentNull) else None) &&
              (found <==> err.None? && key.Some? && key.value in d && EqualsStored(sat.eq, d[key.value], value)) &&
              (!found ==> entries == old(entries) && Model() == old(Model())) &&
              (found ==> entries == WithKeyNulled(old(entries), key.value) &&
                         UncheckedOnce(old(Model()), Model(), sat.eq, key, d[key.value]))
    {
      var d, e := Rebuild();
      if e.Some? {
        return false, e;
      }
      if key.None? {
        return false, Some(ArgumentNull);
      }
      if key.value !in d || !EqualsStored(sat.eq, d[key.value], value) {
        return false, None;
      }
      KeyIndexOfBuiltKey(entries, key.value);
      NullifyAllWithKey(key.value);
      return true, None;
    }

    /**
     * Watch (TSatisfier.Watch, which dispatches to the WatchFeedback
     * override): the pair is watched first, then the dictionary is read and
     * the feedback computed from it.
     */
    method Watch(key: Option<K>, value: Option<V>, d: Event?, u: Event?) returns (fb: int, err: Option<Exception>)
      requires Valid()
      modifies this, sat.Repr
      ensures Valid() && fresh(sat.Repr - old(sat.Repr)) && entries == old(entries)
      ensures Model() == ThingWatchView(old(Model()), key, value, d, u).1
      ensures var (dd, e) := DictionaryView(old(dict), entries);
              dict == Some(dd) && (fb, err) == Feedback(dd, e, sat.cmp, key, value)
    {
      var _ := sat.Watch(key, value, d, u);
      var dd, e := Dictionary();
      var f := Feedback(dd, e, sat.cmp, key, value);
      fb, err := f.0, f.1;
    }

    /** TSatisfier.Unwatch on the container's own satisfier. */
    method Unwatch(key: Option<K>, value: Option<V>)
      requires Valid()
      modifies this, sat.Repr
      ensures Valid() && fresh(sat.Repr - old(sat.Repr)) && entries == old(entries) && dict == old(dict)
      ensures Model() == ThingUnwatchView(old(Model()), sat.eq, key, value).1
    {
      sat.Unwatch(key, value);
    }
  }
}

=== FILE: value_requirement.dfy ===
/**
 * ValueRequirement<D,K,V>: a requirement on the value a things container
 * holds under a key. Enabling watches the (key, value) pair and satisfies
 * when the container compares its stored value at least equal to the
 * required one. Runtime/Requirements/Generics/ValueRequirement.cs.
 *
 * The Requirement base class part is the `req` object.
 */
module ValueRequirements {
  import opened Wrappers
  import opened Bundles
  import opened ThingSatisfiers
  import opened ThingsContainers
  import Requirements

  /**
   * `m_Dict?.Watch(...) >= 0`: a missing container makes the lifted
   * comparison `null >= 0`, which is false.
   */
  predicate FeedbackNonNegative(feedback: Option<int>)
  {
    feedback.Some? && feedback.value >= 0
  }

  /**
   * The requirement state ValueRequirement.Enable ends in, from the state
   * `s` right after the base Enable: it satisfies only for a key, a watch
   * that did not throw and a feedback of at least 0.
   */
  function ValueEnabled<K>(s: Requirements.ReqState, key: Option<K>, feedback: Option<int>, err: Option<Exception>)
    : Requirements.ReqState
  {
    if key.Some? && err.None? && FeedbackNonNegative(feedback) then Requirements.Satisfied(s) else s
  }

  /**
   * Over a container whose entries have unique keys and no cached
   * dictionary, Enable ends satisfied exactly when it was already, or the
   * key's entry holds a value the comparer ranks at least as high as the
   * required one. Without a container it never satisfies.
   */
  lemma EnableSatisfiesIffValueReaches<K, V>(s: Requirements.ReqState, es: seq<Entry<K, V>>,
                                              cmp: (V, V) -> int, k: K, v: V)
    requires UniqueKeys(es)
    ensures var (fb, err) := Feedback(Build(es).0, Build(es).1, cmp, Some(k), Some(v));
            ValueEnabled(s, Some(k), Some(fb), err).isSatisfied <==>
              s.isSatisfied ||
              exists i | 0 <= i < |es| :: es[i].key == Some(k) && es[i].value.Some? && cmp(es[i].value.value, v) >= 0
    ensures ValueEnabled(s, Some(k), None, None) == s
  {
    FeedbackOfEntries(es, cmp, k, v);
  }

  class ValueRequirement<K(==, !new), V(==, !new)> {
    const req: Requirements.Requirement
    const container: ThingsContainer?<K, V>
    const key: Option<K>
    const value: Option<V>

    /** This requirement and, when there is one, the container with its satisfier. */
    ghost function Repr(): set<object>
      reads if container == null then {} else {container.sat}
    {
      {this} + (if container == null then {} else container.Repr())
    }

    /** The container's objects hold neither this requirement nor its base part. */
    ghost predicate Valid()
      reads Repr(), if container == null then {} else {container.sat}
    {
      req !in Repr() && (container != null ==> this !in container.sat.Repr && container.Valid())
    }

    /** The watched pairs of the container; empty without a container. */
    ghost function Watched(): Nested<K, V>
      reads Repr(), if container == null then {} else {container.sat}
      requires Valid()
    {
      if container == null then map[] else container.Model()
    }

    /** What `m_Dict.Watch(m_Key, m_Value, ...)` answers when there is a container. */
    ghost function Answer(): (int, Option<Exception>)
      reads Repr(), if container == null then {} else {container.sat}
      requires Valid() && container != null
    {
      var (d, e) := DictionaryView(container.dict, container.entries);
      Feedback(d, e, container.sat.cmp, key, value)
    }

    /** A new requirement initialised with the flag, the triggers, the container, the key and the value. */
    constructor Initialize(satisfied: bool, onSat: Event?, onUnsat: Event?,
                           dict: ThingsContainer?<K, V>, k: Option<K>, v: Option<V>)
      requires dict != null ==> dict.Valid()
      ensures Valid() && fresh(req) && container == dict && key == k && value == v
      ensures dict != null ==> Watched() == dict.Model()
      ensures fresh(req.doSatisfy) && fresh(req.unSatisfy)
      ensures req.State() == Requirements.ReqState(satisfied, req.doSatisfy, req.unSatisfy, onSat, onUnsat, 0, 0, 0, 0)
    {
      var r := new Requirements.Requirement();
      r.InitializeWith(satisfied, onSat, onUnsat);
      req := r;
      container := dict;
      key := k;
      value := v;
    }

    /**
     * The base Enable, then, for a key and a container, the pair is watched
     * and the requirement satisfied when the answer is at least 0. An
     * exception of the watch escapes after the base Enable.
     */
    method Enable() returns (err: Option<Exception>)
      requires Valid()
      modifies req, if container == null then {} else {container} + container.sat.Repr
      ensures Valid() && fresh(Repr() - old(Repr()))
      ensures req.doSatisfy != null && req.unSatisfy != null
      ensures Requirements.EnableKeeps(old(req.State()), req.doSatisfy, req.unSatisfy)
      ensures key.None? || container == null ==>
                err.None? && Watched() == old(Watched()) &&
                req.State() == Requirements.Enabled(old(req.State()), req.doSatisfy, req.unSatisfy)
      ensures key.Some? && container != null ==>
                var (fb, e) := old(Answer());
                err == e && container.entries == old(container.entries) &&
                Watched() == ThingWatchView(old(Watched()), key, value, req.doSatisfy, req.unSatisfy).1 &&
                req.State() == ValueEnabled(Requirements.Enabled(old(req.State()), req.doSatisfy, req.unSatisfy),
                                            key, Some(fb), e)
    {
      ghost var v := Watched();
      req.Enable();
      assert Valid() && Watched() == v;
      ghost var s1 := req.State();
      err := None;
      if key.Some? && container != null {
        err := SatisfyOnWatch(req.doSatisfy, req.unSatisfy);
      }
      assert s1 == Requirements.Enabled(old(req.State()), req.doSatisfy, req.unSatisfy);
    }

    /** The part of Enable after the base one, for a key and a container. */
    method SatisfyOnWatch(d: Event, u: Event) returns (err: Option<Exception>)
      requires Valid() && key.Some? && container != null
      modifies req, if container == null then {} else {container} + container.sat.Repr
      ensures req.doSatisfy == old(req.doSatisfy) && req.unSatisfy == old(req.unSatisfy)
      ensures Valid() && fresh(Repr() - old(Repr()))
      ensures container.entries == old(container.entries)
      ensures Watched() == ThingWatchView(old(Watched()), key, value, d, u).1
      ensures var (fb, e) := old(Answer());
              err == e && req.State() == ValueEnabled(old(req.State()), key, Some(fb), e)
    {
      var fb, e := WatchPair(d, u);
      SatisfyOnFeedback(fb, e);
      err := e;
    }

    /** `m_Dict.Watch(m_Key, m_Value, d, u)`. */
    method WatchPair(d: Event, u: Event) returns (fb: int, err: Option<Exception>)
      requires Valid() && container != null
      modifies if container == null then {} else {container} + container.sat.Repr
      ensures Valid() && fresh(Repr() - old(Repr()))
      ensures container.entries == old(container.entries)
      ensures Watched() == ThingWatchView(old(Watched()), key, value, d, u).1
      ensures (fb, err) == old(Answer())
    {
      fb, err := container.Watch(key, value, d, u);
    }

    /** `if (feedback >= 0) Satisfy();`, skipped when the watch threw. */
    method SatisfyOnFeedback(fb: int, err: Option<Exception>)
      requires Valid() && key.Some?
      modifies req
      ensures Valid() && Watched() == old(Watched())
      ensures req.State() == ValueEnabled(old(req.State()), key, Some(fb), err)
    {
      if err.None? && fb >= 0 {
        req.Satisfy();
      }
    }

    /** The base Disable, then, for a key, the pair is unwatched in the container. */
    method Disable()
      requires Valid()
      modifies req, if container == null then {} else {container} + container.sat.Repr
      ensures Valid() && fresh(Repr() - old(Repr()))
      ensures req.State() == Requirements.Disabled(old(req.State()))
      ensures key.None? || container == null ==> Watched() == old(Watched())
      ensures key.Some? && container != null ==>
                Watched() == ThingUnwatchView(old(Watched()), container.sat.eq, key, value).1
    {
      ghost var v := Watched();
      req.Disable();
      assert Valid() && Watched() == v;
      UnwatchPair();
    }

    /** `m_Dict?.Unwatch(m_Key, m_Value)` for a key. */
    method UnwatchPair()
      requires Valid()
      modifies if container == null then {} else {container} + container.sat.Repr
      ensures Valid() && fresh(Repr() - old(Repr()))
      ensures key.None? || container == null ==> Watched() == old(Watched())
      ensures key.Some? && container != null ==>
                Watched() == ThingUnwatchView(old(Watched()), container.sat.eq, key, value).1
    {
      if key.Some? && container != null {
        container.Unwatch(key, value);
      }
    }
  }
}

=== FILE: wrappers.dfy ===
/** Option for C#'s nullable references and values, and the exceptions the modelled code can raise. */
module Wrappers {
  datatype Option<T> = None | Some(value: T)
  {
    predicate IsSome() { Some? }
  }

  /** The .NET exceptions that the modelled members let escape to their callers. */
  datatype Exception =
    | ArgumentNull        // a null key given to Dictionary.Add or ContainsKey
    | DuplicateKey        // Dictionary.Add of a key that is already present
    | NullReference       // a member access through a null reference
    | Failure             // a plain `throw new Exception(...)` of the source
    | ArgumentOutOfRange  // a list index outside the list

  /** The value a member returns, or the exception it throws. */
  datatype Outcome<T> = Done(value: T) | Thrown(error: Exception)
}
